=== FILE: README.md ===
# iguala, modelled in Dafny

iguala matches Python values against patterns. A pattern is a tree of
matchers: literals, identity tests, wildcards `@x`, list wildcards `*x` and
`...`, object and dict shapes whose properties are reached through paths,
sequences, negation (`is_not`), and a save node. `matcher.match(obj)` runs
`match_context(obj, Context())`. It keeps the successful contexts in a
`MatcherResult`, and each kept context holds one set of bindings.

This project models the matching engine in `iguala/matchers.py`, the path
language in `iguala/paths.py` and its older copy `matchers/paths.py`, and
`flat`, `IdentitySet` and `is_not` in `iguala/helpers.py`.

- `values.dfy`: the subject values. These are `None`, ints, bools,
  strings, lists, tuples, sets, and references into a heap of objects and
  dicts. The exceptions that can escape are an `Error` datatype, carried by
  a `Result`.
- `contexts.dfy`: `Context`, a value holding the bindings, the raw
  `_is_match` flag and the polarity `truth`. `MatcherResult` is a class
  whose `contexts` list is extended in place.
- `helpers.dfy`: `flat` as the while loop of the source, proved equal to
  the recursive `Flatten`. `IdentitySet` is a class around its `id`-keyed
  table.
- `paths.dfy`: path resolution as functions. `Dialect` selects the current
  copy or the older one. The recursive closures thread the `seen` set, and
  they terminate because `seen` grows inside a finite set of reachable
  values.
- `path_methods.dfy`: the same resolution as the source runs it. It has
  the `tmp`/`copy` loop of `ComposedPath` and one shared, mutated
  `IdentitySet`. Each method is proved to compute the function of
  `paths.dfy`.
- `path_syntax.dfy`: `as_path` for both copies, the `>` split, and
  printing a path back to its shorthand. Parsing inverts printing.
- `patterns.dfy`: `as_matcher` on the Python values a pattern is written
  with, and `is_not`.
- `matchers.dfy`: `match_context` of every matcher as the function `Eval`.
  It returns an `Outcome`: the state the handed context is left in, and the
  returned list. The sequence search is a step function `Step` over a
  `CursorState` value, which mirrors `match_next` branch by branch. `Run`
  mirrors the two `while` loops of `SequenceMatcher.match_context`.
- `search.dfy`: the cursor state and its updates. It also holds the
  invariant of the reachable states, and a rank that every step raises and
  that stays below a bound. This proves that the search loop ends.
- `cursors.dfy`: `Cursor` as a class with array fields, one method per
  cursor operation. Each method states its effect on `State()`.
- `match_methods.dfy`: `Matcher.match`, the property loop of
  `KeyValueMatcher` and the loops of `SequenceMatcher` as methods driving a
  `Cursor`. Each is proved equal to the functions of `matchers.dfy`.
- `matcher_laws.dfy`, `sequence_laws.dfy`, `scenarios.dfy`: properties of
  the matchers.
  - Wildcards bind or compare.
  - Negation keeps exactly the contexts that fail.
  - The type gate of `ObjectMatcher`.
  - A property that resolves to nothing ends a shape match.
  - A sequence of literals matches exactly the subjects of the same length
    holding the same values.
  - Cases taken from `tests/test_sequence_matchers.py`.
- `search_trace.dfy`: one call of `match_next` by the kind of move it
  makes, and what the loops of `match_context` collect along a whole trace
  of calls.
- `list_scenarios.dfy`: the list-wildcard cases of
  `tests/test_sequence_matchers.py` on three-element lists. Each search is
  followed call by call, and a theorem states what it returns.

## Model

| member | source | states |
|---|---|---|
| Values.ClassOf | iguala/matchers.py:160-164 | a bool's class is `bool`; an object's class is the class its heap cell records |
| Values.IsInstance | iguala/matchers.py:161 | a value is an instance of its own class; a bool also of `int`; every atom and collection of `object`; an object of the bases its heap cell lists |
| Values.Lookup | iguala/paths.py:19-31 | a name is found iff some field carries it, and the value returned is the one stored under the first field carrying it |
| Contexts.NewContext | iguala/matchers.py:25-28 | a fresh context has no bindings, the requested polarity, and succeeds |
| Contexts.Context.IsMatch | iguala/matchers.py:30-32 | defines `is_match` as `_is_match is truth`: a positive context matches when its flag is raised, a negated one when it is lowered |
| Contexts.Copy | iguala/matchers.py:38-41 | a copy has the same bindings and polarity and always succeeds; copying a context that succeeds gives it back unchanged |
| Contexts.SetMatch | iguala/matchers.py:30-36 | after `is_match = v` the context succeeds exactly when `v` is its polarity; bindings and polarity are untouched |
| Contexts.CopyAll | iguala/matchers.py:241 | one successful copy per context, in order, with the same bindings and polarity |
| Contexts.Successful | iguala/matchers.py:149 | filtering never lengthens the list |
| Contexts.SuccessfulMembers | iguala/matchers.py:149 | a context is kept iff it is in the list and succeeds |
| Contexts.SuccessfulAllOrNone | iguala/matchers.py:267-269 | a list where every context succeeds is kept whole; a list where none does is emptied |
| Contexts.AnyMatchIffKept | iguala/matchers.py:267-269 | `any(c.is_match ...)` holds exactly when the filter keeps a context |
| Contexts.SuccessfulAppend | iguala/matchers.py:13-14 | filtering distributes over concatenation, so adding contexts in pieces or at once keeps the same ones |
| Contexts.MatcherResult.constructor | iguala/matchers.py:6-7 | a new result holds no context |
| Contexts.MatcherResult.IsMatch | iguala/matchers.py:9-11 | as only successful contexts are kept, the result matches exactly when one of its contexts does |
| Contexts.MatcherResult.AddContexts | iguala/matchers.py:13-14 | appends exactly the successful contexts of the argument, in order; every kept context was already kept or succeeds |
| Contexts.MatcherResult.Bindings | iguala/matchers.py:16-18 | one binding map per kept context, in the same order |
| Helpers.Flat | iguala/helpers.py:68-81 | the loop returns the leaves of the value from left to right (`Flatten`) and never a list, tuple or set; a non-collection comes back as a singleton, and an empty list as an empty list |
| Helpers.FlattenAllAppend | iguala/helpers.py:68-81 | flattening a concatenation concatenates the flattenings (order is kept) |
| Helpers.FlattenHasNoCollection | iguala/helpers.py:68-81 | the result of `flat` holds no list, tuple or set |
| Helpers.FlattenAllHasNoCollection | iguala/helpers.py:68-81 | the same for a list of values |
| Helpers.FlattenAllOfFlat | iguala/helpers.py:68-81 | `flat` of a list without collections is that list |
| Helpers.FlattenIdempotent | iguala/helpers.py:68-81 | `flat` is idempotent |
| Helpers.Id | iguala/helpers.py:56 | the key of an object is its address, and the key of an atom is the atom |
| Helpers.KeyedAdd | iguala/helpers.py:58-59 | storing a value under its id keeps every member under its own id and adds exactly that value to the members |
| Helpers.KeyedDiscard | iguala/helpers.py:61-62 | popping a value's id keeps the keying and removes exactly that value |
| Helpers.IdentitySet.constructor | iguala/helpers.py:45-47 | the members of `IdentitySet(iterable)` are exactly the iterable's elements |
| Helpers.IdentitySet.Len | iguala/helpers.py:49-50 | `len(s)` is the number of distinct members: no two members share an id |
| Helpers.IdentitySet.Contains | iguala/helpers.py:55-56 | `x in s` is membership of the set's elements, although it is decided on `id(x)` alone |
| Helpers.IdentitySet.Add | iguala/helpers.py:58-59 | adds exactly the value; the length grows by one iff it was absent |
| Helpers.IdentitySet.Discard | iguala/helpers.py:61-62 | removes exactly the value, and does nothing when it is absent; the length shrinks by one iff it was present |
| Helpers.IdentitySet.Extend | iguala/helpers.py:47 | `self \|= it` adds exactly the elements of `it` |
| Paths.DictGet | iguala/paths.py:19-23 | a missing key, or a subject that is not a dict, gives `[]`; a present key gives `flat` of its value; every result is a non-collection found in the heap |
| Paths.GetAttr | iguala/paths.py:30-31 | the same for an attribute of an object |
| Paths.ChildValues | iguala/paths.py:100-114 | every field value visited flattens to values found in the heap |
| Paths.Fresh | iguala/paths.py:71 | keeps exactly the values of the batch that are not `None` and not yet seen, and never lengthens it |
| Paths.Resolve | iguala/paths.py:15-114 | every value a path yields is the start value, a leaf of it, or a leaf of a heap field: resolution invents nothing; and a closure never yields `None` |
| Paths.IsRecursive | iguala/paths.py:85-87 | only the two recursive paths override the `False` of `ObjectPath.is_recursive` (lines 10-12) |
| Paths.NamedClosureFreshFirst | iguala/paths.py:94-96 | a named closure yields the new nodes its inner path resolves to first, in order |
| Paths.Compose | iguala/paths.py:52-64 | the candidates of every step stay within reach of the candidates before it |
| Paths.Step | iguala/paths.py:55-63 | a recursive step keeps the earlier candidates as a prefix and appends to them; any other step replaces them with the concatenated resolutions |
| Paths.ResolveEach | iguala/paths.py:58-63 | what every candidate resolves to stays within reach of the candidates |
| Paths.Rec | iguala/paths.py:68-114 | a closure only adds to `seen`; every node it emits is reachable, not `None`, was not seen before and is seen afterwards; a named closure marks `obj` as seen and emits its inner path's fresh nodes first; the children closure marks `obj` as seen iff it has a field to visit |
| Paths.ChildFields | iguala/paths.py:112-113 | the loop over the fields keeps what was emitted before as a prefix, only adds to `seen`, emits reachable nodes that are not `None`, were not seen before and are seen afterwards, and marks `obj` as seen iff it visits a field |
| Paths.RecFrom | iguala/paths.py:68-79 | `_resolve_from(obj, seen, resolved)` only adds to `seen`; `obj` is seen afterwards; every node emitted is reachable, not `None`, was not seen before and is seen afterwards; the batch's fresh nodes come first, in order, before any descendant |
| Paths.RecAll | iguala/paths.py:76-78 | the closures of the kept nodes keep what was emitted before as a prefix, only add to `seen`, and emit heap leaves that are not `None`, were not seen before and are seen afterwards |
| Paths.Visit | iguala/paths.py:77 | the closure of one kept node is appended after what was emitted before; it only adds to `seen` and emits heap leaves that are not `None`, were not seen before and are seen afterwards |
| Paths.MeasureAfterBatch | iguala/paths.py:71-75 | marking a non-empty batch of new reachable nodes as seen strictly shrinks the unseen part of the reachable set, so the closure ends even on cyclic object graphs |
| Paths.MeasureOfSeenLeaf | iguala/paths.py:77 | from a node already seen, only heap leaves remain to be reached |
| PathMethods.ResolvePath | iguala/paths.py:15-114 | running `resolve_from` computes `Resolve` |
| PathMethods.ResolveRecursive | iguala/paths.py:81-83 | a recursive path started with an empty `IdentitySet` yields the closure's emitted nodes |
| PathMethods.ResolveEachSnoc | iguala/paths.py:58-63 | resolving one more candidate appends its resolution |
| PathMethods.ResolveComposed | iguala/paths.py:52-64 | the `tmp`/`copy` loop over the steps computes `Resolve` of the composed path |
| PathMethods.ResolveStep | iguala/paths.py:55-63 | clearing `tmp` for a non-recursive step and extending it with each candidate's resolution computes `Step` |
| PathMethods.ResolveClosure | iguala/paths.py:94-96 | the shared `seen` set ends as `Rec` says, and the nodes returned are `Rec`'s |
| PathMethods.VisitChildren | iguala/paths.py:100-114 | the loop over the fields mutates `seen` and returns exactly as `Rec` specifies |
| PathMethods.ResolveFrom | iguala/paths.py:68-79 | `_resolve_from(obj, seen, resolved)` mutates `seen` and returns exactly as `RecFrom` specifies |
| PathMethods.MarkSeen | iguala/paths.py:73-75 | `seen` gains exactly the batch and `obj` |
| PathMethods.KeepNew | iguala/paths.py:71 | the comprehension computes `Fresh` against the current `seen` |
| PathMethods.ClosuresOf | iguala/paths.py:76-78 | the closures of the kept nodes, one after the other, as `RecAll` specifies |
| PathMethods.VisitNode | iguala/paths.py:77 | the closure of one kept node extends the emitted list as `Visit` specifies, and holds no collection |
| PathSyntax.Split | iguala/paths.py:120 | `s.split(sep)` gives at least one part, no part holds the separator, and joining the parts gives back `s` |
| PathSyntax.SplitJoin | iguala/paths.py:120 | splitting undoes joining parts that hold no separator (with `Split`'s contract: a round trip both ways) |
| PathSyntax.PartsShorter | iguala/paths.py:119-121 | with a `>` in the string, every part is shorter than the string, so `as_path` recurses on smaller strings |
| PathSyntax.Collect | iguala/paths.py:120 | the tuple of parsed parts exists iff every part parses; it holds their paths in order, and otherwise one part's error escapes |
| PathSyntax.ParsePath | iguala/paths.py:117-139 | the only error is `IndexError`; `*` is the children closure; the empty string raises |
| PathSyntax.AsPath | iguala/paths.py:117-139 | both copies parse a string with `ParsePath`; iguala/paths.py hands back a path object and raises `AttributeError` on anything else; matchers/paths.py raises `TypeError` on a path object or a value without `in`, and `AttributeError` on a list, tuple, set or dict |
| PathSyntax.ParsePrint | iguala/paths.py:117-139 | the shorthand printed for any well-formed path parses back to that path |
| PathSyntax.PlusIsPathThenClosure | iguala/paths.py:131-137 | `name+` is the path followed by its named closure |
| PathSyntax.LeafPath | iguala/paths.py:139 | a plain name gives a path that is well formed iff the name is one the shorthand can spell, and that prints back to the name |
| Patterns.AsMatcher | iguala/matchers.py:410-428 | conversion succeeds iff no part of the value is unconvertible. `@x`/`*x` give wildcards with alias `x`, other strings give literals, a bool gives an identity test, a list gives a sequence of the converted items, a matcher is itself, and anything else raises `AttributeError` |
| Patterns.AsMatchers | iguala/matchers.py:222 | items are converted one by one, in order; the list exists iff every item converts |
| Patterns.AsProperties | iguala/matchers.py:185-187 | a dict's keys become key paths and its values matchers, pairwise; it fails iff a key or a value fails |
| Patterns.ObjectMatcherOf | iguala/matchers.py:153-180 | `properties=None` gives no property; otherwise each key becomes an attribute path and each value a matcher, with class and subclass mode kept |
| Patterns.ObjectProperties | iguala/matchers.py:174-180 | the setter converts every entry pairwise and fails iff one entry fails |
| Patterns.IsNot | iguala/helpers.py:36-41 | a negation is unwrapped; anything else is converted and negated, failing iff conversion fails |
| Patterns.IsNotTwice | iguala/helpers.py:36-41 | negating twice gives back what the value converts to |
| Patterns.IsNotOfNegation | iguala/helpers.py:36-41 | `is_not(is_not(n))` rebuilds a negation `n` of a non-negation |
| Patterns.IsNotCollapses | iguala/helpers.py:36-41 | with `p = is_not(3)`, `is_not(is_not(is_not(p)))` is the literal 3 while `is_not(is_not(p))` is still a negation |
| Matchers.Compare | iguala/matchers.py:85-96 | the handed context itself comes back alone, with unchanged bindings, and succeeds iff the test agrees with its polarity |
| Matchers.IsCollectionMatcher | iguala/matchers.py:224-226 | only `SequenceMatcher` overrides the `False` of `Matcher.is_collection_matcher` (lines 48-50), so a list wildcard is never one |
| Matchers.IsListWildcard | iguala/matchers.py:211-213 | only `ListWildcardMatcher` overrides the `False` of `Matcher.is_list_wildcard` (lines 52-54) |
| Matchers.IsAnonymous | iguala/matchers.py:194-217 | a wildcard is anonymous iff its alias is `_`; a list wildcard also when its alias is empty |
| Matchers.SameType | iguala/matchers.py:160-164 | with `subclassmatch` the test is `isinstance`, otherwise equality of classes; an object of exactly the class passes either |
| Matchers.Len | iguala/matchers.py:344 | `len(sequence)`: the elements of a list or tuple, the characters of a string, the size of a set or dict |
| Matchers.SubjectLen | iguala/matchers.py:344 | the length of a subject is the number of items, characters or fields of the value it was made from |
| Matchers.Bind | iguala/matchers.py:198-207 | an anonymous wildcard succeeds without binding; a bound alias succeeds iff its value equals the subject as a model value; an unbound alias binds the subject and succeeds |
| Matchers.Negate | iguala/matchers.py:107-115 | no context from the sub-matcher gives back the handed one as the sub-matcher left it; otherwise the result is exactly the contexts whose success differs from the polarity, re-flagged in place, so the handed context is re-flagged too exactly when it is among those kept; the handed context stays correctly marked |
| Matchers.KeptMarks | iguala/matchers.py:112-114 | a kept position marked as the handed context holds the handed context re-flagged, and such a position exists iff the handed context was returned with the success that is kept |
| Matchers.Reflag | iguala/matchers.py:112-114 | a context is in the result iff it re-flags a context of the input whose success differs from the polarity |
| Matchers.SubjectOf | iguala/matchers.py:344 | `len(obj)` raises exactly for values that are not a list, tuple, set, string or dict; a list or tuple is indexed as itself |
| Matchers.ElemAt | iguala/matchers.py:263 | `collection[i]` is the element of a list or tuple, or a one-character string |
| Matchers.SliceOf | iguala/matchers.py:328 | `collection[a:b]` is a list, tuple or string of the same kind holding that slice |
| Matchers.Wild | iguala/matchers.py:352-354 | marks exactly the list-wildcard positions |
| Matchers.NumFixed | iguala/matchers.py:355 | at most the pattern's length |
| Matchers.MaxLen | iguala/matchers.py:363 | a span bound never exceeds the subject's length |
| Matchers.ProposedSpan | iguala/matchers.py:302-321 | a span handed over is no longer than `MaxLen` and lies inside the subject. Forward, it starts at the subject cursor and is empty, or takes the rest of the subject at the last position. Backward, it is one longer than before. `None` is returned exactly when the bounds test of line 321 fails |
| Matchers.Eval | iguala/matchers.py:71-238 | an `OrMatcher` raises `AttributeError`; identity, literal and both wildcards return exactly the handed context in the state they leave it; every returned context marked as the handed one is in the state the handed context is left in |
| Matchers.OrBody | iguala/matchers.py:123-127 | a left side with a successful context is returned as it is, whatever the right side would do; otherwise the right side answers on the context the left side left behind; an error of the left side escapes |
| Matchers.KeyValue | iguala/matchers.py:131-150 | the handed context is left successful; with no property it is returned alone; with properties, every returned context succeeds and is a copy |
| Matchers.Threads | iguala/matchers.py:134-149 | after the last property the contexts are returned as they are; every context a property lets through succeeds |
| Matchers.ForEachContext | iguala/matchers.py:136-148 | no context in, none out |
| Matchers.ApplyProperty | iguala/matchers.py:137-148 | a non-sequence pattern over a path that resolves to nothing gives no context |
| Matchers.EachCandidate | iguala/matchers.py:141-148 | no candidate, no context |
| Matchers.MatchEach | iguala/matchers.py:329 | no context in, none out |
| Matchers.MatchAt | iguala/matchers.py:261-266 | the element is only read when there is a context, and an indexing error then escapes |
| Matchers.MatchSequence | iguala/matchers.py:228-238 | a subject without `len()` raises; otherwise the handed context is unchanged, and every returned context succeeds, except with the empty pattern, which returns only the handed context itself; a non-empty pattern returns only copies |
| Matchers.Run | iguala/matchers.py:231-237 | everything collected was collected before or succeeds; with the empty pattern, everything collected was collected before or is the handed context |
| Matchers.RunMoves | iguala/matchers.py:232-234 | a call of `match_next` that reports no alignment leaves the results as they are, and the search goes on from the state it produced |
| Matchers.RunStops | iguala/matchers.py:231 | an exhausted cursor ends the loops with exactly the results collected |
| Matchers.SequenceRuns | iguala/matchers.py:228-238 | a sequence pattern over a subject with a length returns the handed context together with what the loops collect from a fresh cursor |
| Matchers.RunFound | iguala/matchers.py:235-237 | at a complete alignment the last pattern's contexts are collected and the search goes on backward from a higher rank |
| Matchers.Step | iguala/matchers.py:240-339 | `match_next` keeps the invariant and the stored contexts successful; it reports an alignment only with both cursors past their ends, and otherwise raises the rank unless the search is exhausted |
| Matchers.Move | iguala/matchers.py:253-339 | after the prelude, a cursor below 0 exhausts the search; every other move keeps the invariant and raises the rank |
| Matchers.FixedStep | iguala/matchers.py:257-300 | at a fixed pattern the invariant holds afterwards, the rank grows and `has_next` is kept |
| Matchers.FixedForward | iguala/matchers.py:258-275 | the same for the forward match of one element |
| Matchers.FixedBackward | iguala/matchers.py:276-300 | the same for the backward case, where the pattern has been used and the search turns back |
| Matchers.SpanStep | iguala/matchers.py:301-338 | at a list wildcard the invariant holds afterwards, the rank grows and `has_next` is kept |
| Matchers.SpanTry | iguala/matchers.py:328-338 | the same once a span is proposed and matched |
| Matchers.SpanTryOk | iguala/matchers.py:328-338 | the state after a proposed span keeps the invariant and ranks higher |
| SearchState.Start | iguala/matchers.py:343-365 | both cursors at 0, forward, `has_next` set, every context list empty |
| SearchState.StartInv | iguala/matchers.py:343-365 | the fresh cursor satisfies the search invariant |
| SearchState.Current | iguala/matchers.py:376-380 | at position 0 or below it is the original context alone, and otherwise the previous position's contexts |
| SearchState.ClearCurrent | iguala/matchers.py:370-374 | only the current position's context list is emptied, and nothing happens at -1 |
| SearchState.Prelude | iguala/matchers.py:241-252 | a cursor inside the pattern is untouched; one past the end is brought back onto the last pattern, backward |
| SearchState.Max0 | iguala/matchers.py:305-307 | `max(x, 0)`: `x` when it is at least 0, and 0 otherwise |
| SearchState.SpanEnter | iguala/matchers.py:302-315 | forward, the span starts at the subject cursor and is empty, or at the last position takes `max(m - s, 0)`; backward, it grows by one; no other span changes |
| SearchState.FixedHit | iguala/matchers.py:267-272 | the pattern may not be retried and holds exactly the contexts given; both cursors advance by one; direction and spans are kept |
| SearchState.FixedMiss | iguala/matchers.py:273-275 | the pattern's flag is set again and its contexts emptied; the pattern cursor steps back and the search turns backward; spans and subject cursor are kept |
| SearchState.Retreat | iguala/matchers.py:293-300 | both cursors step back by one and the search goes backward; nothing else changes |
| SearchState.SpanOut | iguala/matchers.py:321-326 | the subject cursor returns to the span's start, the span is emptied, the search turns back one pattern and that pattern's contexts are emptied |
| SearchState.SpanHit | iguala/matchers.py:330-334 | the span's contexts are extended with those given and the subject cursor moves past the span; the pattern cursor advances |
| SearchState.SpanMiss | iguala/matchers.py:335-338 | the span is emptied and the search turns back one pattern; cursor, starts and contexts are kept |
| SearchState.FixedAfter | iguala/matchers.py:262-275 | a hit exactly when filtering the element's contexts keeps some, and then with the kept ones; a miss otherwise |
| SearchState.SpanAfter | iguala/matchers.py:330-338 | the same for the span proposed at a list wildcard |
| SearchState.RankBound | iguala/matchers.py:231 | every reachable state ranks below a bound fixed by the pattern and subject lengths, so the search loop is finite |
| SearchState.RankGrows | iguala/matchers.py:240-339 | agreeing positions below `k` and a larger digit at `k` give a larger rank |
| SearchState.TurnBack | iguala/matchers.py:273-300 | turning back one position, with nothing below it changed, raises the rank |
| SearchState.MoveOn | iguala/matchers.py:267-272 | moving on one position after committing more than it held raises the rank |
| SearchState.FoundOk | iguala/matchers.py:235-237 | turning backward at a complete alignment keeps the invariant and raises the rank |
| SearchState.PreludeOk | iguala/matchers.py:241-252 | the prelude keeps the invariant and never lowers the rank |
| SearchState.FixedHitOk | iguala/matchers.py:267-272 | a hit at a fixed pattern keeps the invariant and raises the rank |
| SearchState.FixedMissOk | iguala/matchers.py:273-275 | the same for a miss |
| SearchState.RetreatOk | iguala/matchers.py:293-300 | the same for a retreat |
| SearchState.SpanOutOk | iguala/matchers.py:321-326 | the same for a refused span |
| SearchState.SpanMissOk | iguala/matchers.py:335-338 | the same for a span that matched nothing |
| SearchState.SpanHitOk | iguala/matchers.py:330-334 | the same for a span that matched |
| SearchState.FixedAfterOk | iguala/matchers.py:262-275 | whatever the element gave, the fixed-pattern update keeps the invariant and raises the rank |
| SearchState.SpanAfterOk | iguala/matchers.py:330-338 | whatever the span gave, the list-wildcard update keeps the invariant and raises the rank |
| Cursors.WildcardPositions | iguala/matchers.py:352-355 | the positions listed are exactly those of the list wildcards, and with the fixed ones they count the pattern |
| Cursors.NumFixedFromIsNumFixed | iguala/matchers.py:355 | counting the fixed patterns from a position equals counting those of the suffix |
| Cursors.Cursor.constructor | iguala/matchers.py:343-365 | the new cursor's state is `Start`, and the bounds of every list wildcard are 0 and `MaxLen` |
| Cursors.Cursor.SetWildcardBounds | iguala/matchers.py:361-365 | every listed position gets the bounds 0 and `subject_size - num_nonlistwildcard`, and its span starts empty at 0 |
| Cursors.Cursor.ContextsForCurrentPattern | iguala/matchers.py:376-380 | reads `Current` of the cursor's state |
| Cursors.Cursor.HasNextCurrentPattern | iguala/matchers.py:388-389 | reads the flag of the cursor's state at its pattern cursor |
| Cursors.Cursor.ClearContextsForCurrentPattern | iguala/matchers.py:370-374 | the state becomes `ClearCurrent` of the old one |
| Cursors.Cursor.AddContextsToPattern | iguala/matchers.py:367-368 | the current position's list is extended with the contexts, and nothing else changes |
| Cursors.Cursor.ResetHasNextCurrentPattern | iguala/matchers.py:397-398 | only the current position's flag is set |
| Cursors.Cursor.SetHasNextCurrentPattern | iguala/matchers.py:406-407 | only the current position's flag is cleared |
| Cursors.Cursor.DecrementPatternCursor | iguala/matchers.py:382-383 | only the pattern cursor moves, down by one |
| Cursors.Cursor.DecrementSubjectCursor | iguala/matchers.py:385-386 | only the subject cursor moves, down by one |
| Cursors.Cursor.IncrementPatternCursor | iguala/matchers.py:391-392 | only the pattern cursor moves, up by one |
| Cursors.Cursor.IncrementSubjectCursor | iguala/matchers.py:394-395 | only the subject cursor moves, up by one |
| Cursors.Cursor.SetBackward | iguala/matchers.py:400-401 | only the direction changes, to backward |
| Cursors.Cursor.SetForward | iguala/matchers.py:403-404 | only the direction changes, to forward |
| MatchMethods.Match | iguala/matchers.py:56-59 | the result holds exactly the successful contexts that `match_context` returns for a fresh context, or the error escapes |
| MatchMethods.MatchContext | iguala/matchers.py:71-238 | running the loops computes `Eval` for every matcher |
| MatchMethods.ApplyPropertyTo | iguala/matchers.py:137-148 | one context through one property computes `ApplyProperty` |
| MatchMethods.KeyValueMatchContext | iguala/matchers.py:131-150 | the loop over the properties computes `KeyValue` |
| MatchMethods.PropertyResults | iguala/matchers.py:135-148 | the loop over the contexts computes `ForEachContext`, stopping at the first error |
| MatchMethods.SequenceMatchContext | iguala/matchers.py:228-238 | the search over a fresh `Cursor` computes `MatchSequence` |
| MatchMethods.Search | iguala/matchers.py:229-238 | the outer loop returns `Run` from the cursor's start state |
| MatchMethods.Collect | iguala/matchers.py:235-237 | collects `contexts_for_current_pattern()` and turns backward; the search that remains is the one `Run` describes |
| MatchMethods.FindNext | iguala/matchers.py:232-234 | the inner loop leaves `Run` unchanged; it stops at a complete alignment or with `has_next` cleared, and raises errors exactly as `Run` does |
| MatchMethods.MatchNext | iguala/matchers.py:240-339 | one call changes the cursor's state exactly as `Step` says, and reports what `Step` reports |
| MatchMethods.Rewind | iguala/matchers.py:241-252 | it reports an alignment exactly when forward with both cursors past their ends, leaving the state as it is; otherwise it applies `Prelude` |
| MatchMethods.MoveNext | iguala/matchers.py:253-339 | the cursor's new state is `Move` of the old one |
| MatchMethods.FixedNext | iguala/matchers.py:257-300 | the new state is `FixedStep` of the old one |
| MatchMethods.FixedForwardNext | iguala/matchers.py:258-275 | the new state is `FixedForward` of the old one |
| MatchMethods.CommitFixed | iguala/matchers.py:262-275 | after the flag reset and clearing, the state is `FixedAfter` of the element's contexts |
| MatchMethods.FixedBackwardNext | iguala/matchers.py:276-300 | the new state is `FixedBackward` of the old one; the branch at lines 287-292 is proved unreachable |
| MatchMethods.SpanNext | iguala/matchers.py:301-338 | the new state is `SpanStep` of the old one |
| MatchMethods.EnterSpan | iguala/matchers.py:302-315 | the new state is `SpanEnter` of the old one |
| MatchMethods.LeaveSpan | iguala/matchers.py:321-326 | the new state is `SpanOut` of the old one |
| MatchMethods.SpanMatch | iguala/matchers.py:327-338 | matching the proposed slice gives the state `SpanTry` specifies |
| MatchMethods.CommitSpan | iguala/matchers.py:330-338 | the new state is `SpanAfter` of the span's contexts |
| MatcherLaws.WildcardLaws | iguala/matchers.py:195-207 | `_` succeeds without binding; an unbound alias binds the subject; a bound alias succeeds iff its value equals the subject as a model value, and is never rebound |
| MatcherLaws.SaveNodeBinds | iguala/matchers.py:76-78 | the inner matcher runs on the context with the alias bound to the subject, replacing any earlier binding; so `@x` under a save as `x` always succeeds with `x` bound to the subject |
| MatcherLaws.AnonymousListWildcard | iguala/matchers.py:210-217 | `...` and `*_` never bind and always succeed |
| MatcherLaws.ObjectTypeGate | iguala/matchers.py:159-168 | a subject of the wrong class fails the context whatever the properties are, as if there were none |
| MatcherLaws.NotOfNothing | iguala/matchers.py:107-111 | over a matcher returning no context, negation returns the handed context as it was left |
| MatcherLaws.NotOfLeaf | iguala/matchers.py:107-115 | over a leaf and a context of polarity `True`, negation succeeds iff the leaf fails, and what it returns succeeds |
| MatcherLaws.NegateSuccessful | iguala/matchers.py:107-115 | negating the one context a leaf returns under polarity `True` flips whether anything succeeds and keeps only successful contexts |
| MatcherLaws.NegateOne | iguala/matchers.py:112-115 | a single handed context is kept, re-flagged, iff its success differs from the polarity, and it is then re-flagged in place |
| MatcherLaws.TripleNot | iguala/matchers.py:103-115 | `NotMatcher(NotMatcher(NotMatcher(LiteralMatcher(3))))` matches 4: the inner negation re-flags the handed context in place, the middle one drops it, and the outer one hands it back, now successful |
| MatcherLaws.OneContextPerCandidate | iguala/matchers.py:141-148 | over a leaf, one context per candidate, each from its own copy of the context |
| MatcherLaws.ThreadsOfNothing | iguala/matchers.py:134-149 | no context in, none out, whatever the properties left |
| MatcherLaws.NothingResolved | iguala/matchers.py:136-148 | a property whose path resolves to nothing lets no context through, unless its pattern is a sequence |
| MatcherLaws.ThreadsStopAt | iguala/matchers.py:134-149 | once such a property is reached, the match returns nothing |
| MatcherLaws.EmptyResolution | iguala/matchers.py:131-150 | a shape with such a property returns no context |
| SequenceLaws.LeafEval | iguala/matchers.py:85-207 | a leaf keeps the context's polarity |
| SequenceLaws.LeafEvalIsEval | iguala/matchers.py:85-207 | a leaf never raises and returns exactly the context it leaves |
| SequenceLaws.LeafMatchEach | iguala/matchers.py:261-266 | over a leaf, the comprehension gives one context per context, in order |
| SequenceLaws.SurvivorsKept | iguala/matchers.py:267-269 | the contexts kept after matching copies are `Survivors` |
| SequenceLaws.MoveRetreats | iguala/matchers.py:276-300 | over leaves, a move that cannot go forward succeeds and stops the search or turns it back |
| SequenceLaws.StepRetreats | iguala/matchers.py:240-300 | one step of a retreating search over leaves reports no alignment and moves the pattern cursor back |
| SequenceLaws.RetreatAdds | iguala/matchers.py:231-237 | a retreating search over leaves collects nothing more |
| SequenceLaws.ForwardAdds | iguala/matchers.py:228-339 | from a forward position with level cursors, the search collects exactly the chain of the remaining positions |
| SequenceLaws.ForwardStep | iguala/matchers.py:258-275 | the same, one element at a time |
| SequenceLaws.LeafHit | iguala/matchers.py:267-272 | when the leaf lets a context through, the update is a hit and the chain goes on from the kept contexts |
| SequenceLaws.HitState | iguala/matchers.py:267-272 | after a hit the next position starts from the contexts kept |
| SequenceLaws.LeafMiss | iguala/matchers.py:273-275 | when the leaf lets nothing through, the update is a miss and the chain is empty |
| SequenceLaws.ChainStep | iguala/matchers.py:261-272 | one position of the chain: nothing through ends it, otherwise it goes on with what got through |
| SequenceLaws.ForwardMove | iguala/matchers.py:258-275 | one forward step at a leaf keeps the invariant, raises the rank and leaves the remaining search unchanged |
| SequenceLaws.LeafSequence | iguala/matchers.py:228-238 | a pattern of leaves returns exactly the chain from the handed context and leaves that context unchanged |
| SequenceLaws.ChainNeedsLength | iguala/matchers.py:228-339 | without list wildcards, a match needs a subject of the pattern's length |
| SequenceLaws.LiteralSurvivors | iguala/matchers.py:94-96 | a literal lets through every context iff it equals the element, and none otherwise |
| SequenceLaws.LiteralStep | iguala/matchers.py:261-275 | one literal position: the chain goes on iff the element equals the literal's value |
| SequenceLaws.ValuesFromAll | iguala/matchers.py:261-275 | the recursive "subject holds the literals' values" is the pointwise statement |
| SequenceLaws.LiteralChainKeeps | iguala/matchers.py:261-275 | over a subject holding the literals' values, successful contexts pass through unchanged |
| SequenceLaws.LiteralChainValues | iguala/matchers.py:261-275 | a chain of literals that survives has met the literals' values |
| SequenceLaws.LiteralSequence | iguala/matchers.py:228-339 | a list of literals matches a list, tuple or string iff it has the same length and equal elements |
| SequenceLaws.LiteralChainMatches | iguala/matchers.py:228-339 | a surviving chain met a subject of the pattern's length holding its values |
| SequenceLaws.LiteralMatchesChain | iguala/matchers.py:228-339 | such a subject keeps the chain alive |
| Scenarios.PatternLongerThanSubject | tests/test_sequence_matchers.py:17 | `[1, 2]` converts to two literals and does not match `[1]` |
| Scenarios.LiteralSubjectMismatch | tests/test_sequence_matchers.py:17-24 | literals never match a list or tuple of another length, nor one of the same length holding another value at some position |
| Scenarios.SameLengthOtherOrder | tests/test_sequence_matchers.py:24 | `[1, 3, 3]` does not match `(3, 3, 1)` |
| Scenarios.EmptyPatternEmptyTuple | tests/test_sequence_matchers.py:20 | `[]` matches `()` and returns the handed context |
| Scenarios.RepeatedAlias | tests/test_sequence_matchers.py:39 | `["@x", "@x"]` on `[a, b]` binds `x` to `a` and matches iff `a` and `b` are equal model values |
| Scenarios.AliasChain | tests/test_sequence_matchers.py:49 | the contexts threaded through `["@x", "@x"]` |
| Scenarios.NegatedRepeatedAlias | tests/test_sequence_matchers.py:53-54 | `is_not(["@x", "@x"])` matches `[2, 3]` and not `[2, 2]` |
| Scenarios.WildcardThenEllipsis | tests/test_sequence_matchers.py:70 | `["@x", ...]` converts to a wildcard and an anonymous list wildcard, and on `[1]` returns exactly one context, binding `x` to 1 |
| Scenarios.EllipsisPattern | tests/test_sequence_matchers.py:70 | `as_matcher(["@x", ...])` is a sequence of a wildcard `x` and an anonymous list wildcard |
| Scenarios.EllipsisRun | iguala/matchers.py:228-238 | the loops over `[1]` collect exactly the context binding `x` to 1 |
| Scenarios.EllipsisStep0 | iguala/matchers.py:258-272 | the first call matches `"@x"` forward and binds 1 |
| Scenarios.EllipsisStep1 | iguala/matchers.py:301-334 | the second call gives `...`, the last pattern, the rest of the subject (here empty) and moves past it |
| Scenarios.EllipsisSpan | iguala/matchers.py:302-334 | the empty span from position 1 is proposed, matched and committed |
| Scenarios.EllipsisFound | iguala/matchers.py:235-237 | the third call reports the alignment; the contexts of `...` are collected and the search turns backward |
| Scenarios.EllipsisStep3 | iguala/matchers.py:249-326 | backward at `...`, one more element would exceed its bound of 0, so the search turns back to `"@x"` |
| Scenarios.EllipsisStep4 | iguala/matchers.py:296-300 | backward at `"@x"` with no element left, both cursors step back |
| Scenarios.EllipsisStep5 | iguala/matchers.py:253-255 | the pattern cursor below 0 exhausts the search |
| Scenarios.EllipsisLink | iguala/matchers.py:232-234 | each call that reports no alignment hands the search on to the next state |
| Scenarios.EllipsisEnd | iguala/matchers.py:231 | the exhausted cursor ends the loops |
| Scenarios.EllipsisStates | iguala/matchers.py:343-407 | each of these cursors is a reachable search state |
| Scenarios.NegatedRepeatedAliasPattern | tests/test_sequence_matchers.py:53 | `is_not(["@x", "@x"])` is the negation of two wildcards `x` |
| SearchTrace.StepMoves | iguala/matchers.py:240-256 | a call that is not at a complete alignment copies the current contexts, runs the prelude and then moves as the pattern at the cursor says, reporting no alignment |
| SearchTrace.FixedForwardMove | iguala/matchers.py:258-275 | at a fixed pattern entered forward with an element left, the move matches that element and takes the hit or miss update |
| SearchTrace.FixedBackMove | iguala/matchers.py:276-300 | at a fixed pattern reached backward, or with no element left, the move steps both cursors back and turns backward |
| SearchTrace.SpanOutMove | iguala/matchers.py:301-326 | at a list wildcard whose next span is too long, the move resets its length and turns back to the previous pattern |
| SearchTrace.SpanTryMove | iguala/matchers.py:301-338 | at a list wildcard that proposes a span, the move matches the slice of that span and commits or rejects it |
| SearchTrace.ExhaustMove | iguala/matchers.py:253-255 | a cursor below 0 clears `has_next` |
| SearchTrace.AtFixedForward | iguala/matchers.py:240-275 | the whole call at a fixed pattern entered forward with an element left |
| SearchTrace.AtFixedBackward | iguala/matchers.py:240-300 | the whole call at a fixed pattern reached backward or with no element left |
| SearchTrace.AtSpanOut | iguala/matchers.py:240-326 | the whole call at a list wildcard whose next span is too long |
| SearchTrace.AtSpanTry | iguala/matchers.py:240-338 | the whole call at a list wildcard that proposes a span |
| SearchTrace.AtExhausted | iguala/matchers.py:240-255 | the whole call with a cursor below 0 |
| SearchTrace.GatherAlong | iguala/matchers.py:231-237 | a run that goes from each state to the next, adding what that state reports, ends with everything reported joined in order |
| SearchTrace.RunOne | iguala/matchers.py:231-237 | after one call the loops go on from the next state, having added the current contexts iff the call reported an alignment |
| SearchTrace.RunAlong | iguala/matchers.py:231-238 | the loops follow a trace of calls to its exhausted end and return what it reports, in order |
| SearchTrace.FollowsEach | iguala/matchers.py:231-234 | a trace followed call by call moves at each of its states and ends exhausted |
| SearchTrace.SequenceAlong | iguala/matchers.py:228-238 | a sequence pattern over a list whose search follows a trace from the fresh cursor returns the handed context and what the trace reports |
| ListScenarios.BindFirst | iguala/matchers.py:198-207 | `"@x"` on a context without bindings binds `x` to the element and succeeds |
| ListScenarios.BindAgain | iguala/matchers.py:198-207 | `"@x"` on a context where `x` is bound succeeds iff the element equals the bound value |
| ListScenarios.SkipAny | iguala/matchers.py:198-217 | the anonymous list wildcard lets every successful context through unchanged |
| ListScenarios.ListPatterns | iguala/matchers.py:410-428 | `["@x", ...]`, `[..., "@x", ...]` and `["@x", ..., "@x"]` convert to the sequences of wildcards and list wildcards the scenarios search |
| ListScenarios.HeadSearch | iguala/matchers.py:228-339 | the search of `["@x", ...]` over `[1, 2, 3]` follows a six-call trace and returns one context, binding `x` to 1 |
| ListScenarios.SpreadSearch | iguala/matchers.py:228-339 | the search of `[..., "@x", ...]` over `[1, 2, 3]` follows a twenty-call trace and returns three contexts, binding `x` to 1, 2 and 3 in that order |
| ListScenarios.EndsSearch | iguala/matchers.py:228-339 | the search of `["@x", ..., "@x"]` over `[1, 3, 3]` follows an eight-call trace and returns nothing |
| ListScenarios.WildcardThenEllipsisOnThree | tests/test_sequence_matchers.py:71 | `["@x", ...]` on `[1, 2, 3]` matches with exactly one context, `x = 1`, whatever the list wildcard takes |
| ListScenarios.WildcardBetweenEllipses | tests/test_sequence_matchers.py:72 | `[..., "@x", ...]` on `[1, 2, 3]` gives `x = 1`, `x = 2`, `x = 3`, in that order |
| ListScenarios.SameWildcardAtBothEnds | tests/test_sequence_matchers.py:48 | `["@x", ..., "@x"]` on `[1, 3, 3]` does not match |

## Left out

- `OrMatcher`: its method is named `matcher_context`, so no `match_context`
  reaches it and matching an `OrMatcher` raises `AttributeError`. The model
  does what the code does (`Eval` of an `Or` is `Err(AttributeError)`), and
  `OrBody` states what the body would return. tests/test_or_matcher.py
  expects a working disjunction; the model follows the code.
- The pattern-building sugar is left out as construction syntax: the `match`
  helper class of iguala/helpers.py, `save_as`, `@`, `|` and
  `__ror__`. `SaveNodeMatcher` itself is modelled in `Eval`.
- Predicate, regular-expression and generator leaves, and deferred
  obligations, do not exist in this version of the code.
- `Compare`: does not model Python's cross-type equality (`True == 1`,
  `1 == 1.0`) or user-defined `__eq__`. Values are equal when they are the
  same model value, and floats are not modelled.
- `Bind`: a bound alias compares the subject with its value as model
  values, where Python's `==` (iguala/matchers.py:203) compares by
  content. Two distinct dicts with equal entries are unequal here, sets
  compare in the order their elements are listed, and `True` and `1` are
  unequal, so `["@x", "@x"]` fails on two equal but distinct dicts where
  Python matches. `RepeatedAlias` and `WildcardLaws` state equality of
  model values for the same reason. A content equality over the heap would
  have to follow the object graph and user `__eq__`.
- `IdentityMatcher`: `obj is value` is modelled as equality of model values.
  Heap objects compare by reference. Atoms compare by value, which is what
  CPython's caching of small ints, `True`, `False` and `None` gives, but not
  what it gives for large ints or non-interned strings.
- `Id`: the key of an atom is the atom itself. Two equal atoms that CPython
  does not intern (large ints, strings built at run time) have different
  `id()` in Python but are one member of an `IdentitySet` here. Giving every
  atom an address of its own would make every literal pattern depend on
  allocation.
- `Fresh`: for the same reason, a closure treats an equal non-interned atom
  met again later as already seen and drops it, where Python would emit it
  once more.
- `Context` is a value, so aliasing is modelled only where the code can
  observe it. The `Outcome` of `Eval` records the state the handed context
  is left in, and marks which returned contexts are that context rather
  than a copy. `NotMatcher` re-flags the contexts it keeps in place, so
  when it keeps a marked one it re-flags the handed context too.
  `NotMatcher` and the body of `OrMatcher` read that state. Returned
  copies are never shared with anything the code reads again.
- Reflection (`vars`, `__slots__`, `getattr`, `obj.get`, `obj.items()`) is
  modelled as heap cells that list their fields in order and record how
  they expose them. Dict and set iteration order is the order of these
  lists. `getattr` sees only the fields a heap cell lists: class attributes,
  properties and methods (`d.keys`, `"abc".upper`) resolve to nothing.
- Recursion limits, `RecursionError`, and exceptions raised by user code
  inside `getattr` or `__eq__` are not modelled. For that reason the
  `except Exception` of `ComposedPath.resolve_from` never fires in the
  model.
- `MatcherResult.__str__`, and `IdentitySet.__iter__` and `__repr__`,
  only format or enumerate what the model already holds.
- `MatchSequence`: what the search returns is proved for every pattern
  without list wildcards, and for the list-wildcard cases of
  tests/test_sequence_matchers.py at lines 48 and 70-72, each followed call
  by call. For list wildcards in general, only that the search ends and
  returns successful contexts is proved. A general statement would need a
  reference enumeration of alignments in backtracking order, with the
  minimum and maximum lengths the cursor computes, and the search proved
  equal to it.
- `Run`: for the same reason, the order in which the loops collect
  alignments is stated only along the traces of those test cases.
- `FixedBackward` and `FixedBackwardNext`: the branch at
  iguala/matchers.py:287-292 is proved unreachable. A fixed pattern reached
  backward has its `pattern_has_next` flag cleared. The element is still
  matched, so an error it raises still escapes.
- `Bind`: the wildcard `@` (empty alias) is not anonymous in the code, which
  binds the alias `""`. The model follows the code.
- `ApplyProperty`: only a sequence pattern receives the whole resolved list.
  Shape patterns receive each candidate on its own, because
  `is_collection_matcher` is true only for `SequenceMatcher`.
- `MatchSequence`: a subject without `len()` raises `TypeError`. A set or a
  dict has a length, but indexing it raises, and the model returns that
  error when an element or a slice is first read.

=== FILE: contexts.dfy ===
/** `Context` and `MatcherResult` (iguala/matchers.py:5-41). */
module Contexts {
  import opened Values

  /** A matching context: the variables bound so far, the raw success flag
      `_is_match` and the polarity `truth` that flag is read against.  Python
      updates contexts in place; here a context is a value and each operation
      returns the updated one. */
  datatype Context = Context(bindings: map<string, Value>, flag: bool, truth: bool) {
    /** The `is_match` property: the flag agrees with the polarity. */
    predicate IsMatch()
    {
      flag == truth
    }
  }

  /** `Context(truth)`: no bindings, and successful whatever the polarity. */
  function NewContext(truth: bool): (c: Context)
    ensures c.IsMatch() && c.bindings == map[] && c.truth == truth
  {
    Context(map[], truth, truth)
  }

  /** `copy()`: same polarity, equal bindings, and successful whatever the
      flag of the original. */
  function Copy(c: Context): (r: Context)
    ensures r.IsMatch()
    ensures r.bindings == c.bindings && r.truth == c.truth
    ensures c.IsMatch() ==> r == c
  {
    NewContext(c.truth).(bindings := c.bindings)
  }

  /** The `is_match` setter: it stores `v` as the raw flag, so the context
      succeeds exactly when `v` agrees with its polarity. */
  function SetMatch(c: Context, v: bool): (r: Context)
    ensures r.IsMatch() <==> v == c.truth
    ensures r.bindings == c.bindings && r.truth == c.truth
  {
    c.(flag := v)
  }

  /** `[c.copy() for c in cs]`. */
  function CopyAll(cs: seq<Context>): (r: seq<Context>)
    ensures |r| == |cs|
    ensures forall i :: 0 <= i < |cs| ==> r[i].IsMatch() && r[i].bindings == cs[i].bindings && r[i].truth == cs[i].truth
  {
    seq(|cs|, i requires 0 <= i < |cs| => Copy(cs[i]))
  }

  /** `[c for c in cs if c.is_match]`, in order. */
  function Successful(cs: seq<Context>): (r: seq<Context>)
    ensures |r| <= |cs|
  {
    if cs == [] then []
    else if cs[0].IsMatch() then [cs[0]] + Successful(cs[1..])
    else Successful(cs[1..])
  }

  /** The filter keeps exactly the successful contexts. */
  lemma {:induction false} SuccessfulMembers(cs: seq<Context>)
    ensures forall c :: c in Successful(cs) <==> c in cs && c.IsMatch()
  {
    if cs != [] {
      SuccessfulMembers(cs[1..]);
      assert forall c :: c in cs <==> c == cs[0] || c in cs[1..];
    }
  }

  /** A list of successful contexts is kept whole, one without any is
      dropped whole. */
  lemma {:induction false} SuccessfulAllOrNone(cs: seq<Context>)
    ensures (forall i :: 0 <= i < |cs| ==> cs[i].IsMatch()) ==> Successful(cs) == cs
    ensures (forall i :: 0 <= i < |cs| ==> !cs[i].IsMatch()) ==> Successful(cs) == []
  {
    if cs != [] {
      SuccessfulAllOrNone(cs[1..]);
      assert cs == [cs[0]] + cs[1..];
    }
  }

  /** `any(c.is_match for c in cs)`. */
  predicate AnyMatch(cs: seq<Context>)
  {
    exists i :: 0 <= i < |cs| && cs[i].IsMatch()
  }

  /** Some context succeeds exactly when filtering keeps one. */
  lemma AnyMatchIffKept(cs: seq<Context>)
    ensures AnyMatch(cs) <==> Successful(cs) != []
  {
    SuccessfulMembers(cs);
    if AnyMatch(cs) {
      var i :| 0 <= i < |cs| && cs[i].IsMatch();
      assert cs[i] in Successful(cs);
    }
    if Successful(cs) != [] {
      assert Successful(cs)[0] in cs;
    }
  }

  lemma {:induction false} SuccessfulAppend(a: seq<Context>, b: seq<Context>)
    ensures Successful(a + b) == Successful(a) + Successful(b)
    decreases |a|
  {
    if a == [] {
      assert a + b == b;
    } else {
      assert (a + b)[0] == a[0];
      assert (a + b)[1..] == a[1..] + b;
      SuccessfulAppend(a[1..], b);
    }
  }

  /** `MatcherResult` (iguala/matchers.py:5-18): the successful contexts of
      a match, in the order the matcher produced them. */
  class MatcherResult {
    var contexts: seq<Context>

    /** Only successful contexts are kept. */
    ghost predicate Valid()
      reads this
    {
      forall i :: 0 <= i < |contexts| ==> contexts[i].IsMatch()
    }

    constructor ()
      ensures Valid() && contexts == []
    {
      contexts := [];
    }

    /** `is_match`: at least one context was kept. */
    function IsMatch(): (r: bool)
      reads this
      // as only successful contexts are kept, the result matches exactly
      // when one of its contexts does
      ensures Valid() ==> (r <==> AnyMatch(contexts))
    {
      assert Valid() && |contexts| > 0 ==> contexts[0].IsMatch();
      |contexts| > 0
    }

    /** `add_contexts`: keeps only the successful ones. */
    method AddContexts(cs: seq<Context>)
      requires Valid()
      modifies this
      ensures Valid()
      ensures contexts == old(contexts) + Successful(cs)
      ensures forall c :: c in contexts ==> c in old(contexts) || (c in cs && c.IsMatch())
    {
      SuccessfulMembers(cs);
      contexts := contexts + Successful(cs);
    }

    /** `bindings`: one dict per kept context. */
    function Bindings(): (bs: seq<map<string, Value>>)
      reads this
      ensures |bs| == |contexts|
      ensures forall i :: 0 <= i < |bs| ==> bs[i] == contexts[i].bindings
    {
      seq(|contexts|, i requires 0 <= i < |contexts| reads this => contexts[i].bindings)
    }
  }
}

=== FILE: cursors.dfy ===
/** `Cursor` (iguala/matchers.py:342-407): the mutable state of one sequence
    search, with its lists kept in arrays.  `State()` reads the fields back
    as the value `SearchState.CursorState` the search is specified on. */
module Cursors {
  import opened Contexts
  import opened SearchState
  import opened Matchers

  /** `wildcard_pos`: the positions of the list wildcards, in order. */
  function WildcardPositions(items: seq<Matcher>, k: nat): (ps: seq<nat>)
    requires k <= |items|
    ensures forall q :: q in ps <==> k <= q < |items| && items[q].ListWildcard?
    ensures |ps| + NumFixedFrom(items, k) == |items| - k
    decreases |items| - k
  {
    if k == |items| then []
    else if items[k].ListWildcard? then [k] + WildcardPositions(items, k + 1)
    else WildcardPositions(items, k + 1)
  }

  /** The fixed patterns from position `k` on. */
  function NumFixedFrom(items: seq<Matcher>, k: nat): nat
    requires k <= |items|
    decreases |items| - k
  {
    if k == |items| then 0 else (if items[k].ListWildcard? then 0 else 1) + NumFixedFrom(items, k + 1)
  }

  /** Counting from the front or from a position gives the same count. */
  lemma {:induction false} NumFixedFromIsNumFixed(items: seq<Matcher>, k: nat)
    requires k <= |items|
    ensures NumFixedFrom(items, k) == NumFixed(items[k..])
    decreases |items| - k
  {
    if k < |items| {
      NumFixedFromIsNumFixed(items, k + 1);
      assert items[k..][1..] == items[k + 1..];
    }
  }

  class Cursor {
    const subjectSize: nat
    const patternSize: nat
    ghost const items: seq<Matcher>
    const wildcardPos: seq<nat>
    const numNonListWildcard: int
    const origContext: Context
    const lvStarts: array<int>
    const lvLengths: array<int>
    const lvMinLengths: array<int>
    const lvMaxLengths: array<int>
    const contexts: array<seq<Context>>
    const patternHasNext: array<bool>
    var subjectCursor: int
    var patternCursor: int
    var hasNext: bool
    var forward: bool

    /** The arrays are as long as the pattern, the two that are only read
        are not the two that are written, and the span bounds are those of
        `__init__`: at least 0 and at most `MaxLen` at every list wildcard. */
    ghost predicate Valid()
      reads lvMinLengths, lvMaxLengths
    {
      patternSize == |items| &&
      lvStarts.Length == patternSize && lvLengths.Length == patternSize &&
      lvMinLengths.Length == patternSize && lvMaxLengths.Length == patternSize &&
      contexts.Length == patternSize && patternHasNext.Length == patternSize &&
      lvStarts != lvLengths &&
      lvMinLengths != lvStarts && lvMinLengths != lvLengths &&
      lvMaxLengths != lvStarts && lvMaxLengths != lvLengths &&
      forall q :: 0 <= q < patternSize && items[q].ListWildcard? ==>
        lvMinLengths[q] == 0 && lvMaxLengths[q] == MaxLen(items, subjectSize)
    }

    /** The fields as a search state. */
    ghost function State(): (st: CursorState)
      reads this, lvStarts, lvLengths, patternHasNext, contexts
    {
      CursorState(patternCursor, subjectCursor, forward, hasNext,
                  lvStarts[..], lvLengths[..], patternHasNext[..], contexts[..])
    }

    /** `Cursor.__init__`: a fresh cursor is the start of the search. */
    constructor (matcherSequence: seq<Matcher>, size: nat, original: Context)
      ensures Valid() && State() == Start(|matcherSequence|)
      ensures items == matcherSequence && subjectSize == size && origContext == original
      ensures fresh(lvStarts) && fresh(lvLengths) && fresh(contexts) && fresh(patternHasNext)
    {
      subjectSize := size;
      patternSize := |matcherSequence|;
      items := matcherSequence;
      var n := |matcherSequence|;
      lvStarts := new int[n](_ => 0);
      lvLengths := new int[n](_ => 0);
      lvMinLengths := new int[n](_ => 0);
      lvMaxLengths := new int[n](_ => 0);
      subjectCursor := 0;
      patternCursor := 0;
      var wpos := WildcardPositions(matcherSequence, 0);
      wildcardPos := wpos;
      NumFixedFromIsNumFixed(matcherSequence, 0);
      numNonListWildcard := n - |wpos|;
      hasNext := true;
      forward := true;
      origContext := original;
      contexts := new seq<Context>[n](_ => []);
      patternHasNext := new bool[n](_ => true);
      new;
      assert matcherSequence[0..] == matcherSequence;
      SetWildcardBounds(wpos);
      assert lvStarts[..] == Start(n).starts && lvLengths[..] == Start(n).lengths;
      assert patternHasNext[..] == Start(n).patHasNext && contexts[..] == Start(n).ctxs;
    }

    /** The loop of `__init__` over `wildcard_pos`: every list wildcard's
        span starts at 0, is empty, and may take from 0 to
        `subject_size - num_nonlistwildcard` elements. */
    method SetWildcardBounds(wpos: seq<nat>)
      requires lvStarts.Length == patternSize && lvLengths.Length == patternSize
      requires lvMinLengths.Length == patternSize && lvMaxLengths.Length == patternSize
      requires lvStarts != lvLengths && lvMinLengths != lvStarts && lvMinLengths != lvLengths
      requires lvMaxLengths != lvStarts && lvMaxLengths != lvLengths && lvMaxLengths != lvMinLengths
      requires forall q :: q in wpos ==> q < patternSize
      requires forall q :: 0 <= q < patternSize ==> lvStarts[q] == 0 && lvLengths[q] == 0 && lvMinLengths[q] == 0
      modifies lvStarts, lvLengths, lvMinLengths, lvMaxLengths
      ensures forall q :: 0 <= q < patternSize ==> lvStarts[q] == 0 && lvLengths[q] == 0 && lvMinLengths[q] == 0
      ensures forall q :: 0 <= q < patternSize && q in wpos ==> lvMaxLengths[q] == subjectSize - numNonListWildcard
    {
      for j := 0 to |wpos|
        invariant forall q :: 0 <= q < patternSize ==> lvStarts[q] == 0 && lvLengths[q] == 0 && lvMinLengths[q] == 0
        invariant forall q :: 0 <= q < patternSize && q in wpos[..j] ==> lvMaxLengths[q] == subjectSize - numNonListWildcard
      {
        var i := wpos[j];
        assert i in wpos;
        assert wpos[..j + 1] == wpos[..j] + [i];
        lvMinLengths[i] := 0;
        lvMaxLengths[i] := subjectSize - numNonListWildcard;
        lvStarts[i] := 0;
        lvLengths[i] := 0;
      }
      assert wpos[..|wpos|] == wpos;
    }

    /** `contexts_for_current_pattern`. */
    function ContextsForCurrentPattern(): (cs: seq<Context>)
      reads this, contexts
      requires patternCursor <= contexts.Length
      ensures cs == SearchState.Current(origContext, State())
    {
      if patternCursor - 1 < 0 then [origContext] else contexts[patternCursor - 1]
    }

    /** `has_next_current_pattern`. */
    function HasNextCurrentPattern(): (r: bool)
      reads this, lvStarts, lvLengths, patternHasNext, contexts
      requires 0 <= patternCursor < patternHasNext.Length
      // the flag of the search state at its pattern cursor
      ensures r == State().patHasNext[State().p]
    {
      patternHasNext[patternCursor]
    }

    /** `clear_contexts_for_current_pattern`. */
    method ClearContextsForCurrentPattern()
      requires patternCursor < contexts.Length
      modifies contexts
      ensures State() == ClearCurrent(old(State()))
    {
      if patternCursor < 0 {
        return;
      }
      contexts[patternCursor] := [];
    }

    /** `add_contexts_to_pattern`. */
    method AddContextsToPattern(cs: seq<Context>)
      requires 0 <= patternCursor < contexts.Length
      modifies contexts
      ensures State() == old(State()).(ctxs := old(State()).ctxs[patternCursor := old(contexts[patternCursor]) + cs])
    {
      contexts[patternCursor] := contexts[patternCursor] + cs;
    }

    /** `reset_has_next_current_pattern`: the pattern may be tried again. */
    method ResetHasNextCurrentPattern()
      requires 0 <= patternCursor < patternHasNext.Length
      modifies patternHasNext
      ensures State() == old(State()).(patHasNext := old(State()).patHasNext[patternCursor := true])
    {
      patternHasNext[patternCursor] := true;
    }

    /** `set_has_next_current_pattern`: the pattern has been used. */
    method SetHasNextCurrentPattern()
      requires 0 <= patternCursor < patternHasNext.Length
      modifies patternHasNext
      ensures State() == old(State()).(patHasNext := old(State()).patHasNext[patternCursor := false])
    {
      patternHasNext[patternCursor] := false;
    }

    /** `decrement_pattern_cursor`. */
    method DecrementPatternCursor()
      modifies this
      ensures State() == old(State()).(p := old(patternCursor) - 1)
    {
      patternCursor := patternCursor - 1;
    }

    /** `decrement_subject_cursor`. */
    method DecrementSubjectCursor()
      modifies this
      ensures State() == old(State()).(s := old(subjectCursor) - 1)
    {
      subjectCursor := subjectCursor - 1;
    }

    /** `increment_pattern_cursor`. */
    method IncrementPatternCursor()
      modifies this
      ensures State() == old(State()).(p := old(patternCursor) + 1)
    {
      patternCursor := patternCursor + 1;
    }

    /** `increment_subject_cursor`. */
    method IncrementSubjectCursor()
      modifies this
      ensures State() == old(State()).(s := old(subjectCursor) + 1)
    {
      subjectCursor := subjectCursor + 1;
    }

    /** `set_backward`. */
    method SetBackward()
      modifies this
      ensures State() == old(State()).(forward := false)
    {
      forward := false;
    }

    /** `set_forward`. */
    method SetForward()
      modifies this
      ensures State() == old(State()).(forward := true)
    {
      forward := true;
    }
  }
}

=== FILE: helpers.dfy ===
/** `flat` and `IdentitySet` from iguala/helpers.py (`is_not` lives in module
    Patterns, after the matchers it builds). */
module Helpers {
  import opened Values

  /** What `flat(v)` returns: a non-collection as a singleton, a list, tuple or
      set as the left-to-right sequence of the leaves at any depth. */
  function Flatten(v: Value): seq<Value>
    decreases v, 1
  {
    if v.Coll? then FlattenAll(v.items) else [v]
  }

  /** `flat` of a list whose elements are `xs`. */
  function FlattenAll(xs: seq<Value>): seq<Value>
    decreases xs, 0
  {
    if xs == [] then [] else Flatten(xs[0]) + FlattenAll(xs[1..])
  }

  /** The number of nodes of a value tree; the loop of `Flat` consumes one per step. */
  function Size(v: Value): nat
    decreases v, 1
  {
    if v.Coll? then 1 + SizeAll(v.items) else 1
  }

  function SizeAll(xs: seq<Value>): nat
    decreases xs, 0
  {
    if xs == [] then 0 else Size(xs[0]) + SizeAll(xs[1..])
  }

  lemma {:induction false} SizeAllAppend(a: seq<Value>, b: seq<Value>)
    ensures SizeAll(a + b) == SizeAll(a) + SizeAll(b)
    decreases |a|
  {
    if a == [] {
      assert a + b == b;
    } else {
      assert (a + b)[0] == a[0];
      assert (a + b)[1..] == a[1..] + b;
      SizeAllAppend(a[1..], b);
    }
  }

  /** flat preserves the left-to-right order of leaves: flattening a
      concatenation is the concatenation of the flattenings. */
  lemma {:induction false} FlattenAllAppend(a: seq<Value>, b: seq<Value>)
    ensures FlattenAll(a + b) == FlattenAll(a) + FlattenAll(b)
    decreases |a|
  {
    if a == [] {
      assert a + b == b;
    } else {
      assert (a + b)[0] == a[0];
      assert (a + b)[1..] == a[1..] + b;
      FlattenAllAppend(a[1..], b);
    }
  }

  /** The result of flat never holds a list, tuple or set. */
  lemma {:induction false} FlattenHasNoCollection(v: Value)
    ensures forall x :: x in Flatten(v) ==> !x.Coll?
    decreases v, 1
  {
    if v.Coll? {
      FlattenAllHasNoCollection(v.items);
    }
  }

  lemma {:induction false} FlattenAllHasNoCollection(xs: seq<Value>)
    ensures forall x :: x in FlattenAll(xs) ==> !x.Coll?
    decreases xs, 0
  {
    if xs != [] {
      FlattenHasNoCollection(xs[0]);
      FlattenAllHasNoCollection(xs[1..]);
    }
  }

  /** flat of an already flat list is an equal list. */
  lemma {:induction false} FlattenAllOfFlat(xs: seq<Value>)
    requires forall i :: 0 <= i < |xs| ==> !xs[i].Coll?
    ensures FlattenAll(xs) == xs
    decreases |xs|
  {
    if xs != [] {
      FlattenAllOfFlat(xs[1..]);
      assert xs == [xs[0]] + xs[1..];
    }
  }

  /** flat is idempotent. */
  lemma FlattenIdempotent(v: Value)
    ensures FlattenAll(Flatten(v)) == Flatten(v)
  {
    FlattenHasNoCollection(v);
    FlattenAllOfFlat(Flatten(v));
  }

  /** `flat` (iguala/helpers.py:68-81): a while loop that appends leaves to `result`
      and splices a nested collection in front of the remaining iterator
      (`chain(first, remainder)`). */
  method Flat(v: Value) returns (result: seq<Value>)
    ensures result == Flatten(v)
    ensures forall x :: x in result ==> !x.Coll?
    ensures !v.Coll? ==> result == [v]
    ensures v == Coll(List, []) ==> result == []
  {
    FlattenHasNoCollection(v);
    if !v.Coll? {
      return [v];
    }
    result := [];
    var remainder := v.items;
    while remainder != []
      invariant result + FlattenAll(remainder) == Flatten(v)
      decreases SizeAll(remainder)
    {
      var first := remainder[0];
      assert remainder == [first] + remainder[1..];
      SizeAllAppend([first], remainder[1..]);
      if first.Coll? {
        FlattenAllAppend(first.items, remainder[1..]);
        SizeAllAppend(first.items, remainder[1..]);
        remainder := first.items + remainder[1..];
      } else {
        result := result + [first];
        remainder := remainder[1..];
      }
    }
  }

  /** `id(x)`: an object's address, or the atom itself. */
  datatype Key = ObjectKey(addr: nat) | ValueKey(v: Value)

  function Id(x: Value): (k: Key)
    // the key determines the value: no two distinct values share an id
    ensures k.ObjectKey? ==> x == Ref(k.addr)
    ensures k.ValueKey? ==> x == k.v
  {
    if x.Ref? then ObjectKey(x.id) else ValueKey(x)
  }

  /** The values a sequence holds. */
  ghost function Members(s: seq<Value>): set<Value>
  {
    set x | x in s
  }

  lemma MembersSnoc(s: seq<Value>, x: Value)
    ensures Members(s + [x]) == Members(s) + {x}
  {
  }

  /** Every member is stored under its own id. */
  ghost predicate Keyed(t: map<Key, Value>)
  {
    forall k :: k in t ==> Id(t[k]) == k
  }

  /** Storing a value under its id adds exactly that value. */
  lemma KeyedAdd(t: map<Key, Value>, value: Value)
    requires Keyed(t)
    ensures Keyed(t[Id(value) := value])
    ensures t[Id(value) := value].Values == t.Values + {value}
  {
    var u := t[Id(value) := value];
    forall y | y in t.Values + {value}
      ensures y in u.Values
    {
      if y == value {
        assert u[Id(value)] == value;
      } else {
        var k :| k in t && t[k] == y;
        assert u[k] == y;
      }
    }
    forall y | y in u.Values
      ensures y in t.Values + {value}
    {
      var k :| k in u && u[k] == y;
      if k != Id(value) {
        assert t[k] == y;
      }
    }
  }

  /** A value is stored exactly when its id is a key. */
  lemma KeyedMember(t: map<Key, Value>, x: Value)
    ensures Keyed(t) ==> (Id(x) in t <==> x in t.Values)
  {
    if Keyed(t) && x in t.Values {
      var k :| k in t && t[k] == x;
    }
  }

  /** As no two members share a key, there are as many members as keys. */
  lemma {:induction false} KeyedCard(t: map<Key, Value>)
    ensures Keyed(t) ==> |t| == |t.Values|
    decreases |t|
  {
    if Keyed(t) && |t| > 0 {
      var k :| k in t;
      KeyedDiscard(t, t[k]);
      KeyedCard(t - {k});
      assert t[k] in t.Values;
    }
  }

  /** Removing a value's id removes exactly that value. */
  lemma KeyedDiscard(t: map<Key, Value>, value: Value)
    requires Keyed(t)
    ensures Keyed(t - {Id(value)})
    ensures (t - {Id(value)}).Values == t.Values - {value}
  {
    var u := t - {Id(value)};
    forall y | y in t.Values - {value}
      ensures y in u.Values
    {
      var k :| k in t && t[k] == y;
      assert u[k] == y;
    }
    forall y | y in u.Values
      ensures y in t.Values - {value}
    {
      var k :| k in u && u[k] == y;
      assert t[k] == y;
    }
  }

  /** `IdentitySet` (iguala/helpers.py:44-62): a set whose membership is decided by
      identity, kept as a dict from `id(x)` to `x`. */
  class IdentitySet {
    var table: map<Key, Value>

    ghost predicate Valid()
      reads this
    {
      Keyed(table)
    }

    /** The members, independent of how they are keyed. */
    ghost function Elements(): set<Value>
      reads this
    {
      table.Values
    }

    /** `IdentitySet(iterable)`: starts empty, then `self |= iterable`. */
    constructor (iterable: seq<Value>)
      ensures Valid()
      ensures Elements() == Members(iterable)
    {
      table := map[];
      new;
      Extend(iterable);
    }

    /** `__len__`: the number of distinct members. */
    function Len(): (r: nat)
      reads this
      ensures Valid() ==> r == |Elements()|
    {
      KeyedCard(table);
      |table|
    }

    /** `__contains__`: membership of the members, decided on ids. */
    function Contains(x: Value): (r: bool)
      reads this
      ensures Valid() ==> (r <==> x in Elements())
    {
      KeyedMember(table, x);
      Id(x) in table
    }

    /** `add`. */
    method Add(value: Value)
      requires Valid()
      modifies this
      ensures Valid()
      ensures table == old(table)[Id(value) := value]
      ensures Elements() == old(Elements()) + {value}
      ensures Len() == if old(Contains(value)) then old(Len()) else old(Len()) + 1
    {
      KeyedAdd(table, value);
      table := table[Id(value) := value];
    }

    /** `discard`: removes exactly that object; nothing happens when it is absent. */
    method Discard(value: Value)
      requires Valid()
      modifies this
      ensures Valid()
      ensures table == old(table) - {Id(value)}
      ensures Elements() == old(Elements()) - {value}
      ensures Len() == if old(Contains(value)) then old(Len()) - 1 else old(Len())
    {
      KeyedDiscard(table, value);
      table := table - {Id(value)};
    }

    /** `self |= it` (MutableSet.__ior__): adds each element in turn. */
    method Extend(it: seq<Value>)
      requires Valid()
      modifies this
      ensures Valid()
      ensures Elements() == old(Elements()) + Members(it)
    {
      var i := 0;
      while i < |it|
        invariant 0 <= i <= |it|
        invariant Valid()
        invariant Elements() == old(Elements()) + Members(it[..i])
      {
        MembersSnoc(it[..i], it[i]);
        assert it[..i + 1] == it[..i] + [it[i]];
        Add(it[i]);
        i := i + 1;
      }
      assert it[..i] == it;
    }
  }
}

=== FILE: list_scenarios.dfy ===
/** Sequence patterns with list wildcards on three-element lists, from the
    cases of tests/test_sequence_matchers.py: each search is followed call
    by call of `match_next` (iguala/matchers.py:240-339), and the theorem at
    the end of each part states what `match_context` returns.

    Each part, `P` being `Head`, `Spread` or `Ends`, is laid out the same way.
    - `PState(i)` is the cursor the `i`-th call starts from, `PCursorI()`,
      written out as
      `CursorState(p, s, forward, hasNext, starts, lengths, patHasNext,
      ctxs)`: the two cursors, the direction, `has_next`, the list
      wildcards' `lv_starts` and `lv_lengths`, `pattern_has_next` and the
      contexts stored per position. The last state is exhausted.
      `PFound(i)` says which calls report a complete alignment.
    - For call `i`, `PFactsI` states the state after the prelude and the
      contexts the call copies, `PAfterI` what the pattern at the cursor
      makes of that state, and `PStepI` puts the two together with the
      generic lemma of `SearchTrace` for that kind of move
      (`AtFixedForward`, `AtFixedBackward`, `AtSpanOut`, `AtSpanTry`,
      `AtExhausted`), giving `Moves` from state `i` to state `i + 1`.
    - `PFollowsI` chains the calls from `i` to the end, `PCollectedFromI`
      joins what the reporting calls add, and `PSearch` hands both to
      `SequenceAlong`, which gives `Eval` of the pattern. */
module ListScenarios {
  import opened Values
  import opened Contexts
  import opened Matchers
  import opened Patterns
  import opened SearchState
  import opened SearchTrace

  /** The context binding `x` to `v`. */
  function Bound(v: int): Context
  {
    Context(map["x" := Int(v)], true, true)
  }

  /** `"@x"` on a context without bindings binds `x` to the element. */
  lemma BindFirst(h: Heap, v: int)
    ensures MatchEach(Wildcard("x"), h, Int(v), [NewContext(true)]) == Ok([Bound(v)])
  {
    var c := NewContext(true);
    assert !IsAnonymous(Wildcard("x"));
    assert c.bindings["x" := Int(v)] == Bound(v).bindings;
    assert Bind(false, "x", Int(v), c) == Outcome(Bound(v), [Bound(v)], [true]);
    assert Eval(Wildcard("x"), h, Int(v), c) == Ok(Outcome(Bound(v), [Bound(v)], [true]));
    assert [c][1..] == [];
    assert [Bound(v)] + [] == [Bound(v)];
  }

  /** `"@x"` with `x` bound succeeds exactly on the bound value and leaves
      the bindings as they are. */
  lemma BindAgain(h: Heap, v: int, w: int)
    ensures MatchEach(Wildcard("x"), h, Int(w), [Bound(v)]) ==
            Ok([if v == w then Bound(v) else Bound(v).(flag := false)])
  {
    var r := if v == w then Bound(v) else Bound(v).(flag := false);
    assert !IsAnonymous(Wildcard("x"));
    assert "x" in Bound(v).bindings && Bound(v).bindings["x"] == Int(v);
    assert Bind(false, "x", Int(w), Bound(v)) == Outcome(r, [r], [true]);
    assert Eval(Wildcard("x"), h, Int(w), Bound(v)) == Ok(Outcome(r, [r], [true]));
    assert [Bound(v)][1..] == [];
    assert [r] + [] == [r];
  }

  /** The fresh cursor written out. */
  lemma StartLiteral(n: nat, zeros: seq<int>, flags: seq<bool>, empties: seq<seq<Context>>)
    requires |zeros| == n && |flags| == n && |empties| == n
    requires forall q :: 0 <= q < n ==> zeros[q] == 0 && flags[q] && empties[q] == []
    ensures Start(n) == CursorState(0, 0, true, true, zeros, zeros, flags, empties)
  {
    var st := Start(n);
    assert st.starts == zeros && st.lengths == zeros;
    assert st.patHasNext == flags;
    assert st.ctxs == empties;
  }

  /** The copy of a successful context is the context itself. */
  lemma CopyOne(c: Context)
    requires c.IsMatch()
    ensures CopyAll([c]) == [c]
  {
  }

  /** The anonymous list wildcard takes any span and keeps a successful
      context of positive polarity as it is. */
  lemma SkipAny(h: Heap, slice: Value, c: Context)
    requires c.IsMatch() && c.truth
    ensures MatchEach(ListWildcard(""), h, slice, [c]) == Ok([c])
  {
    assert IsAnonymous(ListWildcard(""));
    assert Bind(true, "", slice, c) == Outcome(c, [c], [true]);
    assert Eval(ListWildcard(""), h, slice, c) == Ok(Outcome(c, [c], [true]));
    assert [c][1..] == [];
    assert [c] + [] == [c];
  }

  /** `as_matcher` turns `"@x"` into a wildcard and `...` into an anonymous
      list wildcard, in order. */
  lemma ListPatterns()
    ensures AsMatcher(PList([PStr("@x"), PEllipsis])) == Ok(HeadMatcher())
    ensures AsMatcher(PList([PEllipsis, PStr("@x"), PEllipsis])) == Ok(SpreadMatcher())
    ensures AsMatcher(PList([PStr("@x"), PEllipsis, PStr("@x")])) == Ok(EndsMatcher())
  {
    assert "@x"[1..] == "x";
    assert AsMatcher(PStr("@x")) == Ok(Wildcard("x")) && AsMatcher(PEllipsis) == Ok(ListWildcard(""));
    var x := PList([PStr("@x"), PEllipsis]);
    var ms := AsMatcher(x).value.items;
    assert |ms| == 2 && ms[0] == Wildcard("x") && ms[1] == ListWildcard("");
    assert ms == HeadMatcher().items;
    var y := PList([PEllipsis, PStr("@x"), PEllipsis]);
    var ns := AsMatcher(y).value.items;
    assert |ns| == 3 && ns[0] == ListWildcard("") && ns[1] == Wildcard("x") && ns[2] == ListWildcard("");
    assert ns == SpreadMatcher().items;
    var z := PList([PStr("@x"), PEllipsis, PStr("@x")]);
    var os := AsMatcher(z).value.items;
    assert |os| == 3 && os[0] == Wildcard("x") && os[1] == ListWildcard("") && os[2] == Wildcard("x");
    assert os == EndsMatcher().items;
  }

  // ---------------------------------------------------------------------
  // `["@x", ...]` on `[1, 2, 3]`

  function HeadMatcher(): Matcher
  {
    Sequence([Wildcard("x"), ListWildcard("")])
  }

  function HeadElems(): seq<Value>
  {
    [Int(1), Int(2), Int(3)]
  }

  /** The list wildcard may take at most two of the three elements. */
  lemma HeadMaxLen()
    ensures MaxLen(HeadMatcher().items, 3) == 2
  {
    var items := HeadMatcher().items;
    assert NumFixed(items[1..][1..]) == 0;
    assert NumFixed(items[1..]) == 0;
  }

  /** The cursor of `["@x", ...]` on `[1, 2, 3]` that the `i`-th call of `match_next` starts
      from, counting from 0; the last one is exhausted. */
  function HeadState(i: nat): CursorState
  {
    if i == 0 then HeadCursor0()
    else if i == 1 then HeadCursor1()
    else if i == 2 then HeadCursor2()
    else if i == 3 then HeadCursor3()
    else if i == 4 then HeadCursor4()
    else if i == 5 then HeadCursor5()
    else HeadCursor6()
  }

  function HeadCursor0(): CursorState { CursorState(0, 0, true, true, [0, 0], [0, 0], [true, true], [[], []]) }
  function HeadCursor1(): CursorState { CursorState(1, 1, true, true, [0, 0], [0, 0], [false, true], [[Bound(1)], []]) }
  function HeadCursor2(): CursorState { CursorState(2, 3, true, true, [0, 1], [0, 2], [false, true], [[Bound(1)], [Bound(1)]]) }
  function HeadCursor3(): CursorState { CursorState(2, 3, false, true, [0, 1], [0, 2], [false, true], [[Bound(1)], [Bound(1)]]) }
  function HeadCursor4(): CursorState { CursorState(0, 1, false, true, [0, 1], [0, 0], [false, true], [[], []]) }
  function HeadCursor5(): CursorState { CursorState(-1, 0, false, true, [0, 1], [0, 0], [false, true], [[], []]) }
  function HeadCursor6(): CursorState { CursorState(-1, 0, false, false, [0, 1], [0, 0], [false, true], [[], []]) }

  /** The calls of `match_next` that report a complete alignment. */
  predicate HeadFound(i: nat)
  {
    i == 2
  }

  /** Forward at `"@x"`: the element is matched and the search advances. */
  lemma HeadFacts0()
    ensures var m := HeadMatcher(); var pre := CursorState(0, 0, true, true, [0, 0], [0, 0], [true, true], [[], []]);
      Prepared(m, Items(List, HeadElems()), NewContext(true), HeadState(0), pre, [NewContext(true)])
  {
    var m := HeadMatcher();
    var st := HeadState(0);
    var pre := CursorState(0, 0, true, true, [0, 0], [0, 0], [true, true], [[], []]);
    assert Wild(m.items) == [false, true];
    assert Inv(Wild(m.items), 3, st) && Stored(st);
    assert Prelude(2, 3, st) == pre;
    assert Inv(Wild(m.items), 3, pre);
    assert Stored(pre);
    CopyOne(NewContext(true));
  }

  /** What the pattern at the cursor makes of the state after the prelude. */
  lemma HeadAfter0()
    ensures var m := HeadMatcher(); var pre := CursorState(0, 0, true, true, [0, 0], [0, 0], [true, true], [[], []]);
      FixedAfter(pre, [Bound(1)]) == HeadState(1)
  {
    var m := HeadMatcher();
    var pre := CursorState(0, 0, true, true, [0, 0], [0, 0], [true, true], [[], []]);
    assert Successful([Bound(1)]) == [Bound(1)];
  }

  /** Call 0 moves the search from state 0 to state 1. */
  lemma HeadStep0(h: Heap)
    ensures Moves(HeadMatcher(), h, Items(List, HeadElems()), NewContext(true), HeadState(0), HeadState(1), HeadFound(0))
  {
    HeadFacts0();
    HeadAfter0();
    var m := HeadMatcher();
    var pre := CursorState(0, 0, true, true, [0, 0], [0, 0], [true, true], [[], []]);
    BindFirst(h, 1);
    assert ElemAt(Items(List, HeadElems()), 0) == Ok(Int(1));
    AtFixedForward(m, h, Items(List, HeadElems()), NewContext(true), HeadState(0), pre, [NewContext(true)], Int(1), [Bound(1)]);
  }

  /** At `...`: the span proposed is matched and the search advances past it. */
  lemma HeadFacts1()
    ensures var m := HeadMatcher(); var pre := CursorState(1, 1, true, true, [0, 0], [0, 0], [false, true], [[Bound(1)], []]);
      Prepared(m, Items(List, HeadElems()), NewContext(true), HeadState(1), pre, [Bound(1)])
  {
    var m := HeadMatcher();
    var st := HeadState(1);
    var pre := CursorState(1, 1, true, true, [0, 0], [0, 0], [false, true], [[Bound(1)], []]);
    assert Wild(m.items) == [false, true];
    assert Inv(Wild(m.items), 3, st) && Stored(st);
    assert Prelude(2, 3, st) == pre;
    assert Inv(Wild(m.items), 3, pre);
    assert Stored(pre);
    CopyOne(Bound(1));
  }

  /** What the pattern at the cursor makes of the state after the prelude. */
  lemma HeadAfter1()
    requires Inv(Wild(HeadMatcher().items), 3, CursorState(1, 1, true, true, [0, 0], [0, 0], [false, true], [[Bound(1)], []]))
    ensures var m := HeadMatcher(); var pre := CursorState(1, 1, true, true, [0, 0], [0, 0], [false, true], [[Bound(1)], []]);
      ProposedSpan(m.items, 3, pre) == Some((1, 2)) &&
      SliceOf(Items(List, HeadElems()), 1, 3) == Ok(Coll(List, [Int(2), Int(3)])) &&
      SpanAfter(SpanEnter(2, 3, pre), [Bound(1)]) == HeadState(2)
  {
    var m := HeadMatcher();
    var pre := CursorState(1, 1, true, true, [0, 0], [0, 0], [false, true], [[Bound(1)], []]);
    var entered := CursorState(1, 1, true, true, [0, 1], [0, 2], [false, true], [[Bound(1)], []]);
    assert SpanEnter(2, 3, pre) == entered;
    HeadMaxLen();
    assert HeadElems()[1..3] == [Int(2), Int(3)];
    assert Successful([Bound(1)]) == [Bound(1)];
    assert entered.ctxs[1] + [Bound(1)] == [Bound(1)];
  }

  /** Call 1 moves the search from state 1 to state 2. */
  lemma HeadStep1(h: Heap)
    ensures Moves(HeadMatcher(), h, Items(List, HeadElems()), NewContext(true), HeadState(1), HeadState(2), HeadFound(1))
  {
    HeadFacts1();
    HeadAfter1();
    var m := HeadMatcher();
    var pre := CursorState(1, 1, true, true, [0, 0], [0, 0], [false, true], [[Bound(1)], []]);
    SkipAny(h, Coll(List, [Int(2), Int(3)]), Bound(1));
    AtSpanTry(m, h, Items(List, HeadElems()), NewContext(true), HeadState(1), pre, [Bound(1)], 1, 2, Coll(List, [Int(2), Int(3)]), [Bound(1)]);
  }

  /** The alignment is complete: its contexts are collected and the search turns backward. */
  lemma HeadFacts2()
    ensures var m := HeadMatcher(); var st := HeadState(2);
      Inv(Wild(m.items), 3, st) && Stored(st) && st.hasNext &&
      st.forward && st.p >= |m.items| && st.s >= 3 && st.(forward := false) == HeadState(3)
  {
    var m := HeadMatcher();
    assert Wild(m.items) == [false, true];
    assert Inv(Wild(m.items), 3, HeadState(2)) && Stored(HeadState(2));
  }

  /** Call 2 reports the alignment and turns the search backward. */
  lemma HeadStep2(h: Heap)
    ensures Moves(HeadMatcher(), h, Items(List, HeadElems()), NewContext(true), HeadState(2), HeadState(3), HeadFound(2))
  {
    HeadFacts2();
  }

  /** At `...`: the next span would be too long and the search turns back. */
  lemma HeadFacts3()
    ensures var m := HeadMatcher(); var pre := CursorState(1, 2, false, true, [0, 1], [0, 2], [false, true], [[Bound(1)], [Bound(1)]]);
      Prepared(m, Items(List, HeadElems()), NewContext(true), HeadState(3), pre, [Bound(1)])
  {
    var m := HeadMatcher();
    var st := HeadState(3);
    var pre := CursorState(1, 2, false, true, [0, 1], [0, 2], [false, true], [[Bound(1)], [Bound(1)]]);
    assert Wild(m.items) == [false, true];
    assert Inv(Wild(m.items), 3, st) && Stored(st);
    assert Prelude(2, 3, st) == pre;
    assert Inv(Wild(m.items), 3, pre);
    assert Stored(pre);
    CopyOne(Bound(1));
  }

  /** What the pattern at the cursor makes of the state after the prelude. */
  lemma HeadAfter3()
    requires Inv(Wild(HeadMatcher().items), 3, CursorState(1, 2, false, true, [0, 1], [0, 2], [false, true], [[Bound(1)], [Bound(1)]]))
    ensures var m := HeadMatcher(); var pre := CursorState(1, 2, false, true, [0, 1], [0, 2], [false, true], [[Bound(1)], [Bound(1)]]);
      ProposedSpan(m.items, 3, pre) == None && SpanOut(SpanEnter(2, 3, pre)) == HeadState(4)
  {
    var m := HeadMatcher();
    var pre := CursorState(1, 2, false, true, [0, 1], [0, 2], [false, true], [[Bound(1)], [Bound(1)]]);
    var entered := CursorState(1, 2, true, true, [0, 1], [0, 3], [false, true], [[Bound(1)], []]);
    assert SpanEnter(2, 3, pre) == entered;
    HeadMaxLen();
  }

  /** Call 3 moves the search from state 3 to state 4. */
  lemma HeadStep3(h: Heap)
    ensures Moves(HeadMatcher(), h, Items(List, HeadElems()), NewContext(true), HeadState(3), HeadState(4), HeadFound(3))
  {
    HeadFacts3();
    HeadAfter3();
    var m := HeadMatcher();
    var pre := CursorState(1, 2, false, true, [0, 1], [0, 2], [false, true], [[Bound(1)], [Bound(1)]]);
    AtSpanOut(m, h, Items(List, HeadElems()), NewContext(true), HeadState(3), pre, [Bound(1)]);
  }

  /** Backward at `"@x"`: both cursors step back. */
  lemma HeadFacts4()
    ensures var m := HeadMatcher(); var pre := CursorState(0, 1, false, true, [0, 1], [0, 0], [false, true], [[], []]);
      Prepared(m, Items(List, HeadElems()), NewContext(true), HeadState(4), pre, [NewContext(true)])
  {
    var m := HeadMatcher();
    var st := HeadState(4);
    var pre := CursorState(0, 1, false, true, [0, 1], [0, 0], [false, true], [[], []]);
    assert Wild(m.items) == [false, true];
    assert Inv(Wild(m.items), 3, st) && Stored(st);
    assert Prelude(2, 3, st) == pre;
    assert Inv(Wild(m.items), 3, pre);
    assert Stored(pre);
    CopyOne(NewContext(true));
  }

  /** What the pattern at the cursor makes of the state after the prelude. */
  lemma HeadAfter4()
    ensures var m := HeadMatcher(); var pre := CursorState(0, 1, false, true, [0, 1], [0, 0], [false, true], [[], []]);
      Retreat(pre) == HeadState(5)
  {
    var m := HeadMatcher();
    var pre := CursorState(0, 1, false, true, [0, 1], [0, 0], [false, true], [[], []]);
  }

  /** Call 4 moves the search from state 4 to state 5. */
  lemma HeadStep4(h: Heap)
    ensures Moves(HeadMatcher(), h, Items(List, HeadElems()), NewContext(true), HeadState(4), HeadState(5), HeadFound(4))
  {
    HeadFacts4();
    HeadAfter4();
    var m := HeadMatcher();
    var pre := CursorState(0, 1, false, true, [0, 1], [0, 0], [false, true], [[], []]);
    BindFirst(h, 2);
    assert ElemAt(Items(List, HeadElems()), 1) == Ok(Int(2));
    AtFixedBackward(m, h, Items(List, HeadElems()), NewContext(true), HeadState(4), pre, [NewContext(true)]);
  }

  /** A cursor below 0: the search is exhausted. */
  lemma HeadFacts5()
    ensures var m := HeadMatcher(); var pre := CursorState(-1, 0, false, true, [0, 1], [0, 0], [false, true], [[], []]);
      Prepared(m, Items(List, HeadElems()), NewContext(true), HeadState(5), pre, [NewContext(true)])
  {
    var m := HeadMatcher();
    var st := HeadState(5);
    var pre := CursorState(-1, 0, false, true, [0, 1], [0, 0], [false, true], [[], []]);
    assert Wild(m.items) == [false, true];
    assert Inv(Wild(m.items), 3, st) && Stored(st);
    assert Prelude(2, 3, st) == pre;
    assert Inv(Wild(m.items), 3, pre);
    assert Stored(pre);
    CopyOne(NewContext(true));
  }

  /** What the pattern at the cursor makes of the state after the prelude. */
  lemma HeadAfter5()
    ensures var m := HeadMatcher(); var pre := CursorState(-1, 0, false, true, [0, 1], [0, 0], [false, true], [[], []]);
      pre.(hasNext := false) == HeadState(6)
  {
    var m := HeadMatcher();
    var pre := CursorState(-1, 0, false, true, [0, 1], [0, 0], [false, true], [[], []]);
  }

  /** Call 5 moves the search from state 5 to state 6. */
  lemma HeadStep5(h: Heap)
    ensures Moves(HeadMatcher(), h, Items(List, HeadElems()), NewContext(true), HeadState(5), HeadState(6), HeadFound(5))
  {
    HeadFacts5();
    HeadAfter5();
    var m := HeadMatcher();
    var pre := CursorState(-1, 0, false, true, [0, 1], [0, 0], [false, true], [[], []]);
    AtExhausted(m, h, Items(List, HeadElems()), NewContext(true), HeadState(5), pre, [NewContext(true)]);
  }

  /** The search goes through the trace from state 5 on. */
  lemma HeadFollows5(h: Heap)
    ensures Follows(HeadMatcher(), h, Items(List, HeadElems()), NewContext(true), HeadState, HeadFound, 5, 6)
  {
    HeadStep5(h);
    assert !HeadState(6).hasNext;
  }

  /** The search goes through the trace from state 4 on. */
  lemma HeadFollows4(h: Heap)
    ensures Follows(HeadMatcher(), h, Items(List, HeadElems()), NewContext(true), HeadState, HeadFound, 4, 6)
  {
    HeadStep4(h);
    HeadFollows5(h);
  }

  /** The search goes through the trace from state 3 on. */
  lemma HeadFollows3(h: Heap)
    ensures Follows(HeadMatcher(), h, Items(List, HeadElems()), NewContext(true), HeadState, HeadFound, 3, 6)
  {
    HeadStep3(h);
    HeadFollows4(h);
  }

  /** The search goes through the trace from state 2 on. */
  lemma HeadFollows2(h: Heap)
    ensures Follows(HeadMatcher(), h, Items(List, HeadElems()), NewContext(true), HeadState, HeadFound, 2, 6)
  {
    HeadStep2(h);
    HeadFollows3(h);
  }

  /** The search goes through the trace from state 1 on. */
  lemma HeadFollows1(h: Heap)
    ensures Follows(HeadMatcher(), h, Items(List, HeadElems()), NewContext(true), HeadState, HeadFound, 1, 6)
  {
    HeadStep1(h);
    HeadFollows2(h);
  }

  /** The search goes through the trace from state 0 on. */
  lemma HeadFollows0(h: Heap)
    ensures Follows(HeadMatcher(), h, Items(List, HeadElems()), NewContext(true), HeadState, HeadFound, 0, 6)
  {
    HeadStep0(h);
    HeadFollows1(h);
  }

  /** What the trace collects from its state 5 on. */
  lemma HeadCollectedFrom5()
    ensures Gathered(Reported(NewContext(true), HeadState, HeadFound), 5, 6) == []
  {
    var here := Reported(NewContext(true), HeadState, HeadFound);
    assert !HeadFound(5);
    assert here(5) == [];
    assert Gathered(here, 5, 6) == [];
  }

  /** What the trace collects from its state 4 on. */
  lemma HeadCollectedFrom4()
    ensures Gathered(Reported(NewContext(true), HeadState, HeadFound), 4, 6) == []
  {
    var here := Reported(NewContext(true), HeadState, HeadFound);
    HeadCollectedFrom5();
    assert !HeadFound(4);
    assert here(4) == [];
    assert Gathered(here, 4, 6) == [];
  }

  /** What the trace collects from its state 3 on. */
  lemma HeadCollectedFrom3()
    ensures Gathered(Reported(NewContext(true), HeadState, HeadFound), 3, 6) == []
  {
    var here := Reported(NewContext(true), HeadState, HeadFound);
    HeadCollectedFrom4();
    assert !HeadFound(3);
    assert here(3) == [];
    assert Gathered(here, 3, 6) == [];
  }

  /** What the trace collects from its state 2 on. */
  lemma HeadCollectedFrom2()
    ensures Gathered(Reported(NewContext(true), HeadState, HeadFound), 2, 6) == [Bound(1)]
  {
    var here := Reported(NewContext(true), HeadState, HeadFound);
    HeadCollectedFrom3();
    assert HeadFound(2) && HeadState(2).p == 2;
    assert SearchState.Current(NewContext(true), HeadState(2)) == [Bound(1)];
    assert here(2) == [Bound(1)];
    assert Gathered(here, 2, 6) == [Bound(1)];
  }

  /** What the trace collects from its state 1 on. */
  lemma HeadCollectedFrom1()
    ensures Gathered(Reported(NewContext(true), HeadState, HeadFound), 1, 6) == [Bound(1)]
  {
    var here := Reported(NewContext(true), HeadState, HeadFound);
    HeadCollectedFrom2();
    assert !HeadFound(1);
    assert here(1) == [];
    assert Gathered(here, 1, 6) == [Bound(1)];
  }

  /** What the trace collects from its state 0 on. */
  lemma HeadCollectedFrom0()
    ensures Gathered(Reported(NewContext(true), HeadState, HeadFound), 0, 6) == [Bound(1)]
  {
    var here := Reported(NewContext(true), HeadState, HeadFound);
    HeadCollectedFrom1();
    assert !HeadFound(0);
    assert here(0) == [];
    assert Gathered(here, 0, 6) == [Bound(1)];
  }

  /** What the trace collects, from its first state to its last. */
  lemma HeadCollected()
    ensures Collected(NewContext(true), HeadState, HeadFound, 0, 6) == [Bound(1)]
  {
    HeadCollectedFrom0();
  }

  /** The trace starts at the fresh cursor. */
  lemma HeadStart()
    ensures HeadState(0) == Start(|HeadMatcher().items|)
  {
    StartLiteral(2, [0, 0], [true, true], [[], []]);
  }

  /** The search follows the trace from the fresh cursor to the exhausted
      one and returns what it collects. */
  lemma HeadSearch(h: Heap)
    ensures Eval(HeadMatcher(), h, Coll(List, HeadElems()), NewContext(true)) ==
            Ok(Outcome(NewContext(true), [Bound(1)], Marks(1, false)))
  {
    HeadFollows0(h);
    HeadStart();
    SequenceAlong(HeadMatcher(), h, HeadElems(), NewContext(true), HeadState, HeadFound, 6);
    HeadCollected();
  }

  /** Line 71 of the tests: `["@x", ...]` on `[1, 2, 3]` gives exactly
      one context, binding `x` to the first element, however many elements
      the list wildcard then takes. */
  lemma WildcardThenEllipsisOnThree(h: Heap)
    ensures AsMatcher(PList([PStr("@x"), PEllipsis])) == Ok(HeadMatcher())
    ensures Eval(HeadMatcher(), h, Coll(List, [Int(1), Int(2), Int(3)]), NewContext(true)) ==
            Ok(Outcome(NewContext(true), [Bound(1)], [false]))
  {
    ListPatterns();
    HeadSearch(h);
    assert Marks(1, false) == [false];
  }

  // ---------------------------------------------------------------------
  // `[..., "@x", ...]` on `[1, 2, 3]`

  function SpreadMatcher(): Matcher
  {
    Sequence([ListWildcard(""), Wildcard("x"), ListWildcard("")])
  }

  function SpreadElems(): seq<Value>
  {
    [Int(1), Int(2), Int(3)]
  }

  /** Each list wildcard may take at most two of the three elements. */
  lemma SpreadMaxLen()
    ensures MaxLen(SpreadMatcher().items, 3) == 2
  {
    var items := SpreadMatcher().items;
    assert NumFixed(items[1..][1..][1..]) == 0;
    assert NumFixed(items[1..][1..]) == 0;
    assert NumFixed(items[1..]) == 1;
  }

  /** The cursor of `[..., "@x", ...]` on `[1, 2, 3]` that the `i`-th call of `match_next` starts
      from, counting from 0; the last one is exhausted. */
  function SpreadState(i: nat): CursorState
  {
    if i == 0 then SpreadCursor0()
    else if i == 1 then SpreadCursor1()
    else if i == 2 then SpreadCursor2()
    else if i == 3 then SpreadCursor3()
    else if i == 4 then SpreadCursor4()
    else if i == 5 then SpreadCursor5()
    else if i == 6 then SpreadCursor6()
    else if i == 7 then SpreadCursor7()
    else if i == 8 then SpreadCursor8()
    else if i == 9 then SpreadCursor9()
    else if i == 10 then SpreadCursor10()
    else if i == 11 then SpreadCursor11()
    else if i == 12 then SpreadCursor12()
    else if i == 13 then SpreadCursor13()
    else if i == 14 then SpreadCursor14()
    else if i == 15 then SpreadCursor15()
    else if i == 16 then SpreadCursor16()
    else if i == 17 then SpreadCursor17()
    else if i == 18 then SpreadCursor18()
    else if i == 19 then SpreadCursor19()
    else SpreadCursor20()
  }

  function SpreadCursor0(): CursorState { CursorState(0, 0, true, true, [0, 0, 0], [0, 0, 0], [true, true, true], [[], [], []]) }
  function SpreadCursor1(): CursorState { CursorState(1, 0, true, true, [0, 0, 0], [0, 0, 0], [true, true, true], [[NewContext(true)], [], []]) }
  function SpreadCursor2(): CursorState { CursorState(2, 1, true, true, [0, 0, 0], [0, 0, 0], [true, false, true], [[NewContext(true)], [Bound(1)], []]) }
  function SpreadCursor3(): CursorState { CursorState(3, 3, true, true, [0, 0, 1], [0, 0, 2], [true, false, true], [[NewContext(true)], [Bound(1)], [Bound(1)]]) }
  function SpreadCursor4(): CursorState { CursorState(3, 3, false, true, [0, 0, 1], [0, 0, 2], [true, false, true], [[NewContext(true)], [Bound(1)], [Bound(1)]]) }
  function SpreadCursor5(): CursorState { CursorState(1, 1, false, true, [0, 0, 1], [0, 0, 0], [true, false, true], [[NewContext(true)], [], []]) }
  function SpreadCursor6(): CursorState { CursorState(0, 0, false, true, [0, 0, 1], [0, 0, 0], [true, false, true], [[NewContext(true)], [], []]) }
  function SpreadCursor7(): CursorState { CursorState(1, 1, true, true, [0, 0, 1], [1, 0, 0], [true, false, true], [[NewContext(true)], [], []]) }
  function SpreadCursor8(): CursorState { CursorState(2, 2, true, true, [0, 0, 1], [1, 0, 0], [true, false, true], [[NewContext(true)], [Bound(2)], []]) }
  function SpreadCursor9(): CursorState { CursorState(3, 3, true, true, [0, 0, 2], [1, 0, 1], [true, false, true], [[NewContext(true)], [Bound(2)], [Bound(2)]]) }
  function SpreadCursor10(): CursorState { CursorState(3, 3, false, true, [0, 0, 2], [1, 0, 1], [true, false, true], [[NewContext(true)], [Bound(2)], [Bound(2)]]) }
  function SpreadCursor11(): CursorState { CursorState(1, 2, false, true, [0, 0, 2], [1, 0, 0], [true, false, true], [[NewContext(true)], [], []]) }
  function SpreadCursor12(): CursorState { CursorState(0, 1, false, true, [0, 0, 2], [1, 0, 0], [true, false, true], [[NewContext(true)], [], []]) }
  function SpreadCursor13(): CursorState { CursorState(1, 2, true, true, [0, 0, 2], [2, 0, 0], [true, false, true], [[NewContext(true)], [], []]) }
  function SpreadCursor14(): CursorState { CursorState(2, 3, true, true, [0, 0, 2], [2, 0, 0], [true, false, true], [[NewContext(true)], [Bound(3)], []]) }
  function SpreadCursor15(): CursorState { CursorState(3, 3, true, true, [0, 0, 3], [2, 0, 0], [true, false, true], [[NewContext(true)], [Bound(3)], [Bound(3)]]) }
  function SpreadCursor16(): CursorState { CursorState(3, 3, false, true, [0, 0, 3], [2, 0, 0], [true, false, true], [[NewContext(true)], [Bound(3)], [Bound(3)]]) }
  function SpreadCursor17(): CursorState { CursorState(1, 3, false, true, [0, 0, 3], [2, 0, 0], [true, false, true], [[NewContext(true)], [], []]) }
  function SpreadCursor18(): CursorState { CursorState(0, 2, false, true, [0, 0, 3], [2, 0, 0], [true, false, true], [[NewContext(true)], [], []]) }
  function SpreadCursor19(): CursorState { CursorState(-1, 0, false, true, [0, 0, 3], [0, 0, 0], [true, false, true], [[], [], []]) }
  function SpreadCursor20(): CursorState { CursorState(-1, 0, false, false, [0, 0, 3], [0, 0, 0], [true, false, true], [[], [], []]) }

  /** The calls of `match_next` that report a complete alignment. */
  predicate SpreadFound(i: nat)
  {
    i == 3 || i == 9 || i == 15
  }

  /** At `...`: the span proposed is matched and the search advances past it. */
  lemma SpreadFacts0()
    ensures var m := SpreadMatcher(); var pre := CursorState(0, 0, true, true, [0, 0, 0], [0, 0, 0], [true, true, true], [[], [], []]);
      Prepared(m, Items(List, SpreadElems()), NewContext(true), SpreadState(0), pre, [NewContext(true)])
  {
    var m := SpreadMatcher();
    var st := SpreadState(0);
    var pre := CursorState(0, 0, true, true, [0, 0, 0], [0, 0, 0], [true, true, true], [[], [], []]);
    assert Wild(m.items) == [true, false, true];
    assert Inv(Wild(m.items), 3, st) && Stored(st);
    assert Prelude(3, 3, st) == pre;
    assert Inv(Wild(m.items), 3, pre);
    assert Stored(pre);
    CopyOne(NewContext(true));
  }

  /** What the pattern at the cursor makes of the state after the prelude. */
  lemma SpreadAfter0()
    requires Inv(Wild(SpreadMatcher().items), 3, CursorState(0, 0, true, true, [0, 0, 0], [0, 0, 0], [true, true, true], [[], [], []]))
    ensures var m := SpreadMatcher(); var pre := CursorState(0, 0, true, true, [0, 0, 0], [0, 0, 0], [true, true, true], [[], [], []]);
      ProposedSpan(m.items, 3, pre) == Some((0, 0)) &&
      SliceOf(Items(List, SpreadElems()), 0, 0) == Ok(Coll(List, [])) &&
      SpanAfter(SpanEnter(3, 3, pre), [NewContext(true)]) == SpreadState(1)
  {
    var m := SpreadMatcher();
    var pre := CursorState(0, 0, true, true, [0, 0, 0], [0, 0, 0], [true, true, true], [[], [], []]);
    var entered := CursorState(0, 0, true, true, [0, 0, 0], [0, 0, 0], [true, true, true], [[], [], []]);
    assert SpanEnter(3, 3, pre) == entered;
    SpreadMaxLen();
    assert SpreadElems()[0..0] == [];
    assert Successful([NewContext(true)]) == [NewContext(true)];
    assert entered.ctxs[0] + [NewContext(true)] == [NewContext(true)];
  }

  /** Call 0 moves the search from state 0 to state 1. */
  lemma SpreadStep0(h: Heap)
    ensures Moves(SpreadMatcher(), h, Items(List, SpreadElems()), NewContext(true), SpreadState(0), SpreadState(1), SpreadFound(0))
  {
    SpreadFacts0();
    SpreadAfter0();
    var m := SpreadMatcher();
    var pre := CursorState(0, 0, true, true, [0, 0, 0], [0, 0, 0], [true, true, true], [[], [], []]);
    SkipAny(h, Coll(List, []), NewContext(true));
    AtSpanTry(m, h, Items(List, SpreadElems()), NewContext(true), SpreadState(0), pre, [NewContext(true)], 0, 0, Coll(List, []), [NewContext(true)]);
  }

  /** Forward at `"@x"`: the element is matched and the search advances. */
  lemma SpreadFacts1()
    ensures var m := SpreadMatcher(); var pre := CursorState(1, 0, true, true, [0, 0, 0], [0, 0, 0], [true, true, true], [[NewContext(true)], [], []]);
      Prepared(m, Items(List, SpreadElems()), NewContext(true), SpreadState(1), pre, [NewContext(true)])
  {
    var m := SpreadMatcher();
    var st := SpreadState(1);
    var pre := CursorState(1, 0, true, true, [0, 0, 0], [0, 0, 0], [true, true, true], [[NewContext(true)], [], []]);
    assert Wild(m.items) == [true, false, true];
    assert Inv(Wild(m.items), 3, st) && Stored(st);
    assert Prelude(3, 3, st) == pre;
    assert Inv(Wild(m.items), 3, pre);
    assert Stored(pre);
    CopyOne(NewContext(true));
  }

  /** What the pattern at the cursor makes of the state after the prelude. */
  lemma SpreadAfter1()
    ensures var m := SpreadMatcher(); var pre := CursorState(1, 0, true, true, [0, 0, 0], [0, 0, 0], [true, true, true], [[NewContext(true)], [], []]);
      FixedAfter(pre, [Bound(1)]) == SpreadState(2)
  {
    var m := SpreadMatcher();
    var pre := CursorState(1, 0, true, true, [0, 0, 0], [0, 0, 0], [true, true, true], [[NewContext(true)], [], []]);
    assert Successful([Bound(1)]) == [Bound(1)];
  }

  /** Call 1 moves the search from state 1 to state 2. */
  lemma SpreadStep1(h: Heap)
    ensures Moves(SpreadMatcher(), h, Items(List, SpreadElems()), NewContext(true), SpreadState(1), SpreadState(2), SpreadFound(1))
  {
    SpreadFacts1();
    SpreadAfter1();
    var m := SpreadMatcher();
    var pre := CursorState(1, 0, true, true, [0, 0, 0], [0, 0, 0], [true, true, true], [[NewContext(true)], [], []]);
    BindFirst(h, 1);
    assert ElemAt(Items(List, SpreadElems()), 0) == Ok(Int(1));
    AtFixedForward(m, h, Items(List, SpreadElems()), NewContext(true), SpreadState(1), pre, [NewContext(true)], Int(1), [Bound(1)]);
  }

  /** At `...`: the span proposed is matched and the search advances past it. */
  lemma SpreadFacts2()
    ensures var m := SpreadMatcher(); var pre := CursorState(2, 1, true, true, [0, 0, 0], [0, 0, 0], [true, false, true], [[NewContext(true)], [Bound(1)], []]);
      Prepared(m, Items(List, SpreadElems()), NewContext(true), SpreadState(2), pre, [Bound(1)])
  {
    var m := SpreadMatcher();
    var st := SpreadState(2);
    var pre := CursorState(2, 1, true, true, [0, 0, 0], [0, 0, 0], [true, false, true], [[NewContext(true)], [Bound(1)], []]);
    assert Wild(m.items) == [true, false, true];
    assert Inv(Wild(m.items), 3, st) && Stored(st);
    assert Prelude(3, 3, st) == pre;
    assert Inv(Wild(m.items), 3, pre);
    assert Stored(pre);
    CopyOne(Bound(1));
  }

  /** What the pattern at the cursor makes of the state after the prelude. */
  lemma SpreadAfter2()
    requires Inv(Wild(SpreadMatcher().items), 3, CursorState(2, 1, true, true, [0, 0, 0], [0, 0, 0], [true, false, true], [[NewContext(true)], [Bound(1)], []]))
    ensures var m := SpreadMatcher(); var pre := CursorState(2, 1, true, true, [0, 0, 0], [0, 0, 0], [true, false, true], [[NewContext(true)], [Bound(1)], []]);
      ProposedSpan(m.items, 3, pre) == Some((1, 2)) &&
      SliceOf(Items(List, SpreadElems()), 1, 3) == Ok(Coll(List, [Int(2), Int(3)])) &&
      SpanAfter(SpanEnter(3, 3, pre), [Bound(1)]) == SpreadState(3)
  {
    var m := SpreadMatcher();
    var pre := CursorState(2, 1, true, true, [0, 0, 0], [0, 0, 0], [true, false, true], [[NewContext(true)], [Bound(1)], []]);
    var entered := CursorState(2, 1, true, true, [0, 0, 1], [0, 0, 2], [true, false, true], [[NewContext(true)], [Bound(1)], []]);
    assert SpanEnter(3, 3, pre) == entered;
    SpreadMaxLen();
    assert SpreadElems()[1..3] == [Int(2), Int(3)];
    assert Successful([Bound(1)]) == [Bound(1)];
    assert entered.ctxs[2] + [Bound(1)] == [Bound(1)];
  }

  /** Call 2 moves the search from state 2 to state 3. */
  lemma SpreadStep2(h: Heap)
    ensures Moves(SpreadMatcher(), h, Items(List, SpreadElems()), NewContext(true), SpreadState(2), SpreadState(3), SpreadFound(2))
  {
    SpreadFacts2();
    SpreadAfter2();
    var m := SpreadMatcher();
    var pre := CursorState(2, 1, true, true, [0, 0, 0], [0, 0, 0], [true, false, true], [[NewContext(true)], [Bound(1)], []]);
    SkipAny(h, Coll(List, [Int(2), Int(3)]), Bound(1));
    AtSpanTry(m, h, Items(List, SpreadElems()), NewContext(true), SpreadState(2), pre, [Bound(1)], 1, 2, Coll(List, [Int(2), Int(3)]), [Bound(1)]);
  }

  /** The alignment is complete: its contexts are collected and the search turns backward. */
  lemma SpreadFacts3()
    ensures var m := SpreadMatcher(); var st := SpreadState(3);
      Inv(Wild(m.items), 3, st) && Stored(st) && st.hasNext &&
      st.forward && st.p >= |m.items| && st.s >= 3 && st.(forward := false) == SpreadState(4)
  {
    var m := SpreadMatcher();
    assert Wild(m.items) == [true, false, true];
    assert Inv(Wild(m.items), 3, SpreadState(3)) && Stored(SpreadState(3));
  }

  /** Call 3 reports the alignment and turns the search backward. */
  lemma SpreadStep3(h: Heap)
    ensures Moves(SpreadMatcher(), h, Items(List, SpreadElems()), NewContext(true), SpreadState(3), SpreadState(4), SpreadFound(3))
  {
    SpreadFacts3();
  }

  /** At `...`: the next span would be too long and the search turns back. */
  lemma SpreadFacts4()
    ensures var m := SpreadMatcher(); var pre := CursorState(2, 2, false, true, [0, 0, 1], [0, 0, 2], [true, false, true], [[NewContext(true)], [Bound(1)], [Bound(1)]]);
      Prepared(m, Items(List, SpreadElems()), NewContext(true), SpreadState(4), pre, [Bound(1)])
  {
    var m := SpreadMatcher();
    var st := SpreadState(4);
    var pre := CursorState(2, 2, false, true, [0, 0, 1], [0, 0, 2], [true, false, true], [[NewContext(true)], [Bound(1)], [Bound(1)]]);
    assert Wild(m.items) == [true, false, true];
    assert Inv(Wild(m.items), 3, st) && Stored(st);
    assert Prelude(3, 3, st) == pre;
    assert Inv(Wild(m.items), 3, pre);
    assert Stored(pre);
    CopyOne(Bound(1));
  }

  /** What the pattern at the cursor makes of the state after the prelude. */
  lemma SpreadAfter4()
    requires Inv(Wild(SpreadMatcher().items), 3, CursorState(2, 2, false, true, [0, 0, 1], [0, 0, 2], [true, false, true], [[NewContext(true)], [Bound(1)], [Bound(1)]]))
    ensures var m := SpreadMatcher(); var pre := CursorState(2, 2, false, true, [0, 0, 1], [0, 0, 2], [true, false, true], [[NewContext(true)], [Bound(1)], [Bound(1)]]);
      ProposedSpan(m.items, 3, pre) == None && SpanOut(SpanEnter(3, 3, pre)) == SpreadState(5)
  {
    var m := SpreadMatcher();
    var pre := CursorState(2, 2, false, true, [0, 0, 1], [0, 0, 2], [true, false, true], [[NewContext(true)], [Bound(1)], [Bound(1)]]);
    var entered := CursorState(2, 2, true, true, [0, 0, 1], [0, 0, 3], [true, false, true], [[NewContext(true)], [Bound(1)], []]);
    assert SpanEnter(3, 3, pre) == entered;
    SpreadMaxLen();
  }

  /** Call 4 moves the search from state 4 to state 5. */
  lemma SpreadStep4(h: Heap)
    ensures Moves(SpreadMatcher(), h, Items(List, SpreadElems()), NewContext(true), SpreadState(4), SpreadState(5), SpreadFound(4))
  {
    SpreadFacts4();
    SpreadAfter4();
    var m := SpreadMatcher();
    var pre := CursorState(2, 2, false, true, [0, 0, 1], [0, 0, 2], [true, false, true], [[NewContext(true)], [Bound(1)], [Bound(1)]]);
    AtSpanOut(m, h, Items(List, SpreadElems()), NewContext(true), SpreadState(4), pre, [Bound(1)]);
  }

  /** Backward at `"@x"`: both cursors step back. */
  lemma SpreadFacts5()
    ensures var m := SpreadMatcher(); var pre := CursorState(1, 1, false, true, [0, 0, 1], [0, 0, 0], [true, false, true], [[NewContext(true)], [], []]);
      Prepared(m, Items(List, SpreadElems()), NewContext(true), SpreadState(5), pre, [NewContext(true)])
  {
    var m := SpreadMatcher();
    var st := SpreadState(5);
    var pre := CursorState(1, 1, false, true, [0, 0, 1], [0, 0, 0], [true, false, true], [[NewContext(true)], [], []]);
    assert Wild(m.items) == [true, false, true];
    assert Inv(Wild(m.items), 3, st) && Stored(st);
    assert Prelude(3, 3, st) == pre;
    assert Inv(Wild(m.items), 3, pre);
    assert Stored(pre);
    CopyOne(NewContext(true));
  }

  /** What the pattern at the cursor makes of the state after the prelude. */
  lemma SpreadAfter5()
    ensures var m := SpreadMatcher(); var pre := CursorState(1, 1, false, true, [0, 0, 1], [0, 0, 0], [true, false, true], [[NewContext(true)], [], []]);
      Retreat(pre) == SpreadState(6)
  {
    var m := SpreadMatcher();
    var pre := CursorState(1, 1, false, true, [0, 0, 1], [0, 0, 0], [true, false, true], [[NewContext(true)], [], []]);
  }

  /** Call 5 moves the search from state 5 to state 6. */
  lemma SpreadStep5(h: Heap)
    ensures Moves(SpreadMatcher(), h, Items(List, SpreadElems()), NewContext(true), SpreadState(5), SpreadState(6), SpreadFound(5))
  {
    SpreadFacts5();
    SpreadAfter5();
    var m := SpreadMatcher();
    var pre := CursorState(1, 1, false, true, [0, 0, 1], [0, 0, 0], [true, false, true], [[NewContext(true)], [], []]);
    BindFirst(h, 2);
    assert ElemAt(Items(List, SpreadElems()), 1) == Ok(Int(2));
    AtFixedBackward(m, h, Items(List, SpreadElems()), NewContext(true), SpreadState(5), pre, [NewContext(true)]);
  }

  /** At `...`: the span proposed is matched and the search advances past it. */
  lemma SpreadFacts6()
    ensures var m := SpreadMatcher(); var pre := CursorState(0, 0, false, true, [0, 0, 1], [0, 0, 0], [true, false, true], [[NewContext(true)], [], []]);
      Prepared(m, Items(List, SpreadElems()), NewContext(true), SpreadState(6), pre, [NewContext(true)])
  {
    var m := SpreadMatcher();
    var st := SpreadState(6);
    var pre := CursorState(0, 0, false, true, [0, 0, 1], [0, 0, 0], [true, false, true], [[NewContext(true)], [], []]);
    assert Wild(m.items) == [true, false, true];
    assert Inv(Wild(m.items), 3, st) && Stored(st);
    assert Prelude(3, 3, st) == pre;
    assert Inv(Wild(m.items), 3, pre);
    assert Stored(pre);
    CopyOne(NewContext(true));
  }

  /** What the pattern at the cursor makes of the state after the prelude. */
  lemma SpreadAfter6()
    requires Inv(Wild(SpreadMatcher().items), 3, CursorState(0, 0, false, true, [0, 0, 1], [0, 0, 0], [true, false, true], [[NewContext(true)], [], []]))
    ensures var m := SpreadMatcher(); var pre := CursorState(0, 0, false, true, [0, 0, 1], [0, 0, 0], [true, false, true], [[NewContext(true)], [], []]);
      ProposedSpan(m.items, 3, pre) == Some((0, 1)) &&
      SliceOf(Items(List, SpreadElems()), 0, 1) == Ok(Coll(List, [Int(1)])) &&
      SpanAfter(SpanEnter(3, 3, pre), [NewContext(true)]) == SpreadState(7)
  {
    var m := SpreadMatcher();
    var pre := CursorState(0, 0, false, true, [0, 0, 1], [0, 0, 0], [true, false, true], [[NewContext(true)], [], []]);
    var entered := CursorState(0, 0, true, true, [0, 0, 1], [1, 0, 0], [true, false, true], [[], [], []]);
    assert SpanEnter(3, 3, pre) == entered;
    SpreadMaxLen();
    assert SpreadElems()[0..1] == [Int(1)];
    assert Successful([NewContext(true)]) == [NewContext(true)];
    assert entered.ctxs[0] + [NewContext(true)] == [NewContext(true)];
  }

  /** Call 6 moves the search from state 6 to state 7. */
  lemma SpreadStep6(h: Heap)
    ensures Moves(SpreadMatcher(), h, Items(List, SpreadElems()), NewContext(true), SpreadState(6), SpreadState(7), SpreadFound(6))
  {
    SpreadFacts6();
    SpreadAfter6();
    var m := SpreadMatcher();
    var pre := CursorState(0, 0, false, true, [0, 0, 1], [0, 0, 0], [true, false, true], [[NewContext(true)], [], []]);
    SkipAny(h, Coll(List, [Int(1)]), NewContext(true));
    AtSpanTry(m, h, Items(List, SpreadElems()), NewContext(true), SpreadState(6), pre, [NewContext(true)], 0, 1, Coll(List, [Int(1)]), [NewContext(true)]);
  }

  /** Forward at `"@x"`: the element is matched and the search advances. */
  lemma SpreadFacts7()
    ensures var m := SpreadMatcher(); var pre := CursorState(1, 1, true, true, [0, 0, 1], [1, 0, 0], [true, false, true], [[NewContext(true)], [], []]);
      Prepared(m, Items(List, SpreadElems()), NewContext(true), SpreadState(7), pre, [NewContext(true)])
  {
    var m := SpreadMatcher();
    var st := SpreadState(7);
    var pre := CursorState(1, 1, true, true, [0, 0, 1], [1, 0, 0], [true, false, true], [[NewContext(true)], [], []]);
    assert Wild(m.items) == [true, false, true];
    assert Inv(Wild(m.items), 3, st) && Stored(st);
    assert Prelude(3, 3, st) == pre;
    assert Inv(Wild(m.items), 3, pre);
    assert Stored(pre);
    CopyOne(NewContext(true));
  }

  /** What the pattern at the cursor makes of the state after the prelude. */
  lemma SpreadAfter7()
    ensures var m := SpreadMatcher(); var pre := CursorState(1, 1, true, true, [0, 0, 1], [1, 0, 0], [true, false, true], [[NewContext(true)], [], []]);
      FixedAfter(pre, [Bound(2)]) == SpreadState(8)
  {
    var m := SpreadMatcher();
    var pre := CursorState(1, 1, true, true, [0, 0, 1], [1, 0, 0], [true, false, true], [[NewContext(true)], [], []]);
    assert Successful([Bound(2)]) == [Bound(2)];
  }

  /** Call 7 moves the search from state 7 to state 8. */
  lemma SpreadStep7(h: Heap)
    ensures Moves(SpreadMatcher(), h, Items(List, SpreadElems()), NewContext(true), SpreadState(7), SpreadState(8), SpreadFound(7))
  {
    SpreadFacts7();
    SpreadAfter7();
    var m := SpreadMatcher();
    var pre := CursorState(1, 1, true, true, [0, 0, 1], [1, 0, 0], [true, false, true], [[NewContext(true)], [], []]);
    BindFirst(h, 2);
    assert ElemAt(Items(List, SpreadElems()), 1) == Ok(Int(2));
    AtFixedForward(m, h, Items(List, SpreadElems()), NewContext(true), SpreadState(7), pre, [NewContext(true)], Int(2), [Bound(2)]);
  }

  /** At `...`: the span proposed is matched and the search advances past it. */
  lemma SpreadFacts8()
    ensures var m := SpreadMatcher(); var pre := CursorState(2, 2, true, true, [0, 0, 1], [1, 0, 0], [true, false, true], [[NewContext(true)], [Bound(2)], []]);
      Prepared(m, Items(List, SpreadElems()), NewContext(true), SpreadState(8), pre, [Bound(2)])
  {
    var m := SpreadMatcher();
    var st := SpreadState(8);
    var pre := CursorState(2, 2, true, true, [0, 0, 1], [1, 0, 0], [true, false, true], [[NewContext(true)], [Bound(2)], []]);
    assert Wild(m.items) == [true, false, true];
    assert Inv(Wild(m.items), 3, st) && Stored(st);
    assert Prelude(3, 3, st) == pre;
    assert Inv(Wild(m.items), 3, pre);
    assert Stored(pre);
    CopyOne(Bound(2));
  }

  /** What the pattern at the cursor makes of the state after the prelude. */
  lemma SpreadAfter8()
    requires Inv(Wild(SpreadMatcher().items), 3, CursorState(2, 2, true, true, [0, 0, 1], [1, 0, 0], [true, false, true], [[NewContext(true)], [Bound(2)], []]))
    ensures var m := SpreadMatcher(); var pre := CursorState(2, 2, true, true, [0, 0, 1], [1, 0, 0], [true, false, true], [[NewContext(true)], [Bound(2)], []]);
      ProposedSpan(m.items, 3, pre) == Some((2, 1)) &&
      SliceOf(Items(List, SpreadElems()), 2, 3) == Ok(Coll(List, [Int(3)])) &&
      SpanAfter(SpanEnter(3, 3, pre), [Bound(2)]) == SpreadState(9)
  {
    var m := SpreadMatcher();
    var pre := CursorState(2, 2, true, true, [0, 0, 1], [1, 0, 0], [true, false, true], [[NewContext(true)], [Bound(2)], []]);
    var entered := CursorState(2, 2, true, true, [0, 0, 2], [1, 0, 1], [true, false, true], [[NewContext(true)], [Bound(2)], []]);
    assert SpanEnter(3, 3, pre) == entered;
    SpreadMaxLen();
    assert SpreadElems()[2..3] == [Int(3)];
    assert Successful([Bound(2)]) == [Bound(2)];
    assert entered.ctxs[2] + [Bound(2)] == [Bound(2)];
  }

  /** Call 8 moves the search from state 8 to state 9. */
  lemma SpreadStep8(h: Heap)
    ensures Moves(SpreadMatcher(), h, Items(List, SpreadElems()), NewContext(true), SpreadState(8), SpreadState(9), SpreadFound(8))
  {
    SpreadFacts8();
    SpreadAfter8();
    var m := SpreadMatcher();
    var pre := CursorState(2, 2, true, true, [0, 0, 1], [1, 0, 0], [true, false, true], [[NewContext(true)], [Bound(2)], []]);
    SkipAny(h, Coll(List, [Int(3)]), Bound(2));
    AtSpanTry(m, h, Items(List, SpreadElems()), NewContext(true), SpreadState(8), pre, [Bound(2)], 2, 1, Coll(List, [Int(3)]), [Bound(2)]);
  }

  /** The alignment is complete: its contexts are collected and the search turns backward. */
  lemma SpreadFacts9()
    ensures var m := SpreadMatcher(); var st := SpreadState(9);
      Inv(Wild(m.items), 3, st) && Stored(st) && st.hasNext &&
      st.forward && st.p >= |m.items| && st.s >= 3 && st.(forward := false) == SpreadState(10)
  {
    var m := SpreadMatcher();
    assert Wild(m.items) == [true, false, true];
    assert Inv(Wild(m.items), 3, SpreadState(9)) && Stored(SpreadState(9));
  }

  /** Call 9 reports the alignment and turns the search backward. */
  lemma SpreadStep9(h: Heap)
    ensures Moves(SpreadMatcher(), h, Items(List, SpreadElems()), NewContext(true), SpreadState(9), SpreadState(10), SpreadFound(9))
  {
    SpreadFacts9();
  }

  /** At `...`: the next span would be too long and the search turns back. */
  lemma SpreadFacts10()
    ensures var m := SpreadMatcher(); var pre := CursorState(2, 2, false, true, [0, 0, 2], [1, 0, 1], [true, false, true], [[NewContext(true)], [Bound(2)], [Bound(2)]]);
      Prepared(m, Items(List, SpreadElems()), NewContext(true), SpreadState(10), pre, [Bound(2)])
  {
    var m := SpreadMatcher();
    var st := SpreadState(10);
    var pre := CursorState(2, 2, false, true, [0, 0, 2], [1, 0, 1], [true, false, true], [[NewContext(true)], [Bound(2)], [Bound(2)]]);
    assert Wild(m.items) == [true, false, true];
    assert Inv(Wild(m.items), 3, st) && Stored(st);
    assert Prelude(3, 3, st) == pre;
    assert Inv(Wild(m.items), 3, pre);
    assert Stored(pre);
    CopyOne(Bound(2));
  }

  /** What the pattern at the cursor makes of the state after the prelude. */
  lemma SpreadAfter10()
    requires Inv(Wild(SpreadMatcher().items), 3, CursorState(2, 2, false, true, [0, 0, 2], [1, 0, 1], [true, false, true], [[NewContext(true)], [Bound(2)], [Bound(2)]]))
    ensures var m := SpreadMatcher(); var pre := CursorState(2, 2, false, true, [0, 0, 2], [1, 0, 1], [true, false, true], [[NewContext(true)], [Bound(2)], [Bound(2)]]);
      ProposedSpan(m.items, 3, pre) == None && SpanOut(SpanEnter(3, 3, pre)) == SpreadState(11)
  {
    var m := SpreadMatcher();
    var pre := CursorState(2, 2, false, true, [0, 0, 2], [1, 0, 1], [true, false, true], [[NewContext(true)], [Bound(2)], [Bound(2)]]);
    var entered := CursorState(2, 2, true, true, [0, 0, 2], [1, 0, 2], [true, false, true], [[NewContext(true)], [Bound(2)], []]);
    assert SpanEnter(3, 3, pre) == entered;
    SpreadMaxLen();
  }

  /** Call 10 moves the search from state 10 to state 11. */
  lemma SpreadStep10(h: Heap)
    ensures Moves(SpreadMatcher(), h, Items(List, SpreadElems()), NewContext(true), SpreadState(10), SpreadState(11), SpreadFound(10))
  {
    SpreadFacts10();
    SpreadAfter10();
    var m := SpreadMatcher();
    var pre := CursorState(2, 2, false, true, [0, 0, 2], [1, 0, 1], [true, false, true], [[NewContext(true)], [Bound(2)], [Bound(2)]]);
    AtSpanOut(m, h, Items(List, SpreadElems()), NewContext(true), SpreadState(10), pre, [Bound(2)]);
  }

  /** Backward at `"@x"`: both cursors step back. */
  lemma SpreadFacts11()
    ensures var m := SpreadMatcher(); var pre := CursorState(1, 2, false, true, [0, 0, 2], [1, 0, 0], [true, false, true], [[NewContext(true)], [], []]);
      Prepared(m, Items(List, SpreadElems()), NewContext(true), SpreadState(11), pre, [NewContext(true)])
  {
    var m := SpreadMatcher();
    var st := SpreadState(11);
    var pre := CursorState(1, 2, false, true, [0, 0, 2], [1, 0, 0], [true, false, true], [[NewContext(true)], [], []]);
    assert Wild(m.items) == [true, false, true];
    assert Inv(Wild(m.items), 3, st) && Stored(st);
    assert Prelude(3, 3, st) == pre;
    assert Inv(Wild(m.items), 3, pre);
    assert Stored(pre);
    CopyOne(NewContext(true));
  }

  /** What the pattern at the cursor makes of the state after the prelude. */
  lemma SpreadAfter11()
    ensures var m := SpreadMatcher(); var pre := CursorState(1, 2, false, true, [0, 0, 2], [1, 0, 0], [true, false, true], [[NewContext(true)], [], []]);
      Retreat(pre) == SpreadState(12)
  {
    var m := SpreadMatcher();
    var pre := CursorState(1, 2, false, true, [0, 0, 2], [1, 0, 0], [true, false, true], [[NewContext(true)], [], []]);
  }

  /** Call 11 moves the search from state 11 to state 12. */
  lemma SpreadStep11(h: Heap)
    ensures Moves(SpreadMatcher(), h, Items(List, SpreadElems()), NewContext(true), SpreadState(11), SpreadState(12), SpreadFound(11))
  {
    SpreadFacts11();
    SpreadAfter11();
    var m := SpreadMatcher();
    var pre := CursorState(1, 2, false, true, [0, 0, 2], [1, 0, 0], [true, false, true], [[NewContext(true)], [], []]);
    BindFirst(h, 3);
    assert ElemAt(Items(List, SpreadElems()), 2) == Ok(Int(3));
    AtFixedBackward(m, h, Items(List, SpreadElems()), NewContext(true), SpreadState(11), pre, [NewContext(true)]);
  }

  /** At `...`: the span proposed is matched and the search advances past it. */
  lemma SpreadFacts12()
    ensures var m := SpreadMatcher(); var pre := CursorState(0, 1, false, true, [0, 0, 2], [1, 0, 0], [true, false, true], [[NewContext(true)], [], []]);
      Prepared(m, Items(List, SpreadElems()), NewContext(true), SpreadState(12), pre, [NewContext(true)])
  {
    var m := SpreadMatcher();
    var st := SpreadState(12);
    var pre := CursorState(0, 1, false, true, [0, 0, 2], [1, 0, 0], [true, false, true], [[NewContext(true)], [], []]);
    assert Wild(m.items) == [true, false, true];
    assert Inv(Wild(m.items), 3, st) && Stored(st);
    assert Prelude(3, 3, st) == pre;
    assert Inv(Wild(m.items), 3, pre);
    assert Stored(pre);
    CopyOne(NewContext(true));
  }

  /** What the pattern at the cursor makes of the state after the prelude. */
  lemma SpreadAfter12()
    requires Inv(Wild(SpreadMatcher().items), 3, CursorState(0, 1, false, true, [0, 0, 2], [1, 0, 0], [true, false, true], [[NewContext(true)], [], []]))
    ensures var m := SpreadMatcher(); var pre := CursorState(0, 1, false, true, [0, 0, 2], [1, 0, 0], [true, false, true], [[NewContext(true)], [], []]);
      ProposedSpan(m.items, 3, pre) == Some((0, 2)) &&
      SliceOf(Items(List, SpreadElems()), 0, 2) == Ok(Coll(List, [Int(1), Int(2)])) &&
      SpanAfter(SpanEnter(3, 3, pre), [NewContext(true)]) == SpreadState(13)
  {
    var m := SpreadMatcher();
    var pre := CursorState(0, 1, false, true, [0, 0, 2], [1, 0, 0], [true, false, true], [[NewContext(true)], [], []]);
    var entered := CursorState(0, 1, true, true, [0, 0, 2], [2, 0, 0], [true, false, true], [[], [], []]);
    assert SpanEnter(3, 3, pre) == entered;
    SpreadMaxLen();
    assert SpreadElems()[0..2] == [Int(1), Int(2)];
    assert Successful([NewContext(true)]) == [NewContext(true)];
    assert entered.ctxs[0] + [NewContext(true)] == [NewContext(true)];
  }

  /** Call 12 moves the search from state 12 to state 13. */
  lemma SpreadStep12(h: Heap)
    ensures Moves(SpreadMatcher(), h, Items(List, SpreadElems()), NewContext(true), SpreadState(12), SpreadState(13), SpreadFound(12))
  {
    SpreadFacts12();
    SpreadAfter12();
    var m := SpreadMatcher();
    var pre := CursorState(0, 1, false, true, [0, 0, 2], [1, 0, 0], [true, false, true], [[NewContext(true)], [], []]);
    SkipAny(h, Coll(List, [Int(1), Int(2)]), NewContext(true));
    AtSpanTry(m, h, Items(List, SpreadElems()), NewContext(true), SpreadState(12), pre, [NewContext(true)], 0, 2, Coll(List, [Int(1), Int(2)]), [NewContext(true)]);
  }

  /** Forward at `"@x"`: the element is matched and the search advances. */
  lemma SpreadFacts13()
    ensures var m := SpreadMatcher(); var pre := CursorState(1, 2, true, true, [0, 0, 2], [2, 0, 0], [true, false, true], [[NewContext(true)], [], []]);
      Prepared(m, Items(List, SpreadElems()), NewContext(true), SpreadState(13), pre, [NewContext(true)])
  {
    var m := SpreadMatcher();
    var st := SpreadState(13);
    var pre := CursorState(1, 2, true, true, [0, 0, 2], [2, 0, 0], [true, false, true], [[NewContext(true)], [], []]);
    assert Wild(m.items) == [true, false, true];
    assert Inv(Wild(m.items), 3, st) && Stored(st);
    assert Prelude(3, 3, st) == pre;
    assert Inv(Wild(m.items), 3, pre);
    assert Stored(pre);
    CopyOne(NewContext(true));
  }

  /** What the pattern at the cursor makes of the state after the prelude. */
  lemma SpreadAfter13()
    ensures var m := SpreadMatcher(); var pre := CursorState(1, 2, true, true, [0, 0, 2], [2, 0, 0], [true, false, true], [[NewContext(true)], [], []]);
      FixedAfter(pre, [Bound(3)]) == SpreadState(14)
  {
    var m := SpreadMatcher();
    var pre := CursorState(1, 2, true, true, [0, 0, 2], [2, 0, 0], [true, false, true], [[NewContext(true)], [], []]);
    assert Successful([Bound(3)]) == [Bound(3)];
  }

  /** Call 13 moves the search from state 13 to state 14. */
  lemma SpreadStep13(h: Heap)
    ensures Moves(SpreadMatcher(), h, Items(List, SpreadElems()), NewContext(true), SpreadState(13), SpreadState(14), SpreadFound(13))
  {
    SpreadFacts13();
    SpreadAfter13();
    var m := SpreadMatcher();
    var pre := CursorState(1, 2, true, true, [0, 0, 2], [2, 0, 0], [true, false, true], [[NewContext(true)], [], []]);
    BindFirst(h, 3);
    assert ElemAt(Items(List, SpreadElems()), 2) == Ok(Int(3));
    AtFixedForward(m, h, Items(List, SpreadElems()), NewContext(true), SpreadState(13), pre, [NewContext(true)], Int(3), [Bound(3)]);
  }

  /** At `...`: the span proposed is matched and the search advances past it. */
  lemma SpreadFacts14()
    ensures var m := SpreadMatcher(); var pre := CursorState(2, 3, true, true, [0, 0, 2], [2, 0, 0], [true, false, true], [[NewContext(true)], [Bound(3)], []]);
      Prepared(m, Items(List, SpreadElems()), NewContext(true), SpreadState(14), pre, [Bound(3)])
  {
    var m := SpreadMatcher();
    var st := SpreadState(14);
    var pre := CursorState(2, 3, true, true, [0, 0, 2], [2, 0, 0], [true, false, true], [[NewContext(true)], [Bound(3)], []]);
    assert Wild(m.items) == [true, false, true];
    assert Inv(Wild(m.items), 3, st) && Stored(st);
    assert Prelude(3, 3, st) == pre;
    assert Inv(Wild(m.items), 3, pre);
    assert Stored(pre);
    CopyOne(Bound(3));
  }

  /** What the pattern at the cursor makes of the state after the prelude. */
  lemma SpreadAfter14()
    requires Inv(Wild(SpreadMatcher().items), 3, CursorState(2, 3, true, true, [0, 0, 2], [2, 0, 0], [true, false, true], [[NewContext(true)], [Bound(3)], []]))
    ensures var m := SpreadMatcher(); var pre := CursorState(2, 3, true, true, [0, 0, 2], [2, 0, 0], [true, false, true], [[NewContext(true)], [Bound(3)], []]);
      ProposedSpan(m.items, 3, pre) == Some((3, 0)) &&
      SliceOf(Items(List, SpreadElems()), 3, 3) == Ok(Coll(List, [])) &&
      SpanAfter(SpanEnter(3, 3, pre), [Bound(3)]) == SpreadState(15)
  {
    var m := SpreadMatcher();
    var pre := CursorState(2, 3, true, true, [0, 0, 2], [2, 0, 0], [true, false, true], [[NewContext(true)], [Bound(3)], []]);
    var entered := CursorState(2, 3, true, true, [0, 0, 3], [2, 0, 0], [true, false, true], [[NewContext(true)], [Bound(3)], []]);
    assert SpanEnter(3, 3, pre) == entered;
    SpreadMaxLen();
    assert SpreadElems()[3..3] == [];
    assert Successful([Bound(3)]) == [Bound(3)];
    assert entered.ctxs[2] + [Bound(3)] == [Bound(3)];
  }

  /** Call 14 moves the search from state 14 to state 15. */
  lemma SpreadStep14(h: Heap)
    ensures Moves(SpreadMatcher(), h, Items(List, SpreadElems()), NewContext(true), SpreadState(14), SpreadState(15), SpreadFound(14))
  {
    SpreadFacts14();
    SpreadAfter14();
    var m := SpreadMatcher();
    var pre := CursorState(2, 3, true, true, [0, 0, 2], [2, 0, 0], [true, false, true], [[NewContext(true)], [Bound(3)], []]);
    SkipAny(h, Coll(List, []), Bound(3));
    AtSpanTry(m, h, Items(List, SpreadElems()), NewContext(true), SpreadState(14), pre, [Bound(3)], 3, 0, Coll(List, []), [Bound(3)]);
  }

  /** The alignment is complete: its contexts are collected and the search turns backward. */
  lemma SpreadFacts15()
    ensures var m := SpreadMatcher(); var st := SpreadState(15);
      Inv(Wild(m.items), 3, st) && Stored(st) && st.hasNext &&
      st.forward && st.p >= |m.items| && st.s >= 3 && st.(forward := false) == SpreadState(16)
  {
    var m := SpreadMatcher();
    assert Wild(m.items) == [true, false, true];
    assert Inv(Wild(m.items), 3, SpreadState(15)) && Stored(SpreadState(15));
  }

  /** Call 15 reports the alignment and turns the search backward. */
  lemma SpreadStep15(h: Heap)
    ensures Moves(SpreadMatcher(), h, Items(List, SpreadElems()), NewContext(true), SpreadState(15), SpreadState(16), SpreadFound(15))
  {
    SpreadFacts15();
  }

  /** At `...`: the next span would be too long and the search turns back. */
  lemma SpreadFacts16()
    ensures var m := SpreadMatcher(); var pre := CursorState(2, 2, false, true, [0, 0, 3], [2, 0, 0], [true, false, true], [[NewContext(true)], [Bound(3)], [Bound(3)]]);
      Prepared(m, Items(List, SpreadElems()), NewContext(true), SpreadState(16), pre, [Bound(3)])
  {
    var m := SpreadMatcher();
    var st := SpreadState(16);
    var pre := CursorState(2, 2, false, true, [0, 0, 3], [2, 0, 0], [true, false, true], [[NewContext(true)], [Bound(3)], [Bound(3)]]);
    assert Wild(m.items) == [true, false, true];
    assert Inv(Wild(m.items), 3, st) && Stored(st);
    assert Prelude(3, 3, st) == pre;
    assert Inv(Wild(m.items), 3, pre);
    assert Stored(pre);
    CopyOne(Bound(3));
  }

  /** What the pattern at the cursor makes of the state after the prelude. */
  lemma SpreadAfter16()
    requires Inv(Wild(SpreadMatcher().items), 3, CursorState(2, 2, false, true, [0, 0, 3], [2, 0, 0], [true, false, true], [[NewContext(true)], [Bound(3)], [Bound(3)]]))
    ensures var m := SpreadMatcher(); var pre := CursorState(2, 2, false, true, [0, 0, 3], [2, 0, 0], [true, false, true], [[NewContext(true)], [Bound(3)], [Bound(3)]]);
      ProposedSpan(m.items, 3, pre) == None && SpanOut(SpanEnter(3, 3, pre)) == SpreadState(17)
  {
    var m := SpreadMatcher();
    var pre := CursorState(2, 2, false, true, [0, 0, 3], [2, 0, 0], [true, false, true], [[NewContext(true)], [Bound(3)], [Bound(3)]]);
    var entered := CursorState(2, 2, true, true, [0, 0, 3], [2, 0, 1], [true, false, true], [[NewContext(true)], [Bound(3)], []]);
    assert SpanEnter(3, 3, pre) == entered;
    SpreadMaxLen();
  }

  /** Call 16 moves the search from state 16 to state 17. */
  lemma SpreadStep16(h: Heap)
    ensures Moves(SpreadMatcher(), h, Items(List, SpreadElems()), NewContext(true), SpreadState(16), SpreadState(17), SpreadFound(16))
  {
    SpreadFacts16();
    SpreadAfter16();
    var m := SpreadMatcher();
    var pre := CursorState(2, 2, false, true, [0, 0, 3], [2, 0, 0], [true, false, true], [[NewContext(true)], [Bound(3)], [Bound(3)]]);
    AtSpanOut(m, h, Items(List, SpreadElems()), NewContext(true), SpreadState(16), pre, [Bound(3)]);
  }

  /** Backward at `"@x"`: both cursors step back. */
  lemma SpreadFacts17()
    ensures var m := SpreadMatcher(); var pre := CursorState(1, 3, false, true, [0, 0, 3], [2, 0, 0], [true, false, true], [[NewContext(true)], [], []]);
      Prepared(m, Items(List, SpreadElems()), NewContext(true), SpreadState(17), pre, [NewContext(true)])
  {
    var m := SpreadMatcher();
    var st := SpreadState(17);
    var pre := CursorState(1, 3, false, true, [0, 0, 3], [2, 0, 0], [true, false, true], [[NewContext(true)], [], []]);
    assert Wild(m.items) == [true, false, true];
    assert Inv(Wild(m.items), 3, st) && Stored(st);
    assert Prelude(3, 3, st) == pre;
    assert Inv(Wild(m.items), 3, pre);
    assert Stored(pre);
    CopyOne(NewContext(true));
  }

  /** What the pattern at the cursor makes of the state after the prelude. */
  lemma SpreadAfter17()
    ensures var m := SpreadMatcher(); var pre := CursorState(1, 3, false, true, [0, 0, 3], [2, 0, 0], [true, false, true], [[NewContext(true)], [], []]);
      Retreat(pre) == SpreadState(18)
  {
    var m := SpreadMatcher();
    var pre := CursorState(1, 3, false, true, [0, 0, 3], [2, 0, 0], [true, false, true], [[NewContext(true)], [], []]);
  }

  /** Call 17 moves the search from state 17 to state 18. */
  lemma SpreadStep17(h: Heap)
    ensures Moves(SpreadMatcher(), h, Items(List, SpreadElems()), NewContext(true), SpreadState(17), SpreadState(18), SpreadFound(17))
  {
    SpreadFacts17();
    SpreadAfter17();
    var m := SpreadMatcher();
    var pre := CursorState(1, 3, false, true, [0, 0, 3], [2, 0, 0], [true, false, true], [[NewContext(true)], [], []]);
    AtFixedBackward(m, h, Items(List, SpreadElems()), NewContext(true), SpreadState(17), pre, [NewContext(true)]);
  }

  /** At `...`: the next span would be too long and the search turns back. */
  lemma SpreadFacts18()
    ensures var m := SpreadMatcher(); var pre := CursorState(0, 2, false, true, [0, 0, 3], [2, 0, 0], [true, false, true], [[NewContext(true)], [], []]);
      Prepared(m, Items(List, SpreadElems()), NewContext(true), SpreadState(18), pre, [NewContext(true)])
  {
    var m := SpreadMatcher();
    var st := SpreadState(18);
    var pre := CursorState(0, 2, false, true, [0, 0, 3], [2, 0, 0], [true, false, true], [[NewContext(true)], [], []]);
    assert Wild(m.items) == [true, false, true];
    assert Inv(Wild(m.items), 3, st) && Stored(st);
    assert Prelude(3, 3, st) == pre;
    assert Inv(Wild(m.items), 3, pre);
    assert Stored(pre);
    CopyOne(NewContext(true));
  }

  /** What the pattern at the cursor makes of the state after the prelude. */
  lemma SpreadAfter18()
    requires Inv(Wild(SpreadMatcher().items), 3, CursorState(0, 2, false, true, [0, 0, 3], [2, 0, 0], [true, false, true], [[NewContext(true)], [], []]))
    ensures var m := SpreadMatcher(); var pre := CursorState(0, 2, false, true, [0, 0, 3], [2, 0, 0], [true, false, true], [[NewContext(true)], [], []]);
      ProposedSpan(m.items, 3, pre) == None && SpanOut(SpanEnter(3, 3, pre)) == SpreadState(19)
  {
    var m := SpreadMatcher();
    var pre := CursorState(0, 2, false, true, [0, 0, 3], [2, 0, 0], [true, false, true], [[NewContext(true)], [], []]);
    var entered := CursorState(0, 2, true, true, [0, 0, 3], [3, 0, 0], [true, false, true], [[], [], []]);
    assert SpanEnter(3, 3, pre) == entered;
    SpreadMaxLen();
  }

  /** Call 18 moves the search from state 18 to state 19. */
  lemma SpreadStep18(h: Heap)
    ensures Moves(SpreadMatcher(), h, Items(List, SpreadElems()), NewContext(true), SpreadState(18), SpreadState(19), SpreadFound(18))
  {
    SpreadFacts18();
    SpreadAfter18();
    var m := SpreadMatcher();
    var pre := CursorState(0, 2, false, true, [0, 0, 3], [2, 0, 0], [true, false, true], [[NewContext(true)], [], []]);
    AtSpanOut(m, h, Items(List, SpreadElems()), NewContext(true), SpreadState(18), pre, [NewContext(true)]);
  }

  /** A cursor below 0: the search is exhausted. */
  lemma SpreadFacts19()
    ensures var m := SpreadMatcher(); var pre := CursorState(-1, 0, false, true, [0, 0, 3], [0, 0, 0], [true, false, true], [[], [], []]);
      Prepared(m, Items(List, SpreadElems()), NewContext(true), SpreadState(19), pre, [NewContext(true)])
  {
    var m := SpreadMatcher();
    var st := SpreadState(19);
    var pre := CursorState(-1, 0, false, true, [0, 0, 3], [0, 0, 0], [true, false, true], [[], [], []]);
    assert Wild(m.items) == [true, false, true];
    assert Inv(Wild(m.items), 3, st) && Stored(st);
    assert Prelude(3, 3, st) == pre;
    assert Inv(Wild(m.items), 3, pre);
    assert Stored(pre);
    CopyOne(NewContext(true));
  }

  /** What the pattern at the cursor makes of the state after the prelude. */
  lemma SpreadAfter19()
    ensures var m := SpreadMatcher(); var pre := CursorState(-1, 0, false, true, [0, 0, 3], [0, 0, 0], [true, false, true], [[], [], []]);
      pre.(hasNext := false) == SpreadState(20)
  {
    var m := SpreadMatcher();
    var pre := CursorState(-1, 0, false, true, [0, 0, 3], [0, 0, 0], [true, false, true], [[], [], []]);
  }

  /** Call 19 moves the search from state 19 to state 20. */
  lemma SpreadStep19(h: Heap)
    ensures Moves(SpreadMatcher(), h, Items(List, SpreadElems()), NewContext(true), SpreadState(19), SpreadState(20), SpreadFound(19))
  {
    SpreadFacts19();
    SpreadAfter19();
    var m := SpreadMatcher();
    var pre := CursorState(-1, 0, false, true, [0, 0, 3], [0, 0, 0], [true, false, true], [[], [], []]);
    AtExhausted(m, h, Items(List, SpreadElems()), NewContext(true), SpreadState(19), pre, [NewContext(true)]);
  }

  /** The search goes through the trace from state 19 on. */
  lemma SpreadFollows19(h: Heap)
    ensures Follows(SpreadMatcher(), h, Items(List, SpreadElems()), NewContext(true), SpreadState, SpreadFound, 19, 20)
  {
    SpreadStep19(h);
    assert !SpreadState(20).hasNext;
  }

  /** The search goes through the trace from state 18 on. */
  lemma SpreadFollows18(h: Heap)
    ensures Follows(SpreadMatcher(), h, Items(List, SpreadElems()), NewContext(true), SpreadState, SpreadFound, 18, 20)
  {
    SpreadStep18(h);
    SpreadFollows19(h);
  }

  /** The search goes through the trace from state 17 on. */
  lemma SpreadFollows17(h: Heap)
    ensures Follows(SpreadMatcher(), h, Items(List, SpreadElems()), NewContext(true), SpreadState, SpreadFound, 17, 20)
  {
    SpreadStep17(h);
    SpreadFollows18(h);
  }

  /** The search goes through the trace from state 16 on. */
  lemma SpreadFollows16(h: Heap)
    ensures Follows(SpreadMatcher(), h, Items(List, SpreadElems()), NewContext(true), SpreadState, SpreadFound, 16, 20)
  {
    SpreadStep16(h);
    SpreadFollows17(h);
  }

  /** The search goes through the trace from state 15 on. */
  lemma SpreadFollows15(h: Heap)
    ensures Follows(SpreadMatcher(), h, Items(List, SpreadElems()), NewContext(true), SpreadState, SpreadFound, 15, 20)
  {
    SpreadStep15(h);
    SpreadFollows16(h);
  }

  /** The search goes through the trace from state 14 on. */
  lemma SpreadFollows14(h: Heap)
    ensures Follows(SpreadMatcher(), h, Items(List, SpreadElems()), NewContext(true), SpreadState, SpreadFound, 14, 20)
  {
    SpreadStep14(h);
    SpreadFollows15(h);
  }

  /** The search goes through the trace from state 13 on. */
  lemma SpreadFollows13(h: Heap)
    ensures Follows(SpreadMatcher(), h, Items(List, SpreadElems()), NewContext(true), SpreadState, SpreadFound, 13, 20)
  {
    SpreadStep13(h);
    SpreadFollows14(h);
  }

  /** The search goes through the trace from state 12 on. */
  lemma SpreadFollows12(h: Heap)
    ensures Follows(SpreadMatcher(), h, Items(List, SpreadElems()), NewContext(true), SpreadState, SpreadFound, 12, 20)
  {
    SpreadStep12(h);
    SpreadFollows13(h);
  }

  /** The search goes through the trace from state 11 on. */
  lemma SpreadFollows11(h: Heap)
    ensures Follows(SpreadMatcher(), h, Items(List, SpreadElems()), NewContext(true), SpreadState, SpreadFound, 11, 20)
  {
    SpreadStep11(h);
    SpreadFollows12(h);
  }

  /** The search goes through the trace from state 10 on. */
  lemma SpreadFollows10(h: Heap)
    ensures Follows(SpreadMatcher(), h, Items(List, SpreadElems()), NewContext(true), SpreadState, SpreadFound, 10, 20)
  {
    SpreadStep10(h);
    SpreadFollows11(h);
  }

  /** The search goes through the trace from state 9 on. */
  lemma SpreadFollows9(h: Heap)
    ensures Follows(SpreadMatcher(), h, Items(List, SpreadElems()), NewContext(true), SpreadState, SpreadFound, 9, 20)
  {
    SpreadStep9(h);
    SpreadFollows10(h);
  }

  /** The search goes through the trace from state 8 on. */
  lemma SpreadFollows8(h: Heap)
    ensures Follows(SpreadMatcher(), h, Items(List, SpreadElems()), NewContext(true), SpreadState, SpreadFound, 8, 20)
  {
    SpreadStep8(h);
    SpreadFollows9(h);
  }

  /** The search goes through the trace from state 7 on. */
  lemma SpreadFollows7(h: Heap)
    ensures Follows(SpreadMatcher(), h, Items(List, SpreadElems()), NewContext(true), SpreadState, SpreadFound, 7, 20)
  {
    SpreadStep7(h);
    SpreadFollows8(h);
  }

  /** The search goes through the trace from state 6 on. */
  lemma SpreadFollows6(h: Heap)
    ensures Follows(SpreadMatcher(), h, Items(List, SpreadElems()), NewContext(true), SpreadState, SpreadFound, 6, 20)
  {
    SpreadStep6(h);
    SpreadFollows7(h);
  }

  /** The search goes through the trace from state 5 on. */
  lemma SpreadFollows5(h: Heap)
    ensures Follows(SpreadMatcher(), h, Items(List, SpreadElems()), NewContext(true), SpreadState, SpreadFound, 5, 20)
  {
    SpreadStep5(h);
    SpreadFollows6(h);
  }

  /** The search goes through the trace from state 4 on. */
  lemma SpreadFollows4(h: Heap)
    ensures Follows(SpreadMatcher(), h, Items(List, SpreadElems()), NewContext(true), SpreadState, SpreadFound, 4, 20)
  {
    SpreadStep4(h);
    SpreadFollows5(h);
  }

  /** The search goes through the trace from state 3 on. */
  lemma SpreadFollows3(h: Heap)
    ensures Follows(SpreadMatcher(), h, Items(List, SpreadElems()), NewContext(true), SpreadState, SpreadFound, 3, 20)
  {
    SpreadStep3(h);
    SpreadFollows4(h);
  }

  /** The search goes through the trace from state 2 on. */
  lemma SpreadFollows2(h: Heap)
    ensures Follows(SpreadMatcher(), h, Items(List, SpreadElems()), NewContext(true), SpreadState, SpreadFound, 2, 20)
  {
    SpreadStep2(h);
    SpreadFollows3(h);
  }

  /** The search goes through the trace from state 1 on. */
  lemma SpreadFollows1(h: Heap)
    ensures Follows(SpreadMatcher(), h, Items(List, SpreadElems()), NewContext(true), SpreadState, SpreadFound, 1, 20)
  {
    SpreadStep1(h);
    SpreadFollows2(h);
  }

  /** The search goes through the trace from state 0 on. */
  lemma SpreadFollows0(h: Heap)
    ensures Follows(SpreadMatcher(), h, Items(List, SpreadElems()), NewContext(true), SpreadState, SpreadFound, 0, 20)
  {
    SpreadStep0(h);
    SpreadFollows1(h);
  }

  /** What the trace collects from its state 19 on. */
  lemma SpreadCollectedFrom19()
    ensures Gathered(Reported(NewContext(true), SpreadState, SpreadFound), 19, 20) == []
  {
    var here := Reported(NewContext(true), SpreadState, SpreadFound);
    assert !SpreadFound(19);
    assert here(19) == [];
    assert Gathered(here, 19, 20) == [];
  }

  /** What the trace collects from its state 18 on. */
  lemma SpreadCollectedFrom18()
    ensures Gathered(Reported(NewContext(true), SpreadState, SpreadFound), 18, 20) == []
  {
    var here := Reported(NewContext(true), SpreadState, SpreadFound);
    SpreadCollectedFrom19();
    assert !SpreadFound(18);
    assert here(18) == [];
    assert Gathered(here, 18, 20) == [];
  }

  /** What the trace collects from its state 17 on. */
  lemma SpreadCollectedFrom17()
    ensures Gathered(Reported(NewContext(true), SpreadState, SpreadFound), 17, 20) == []
  {
    var here := Reported(NewContext(true), SpreadState, SpreadFound);
    SpreadCollectedFrom18();
    assert !SpreadFound(17);
    assert here(17) == [];
    assert Gathered(here, 17, 20) == [];
  }

  /** What the trace collects from its state 16 on. */
  lemma SpreadCollectedFrom16()
    ensures Gathered(Reported(NewContext(true), SpreadState, SpreadFound), 16, 20) == []
  {
    var here := Reported(NewContext(true), SpreadState, SpreadFound);
    SpreadCollectedFrom17();
    assert !SpreadFound(16);
    assert here(16) == [];
    assert Gathered(here, 16, 20) == [];
  }

  /** What the trace collects from its state 15 on. */
  lemma SpreadCollectedFrom15()
    ensures Gathered(Reported(NewContext(true), SpreadState, SpreadFound), 15, 20) == [Bound(3)]
  {
    var here := Reported(NewContext(true), SpreadState, SpreadFound);
    SpreadCollectedFrom16();
    assert SpreadFound(15) && SpreadState(15).p == 3;
    assert SearchState.Current(NewContext(true), SpreadState(15)) == [Bound(3)];
    assert here(15) == [Bound(3)];
    assert Gathered(here, 15, 20) == [Bound(3)];
  }

  /** What the trace collects from its state 14 on. */
  lemma SpreadCollectedFrom14()
    ensures Gathered(Reported(NewContext(true), SpreadState, SpreadFound), 14, 20) == [Bound(3)]
  {
    var here := Reported(NewContext(true), SpreadState, SpreadFound);
    SpreadCollectedFrom15();
    assert !SpreadFound(14);
    assert here(14) == [];
    assert Gathered(here, 14, 20) == [Bound(3)];
  }

  /** What the trace collects from its state 13 on. */
  lemma SpreadCollectedFrom13()
    ensures Gathered(Reported(NewContext(true), SpreadState, SpreadFound), 13, 20) == [Bound(3)]
  {
    var here := Reported(NewContext(true), SpreadState, SpreadFound);
    SpreadCollectedFrom14();
    assert !SpreadFound(13);
    assert here(13) == [];
    assert Gathered(here, 13, 20) == [Bound(3)];
  }

  /** What the trace collects from its state 12 on. */
  lemma SpreadCollectedFrom12()
    ensures Gathered(Reported(NewContext(true), SpreadState, SpreadFound), 12, 20) == [Bound(3)]
  {
    var here := Reported(NewContext(true), SpreadState, SpreadFound);
    SpreadCollectedFrom13();
    assert !SpreadFound(12);
    assert here(12) == [];
    assert Gathered(here, 12, 20) == [Bound(3)];
  }

  /** What the trace collects from its state 11 on. */
  lemma SpreadCollectedFrom11()
    ensures Gathered(Reported(NewContext(true), SpreadState, SpreadFound), 11, 20) == [Bound(3)]
  {
    var here := Reported(NewContext(true), SpreadState, SpreadFound);
    SpreadCollectedFrom12();
    assert !SpreadFound(11);
    assert here(11) == [];
    assert Gathered(here, 11, 20) == [Bound(3)];
  }

  /** What the trace collects from its state 10 on. */
  lemma SpreadCollectedFrom10()
    ensures Gathered(Reported(NewContext(true), SpreadState, SpreadFound), 10, 20) == [Bound(3)]
  {
    var here := Reported(NewContext(true), SpreadState, SpreadFound);
    SpreadCollectedFrom11();
    assert !SpreadFound(10);
    assert here(10) == [];
    assert Gathered(here, 10, 20) == [Bound(3)];
  }

  /** What the trace collects from its state 9 on. */
  lemma SpreadCollectedFrom9()
    ensures Gathered(Reported(NewContext(true), SpreadState, SpreadFound), 9, 20) == [Bound(2), Bound(3)]
  {
    var here := Reported(NewContext(true), SpreadState, SpreadFound);
    SpreadCollectedFrom10();
    assert SpreadFound(9) && SpreadState(9).p == 3;
    assert SearchState.Current(NewContext(true), SpreadState(9)) == [Bound(2)];
    assert here(9) == [Bound(2)];
    assert Gathered(here, 9, 20) == [Bound(2), Bound(3)];
  }

  /** What the trace collects from its state 8 on. */
  lemma SpreadCollectedFrom8()
    ensures Gathered(Reported(NewContext(true), SpreadState, SpreadFound), 8, 20) == [Bound(2), Bound(3)]
  {
    var here := Reported(NewContext(true), SpreadState, SpreadFound);
    SpreadCollectedFrom9();
    assert !SpreadFound(8);
    assert here(8) == [];
    assert Gathered(here, 8, 20) == [Bound(2), Bound(3)];
  }

  /** What the trace collects from its state 7 on. */
  lemma SpreadCollectedFrom7()
    ensures Gathered(Reported(NewContext(true), SpreadState, SpreadFound), 7, 20) == [Bound(2), Bound(3)]
  {
    var here := Reported(NewContext(true), SpreadState, SpreadFound);
    SpreadCollectedFrom8();
    assert !SpreadFound(7);
    assert here(7) == [];
    assert Gathered(here, 7, 20) == [Bound(2), Bound(3)];
  }

  /** What the trace collects from its state 6 on. */
  lemma SpreadCollectedFrom6()
    ensures Gathered(Reported(NewContext(true), SpreadState, SpreadFound), 6, 20) == [Bound(2), Bound(3)]
  {
    var here := Reported(NewContext(true), SpreadState, SpreadFound);
    SpreadCollectedFrom7();
    assert !SpreadFound(6);
    assert here(6) == [];
    assert Gathered(here, 6, 20) == [Bound(2), Bound(3)];
  }

  /** What the trace collects from its state 5 on. */
  lemma SpreadCollectedFrom5()
    ensures Gathered(Reported(NewContext(true), SpreadState, SpreadFound), 5, 20) == [Bound(2), Bound(3)]
  {
    var here := Reported(NewContext(true), SpreadState, SpreadFound);
    SpreadCollectedFrom6();
    assert !SpreadFound(5);
    assert here(5) == [];
    assert Gathered(here, 5, 20) == [Bound(2), Bound(3)];
  }

  /** What the trace collects from its state 4 on. */
  lemma SpreadCollectedFrom4()
    ensures Gathered(Reported(NewContext(true), SpreadState, SpreadFound), 4, 20) == [Bound(2), Bound(3)]
  {
    var here := Reported(NewContext(true), SpreadState, SpreadFound);
    SpreadCollectedFrom5();
    assert !SpreadFound(4);
    assert here(4) == [];
    assert Gathered(here, 4, 20) == [Bound(2), Bound(3)];
  }

  /** What the trace collects from its state 3 on. */
  lemma SpreadCollectedFrom3()
    ensures Gathered(Reported(NewContext(true), SpreadState, SpreadFound), 3, 20) == [Bound(1), Bound(2), Bound(3)]
  {
    var here := Reported(NewContext(true), SpreadState, SpreadFound);
    SpreadCollectedFrom4();
    assert SpreadFound(3) && SpreadState(3).p == 3;
    assert SearchState.Current(NewContext(true), SpreadState(3)) == [Bound(1)];
    assert here(3) == [Bound(1)];
    assert Gathered(here, 3, 20) == [Bound(1), Bound(2), Bound(3)];
  }

  /** What the trace collects from its state 2 on. */
  lemma SpreadCollectedFrom2()
    ensures Gathered(Reported(NewContext(true), SpreadState, SpreadFound), 2, 20) == [Bound(1), Bound(2), Bound(3)]
  {
    var here := Reported(NewContext(true), SpreadState, SpreadFound);
    SpreadCollectedFrom3();
    assert !SpreadFound(2);
    assert here(2) == [];
    assert Gathered(here, 2, 20) == [Bound(1), Bound(2), Bound(3)];
  }

  /** What the trace collects from its state 1 on. */
  lemma SpreadCollectedFrom1()
    ensures Gathered(Reported(NewContext(true), SpreadState, SpreadFound), 1, 20) == [Bound(1), Bound(2), Bound(3)]
  {
    var here := Reported(NewContext(true), SpreadState, SpreadFound);
    SpreadCollectedFrom2();
    assert !SpreadFound(1);
    assert here(1) == [];
    assert Gathered(here, 1, 20) == [Bound(1), Bound(2), Bound(3)];
  }

  /** What the trace collects from its state 0 on. */
  lemma SpreadCollectedFrom0()
    ensures Gathered(Reported(NewContext(true), SpreadState, SpreadFound), 0, 20) == [Bound(1), Bound(2), Bound(3)]
  {
    var here := Reported(NewContext(true), SpreadState, SpreadFound);
    SpreadCollectedFrom1();
    assert !SpreadFound(0);
    assert here(0) == [];
    assert Gathered(here, 0, 20) == [Bound(1), Bound(2), Bound(3)];
  }

  /** What the trace collects, from its first state to its last. */
  lemma SpreadCollected()
    ensures Collected(NewContext(true), SpreadState, SpreadFound, 0, 20) == [Bound(1), Bound(2), Bound(3)]
  {
    SpreadCollectedFrom0();
  }

  /** The trace starts at the fresh cursor. */
  lemma SpreadStart()
    ensures SpreadState(0) == Start(|SpreadMatcher().items|)
  {
    StartLiteral(3, [0, 0, 0], [true, true, true], [[], [], []]);
  }

  /** The search follows the trace from the fresh cursor to the exhausted
      one and returns what it collects. */
  lemma SpreadSearch(h: Heap)
    ensures Eval(SpreadMatcher(), h, Coll(List, SpreadElems()), NewContext(true)) ==
            Ok(Outcome(NewContext(true), [Bound(1), Bound(2), Bound(3)], Marks(3, false)))
  {
    SpreadFollows0(h);
    SpreadStart();
    SequenceAlong(SpreadMatcher(), h, SpreadElems(), NewContext(true), SpreadState, SpreadFound, 20);
    SpreadCollected();
  }

  /** Line 72 of the tests: `[..., "@x", ...]` on `[1, 2, 3]` binds `x` to
      each element in turn, first element first, one context each. */
  lemma WildcardBetweenEllipses(h: Heap)
    ensures AsMatcher(PList([PEllipsis, PStr("@x"), PEllipsis])) == Ok(SpreadMatcher())
    ensures Eval(SpreadMatcher(), h, Coll(List, [Int(1), Int(2), Int(3)]), NewContext(true)) ==
            Ok(Outcome(NewContext(true), [Bound(1), Bound(2), Bound(3)], [false, false, false]))
  {
    ListPatterns();
    SpreadSearch(h);
    assert Marks(3, false) == [false, false, false];
  }

  // ---------------------------------------------------------------------
  // `["@x", ..., "@x"]` on `[1, 3, 3]`

  function EndsMatcher(): Matcher
  {
    Sequence([Wildcard("x"), ListWildcard(""), Wildcard("x")])
  }

  function EndsElems(): seq<Value>
  {
    [Int(1), Int(3), Int(3)]
  }

  /** The list wildcard may take at most one of the three elements. */
  lemma EndsMaxLen()
    ensures MaxLen(EndsMatcher().items, 3) == 1
  {
    var items := EndsMatcher().items;
    assert NumFixed(items[1..][1..][1..]) == 0;
    assert NumFixed(items[1..][1..]) == 1;
    assert NumFixed(items[1..]) == 1;
  }

  /** The cursor of `["@x", ..., "@x"]` on `[1, 3, 3]` that the `i`-th call of `match_next` starts
      from, counting from 0; the last one is exhausted. */
  function EndsState(i: nat): CursorState
  {
    if i == 0 then EndsCursor0()
    else if i == 1 then EndsCursor1()
    else if i == 2 then EndsCursor2()
    else if i == 3 then EndsCursor3()
    else if i == 4 then EndsCursor4()
    else if i == 5 then EndsCursor5()
    else if i == 6 then EndsCursor6()
    else if i == 7 then EndsCursor7()
    else EndsCursor8()
  }

  function EndsCursor0(): CursorState { CursorState(0, 0, true, true, [0, 0, 0], [0, 0, 0], [true, true, true], [[], [], []]) }
  function EndsCursor1(): CursorState { CursorState(1, 1, true, true, [0, 0, 0], [0, 0, 0], [false, true, true], [[Bound(1)], [], []]) }
  function EndsCursor2(): CursorState { CursorState(2, 1, true, true, [0, 1, 0], [0, 0, 0], [false, true, true], [[Bound(1)], [Bound(1)], []]) }
  function EndsCursor3(): CursorState { CursorState(1, 1, false, true, [0, 1, 0], [0, 0, 0], [false, true, true], [[Bound(1)], [Bound(1)], []]) }
  function EndsCursor4(): CursorState { CursorState(2, 2, true, true, [0, 1, 0], [0, 1, 0], [false, true, true], [[Bound(1)], [Bound(1)], []]) }
  function EndsCursor5(): CursorState { CursorState(1, 2, false, true, [0, 1, 0], [0, 1, 0], [false, true, true], [[Bound(1)], [Bound(1)], []]) }
  function EndsCursor6(): CursorState { CursorState(0, 1, false, true, [0, 1, 0], [0, 0, 0], [false, true, true], [[], [], []]) }
  function EndsCursor7(): CursorState { CursorState(-1, 0, false, true, [0, 1, 0], [0, 0, 0], [false, true, true], [[], [], []]) }
  function EndsCursor8(): CursorState { CursorState(-1, 0, false, false, [0, 1, 0], [0, 0, 0], [false, true, true], [[], [], []]) }

  /** The calls of `match_next` that report a complete alignment. */
  predicate EndsFound(i: nat)
  {
    false
  }

  /** Forward at `"@x"`: the element is matched and the search advances. */
  lemma EndsFacts0()
    ensures var m := EndsMatcher(); var pre := CursorState(0, 0, true, true, [0, 0, 0], [0, 0, 0], [true, true, true], [[], [], []]);
      Prepared(m, Items(List, EndsElems()), NewContext(true), EndsState(0), pre, [NewContext(true)])
  {
    var m := EndsMatcher();
    var st := EndsState(0);
    var pre := CursorState(0, 0, true, true, [0, 0, 0], [0, 0, 0], [true, true, true], [[], [], []]);
    assert Wild(m.items) == [false, true, false];
    assert Inv(Wild(m.items), 3, st) && Stored(st);
    assert Prelude(3, 3, st) == pre;
    assert Inv(Wild(m.items), 3, pre);
    assert Stored(pre);
    CopyOne(NewContext(true));
  }

  /** What the pattern at the cursor makes of the state after the prelude. */
  lemma EndsAfter0()
    ensures var m := EndsMatcher(); var pre := CursorState(0, 0, true, true, [0, 0, 0], [0, 0, 0], [true, true, true], [[], [], []]);
      FixedAfter(pre, [Bound(1)]) == EndsState(1)
  {
    var m := EndsMatcher();
    var pre := CursorState(0, 0, true, true, [0, 0, 0], [0, 0, 0], [true, true, true], [[], [], []]);
    assert Successful([Bound(1)]) == [Bound(1)];
  }

  /** Call 0 moves the search from state 0 to state 1. */
  lemma EndsStep0(h: Heap)
    ensures Moves(EndsMatcher(), h, Items(List, EndsElems()), NewContext(true), EndsState(0), EndsState(1), EndsFound(0))
  {
    EndsFacts0();
    EndsAfter0();
    var m := EndsMatcher();
    var pre := CursorState(0, 0, true, true, [0, 0, 0], [0, 0, 0], [true, true, true], [[], [], []]);
    BindFirst(h, 1);
    assert ElemAt(Items(List, EndsElems()), 0) == Ok(Int(1));
    AtFixedForward(m, h, Items(List, EndsElems()), NewContext(true), EndsState(0), pre, [NewContext(true)], Int(1), [Bound(1)]);
  }

  /** At `...`: the span proposed is matched and the search advances past it. */
  lemma EndsFacts1()
    ensures var m := EndsMatcher(); var pre := CursorState(1, 1, true, true, [0, 0, 0], [0, 0, 0], [false, true, true], [[Bound(1)], [], []]);
      Prepared(m, Items(List, EndsElems()), NewContext(true), EndsState(1), pre, [Bound(1)])
  {
    var m := EndsMatcher();
    var st := EndsState(1);
    var pre := CursorState(1, 1, true, true, [0, 0, 0], [0, 0, 0], [false, true, true], [[Bound(1)], [], []]);
    assert Wild(m.items) == [false, true, false];
    assert Inv(Wild(m.items), 3, st) && Stored(st);
    assert Prelude(3, 3, st) == pre;
    assert Inv(Wild(m.items), 3, pre);
    assert Stored(pre);
    CopyOne(Bound(1));
  }

  /** What the pattern at the cursor makes of the state after the prelude. */
  lemma EndsAfter1()
    requires Inv(Wild(EndsMatcher().items), 3, CursorState(1, 1, true, true, [0, 0, 0], [0, 0, 0], [false, true, true], [[Bound(1)], [], []]))
    ensures var m := EndsMatcher(); var pre := CursorState(1, 1, true, true, [0, 0, 0], [0, 0, 0], [false, true, true], [[Bound(1)], [], []]);
      ProposedSpan(m.items, 3, pre) == Some((1, 0)) &&
      SliceOf(Items(List, EndsElems()), 1, 1) == Ok(Coll(List, [])) &&
      SpanAfter(SpanEnter(3, 3, pre), [Bound(1)]) == EndsState(2)
  {
    var m := EndsMatcher();
    var pre := CursorState(1, 1, true, true, [0, 0, 0], [0, 0, 0], [false, true, true], [[Bound(1)], [], []]);
    var entered := CursorState(1, 1, true, true, [0, 1, 0], [0, 0, 0], [false, true, true], [[Bound(1)], [], []]);
    assert SpanEnter(3, 3, pre) == entered;
    EndsMaxLen();
    assert EndsElems()[1..1] == [];
    assert Successful([Bound(1)]) == [Bound(1)];
    assert entered.ctxs[1] + [Bound(1)] == [Bound(1)];
  }

  /** Call 1 moves the search from state 1 to state 2. */
  lemma EndsStep1(h: Heap)
    ensures Moves(EndsMatcher(), h, Items(List, EndsElems()), NewContext(true), EndsState(1), EndsState(2), EndsFound(1))
  {
    EndsFacts1();
    EndsAfter1();
    var m := EndsMatcher();
    var pre := CursorState(1, 1, true, true, [0, 0, 0], [0, 0, 0], [false, true, true], [[Bound(1)], [], []]);
    SkipAny(h, Coll(List, []), Bound(1));
    AtSpanTry(m, h, Items(List, EndsElems()), NewContext(true), EndsState(1), pre, [Bound(1)], 1, 0, Coll(List, []), [Bound(1)]);
  }

  /** Forward at `"@x"`: the element differs from the bound value and the search turns back. */
  lemma EndsFacts2()
    ensures var m := EndsMatcher(); var pre := CursorState(2, 1, true, true, [0, 1, 0], [0, 0, 0], [false, true, true], [[Bound(1)], [Bound(1)], []]);
      Prepared(m, Items(List, EndsElems()), NewContext(true), EndsState(2), pre, [Bound(1)])
  {
    var m := EndsMatcher();
    var st := EndsState(2);
    var pre := CursorState(2, 1, true, true, [0, 1, 0], [0, 0, 0], [false, true, true], [[Bound(1)], [Bound(1)], []]);
    assert Wild(m.items) == [false, true, false];
    assert Inv(Wild(m.items), 3, st) && Stored(st);
    assert Prelude(3, 3, st) == pre;
    assert Inv(Wild(m.items), 3, pre);
    assert Stored(pre);
    CopyOne(Bound(1));
  }

  /** What the pattern at the cursor makes of the state after the prelude. */
  lemma EndsAfter2()
    ensures var m := EndsMatcher(); var pre := CursorState(2, 1, true, true, [0, 1, 0], [0, 0, 0], [false, true, true], [[Bound(1)], [Bound(1)], []]);
      FixedAfter(pre, [Bound(1).(flag := false)]) == EndsState(3)
  {
    var m := EndsMatcher();
    var pre := CursorState(2, 1, true, true, [0, 1, 0], [0, 0, 0], [false, true, true], [[Bound(1)], [Bound(1)], []]);
    assert Successful([Bound(1).(flag := false)]) == [];
  }

  /** Call 2 moves the search from state 2 to state 3. */
  lemma EndsStep2(h: Heap)
    ensures Moves(EndsMatcher(), h, Items(List, EndsElems()), NewContext(true), EndsState(2), EndsState(3), EndsFound(2))
  {
    EndsFacts2();
    EndsAfter2();
    var m := EndsMatcher();
    var pre := CursorState(2, 1, true, true, [0, 1, 0], [0, 0, 0], [false, true, true], [[Bound(1)], [Bound(1)], []]);
    BindAgain(h, 1, 3);
    assert ElemAt(Items(List, EndsElems()), 1) == Ok(Int(3));
    AtFixedForward(m, h, Items(List, EndsElems()), NewContext(true), EndsState(2), pre, [Bound(1)], Int(3), [Bound(1).(flag := false)]);
  }

  /** At `...`: the span proposed is matched and the search advances past it. */
  lemma EndsFacts3()
    ensures var m := EndsMatcher(); var pre := CursorState(1, 1, false, true, [0, 1, 0], [0, 0, 0], [false, true, true], [[Bound(1)], [Bound(1)], []]);
      Prepared(m, Items(List, EndsElems()), NewContext(true), EndsState(3), pre, [Bound(1)])
  {
    var m := EndsMatcher();
    var st := EndsState(3);
    var pre := CursorState(1, 1, false, true, [0, 1, 0], [0, 0, 0], [false, true, true], [[Bound(1)], [Bound(1)], []]);
    assert Wild(m.items) == [false, true, false];
    assert Inv(Wild(m.items), 3, st) && Stored(st);
    assert Prelude(3, 3, st) == pre;
    assert Inv(Wild(m.items), 3, pre);
    assert Stored(pre);
    CopyOne(Bound(1));
  }

  /** What the pattern at the cursor makes of the state after the prelude. */
  lemma EndsAfter3()
    requires Inv(Wild(EndsMatcher().items), 3, CursorState(1, 1, false, true, [0, 1, 0], [0, 0, 0], [false, true, true], [[Bound(1)], [Bound(1)], []]))
    ensures var m := EndsMatcher(); var pre := CursorState(1, 1, false, true, [0, 1, 0], [0, 0, 0], [false, true, true], [[Bound(1)], [Bound(1)], []]);
      ProposedSpan(m.items, 3, pre) == Some((1, 1)) &&
      SliceOf(Items(List, EndsElems()), 1, 2) == Ok(Coll(List, [Int(3)])) &&
      SpanAfter(SpanEnter(3, 3, pre), [Bound(1)]) == EndsState(4)
  {
    var m := EndsMatcher();
    var pre := CursorState(1, 1, false, true, [0, 1, 0], [0, 0, 0], [false, true, true], [[Bound(1)], [Bound(1)], []]);
    var entered := CursorState(1, 1, true, true, [0, 1, 0], [0, 1, 0], [false, true, true], [[Bound(1)], [], []]);
    assert SpanEnter(3, 3, pre) == entered;
    EndsMaxLen();
    assert EndsElems()[1..2] == [Int(3)];
    assert Successful([Bound(1)]) == [Bound(1)];
    assert entered.ctxs[1] + [Bound(1)] == [Bound(1)];
  }

  /** Call 3 moves the search from state 3 to state 4. */
  lemma EndsStep3(h: Heap)
    ensures Moves(EndsMatcher(), h, Items(List, EndsElems()), NewContext(true), EndsState(3), EndsState(4), EndsFound(3))
  {
    EndsFacts3();
    EndsAfter3();
    var m := EndsMatcher();
    var pre := CursorState(1, 1, false, true, [0, 1, 0], [0, 0, 0], [false, true, true], [[Bound(1)], [Bound(1)], []]);
    SkipAny(h, Coll(List, [Int(3)]), Bound(1));
    AtSpanTry(m, h, Items(List, EndsElems()), NewContext(true), EndsState(3), pre, [Bound(1)], 1, 1, Coll(List, [Int(3)]), [Bound(1)]);
  }

  /** Forward at `"@x"`: the element differs from the bound value and the search turns back. */
  lemma EndsFacts4()
    ensures var m := EndsMatcher(); var pre := CursorState(2, 2, true, true, [0, 1, 0], [0, 1, 0], [false, true, true], [[Bound(1)], [Bound(1)], []]);
      Prepared(m, Items(List, EndsElems()), NewContext(true), EndsState(4), pre, [Bound(1)])
  {
    var m := EndsMatcher();
    var st := EndsState(4);
    var pre := CursorState(2, 2, true, true, [0, 1, 0], [0, 1, 0], [false, true, true], [[Bound(1)], [Bound(1)], []]);
    assert Wild(m.items) == [false, true, false];
    assert Inv(Wild(m.items), 3, st) && Stored(st);
    assert Prelude(3, 3, st) == pre;
    assert Inv(Wild(m.items), 3, pre);
    assert Stored(pre);
    CopyOne(Bound(1));
  }

  /** What the pattern at the cursor makes of the state after the prelude. */
  lemma EndsAfter4()
    ensures var m := EndsMatcher(); var pre := CursorState(2, 2, true, true, [0, 1, 0], [0, 1, 0], [false, true, true], [[Bound(1)], [Bound(1)], []]);
      FixedAfter(pre, [Bound(1).(flag := false)]) == EndsState(5)
  {
    var m := EndsMatcher();
    var pre := CursorState(2, 2, true, true, [0, 1, 0], [0, 1, 0], [false, true, true], [[Bound(1)], [Bound(1)], []]);
    assert Successful([Bound(1).(flag := false)]) == [];
  }

  /** Call 4 moves the search from state 4 to state 5. */
  lemma EndsStep4(h: Heap)
    ensures Moves(EndsMatcher(), h, Items(List, EndsElems()), NewContext(true), EndsState(4), EndsState(5), EndsFound(4))
  {
    EndsFacts4();
    EndsAfter4();
    var m := EndsMatcher();
    var pre := CursorState(2, 2, true, true, [0, 1, 0], [0, 1, 0], [false, true, true], [[Bound(1)], [Bound(1)], []]);
    BindAgain(h, 1, 3);
    assert ElemAt(Items(List, EndsElems()), 2) == Ok(Int(3));
    AtFixedForward(m, h, Items(List, EndsElems()), NewContext(true), EndsState(4), pre, [Bound(1)], Int(3), [Bound(1).(flag := false)]);
  }

  /** At `...`: the next span would be too long and the search turns back. */
  lemma EndsFacts5()
    ensures var m := EndsMatcher(); var pre := CursorState(1, 2, false, true, [0, 1, 0], [0, 1, 0], [false, true, true], [[Bound(1)], [Bound(1)], []]);
      Prepared(m, Items(List, EndsElems()), NewContext(true), EndsState(5), pre, [Bound(1)])
  {
    var m := EndsMatcher();
    var st := EndsState(5);
    var pre := CursorState(1, 2, false, true, [0, 1, 0], [0, 1, 0], [false, true, true], [[Bound(1)], [Bound(1)], []]);
    assert Wild(m.items) == [false, true, false];
    assert Inv(Wild(m.items), 3, st) && Stored(st);
    assert Prelude(3, 3, st) == pre;
    assert Inv(Wild(m.items), 3, pre);
    assert Stored(pre);
    CopyOne(Bound(1));
  }

  /** What the pattern at the cursor makes of the state after the prelude. */
  lemma EndsAfter5()
    requires Inv(Wild(EndsMatcher().items), 3, CursorState(1, 2, false, true, [0, 1, 0], [0, 1, 0], [false, true, true], [[Bound(1)], [Bound(1)], []]))
    ensures var m := EndsMatcher(); var pre := CursorState(1, 2, false, true, [0, 1, 0], [0, 1, 0], [false, true, true], [[Bound(1)], [Bound(1)], []]);
      ProposedSpan(m.items, 3, pre) == None && SpanOut(SpanEnter(3, 3, pre)) == EndsState(6)
  {
    var m := EndsMatcher();
    var pre := CursorState(1, 2, false, true, [0, 1, 0], [0, 1, 0], [false, true, true], [[Bound(1)], [Bound(1)], []]);
    var entered := CursorState(1, 2, true, true, [0, 1, 0], [0, 2, 0], [false, true, true], [[Bound(1)], [], []]);
    assert SpanEnter(3, 3, pre) == entered;
    EndsMaxLen();
  }

  /** Call 5 moves the search from state 5 to state 6. */
  lemma EndsStep5(h: Heap)
    ensures Moves(EndsMatcher(), h, Items(List, EndsElems()), NewContext(true), EndsState(5), EndsState(6), EndsFound(5))
  {
    EndsFacts5();
    EndsAfter5();
    var m := EndsMatcher();
    var pre := CursorState(1, 2, false, true, [0, 1, 0], [0, 1, 0], [false, true, true], [[Bound(1)], [Bound(1)], []]);
    AtSpanOut(m, h, Items(List, EndsElems()), NewContext(true), EndsState(5), pre, [Bound(1)]);
  }

  /** Backward at `"@x"`: both cursors step back. */
  lemma EndsFacts6()
    ensures var m := EndsMatcher(); var pre := CursorState(0, 1, false, true, [0, 1, 0], [0, 0, 0], [false, true, true], [[], [], []]);
      Prepared(m, Items(List, EndsElems()), NewContext(true), EndsState(6), pre, [NewContext(true)])
  {
    var m := EndsMatcher();
    var st := EndsState(6);
    var pre := CursorState(0, 1, false, true, [0, 1, 0], [0, 0, 0], [false, true, true], [[], [], []]);
    assert Wild(m.items) == [false, true, false];
    assert Inv(Wild(m.items), 3, st) && Stored(st);
    assert Prelude(3, 3, st) == pre;
    assert Inv(Wild(m.items), 3, pre);
    assert Stored(pre);
    CopyOne(NewContext(true));
  }

  /** What the pattern at the cursor makes of the state after the prelude. */
  lemma EndsAfter6()
    ensures var m := EndsMatcher(); var pre := CursorState(0, 1, false, true, [0, 1, 0], [0, 0, 0], [false, true, true], [[], [], []]);
      Retreat(pre) == EndsState(7)
  {
    var m := EndsMatcher();
    var pre := CursorState(0, 1, false, true, [0, 1, 0], [0, 0, 0], [false, true, true], [[], [], []]);
  }

  /** Call 6 moves the search from state 6 to state 7. */
  lemma EndsStep6(h: Heap)
    ensures Moves(EndsMatcher(), h, Items(List, EndsElems()), NewContext(true), EndsState(6), EndsState(7), EndsFound(6))
  {
    EndsFacts6();
    EndsAfter6();
    var m := EndsMatcher();
    var pre := CursorState(0, 1, false, true, [0, 1, 0], [0, 0, 0], [false, true, true], [[], [], []]);
    BindFirst(h, 3);
    assert ElemAt(Items(List, EndsElems()), 1) == Ok(Int(3));
    AtFixedBackward(m, h, Items(List, EndsElems()), NewContext(true), EndsState(6), pre, [NewContext(true)]);
  }

  /** A cursor below 0: the search is exhausted. */
  lemma EndsFacts7()
    ensures var m := EndsMatcher(); var pre := CursorState(-1, 0, false, true, [0, 1, 0], [0, 0, 0], [false, true, true], [[], [], []]);
      Prepared(m, Items(List, EndsElems()), NewContext(true), EndsState(7), pre, [NewContext(true)])
  {
    var m := EndsMatcher();
    var st := EndsState(7);
    var pre := CursorState(-1, 0, false, true, [0, 1, 0], [0, 0, 0], [false, true, true], [[], [], []]);
    assert Wild(m.items) == [false, true, false];
    assert Inv(Wild(m.items), 3, st) && Stored(st);
    assert Prelude(3, 3, st) == pre;
    assert Inv(Wild(m.items), 3, pre);
    assert Stored(pre);
    CopyOne(NewContext(true));
  }

  /** What the pattern at the cursor makes of the state after the prelude. */
  lemma EndsAfter7()
    ensures var m := EndsMatcher(); var pre := CursorState(-1, 0, false, true, [0, 1, 0], [0, 0, 0], [false, true, true], [[], [], []]);
      pre.(hasNext := false) == EndsState(8)
  {
    var m := EndsMatcher();
    var pre := CursorState(-1, 0, false, true, [0, 1, 0], [0, 0, 0], [false, true, true], [[], [], []]);
  }

  /** Call 7 moves the search from state 7 to state 8. */
  lemma EndsStep7(h: Heap)
    ensures Moves(EndsMatcher(), h, Items(List, EndsElems()), NewContext(true), EndsState(7), EndsState(8), EndsFound(7))
  {
    EndsFacts7();
    EndsAfter7();
    var m := EndsMatcher();
    var pre := CursorState(-1, 0, false, true, [0, 1, 0], [0, 0, 0], [false, true, true], [[], [], []]);
    AtExhausted(m, h, Items(List, EndsElems()), NewContext(true), EndsState(7), pre, [NewContext(true)]);
  }

  /** The search goes through the trace from state 7 on. */
  lemma EndsFollows7(h: Heap)
    ensures Follows(EndsMatcher(), h, Items(List, EndsElems()), NewContext(true), EndsState, EndsFound, 7, 8)
  {
    EndsStep7(h);
    assert !EndsState(8).hasNext;
  }

  /** The search goes through the trace from state 6 on. */
  lemma EndsFollows6(h: Heap)
    ensures Follows(EndsMatcher(), h, Items(List, EndsElems()), NewContext(true), EndsState, EndsFound, 6, 8)
  {
    EndsStep6(h);
    EndsFollows7(h);
  }

  /** The search goes through the trace from state 5 on. */
  lemma EndsFollows5(h: Heap)
    ensures Follows(EndsMatcher(), h, Items(List, EndsElems()), NewContext(true), EndsState, EndsFound, 5, 8)
  {
    EndsStep5(h);
    EndsFollows6(h);
  }

  /** The search goes through the trace from state 4 on. */
  lemma EndsFollows4(h: Heap)
    ensures Follows(EndsMatcher(), h, Items(List, EndsElems()), NewContext(true), EndsState, EndsFound, 4, 8)
  {
    EndsStep4(h);
    EndsFollows5(h);
  }

  /** The search goes through the trace from state 3 on. */
  lemma EndsFollows3(h: Heap)
    ensures Follows(EndsMatcher(), h, Items(List, EndsElems()), NewContext(true), EndsState, EndsFound, 3, 8)
  {
    EndsStep3(h);
    EndsFollows4(h);
  }

  /** The search goes through the trace from state 2 on. */
  lemma EndsFollows2(h: Heap)
    ensures Follows(EndsMatcher(), h, Items(List, EndsElems()), NewContext(true), EndsState, EndsFound, 2, 8)
  {
    EndsStep2(h);
    EndsFollows3(h);
  }

  /** The search goes through the trace from state 1 on. */
  lemma EndsFollows1(h: Heap)
    ensures Follows(EndsMatcher(), h, Items(List, EndsElems()), NewContext(true), EndsState, EndsFound, 1, 8)
  {
    EndsStep1(h);
    EndsFollows2(h);
  }

  /** The search goes through the trace from state 0 on. */
  lemma EndsFollows0(h: Heap)
    ensures Follows(EndsMatcher(), h, Items(List, EndsElems()), NewContext(true), EndsState, EndsFound, 0, 8)
  {
    EndsStep0(h);
    EndsFollows1(h);
  }

  /** What the trace collects from its state 7 on. */
  lemma EndsCollectedFrom7()
    ensures Gathered(Reported(NewContext(true), EndsState, EndsFound), 7, 8) == []
  {
    var here := Reported(NewContext(true), EndsState, EndsFound);
    assert !EndsFound(7);
    assert here(7) == [];
    assert Gathered(here, 7, 8) == [];
  }

  /** What the trace collects from its state 6 on. */
  lemma EndsCollectedFrom6()
    ensures Gathered(Reported(NewContext(true), EndsState, EndsFound), 6, 8) == []
  {
    var here := Reported(NewContext(true), EndsState, EndsFound);
    EndsCollectedFrom7();
    assert !EndsFound(6);
    assert here(6) == [];
    assert Gathered(here, 6, 8) == [];
  }

  /** What the trace collects from its state 5 on. */
  lemma EndsCollectedFrom5()
    ensures Gathered(Reported(NewContext(true), EndsState, EndsFound), 5, 8) == []
  {
    var here := Reported(NewContext(true), EndsState, EndsFound);
    EndsCollectedFrom6();
    assert !EndsFound(5);
    assert here(5) == [];
    assert Gathered(here, 5, 8) == [];
  }

  /** What the trace collects from its state 4 on. */
  lemma EndsCollectedFrom4()
    ensures Gathered(Reported(NewContext(true), EndsState, EndsFound), 4, 8) == []
  {
    var here := Reported(NewContext(true), EndsState, EndsFound);
    EndsCollectedFrom5();
    assert !EndsFound(4);
    assert here(4) == [];
    assert Gathered(here, 4, 8) == [];
  }

  /** What the trace collects from its state 3 on. */
  lemma EndsCollectedFrom3()
    ensures Gathered(Reported(NewContext(true), EndsState, EndsFound), 3, 8) == []
  {
    var here := Reported(NewContext(true), EndsState, EndsFound);
    EndsCollectedFrom4();
    assert !EndsFound(3);
    assert here(3) == [];
    assert Gathered(here, 3, 8) == [];
  }

  /** What the trace collects from its state 2 on. */
  lemma EndsCollectedFrom2()
    ensures Gathered(Reported(NewContext(true), EndsState, EndsFound), 2, 8) == []
  {
    var here := Reported(NewContext(true), EndsState, EndsFound);
    EndsCollectedFrom3();
    assert !EndsFound(2);
    assert here(2) == [];
    assert Gathered(here, 2, 8) == [];
  }

  /** What the trace collects from its state 1 on. */
  lemma EndsCollectedFrom1()
    ensures Gathered(Reported(NewContext(true), EndsState, EndsFound), 1, 8) == []
  {
    var here := Reported(NewContext(true), EndsState, EndsFound);
    EndsCollectedFrom2();
    assert !EndsFound(1);
    assert here(1) == [];
    assert Gathered(here, 1, 8) == [];
  }

  /** What the trace collects from its state 0 on. */
  lemma EndsCollectedFrom0()
    ensures Gathered(Reported(NewContext(true), EndsState, EndsFound), 0, 8) == []
  {
    var here := Reported(NewContext(true), EndsState, EndsFound);
    EndsCollectedFrom1();
    assert !EndsFound(0);
    assert here(0) == [];
    assert Gathered(here, 0, 8) == [];
  }

  /** What the trace collects, from its first state to its last. */
  lemma EndsCollected()
    ensures Collected(NewContext(true), EndsState, EndsFound, 0, 8) == []
  {
    EndsCollectedFrom0();
  }

  /** The trace starts at the fresh cursor. */
  lemma EndsStart()
    ensures EndsState(0) == Start(|EndsMatcher().items|)
  {
    StartLiteral(3, [0, 0, 0], [true, true, true], [[], [], []]);
  }

  /** The search follows the trace from the fresh cursor to the exhausted
      one and returns what it collects. */
  lemma EndsSearch(h: Heap)
    ensures Eval(EndsMatcher(), h, Coll(List, EndsElems()), NewContext(true)) ==
            Ok(Outcome(NewContext(true), [], Marks(0, false)))
  {
    EndsFollows0(h);
    EndsStart();
    SequenceAlong(EndsMatcher(), h, EndsElems(), NewContext(true), EndsState, EndsFound, 8);
    EndsCollected();
  }

  /** Line 48 of the tests: `["@x", ..., "@x"]` on `[1, 3, 3]` gives no
      context at all: the last element never equals the first. */
  lemma SameWildcardAtBothEnds(h: Heap)
    ensures AsMatcher(PList([PStr("@x"), PEllipsis, PStr("@x")])) == Ok(EndsMatcher())
    ensures Eval(EndsMatcher(), h, Coll(List, [Int(1), Int(3), Int(3)]), NewContext(true)) ==
            Ok(Outcome(NewContext(true), [], []))
  {
    ListPatterns();
    EndsSearch(h);
    assert Marks(0, false) == [];
  }
}

=== FILE: match_methods.dfy ===
/** The loops of iguala/matchers.py as methods: `SequenceMatcher.match_context`
    and `match_next` driving a `Cursor` (lines 228-339), the property loop of
    `KeyValueMatcher.match_context` (lines 131-150) and `Matcher.match`
    (lines 56-59).  Each method is proved to compute the function of module
    Matchers that specifies it; sub-matchers are evaluated with `Eval`. */
module MatchMethods {
  import opened Values
  import opened Paths
  import opened Contexts
  import opened SearchState
  import opened Matchers
  import opened Cursors
  import opened PathMethods

  /** The cursor was built for this pattern and subject. */
  ghost predicate Shaped(seqm: Matcher, collection: Subject, cursor: Cursor)
    reads cursor.lvMinLengths, cursor.lvMaxLengths
  {
    seqm.Sequence? && cursor.Valid() && cursor.items == seqm.items && cursor.subjectSize == Len(collection)
  }

  /** What the cursor must be for `match_next` to run on it. */
  ghost predicate Ready(seqm: Matcher, collection: Subject, cursor: Cursor)
    reads cursor, cursor.lvStarts, cursor.lvLengths, cursor.lvMinLengths, cursor.lvMaxLengths
    reads cursor.patternHasNext, cursor.contexts
  {
    Shaped(seqm, collection, cursor) &&
    Inv(Wild(seqm.items), Len(collection), cursor.State()) && Stored(cursor.State())
  }

  /** `Matcher.match` (lines 56-59): a fresh context, and the successful
      contexts the matcher returns for it. */
  method Match(m: Matcher, h: Heap, obj: Value) returns (r: Result<MatcherResult>)
    ensures r.Err? ==> Eval(m, h, obj, NewContext(true)) == Err(r.error)
    ensures r.Ok? ==>
              Eval(m, h, obj, NewContext(true)).Ok? &&
              r.value.contexts == Successful(Eval(m, h, obj, NewContext(true)).value.outs)
    ensures r.Ok? ==> fresh(r.value) && r.value.Valid()
  {
    var result := new MatcherResult();
    var contexts :- MatchContext(m, h, obj, NewContext(true));
    result.AddContexts(contexts.outs);
    return Ok(result);
  }

  /** `match_context`, running the loops of `KeyValueMatcher` and
      `SequenceMatcher` as methods. */
  method MatchContext(m: Matcher, h: Heap, obj: Value, context: Context) returns (r: Result<Outcome>)
    ensures r == Eval(m, h, obj, context)
  {
    match m
    case Object(cls, _, subclassmatch) =>
      if !SameType(h, obj, cls, subclassmatch) {
        r := Ok(Compare(context, false));
      } else {
        r := KeyValueMatchContext(m, h, obj, context);
      }
    case Dict(_) =>
      r := KeyValueMatchContext(m, h, obj, context);
    case Sequence(_) =>
      var outs :- SequenceMatchContext(m, h, obj, context);
      r := Ok(Outcome(context, outs, Marks(|outs|, m.items == [])));
    case _ =>
      r := Eval(m, h, obj, context);
  }

  /** `prefix` put in front of a list of contexts, an error left alone. */
  function Prefixed(prefix: seq<Context>, r: Result<seq<Context>>): Result<seq<Context>>
  {
    if r.Ok? then Ok(prefix + r.value) else r
  }

  /** Lines 137-148: the property's path resolved from `obj`, then matched
      as one list by a sequence pattern, or candidate by candidate, each with
      a copy of the context, by any other pattern. */
  method ApplyPropertyTo(matcher: Matcher, path: Path, h: Heap, obj: Value, context: Context)
    returns (r: Result<seq<Context>>)
    ensures r == ApplyProperty(matcher, path, h, obj, context)
  {
    var resolved := ResolvePath(Paths.Current, path, h, obj);
    if IsCollectionMatcher(matcher) {
      var cpy := Copy(context);
      var o :- Eval(matcher, h, Coll(List, resolved), cpy);
      r := Ok(o.outs);
    } else {
      r := EachCandidate(matcher, h, resolved, context);
    }
  }

  /** `ForEachContext` on the contexts from `i` on: the `i`-th context's
      results in front of the rest, or its error. */
  lemma ForEachUnfold(sub: Matcher, path: Path, h: Heap, obj: Value, cs: seq<Context>, i: nat)
    requires i < |cs|
    ensures var a := ApplyProperty(sub, path, h, obj, cs[i]);
      ForEachContext(sub, path, h, obj, cs[i..]) ==
      if a.Ok? then Prefixed(a.value, ForEachContext(sub, path, h, obj, cs[i + 1..])) else Err(a.error)
  {
    assert cs[i..][0] == cs[i] && cs[i..][1..] == cs[i + 1..];
  }

  lemma PrefixedNothing(r: Result<seq<Context>>)
    ensures Prefixed([], r) == r
  {
    if r.Ok? {
      assert [] + r.value == r.value;
    }
  }

  lemma PrefixedMore(a: seq<Context>, b: seq<Context>, r: Result<seq<Context>>)
    ensures Prefixed(a, Prefixed(b, r)) == Prefixed(a + b, r)
  {
    if r.Ok? {
      assert a + (b + r.value) == (a + b) + r.value;
    }
  }

  /** `KeyValueMatcher.match_context` (lines 131-150): the handed context is
      marked successful, then each property turns the contexts so far into
      the successful ones it produces from them. */
  method KeyValueMatchContext(m: Matcher, h: Heap, obj: Value, context: Context) returns (r: Result<Outcome>)
    requires m.Object? || m.Dict?
    ensures r == KeyValue(m, h, obj, context)
  {
    var start := SetMatch(context, true);
    var newContexts := [start];
    for k := 0 to |m.properties|
      invariant Threads(m, k, h, obj, newContexts) == Threads(m, 0, h, obj, [start])
    {
      var (path, matcher) := m.properties[k];
      var results :- PropertyResults(matcher, path, h, obj, newContexts);
      newContexts := Successful(results);
    }
    return Ok(Outcome(start, newContexts, Marks(|newContexts|, m.properties == [])));
  }

  /** Lines 135-148: one property applied to every context so far, the
      results concatenated. */
  method PropertyResults(matcher: Matcher, path: Path, h: Heap, obj: Value, contexts: seq<Context>)
    returns (r: Result<seq<Context>>)
    ensures r == ForEachContext(matcher, path, h, obj, contexts)
  {
    var results := [];
    assert contexts[0..] == contexts;
    PrefixedNothing(ForEachContext(matcher, path, h, obj, contexts));
    for i := 0 to |contexts|
      invariant ForEachContext(matcher, path, h, obj, contexts) ==
                Prefixed(results, ForEachContext(matcher, path, h, obj, contexts[i..]))
    {
      ForEachUnfold(matcher, path, h, obj, contexts, i);
      var more :- ApplyPropertyTo(matcher, path, h, obj, contexts[i]);
      PrefixedMore(results, more, ForEachContext(matcher, path, h, obj, contexts[i + 1..]));
      results := results + more;
    }
    assert contexts[|contexts|..] == [];
    assert results + [] == results;
    return Ok(results);
  }

  /** `SequenceMatcher.match_context`: the contexts of every alignment, in
      the order the search finds them. */
  method SequenceMatchContext(seqm: Matcher, h: Heap, obj: Value, context: Context) returns (r: Result<seq<Context>>)
    requires seqm.Sequence?
    ensures MatchSequence(seqm, h, obj, context) == if r.Ok? then Ok(Outcome(context, r.value, Marks(|r.value|, seqm.items == []))) else Err(r.error)
  {
    var collection :- SubjectOf(h, obj);
    var cursor := new Cursor(seqm.items, Len(collection), context);
    StartInv(Wild(seqm.items), Len(collection));
    r := Search(seqm, h, collection, cursor);
  }

  /** The loops of lines 231-237 on a fresh cursor. */
  method Search(seqm: Matcher, h: Heap, collection: Subject, cursor: Cursor) returns (r: Result<seq<Context>>)
    requires Ready(seqm, collection, cursor)
    modifies cursor, cursor.lvStarts, cursor.lvLengths, cursor.patternHasNext, cursor.contexts
    ensures r == Run(seqm, h, collection, cursor.origContext, old(cursor.State()), [])
  {
    ghost var wild := Wild(seqm.items);
    ghost var m := Len(collection);
    ghost var goal := Run(seqm, h, collection, cursor.origContext, cursor.State(), []);
    var results: seq<Context> := [];
    RankBound(wild, m, cursor.State());
    while cursor.hasNext
      invariant Ready(seqm, collection, cursor)
      invariant Run(seqm, h, collection, cursor.origContext, cursor.State(), results) == goal
      invariant Rank(wild, m, cursor.State()) < Room(wild, m)
      decreases if cursor.hasNext then 1 else 0, Room(wild, m) - Rank(wild, m, cursor.State())
    {
      var found :- FindNext(seqm, h, collection, cursor, results);
      if found {
        var cs := Collect(seqm, h, collection, cursor, results);
        results := results + cs;
      }
      RankBound(wild, m, cursor.State());
    }
    r := Ok(results);
  }

  /** Lines 235-236: an alignment's contexts are collected and the search
      turns back to look for the next one. */
  method Collect(seqm: Matcher, h: Heap, collection: Subject, cursor: Cursor, ghost results: seq<Context>)
    returns (cs: seq<Context>)
    requires Ready(seqm, collection, cursor) && cursor.hasNext && cursor.forward
    requires cursor.patternCursor >= |seqm.items| && cursor.subjectCursor >= Len(collection)
    modifies cursor
    ensures Ready(seqm, collection, cursor) && cursor.hasNext
    ensures cs == SearchState.Current(cursor.origContext, old(cursor.State()))
    ensures Rank(Wild(seqm.items), Len(collection), old(cursor.State())) <
            Rank(Wild(seqm.items), Len(collection), cursor.State())
    ensures Run(seqm, h, collection, cursor.origContext, cursor.State(), results + cs) ==
            Run(seqm, h, collection, cursor.origContext, old(cursor.State()), results)
  {
    RunFound(seqm, h, collection, cursor.origContext, cursor.State(), results);
    cs := cursor.ContextsForCurrentPattern();
    cursor.SetBackward();
  }

  /** The inner loop of lines 233-235: `match_next` until it reports an
      alignment or the cursor is exhausted.  `results` is what the outer
      loop has collected; the search that remains is unchanged by the moves. */
  method FindNext(seqm: Matcher, h: Heap, collection: Subject, cursor: Cursor, ghost results: seq<Context>)
    returns (r: Result<bool>)
    requires Ready(seqm, collection, cursor) && cursor.hasNext
    modifies cursor, cursor.lvStarts, cursor.lvLengths, cursor.patternHasNext, cursor.contexts
    ensures r.Err? ==> Run(seqm, h, collection, cursor.origContext, old(cursor.State()), results) == Err(r.error)
    ensures r.Ok? ==>
              Ready(seqm, collection, cursor) &&
              Run(seqm, h, collection, cursor.origContext, cursor.State(), results) ==
              Run(seqm, h, collection, cursor.origContext, old(cursor.State()), results)
    ensures r.Ok? && r.value ==>
              cursor.hasNext && cursor.forward && cursor.patternCursor >= |seqm.items| &&
              cursor.subjectCursor >= Len(collection)
    ensures r.Ok? && !r.value ==> !cursor.hasNext
    ensures r.Ok? && cursor.hasNext ==>
              Rank(Wild(seqm.items), Len(collection), old(cursor.State())) <= Rank(Wild(seqm.items), Len(collection), cursor.State())
  {
    ghost var wild := Wild(seqm.items);
    ghost var m := Len(collection);
    ghost var goal := Run(seqm, h, collection, cursor.origContext, cursor.State(), results);
    ghost var r0 := Rank(wild, m, cursor.State());
    RankBound(wild, m, cursor.State());
    var found := false;
    while !found && cursor.hasNext
      invariant Ready(seqm, collection, cursor)
      invariant Run(seqm, h, collection, cursor.origContext, cursor.State(), results) == goal
      invariant found ==> cursor.hasNext && cursor.forward && cursor.patternCursor >= |seqm.items| &&
                          cursor.subjectCursor >= m
      invariant Rank(wild, m, cursor.State()) < Room(wild, m)
      invariant cursor.hasNext ==> r0 <= Rank(wild, m, cursor.State())
      decreases !found, if cursor.hasNext then 1 else 0, Room(wild, m) - Rank(wild, m, cursor.State())
    {
      found :- MatchNext(seqm, h, collection, cursor);
      RankBound(wild, m, cursor.State());
    }
    return Ok(found);
  }

  /** `SequenceMatcher.match_next`: one move of the search, reporting
      whether the cursor stands on a complete alignment. */
  method MatchNext(seqm: Matcher, h: Heap, collection: Subject, cursor: Cursor) returns (r: Result<bool>)
    requires Ready(seqm, collection, cursor) && cursor.hasNext
    modifies cursor, cursor.lvStarts, cursor.lvLengths, cursor.patternHasNext, cursor.contexts
    ensures Shaped(seqm, collection, cursor)
    ensures Matchers.Step(seqm, h, collection, cursor.origContext, old(cursor.State())) ==
            if r.Ok? then Ok((cursor.State(), r.value)) else Err(r.error)
  {
    ghost var st := cursor.State();
    var contexts := CopyAll(cursor.ContextsForCurrentPattern());
    var found := Rewind(seqm, collection, cursor);
    if found {
      return Ok(true);
    }
    PreludeOk(Wild(seqm.items), Len(collection), st);
    var moved :- MoveNext(seqm, h, collection, cursor, contexts);
    return Ok(false);
  }

  /** Lines 241-252: a forward cursor past both ends has found an alignment;
      otherwise a cursor past the last pattern is brought back onto it. */
  method Rewind(seqm: Matcher, collection: Subject, cursor: Cursor) returns (found: bool)
    requires Shaped(seqm, collection, cursor) && cursor.patternCursor <= |seqm.items|
    modifies cursor, cursor.contexts
    ensures Shaped(seqm, collection, cursor)
    ensures found == (old(cursor.forward) && old(cursor.patternCursor) >= |seqm.items| &&
                      old(cursor.subjectCursor) >= Len(collection))
    ensures found ==> cursor.State() == old(cursor.State())
    ensures !found ==> cursor.State() == Prelude(|seqm.items|, Len(collection), old(cursor.State()))
  {
    found := false;
    if cursor.forward {
      if cursor.patternCursor >= cursor.patternSize {
        if cursor.subjectCursor >= cursor.subjectSize {
          return true;
        }
        cursor.SetBackward();
        cursor.DecrementPatternCursor();
        cursor.ClearContextsForCurrentPattern();
      }
    } else {
      if cursor.patternCursor >= cursor.patternSize {
        cursor.DecrementPatternCursor();
        cursor.DecrementSubjectCursor();
      }
    }
  }

  /** Lines 253-339: the move after the prelude. */
  method MoveNext(seqm: Matcher, h: Heap, collection: Subject, cursor: Cursor, contexts: seq<Context>)
    returns (r: Result<()>)
    requires Ready(seqm, collection, cursor) && cursor.hasNext && cursor.patternCursor < |seqm.items|
    modifies cursor, cursor.lvStarts, cursor.lvLengths, cursor.patternHasNext, cursor.contexts
    ensures Shaped(seqm, collection, cursor)
    ensures Move(seqm, h, collection, contexts, old(cursor.State())) ==
            if r.Ok? then Ok(cursor.State()) else Err(r.error)
  {
    if cursor.patternCursor < 0 || cursor.subjectCursor < 0 {
      cursor.hasNext := false;
      return Ok(());
    }
    if !seqm.items[cursor.patternCursor].ListWildcard? {
      r := FixedNext(seqm, h, collection, cursor, contexts);
    } else {
      r := SpanNext(seqm, h, collection, cursor, contexts);
    }
  }

  /** Lines 257-300 of `match_next`, at a fixed pattern. */
  method FixedNext(seqm: Matcher, h: Heap, collection: Subject, cursor: Cursor, contexts: seq<Context>)
    returns (r: Result<()>)
    requires Ready(seqm, collection, cursor)
    requires 0 <= cursor.patternCursor < |seqm.items| && !seqm.items[cursor.patternCursor].ListWildcard?
    requires 0 <= cursor.subjectCursor
    modifies cursor, cursor.patternHasNext, cursor.contexts
    ensures Shaped(seqm, collection, cursor)
    ensures FixedStep(seqm, h, collection, contexts, old(cursor.State())) ==
            if r.Ok? then Ok(cursor.State()) else Err(r.error)
  {
    if cursor.forward && cursor.subjectCursor < cursor.subjectSize {
      r := FixedForwardNext(seqm, h, collection, cursor, contexts);
    } else {
      r := FixedBackwardNext(seqm, h, collection, cursor, contexts);
    }
  }

  /** Lines 258-275: the element at the subject cursor is matched. */
  method FixedForwardNext(seqm: Matcher, h: Heap, collection: Subject, cursor: Cursor, contexts: seq<Context>)
    returns (r: Result<()>)
    requires Ready(seqm, collection, cursor)
    requires 0 <= cursor.patternCursor < |seqm.items| && !seqm.items[cursor.patternCursor].ListWildcard?
    requires cursor.forward && 0 <= cursor.subjectCursor < cursor.subjectSize
    modifies cursor, cursor.patternHasNext, cursor.contexts
    ensures Shaped(seqm, collection, cursor)
    ensures FixedForward(seqm, h, collection, contexts, old(cursor.State())) ==
            if r.Ok? then Ok(cursor.State()) else Err(r.error)
  {
    ghost var st := cursor.State();
    var pattern := seqm.items[cursor.patternCursor];
    cursor.ResetHasNextCurrentPattern();
    cursor.ClearContextsForCurrentPattern();
    var newContexts :- MatchAt(pattern, h, collection, cursor.subjectCursor, contexts);
    CommitFixed(cursor, newContexts, st);
    return Ok(());
  }

  /** Lines 262-275: a hit commits the successful contexts and advances both
      cursors, a miss turns back. */
  method CommitFixed(cursor: Cursor, found: seq<Context>, ghost st: CursorState)
    requires 0 <= st.p < |st.ctxs| && |st.patHasNext| == |st.ctxs|
    requires cursor.patternHasNext.Length == |st.patHasNext| && cursor.contexts.Length == |st.ctxs|
    requires cursor.State() == st.(patHasNext := st.patHasNext[st.p := true], ctxs := st.ctxs[st.p := []])
    modifies cursor, cursor.patternHasNext, cursor.contexts
    ensures cursor.State() == FixedAfter(st, found)
  {
    if AnyMatch(found) {
      cursor.SetHasNextCurrentPattern();
      var kept := Successful(found);
      cursor.AddContextsToPattern(kept);
      cursor.IncrementPatternCursor();
      cursor.IncrementSubjectCursor();
      assert [] + kept == kept;
      assert st.patHasNext[st.p := true][st.p := false] == st.patHasNext[st.p := false];
      assert st.ctxs[st.p := []][st.p := kept] == st.ctxs[st.p := kept];
    } else {
      cursor.DecrementPatternCursor();
      cursor.SetBackward();
    }
  }

  /** Lines 276-300. */
  method FixedBackwardNext(seqm: Matcher, h: Heap, collection: Subject, cursor: Cursor, contexts: seq<Context>)
    returns (r: Result<()>)
    requires Ready(seqm, collection, cursor)
    requires 0 <= cursor.patternCursor < |seqm.items| && !seqm.items[cursor.patternCursor].ListWildcard?
    requires 0 <= cursor.subjectCursor && !(cursor.forward && cursor.subjectCursor < cursor.subjectSize)
    modifies cursor
    ensures Shaped(seqm, collection, cursor)
    ensures FixedBackward(seqm, h, collection, contexts, old(cursor.State())) ==
            if r.Ok? then Ok(cursor.State()) else Err(r.error)
  {
    ghost var st := cursor.State();
    var pattern := seqm.items[cursor.patternCursor];
    if cursor.subjectCursor < cursor.subjectSize {
      var newContexts :- MatchAt(pattern, h, collection, cursor.subjectCursor, contexts);
      if cursor.HasNextCurrentPattern() && AnyMatch(newContexts) {
        // lines 287-292 never run: a fixed pattern reached backward has
        // been used, so its flag is cleared (`SearchState.Inv`)
        assert false;
      }
    }
    cursor.DecrementPatternCursor();
    cursor.DecrementSubjectCursor();
    cursor.SetBackward();
    assert cursor.State() == Retreat(st);
    return Ok(());
  }

  /** Lines 301-338 of `match_next`, at a list wildcard. */
  method SpanNext(seqm: Matcher, h: Heap, collection: Subject, cursor: Cursor, contexts: seq<Context>)
    returns (r: Result<()>)
    requires Ready(seqm, collection, cursor)
    requires 0 <= cursor.patternCursor < |seqm.items| && seqm.items[cursor.patternCursor].ListWildcard?
    requires 0 <= cursor.subjectCursor
    modifies cursor, cursor.lvStarts, cursor.lvLengths, cursor.contexts
    ensures Shaped(seqm, collection, cursor)
    ensures SpanStep(seqm, h, collection, contexts, old(cursor.State())) ==
            if r.Ok? then Ok(cursor.State()) else Err(r.error)
  {
    ghost var st := cursor.State();
    EnterSpan(seqm, collection, cursor);
    var p := cursor.patternCursor;
    var length := cursor.lvLengths[p];
    var start := cursor.lvStarts[p];
    if length > cursor.lvMaxLengths[p] || start + length >= cursor.subjectSize + 1 {
      LeaveSpan(cursor);
      r := Ok(());
    } else {
      r := SpanMatch(seqm, h, collection, cursor, contexts, start, length, st);
    }
  }

  /** Lines 302-315: the span at the cursor is proposed. */
  method EnterSpan(seqm: Matcher, collection: Subject, cursor: Cursor)
    requires Shaped(seqm, collection, cursor)
    requires 0 <= cursor.patternCursor < |seqm.items| && seqm.items[cursor.patternCursor].ListWildcard?
    modifies cursor, cursor.lvStarts, cursor.lvLengths, cursor.contexts
    ensures Shaped(seqm, collection, cursor)
    ensures cursor.State() == SpanEnter(|seqm.items|, Len(collection), old(cursor.State()))
  {
    var p := cursor.patternCursor;
    if cursor.forward {
      cursor.lvStarts[p] := cursor.subjectCursor;
      if p == cursor.patternSize - 1 {
        cursor.lvLengths[p] := Max0(cursor.subjectSize - cursor.subjectCursor);
      } else {
        cursor.lvLengths[p] := cursor.lvMinLengths[p];
      }
    } else {
      cursor.lvLengths[p] := cursor.lvLengths[p] + 1;
      cursor.SetForward();
      cursor.ClearContextsForCurrentPattern();
    }
  }

  /** Lines 321-326: the proposed span is too long. */
  method LeaveSpan(cursor: Cursor)
    requires 0 <= cursor.patternCursor < cursor.contexts.Length
    requires cursor.lvStarts.Length == cursor.contexts.Length && cursor.lvLengths.Length == cursor.contexts.Length
    requires cursor.lvStarts != cursor.lvLengths
    modifies cursor, cursor.lvLengths, cursor.contexts
    ensures cursor.State() == SpanOut(old(cursor.State()))
  {
    cursor.subjectCursor := cursor.lvStarts[cursor.patternCursor];
    cursor.SetBackward();
    cursor.lvLengths[cursor.patternCursor] := 0;
    cursor.DecrementPatternCursor();
    cursor.ClearContextsForCurrentPattern();
  }

  /** Lines 328-338: the proposed span is matched as a slice of the
      subject.  `st0` is the state before the span was proposed. */
  method SpanMatch(seqm: Matcher, h: Heap, collection: Subject, cursor: Cursor, contexts: seq<Context>,
                   start: nat, length: nat, ghost st0: CursorState) returns (r: Result<()>)
    requires Shaped(seqm, collection, cursor)
    requires Inv(Wild(seqm.items), Len(collection), st0) && Stored(st0)
    requires 0 <= st0.p < |seqm.items| && seqm.items[st0.p].ListWildcard? && 0 <= st0.s
    requires ProposedSpan(seqm.items, Len(collection), st0) == Some((start, length))
    requires cursor.State() == SpanEnter(|seqm.items|, Len(collection), st0)
    modifies cursor, cursor.lvLengths, cursor.contexts
    ensures Shaped(seqm, collection, cursor)
    ensures SpanTry(seqm, h, collection, contexts, st0, start, length) ==
            if r.Ok? then Ok(cursor.State()) else Err(r.error)
  {
    var pattern := seqm.items[cursor.patternCursor];
    var subjects :- SliceOf(collection, start, start + length);
    var found :- MatchEach(pattern, h, subjects, contexts);
    CommitSpan(cursor, found);
    return Ok(());
  }

  /** Lines 330-338: a hit appends the successful contexts and moves past
      the span, a miss resets the span and turns back. */
  method CommitSpan(cursor: Cursor, found: seq<Context>)
    requires 0 <= cursor.patternCursor < cursor.contexts.Length
    requires cursor.lvStarts.Length == cursor.contexts.Length && cursor.lvLengths.Length == cursor.contexts.Length
    requires cursor.lvStarts != cursor.lvLengths
    modifies cursor, cursor.lvLengths, cursor.contexts
    ensures cursor.State() == SpanAfter(old(cursor.State()), found)
  {
    if AnyMatch(found) {
      var kept := Successful(found);
      cursor.AddContextsToPattern(kept);
      cursor.subjectCursor := cursor.lvStarts[cursor.patternCursor] + cursor.lvLengths[cursor.patternCursor];
      cursor.IncrementPatternCursor();
    } else {
      cursor.SetBackward();
      cursor.lvLengths[cursor.patternCursor] := 0;
      cursor.DecrementPatternCursor();
    }
  }
}

=== FILE: matcher_laws.dfy ===
/** Properties of `match_context` for the single matchers
    (iguala/matchers.py:72-217): wildcards, negation, the type test of
    `ObjectMatcher` and the threading of `KeyValueMatcher`. */
module MatcherLaws {
  import opened Values
  import opened Paths
  import opened Contexts
  import opened Matchers
  import opened SequenceLaws

  /** `WildcardMatcher` (lines 195-207): `_` succeeds without binding; an
      unbound alias is bound to the subject; a bound alias succeeds exactly
      when it is bound to the subject, and nothing is rebound. */
  lemma WildcardLaws(alias: string, h: Heap, obj: Value, ctx: Context)
    requires ctx.truth
    ensures var r := Eval(Wildcard(alias), h, obj, ctx);
      r.Ok? && |r.value.outs| == 1 &&
      (alias == "_" ==> r.value.outs[0].bindings == ctx.bindings && r.value.outs[0].IsMatch()) &&
      (alias != "_" && alias !in ctx.bindings ==>
         r.value.outs[0].bindings == ctx.bindings[alias := obj] && r.value.outs[0].IsMatch()) &&
      (alias != "_" && alias in ctx.bindings ==>
         r.value.outs[0].bindings == ctx.bindings && (r.value.outs[0].IsMatch() <==> ctx.bindings[alias] == obj))
  {
    assert IsAnonymous(Wildcard(alias)) <==> alias == "_";
  }

  /** `SaveNodeMatcher` (lines 76-78): the subject is bound to the alias,
      replacing any earlier binding, and the inner matcher runs on that
      context; so a save under an alias followed by the wildcard of the same
      alias always succeeds, with the alias bound to the subject. */
  lemma SaveNodeBinds(alias: string, m: Matcher, h: Heap, obj: Value, ctx: Context)
    ensures Eval(SaveNode(alias, m), h, obj, ctx) == Eval(m, h, obj, ctx.(bindings := ctx.bindings[alias := obj]))
    ensures ctx.truth && alias != "_" ==>
      var r := Eval(SaveNode(alias, Wildcard(alias)), h, obj, ctx);
      r.Ok? && |r.value.outs| == 1 &&
      r.value.outs[0].IsMatch() && r.value.outs[0].bindings == ctx.bindings[alias := obj]
  {
    if ctx.truth && alias != "_" {
      WildcardLaws(alias, h, obj, ctx.(bindings := ctx.bindings[alias := obj]));
    }
  }

  /** `ListWildcardMatcher` (lines 210-217): `...` (alias `""`) and `*_`
      never bind and always succeed. */
  lemma AnonymousListWildcard(alias: string, h: Heap, obj: Value, ctx: Context)
    requires alias == "" || alias == "_"
    requires ctx.truth
    ensures var r := Eval(ListWildcard(alias), h, obj, ctx);
      r.Ok? && r.value.outs == [r.value.after] &&
      r.value.after.bindings == ctx.bindings && r.value.after.IsMatch()
  {
    assert IsAnonymous(ListWildcard(alias));
  }

  /** `ObjectMatcher` (lines 159-167): a subject of the wrong class gives one
      context flagged as failed, whatever the properties are. */
  lemma ObjectTypeGate(cls: string, properties: seq<(Path, Matcher)>, subclassmatch: bool,
                       h: Heap, obj: Value, ctx: Context)
    requires !SameType(h, obj, cls, subclassmatch)
    ensures var r := Eval(Object(cls, properties, subclassmatch), h, obj, ctx);
      r == Ok(Outcome(SetMatch(ctx, false), [SetMatch(ctx, false)], [true])) &&
      r == Eval(Object(cls, [], subclassmatch), h, obj, ctx)
    ensures ctx.truth ==> !Eval(Object(cls, properties, subclassmatch), h, obj, ctx).value.outs[0].IsMatch()
  {
  }

  /** `NotMatcher` (lines 107-115) over a matcher that returns no context
      gives back the handed context as it was left. */
  lemma NotOfNothing(sub: Matcher, h: Heap, obj: Value, ctx: Context)
    requires Eval(sub, h, obj, ctx).Ok? && Eval(sub, h, obj, ctx).value.outs == []
    ensures var after := Eval(sub, h, obj, ctx).value.after;
      Eval(Not(sub), h, obj, ctx) == Ok(Outcome(after, [after], [true]))
  {
  }

  /** Over a leaf matcher and a context of polarity `True`, `NotMatcher`
      succeeds exactly when the leaf fails, and what it returns succeeds. */
  lemma NotOfLeaf(sub: Matcher, h: Heap, obj: Value, ctx: Context)
    requires IsLeaf(sub) && ctx.truth
    ensures Eval(Not(sub), h, obj, ctx).Ok? && Eval(sub, h, obj, ctx).Ok?
    ensures AnyMatch(Eval(Not(sub), h, obj, ctx).value.outs) <==> !AnyMatch(Eval(sub, h, obj, ctx).value.outs)
    ensures forall c :: c in Eval(Not(sub), h, obj, ctx).value.outs ==> c.IsMatch()
  {
    var o := Eval(sub, h, obj, ctx).value;
    assert o.outs == [o.after] && o.after.truth;
    assert Eval(Not(sub), h, obj, ctx) == Ok(Negate(ctx.truth, o));
    NegateSuccessful(o.after);
  }

  /** Negating the single outcome of a successful-polarity leaf flips
      whether anything succeeds, and keeps only successful contexts. */
  lemma NegateSuccessful(d: Context)
    requires d.truth
    ensures AnyMatch(Negate(true, Outcome(d, [d], [true])).outs) <==> !AnyMatch([d])
    ensures forall c :: c in Negate(true, Outcome(d, [d], [true])).outs ==> c.IsMatch()
  {
    NegateOne(true, d);
    var r := Negate(true, Outcome(d, [d], [true]));
    if d.IsMatch() {
      assert [d][0].IsMatch();
    } else {
      assert r.outs[0].IsMatch();
    }
  }

  /** `NotMatcher(NotMatcher(NotMatcher(LiteralMatcher(3))))` on 4: the
      innermost negation re-flags the handed context itself as successful,
      the middle one drops it and returns nothing, so the outer one hands
      back that same context, which now succeeds. */
  lemma TripleNot(h: Heap)
    ensures Eval(Not(Not(Not(Literal(Int(3))))), h, Int(4), NewContext(true)) ==
            Ok(Outcome(NewContext(true), [NewContext(true)], [true]))
  {
    var ctx := NewContext(true);
    NegateOne(true, SetMatch(ctx, false));
    assert Eval(Not(Literal(Int(3))), h, Int(4), ctx) == Ok(Outcome(ctx, [ctx], [true]));
    NegateOne(true, ctx);
    assert Eval(Not(Not(Literal(Int(3)))), h, Int(4), ctx) == Ok(Outcome(ctx, [], []));
  }

  /** Negating a single context keeps it, re-flagged, exactly when its
      success differs from the polarity. */
  lemma NegateOne(truth: bool, d: Context)
    ensures var r := Negate(truth, Outcome(d, [d], [true]));
      r.outs == (if d.IsMatch() != truth then [d.(flag := truth)] else []) &&
      r.after == (if d.IsMatch() != truth then d.(flag := truth) else d) &&
      r.handed == (if d.IsMatch() != truth then [true] else [])
  {
    assert [d][1..] == [];
  }

  /** `flat([matcher.match_context(o, context.copy()) for o in resolved])`
      over a leaf matcher: one context per candidate, each from its own copy. */
  lemma {:induction false} OneContextPerCandidate(sub: Matcher, h: Heap, objs: seq<Value>, c: Context)
    requires IsLeaf(sub)
    ensures EachCandidate(sub, h, objs, c).Ok?
    ensures var r := EachCandidate(sub, h, objs, c).value;
      |r| == |objs| && forall i :: 0 <= i < |objs| ==> r[i] == Eval(sub, h, objs[i], Copy(c)).value.after
    decreases |objs|
  {
    if objs != [] {
      OneContextPerCandidate(sub, h, objs[1..], c);
    }
  }

  /** No contexts in, none out, whatever the properties left. */
  lemma {:induction false} ThreadsOfNothing(m: Matcher, k: nat, h: Heap, obj: Value)
    requires (m.Object? || m.Dict?) && k <= |m.properties|
    ensures Threads(m, k, h, obj, []) == Ok([])
    decreases |m.properties| - k
  {
    if k < |m.properties| {
      ThreadsOfNothing(m, k + 1, h, obj);
    }
  }

  /** A property whose path resolves to nothing gives no context, whatever
      comes in, unless its pattern is a sequence pattern. */
  lemma {:induction false} NothingResolved(sub: Matcher, path: Path, h: Heap, obj: Value, cs: seq<Context>)
    requires !IsCollectionMatcher(sub) && Resolve(Paths.Current, path, h, obj) == []
    ensures ForEachContext(sub, path, h, obj, cs) == Ok([])
    decreases |cs|
  {
    if cs != [] {
      NothingResolved(sub, path, h, obj, cs[1..]);
      var none: seq<Context> := [];
      assert ApplyProperty(sub, path, h, obj, cs[0]) == Ok(none);
      assert none + none == none;
    }
  }

  /** The contexts entering each property are those the previous one let
      through, so once a property resolves to nothing the match is over. */
  lemma {:induction false} ThreadsStopAt(m: Matcher, j: nat, k: nat, h: Heap, obj: Value, cs: seq<Context>)
    requires (m.Object? || m.Dict?) && j <= k < |m.properties|
    requires !IsCollectionMatcher(m.properties[k].1) && Resolve(Paths.Current, m.properties[k].0, h, obj) == []
    ensures Threads(m, j, h, obj, cs).Ok? ==> Threads(m, j, h, obj, cs).value == []
    decreases k - j
  {
    var (path, sub) := m.properties[j];
    if j == k {
      NothingResolved(sub, path, h, obj, cs);
      ThreadsOfNothing(m, k + 1, h, obj);
    } else {
      var results := ForEachContext(sub, path, h, obj, cs);
      if results.Ok? {
        ThreadsStopAt(m, j + 1, k, h, obj, Successful(results.value));
      }
    }
  }

  /** `KeyValueMatcher.match_context` (lines 131-150): a property whose
      path resolves to nothing, with a pattern that is not a sequence
      pattern, leaves no context. */
  lemma EmptyResolution(m: Matcher, h: Heap, obj: Value, ctx: Context, k: nat)
    requires (m.Object? || m.Dict?) && k < |m.properties|
    requires !IsCollectionMatcher(m.properties[k].1) && Resolve(Paths.Current, m.properties[k].0, h, obj) == []
    ensures KeyValue(m, h, obj, ctx).Ok? ==> KeyValue(m, h, obj, ctx).value.outs == []
  {
    ThreadsStopAt(m, 0, k, h, obj, [SetMatch(ctx, true)]);
  }
}

=== FILE: matchers.dfy ===
/** The matchers of iguala/matchers.py and what `match_context(obj, context)`
    does for each of them.

    A Python matcher mutates the context it is handed and returns a list of
    contexts.  Here `Eval` returns an `Outcome`: the state the handed context
    is left in (`after`) and the returned list (`outs`).  The only reader of
    `after` is `NotMatcher`, when the list is empty (lines 110-111), and the
    body of `OrMatcher`, when no returned context succeeds (lines 125-127);
    in both cases `after` is exact.  An exception that escapes the match is
    an `Err`. */
module Matchers {
  import opened Values
  import opened Paths
  import opened Contexts
  import opened SearchState

  datatype Matcher =
    | SaveNode(alias: string, matcher: Matcher)         // `SaveNodeMatcher`
    | Identity(value: Value)                            // `IdentityMatcher`: `obj is value`
    | Literal(value: Value)                             // `LiteralMatcher`: `obj == value`
    | Not(matcher: Matcher)                             // `NotMatcher`
    | Or(left: Matcher, right: Matcher)                 // `OrMatcher`
    | Object(cls: string, properties: seq<(Path, Matcher)>, subclassmatch: bool)  // `ObjectMatcher`
    | Dict(properties: seq<(Path, Matcher)>)            // `DictMatcher`
    | Wildcard(alias: string)                           // `WildcardMatcher`
    | ListWildcard(alias: string)                       // `ListWildcardMatcher`
    | Sequence(items: seq<Matcher>)                     // `SequenceMatcher`

  /** `is_collection_matcher`. */
  function IsCollectionMatcher(m: Matcher): (r: bool)
    // only `SequenceMatcher` overrides the default `False`
    ensures r <==> m.Sequence?
    // a list wildcard is never matched as a nested collection
    ensures r ==> !IsListWildcard(m)
  {
    m.Sequence?
  }

  /** `is_list_wildcard`. */
  function IsListWildcard(m: Matcher): (r: bool)
    // only `ListWildcardMatcher` overrides the default `False`
    ensures r <==> m.ListWildcard?
  {
    m.ListWildcard?
  }

  /** `is_anonymous`: `_` for a wildcard, also the empty alias of `...` for a
      list wildcard. */
  function IsAnonymous(m: Matcher): (r: bool)
    requires m.Wildcard? || m.ListWildcard?
    ensures m.Wildcard? ==> (r <==> m.alias == "_")
    // the list wildcard adds the empty alias to the `_` it inherits
    ensures m.ListWildcard? ==> (r <==> m.alias == "" || m.alias == "_")
  {
    m.alias == "_" || (m.ListWildcard? && m.alias == "")
  }

  /** What `match_context` leaves behind: the handed context's state, the
      returned contexts, and which of them is the handed context itself
      (`handed[i]`) rather than a copy. */
  datatype Outcome = Outcome(after: Context, outs: seq<Context>, handed: seq<bool>)
  {
    /** One mark per returned context, and every position marked as the
        handed context holds the state that context is left in. */
    predicate WellMarked()
    {
      |handed| == |outs| && forall i :: 0 <= i < |outs| && handed[i] ==> outs[i] == after
    }
  }

  /** `n` marks, all `b`. */
  function Marks(n: nat, b: bool): (r: seq<bool>)
    ensures |r| == n && forall i :: 0 <= i < n ==> r[i] == b
  {
    seq(n, _ => b)
  }

  // ---------------------------------------------------------------------
  // Leaves

  /** `IdentityMatcher` and `LiteralMatcher` (lines 85-96): record whether
      the subject is the value, and hand the context back. */
  function Compare(ctx: Context, same: bool): (o: Outcome)
    ensures o.outs == [o.after] && o.handed == [true]
    ensures o.after.bindings == ctx.bindings && o.after.truth == ctx.truth
    ensures o.after.IsMatch() <==> same == ctx.truth
  {
    var c := SetMatch(ctx, same);
    Outcome(c, [c], [true])
  }

  /** `WildcardMatcher.match_context` (lines 198-207). */
  function Bind(anonymous: bool, alias: string, obj: Value, ctx: Context): (o: Outcome)
    ensures o.outs == [o.after] && o.handed == [true] && o.after.truth == ctx.truth
    // an anonymous wildcard never binds and always succeeds
    ensures anonymous ==> o.after.bindings == ctx.bindings && o.after.flag
    // a bound alias succeeds iff its value equals the subject, bindings untouched
    ensures !anonymous && alias in ctx.bindings ==>
              o.after.bindings == ctx.bindings && (o.after.flag <==> ctx.bindings[alias] == obj)
    // an unbound alias binds the subject and succeeds
    ensures !anonymous && alias !in ctx.bindings ==>
              o.after.bindings == ctx.bindings[alias := obj] && o.after.flag
  {
    if anonymous then Compare(ctx, true)
    else if alias in ctx.bindings then Compare(ctx, ctx.bindings[alias] == obj)
    else Compare(ctx.(bindings := ctx.bindings[alias := obj]), true)
  }

  /** `NotMatcher.match_context` after the sub-matcher ran (lines 108-115):
      no context at all gives back the handed one; otherwise only those whose
      success differs from the handed polarity survive, re-flagged with that
      polarity in place, so the handed context is re-flagged too when it is
      one of them. */
  function Negate(truth: bool, o: Outcome): (r: Outcome)
    requires o.WellMarked()
    ensures r.WellMarked()
    ensures o.outs == [] ==> r == Outcome(o.after, [o.after], [true])
    ensures o.outs != [] ==> r.after == if HandedKept(truth, o) then o.after.(flag := truth) else o.after
    ensures o.outs != [] ==> |r.outs| <= |o.outs|
    ensures o.outs != [] ==> forall c :: c in r.outs <==>
              exists d :: d in o.outs && d.IsMatch() != truth && c == d.(flag := truth)
  {
    if o.outs == [] then Outcome(o.after, [o.after], [true])
    else
      var after := if HandedKept(truth, o) then o.after.(flag := truth) else o.after;
      Outcome(after, Reflag(truth, o.outs), KeptMarks(truth, o.outs, o.handed, o.after))
  }

  /** The handed context is among the contexts `NotMatcher` keeps. */
  predicate HandedKept(truth: bool, o: Outcome)
    requires |o.handed| == |o.outs|
  {
    exists i :: 0 <= i < |o.outs| && o.handed[i] && o.outs[i].IsMatch() != truth
  }

  function Reflag(truth: bool, cs: seq<Context>): (r: seq<Context>)
    ensures |r| <= |cs|
    ensures forall c :: c in r <==> exists d :: d in cs && d.IsMatch() != truth && c == d.(flag := truth)
  {
    if cs == [] then []
    else
      var rest := Reflag(truth, cs[1..]);
      assert forall d :: d in cs <==> d == cs[0] || d in cs[1..];
      if cs[0].IsMatch() != truth then [cs[0].(flag := truth)] + rest else rest
  }

  /** The marks of the contexts `Reflag` keeps: a kept handed context is
      the handed context re-flagged, and one is kept iff a marked context
      has the success `NotMatcher` keeps. */
  function KeptMarks(truth: bool, cs: seq<Context>, marks: seq<bool>, after: Context): (r: seq<bool>)
    requires |marks| == |cs| && forall i :: 0 <= i < |cs| && marks[i] ==> cs[i] == after
    ensures |r| == |Reflag(truth, cs)|
    ensures forall j :: 0 <= j < |r| && r[j] ==> Reflag(truth, cs)[j] == after.(flag := truth)
    ensures (true in r) <==> exists i :: 0 <= i < |cs| && marks[i] && cs[i].IsMatch() != truth
  {
    if cs == [] then []
    else
      var rest := KeptMarks(truth, cs[1..], marks[1..], after);
      assert forall i :: 1 <= i < |cs| && marks[i] && cs[i].IsMatch() != truth ==>
               marks[1..][i - 1] && cs[1..][i - 1].IsMatch() != truth;
      if cs[0].IsMatch() != truth then [marks[0]] + rest else rest
  }

  /** The type test of `ObjectMatcher` (lines 160-164). */
  function SameType(h: Heap, obj: Value, cls: string, subclassmatch: bool): (r: bool)
    ensures subclassmatch ==> (r <==> IsInstance(h, obj, cls))
    ensures !subclassmatch ==> (r <==> ClassOf(h, obj) == cls)
    // an object of exactly the class passes either test
    ensures ClassOf(h, obj) == cls ==> r
  {
    if subclassmatch then IsInstance(h, obj, cls) else ClassOf(h, obj) == cls
  }

  // ---------------------------------------------------------------------
  // Sequence subjects

  /** What `len(obj)`, `obj[i]` and `obj[a:b]` do on a subject: lists,
      tuples and strings are indexed; a set or a dict has a length but
      raises on the first index. */
  datatype Subject =
    | Items(kind: CollKind, elems: seq<Value>)
    | Chars(text: string)
    | Unindexable(size: nat, err: Error)

  function SubjectOf(h: Heap, obj: Value): (r: Result<Subject>)
    ensures r.Err? <==> !(obj.Coll? || obj.Str? || (obj.Ref? && Deref(h, obj).Some? && Deref(h, obj).value.kind == Mapping))
    ensures obj.Coll? && obj.kind != Set ==> r == Ok(Items(obj.kind, obj.items))
  {
    match obj
    case Coll(k, xs) => if k == Set then Ok(Unindexable(|xs|, TypeError)) else Ok(Items(k, xs))
    case Str(t) => Ok(Chars(t))
    case Ref(_) =>
      if Deref(h, obj).Some? && Deref(h, obj).value.kind == Mapping then
        Ok(Unindexable(|Deref(h, obj).value.fields|, KeyError))
      else Err(TypeError)
    case _ => Err(TypeError)
  }

  /** `len(sequence)`: the elements of a list or tuple, the characters of a
      string, the members of a set or the entries of a dict. */
  function Len(sub: Subject): (r: nat)
    ensures sub.Items? ==> r == |sub.elems|
    ensures sub.Chars? ==> r == |sub.text|
    ensures sub.Unindexable? ==> r == sub.size
  {
    match sub
    case Items(_, xs) => |xs|
    case Chars(t) => |t|
    case Unindexable(n, _) => n
  }

  /** `collection[i]`. */
  /** The length of a subject is the length of the value it was made from. */
  lemma SubjectLen(h: Heap, obj: Value)
    requires SubjectOf(h, obj).Ok?
    ensures obj.Coll? ==> Len(SubjectOf(h, obj).value) == |obj.items|
    ensures obj.Str? ==> Len(SubjectOf(h, obj).value) == |obj.s|
    ensures obj.Ref? ==> Len(SubjectOf(h, obj).value) == |h[obj.id].fields|
  {
  }

  function ElemAt(sub: Subject, i: nat): (r: Result<Value>)
    requires i < Len(sub)
    ensures sub.Items? ==> r == Ok(sub.elems[i])
    ensures sub.Chars? ==> r == Ok(Str([sub.text[i]]))
  {
    match sub
    case Items(_, xs) => Ok(xs[i])
    case Chars(t) => Ok(Str([t[i]]))
    case Unindexable(_, e) => Err(e)
  }

  /** `collection[a:b]`: a list, tuple or string of the same kind. */
  function SliceOf(sub: Subject, a: nat, b: nat): (r: Result<Value>)
    requires a <= b <= Len(sub)
    ensures sub.Items? ==> r == Ok(Coll(sub.kind, sub.elems[a..b]))
    ensures sub.Chars? ==> r == Ok(Str(sub.text[a..b]))
  {
    match sub
    case Items(k, xs) => Ok(Coll(k, xs[a..b]))
    case Chars(t) => Ok(Str(t[a..b]))
    case Unindexable(_, e) => Err(e)
  }

  // ---------------------------------------------------------------------
  // The shape of a sequence pattern, as `Cursor.__init__` computes it

  /** Which positions hold a list wildcard (`wildcard_pos`). */
  function Wild(items: seq<Matcher>): (w: seq<bool>)
    ensures |w| == |items| && forall i :: 0 <= i < |items| ==> (w[i] <==> items[i].ListWildcard?)
  {
    seq(|items|, i requires 0 <= i < |items| => items[i].ListWildcard?)
  }

  /** `num_nonlistwildcard`. */
  function NumFixed(items: seq<Matcher>): (k: nat)
    ensures k <= |items|
  {
    if items == [] then 0 else (if items[0].ListWildcard? then 0 else 1) + NumFixed(items[1..])
  }

  /** `lv_max_lenghts[i]` of every list wildcard: the subject's length less
      the number of fixed patterns; negative when there are more fixed
      patterns than subject elements. */
  function MaxLen(items: seq<Matcher>, m: nat): (r: int)
    ensures r <= m
  {
    m - NumFixed(items)
  }

  /** The span a list wildcard at the cursor is handed (lines 302-321), or
      `None` when the span is too long and the search turns back.  Every span
      handed over is non-negative, no longer than `MaxLen`, inside the
      subject, and a list wildcard entered forward at the last position first
      takes every remaining element. */
  function ProposedSpan(items: seq<Matcher>, m: nat, st: CursorState): (sp: Option<(nat, nat)>)
    requires Inv(Wild(items), m, st) && 0 <= st.p < |items| && items[st.p].ListWildcard? && 0 <= st.s
    ensures sp.Some? ==> sp.value.1 <= MaxLen(items, m) && sp.value.0 + sp.value.1 <= m
    ensures sp.Some? && st.forward ==> sp.value.0 == st.s
    ensures sp.Some? && st.forward && st.p == |items| - 1 ==> sp.value.1 == m - st.s
    ensures sp.Some? && st.forward && st.p < |items| - 1 ==> sp.value.1 == 0
    ensures sp.Some? && !st.forward ==> sp.value == (st.starts[st.p], st.lengths[st.p] + 1)
    ensures sp.None? <==> (var st1 := SpanEnter(|items|, m, st);
              st1.lengths[st.p] > MaxLen(items, m) || st1.starts[st.p] + st1.lengths[st.p] >= m + 1)
  {
    var st1 := SpanEnter(|items|, m, st);
    var length := st1.lengths[st.p];
    var start := st1.starts[st.p];
    if length > MaxLen(items, m) || start + length >= m + 1 then None
    else Some((start, length))
  }

  // ---------------------------------------------------------------------
  // Evaluation

  /** `matcher.match_context(obj, context)`. */
  function Eval(m: Matcher, h: Heap, obj: Value, ctx: Context): (r: Result<Outcome>)
    ensures m.Or? ==> r == Err(AttributeError)
    ensures (m.Identity? || m.Literal? || m.Wildcard? || m.ListWildcard?) ==>
              r.Ok? && r.value.outs == [r.value.after] && r.value.handed == [true]
    ensures r.Ok? ==> r.value.WellMarked()
    decreases m, 6, 0, 0
  {
    match m
    case SaveNode(alias, sub) => Eval(sub, h, obj, ctx.(bindings := ctx.bindings[alias := obj]))
    case Identity(v) => Ok(Compare(ctx, obj == v))
    case Literal(v) => Ok(Compare(ctx, obj == v))
    case Not(sub) =>
      var o :- Eval(sub, h, obj, ctx);
      Ok(Negate(ctx.truth, o))
    case Or(_, _) => Err(AttributeError)
    case Object(cls, _, subclassmatch) =>
      if !SameType(h, obj, cls, subclassmatch) then Ok(Compare(ctx, false))
      else KeyValue(m, h, obj, ctx)
    case Dict(_) => KeyValue(m, h, obj, ctx)
    case Wildcard(alias) => Ok(Bind(IsAnonymous(m), alias, obj, ctx))
    case ListWildcard(alias) => Ok(Bind(IsAnonymous(m), alias, obj, ctx))
    case Sequence(_) => MatchSequence(m, h, obj, ctx)
  }

  /** The body of `OrMatcher.matcher_context` (lines 123-127).  The method is
      misspelt, so no `match_context` reaches it and `Eval` of an `Or` raises
      `AttributeError`; this is what the body would do: the right side runs
      on the context the left side left behind. */
  function OrBody(m: Matcher, h: Heap, obj: Value, ctx: Context): (r: Result<Outcome>)
    requires m.Or?
    // an error of the left side escapes
    ensures Eval(m.left, h, obj, ctx).Err? ==> r == Eval(m.left, h, obj, ctx)
    // a left side with a successful context is returned as it is, whatever the right side would do
    ensures Eval(m.left, h, obj, ctx).Ok? && AnyMatch(Eval(m.left, h, obj, ctx).value.outs) ==>
              r == Eval(m.left, h, obj, ctx)
    // otherwise the right side answers, on the context the left side left behind
    ensures Eval(m.left, h, obj, ctx).Ok? && !AnyMatch(Eval(m.left, h, obj, ctx).value.outs) ==>
              r == Eval(m.right, h, obj, Eval(m.left, h, obj, ctx).value.after)
    decreases m, 5, 0, 0
  {
    var l :- Eval(m.left, h, obj, ctx);
    if AnyMatch(l.outs) then Ok(l)
    else Eval(m.right, h, obj, l.after)
  }

  // ---------------------------------------------------------------------
  // KeyValueMatcher, lines 131-150

  /** `KeyValueMatcher.match_context`: the handed context is marked
      successful and threaded through every property in turn. */
  function KeyValue(m: Matcher, h: Heap, obj: Value, ctx: Context): (r: Result<Outcome>)
    requires m.Object? || m.Dict?
    ensures r.Ok? ==> r.value.after == SetMatch(ctx, true)
    ensures m.properties == [] ==> r == Ok(Outcome(SetMatch(ctx, true), [SetMatch(ctx, true)], [true]))
    // with a property, every returned context is a copy
    ensures r.Ok? ==> r.value.WellMarked() && (m.properties != [] ==> r.value.handed == Marks(|r.value.outs|, false))
    ensures r.Ok? && m.properties != [] ==> forall c :: c in r.value.outs ==> c.IsMatch()
    decreases m, 5, 0, 0
  {
    var start := SetMatch(ctx, true);
    var outs :- Threads(m, 0, h, obj, [start]);
    assert m.properties == [] ==> Marks(|outs|, true) == [true];
    Ok(Outcome(start, outs, Marks(|outs|, m.properties == [])))
  }

  /** The loop over the properties from the `k`-th on, `contexts` being
      `new_contexts`: the contexts entering a property are exactly the
      successful ones the previous property produced. */
  function Threads(m: Matcher, k: nat, h: Heap, obj: Value, contexts: seq<Context>): (r: Result<seq<Context>>)
    requires m.Object? || m.Dict?
    requires k <= |m.properties|
    ensures k == |m.properties| ==> r == Ok(contexts)
    ensures r.Ok? && k < |m.properties| ==> forall c :: c in r.value ==> c.IsMatch()
    decreases m, 4, |m.properties| - k, 0
  {
    if k == |m.properties| then Ok(contexts)
    else
      var (path, sub) := m.properties[k];
      assert m.properties[k] in m.properties;
      var results :- ForEachContext(sub, path, h, obj, contexts);
      SuccessfulMembers(results);
      Threads(m, k + 1, h, obj, Successful(results))
  }

  /** `for context in new_contexts: ...`, the results concatenated. */
  function ForEachContext(sub: Matcher, path: Path, h: Heap, obj: Value, contexts: seq<Context>): (r: Result<seq<Context>>)
    ensures contexts == [] ==> r == Ok([])
    decreases sub, 9, |contexts|, 0
  {
    if contexts == [] then Ok([])
    else
      var first :- ApplyProperty(sub, path, h, obj, contexts[0]);
      var rest :- ForEachContext(sub, path, h, obj, contexts[1..]);
      Ok(first + rest)
  }

  /** One context through one property (lines 137-148): a sequence pattern
      sees the whole resolved list with one copy of the context; any other
      pattern sees each resolved candidate with a copy of its own. */
  function ApplyProperty(sub: Matcher, path: Path, h: Heap, obj: Value, c: Context): (r: Result<seq<Context>>)
    ensures !IsCollectionMatcher(sub) && Resolve(Paths.Current, path, h, obj) == [] ==> r == Ok([])
    decreases sub, 8, 0, 0
  {
    var resolved := Resolve(Paths.Current, path, h, obj);
    if IsCollectionMatcher(sub) then
      var o :- Eval(sub, h, Coll(List, resolved), Copy(c));
      Ok(o.outs)
    else EachCandidate(sub, h, resolved, c)
  }

  /** `flat([matcher.match_context(o, context.copy()) for o in resolved])`. */
  function EachCandidate(sub: Matcher, h: Heap, objs: seq<Value>, c: Context): (r: Result<seq<Context>>)
    ensures objs == [] ==> r == Ok([])
    decreases sub, 7, |objs|, 0
  {
    if objs == [] then Ok([])
    else
      var first :- Eval(sub, h, objs[0], Copy(c));
      var rest :- EachCandidate(sub, h, objs[1..], c);
      Ok(first.outs + rest)
  }

  // ---------------------------------------------------------------------
  // SequenceMatcher, lines 228-339

  /** `flat([pattern.match_context(subject, c) for c in contexts])`. */
  function MatchEach(pat: Matcher, h: Heap, subject: Value, contexts: seq<Context>): (r: Result<seq<Context>>)
    ensures contexts == [] ==> r == Ok([])
    decreases pat, 7, |contexts|, 0
  {
    if contexts == [] then Ok([])
    else
      var first :- Eval(pat, h, subject, contexts[0]);
      var rest :- MatchEach(pat, h, subject, contexts[1..]);
      Ok(first.outs + rest)
  }

  /** The same with `collection[i]` as the subject: the element is only
      read when there is a context to match it with. */
  function MatchAt(pat: Matcher, h: Heap, sub: Subject, i: nat, contexts: seq<Context>): (r: Result<seq<Context>>)
    requires i < Len(sub)
    ensures contexts == [] ==> r == Ok([])
    ensures contexts != [] && ElemAt(sub, i).Err? ==> r == Err(ElemAt(sub, i).error)
    decreases pat, 8, 0, 0
  {
    if contexts == [] then Ok([])
    else
      var v :- ElemAt(sub, i);
      MatchEach(pat, h, v, contexts)
  }

  /** `SequenceMatcher.match_context`: `len(obj)` first, then the search
      from a fresh cursor.  The handed context is never changed. */
  function MatchSequence(m: Matcher, h: Heap, obj: Value, ctx: Context): (r: Result<Outcome>)
    requires m.Sequence?
    ensures SubjectOf(h, obj).Err? ==> r == Err(SubjectOf(h, obj).error)
    ensures r.Ok? ==> r.value.after == ctx
    ensures r.Ok? ==> forall c :: c in r.value.outs ==> c.IsMatch() || (m.items == [] && c == ctx)
    // only the empty pattern returns the handed context; every other context is a copy
    ensures r.Ok? ==> r.value.WellMarked() && r.value.handed == Marks(|r.value.outs|, m.items == [])
    decreases m, 5, 0, 0
  {
    var sub :- SubjectOf(h, obj);
    StartInv(Wild(m.items), Len(sub));
    var outs :- Run(m, h, sub, ctx, Start(|m.items|), []);
    assert forall i :: 0 <= i < |outs| && m.items == [] ==> outs[i] in outs;
    Ok(Outcome(ctx, outs, Marks(|outs|, m.items == [])))
  }

  /** A sequence pattern is matched by the sequence search. */
  lemma EvalSequence(m: Matcher, h: Heap, obj: Value, ctx: Context)
    requires m.Sequence?
    ensures Eval(m, h, obj, ctx) == MatchSequence(m, h, obj, ctx)
  {
  }

  /** A sequence pattern over a subject with a length returns the handed
      context and what the loops collect from the fresh cursor. */
  lemma SequenceRuns(m: Matcher, h: Heap, obj: Value, ctx: Context, sub: Subject, outs: seq<Context>)
    requires m.Sequence? && SubjectOf(h, obj) == Ok(sub)
    requires Inv(Wild(m.items), Len(sub), Start(|m.items|)) && Stored(Start(|m.items|))
    requires Run(m, h, sub, ctx, Start(|m.items|), []) == Ok(outs)
    ensures Eval(m, h, obj, ctx) == Ok(Outcome(ctx, outs, Marks(|outs|, m.items == [])))
  {
    EvalSequence(m, h, obj, ctx);
  }

  /** Every context stored in the cursor succeeded. */
  ghost predicate Stored(st: CursorState)
  {
    forall q, c :: 0 <= q < |st.ctxs| && c in st.ctxs[q] ==> c.IsMatch()
  }

  /** The loops of lines 231-237: run `match_next` until the cursor is
      exhausted; each time it reports a complete alignment, append the last
      pattern's contexts to `results` and turn backward. */
  function Run(m: Matcher, h: Heap, sub: Subject, orig: Context, st: CursorState, results: seq<Context>)
    : (r: Result<seq<Context>>)
    requires m.Sequence? && Inv(Wild(m.items), Len(sub), st) && Stored(st)
    ensures r.Ok? ==> forall c :: c in r.value ==> c in results || c.IsMatch() || (m.items == [] && c == orig)
    ensures r.Ok? && m.items == [] ==> forall c :: c in r.value ==> c in results || c == orig
    decreases m, 4, if st.hasNext then 1 else 0, Room(Wild(m.items), Len(sub)) - Rank(Wild(m.items), Len(sub), st)
  {
    if !st.hasNext then Ok(results)
    else
      var step :- Step(m, h, sub, orig, st);
      var st1 := step.0;
      if step.1 then
        FoundOk(Wild(m.items), Len(sub), st1);
        RankBound(Wild(m.items), Len(sub), st1.(forward := false));
        Run(m, h, sub, orig, st1.(forward := false), results + SearchState.Current(orig, st1))
      else
        RankBound(Wild(m.items), Len(sub), st1);
        Run(m, h, sub, orig, st1, results)
  }

  /** At a complete alignment the search collects the last pattern's
      contexts and goes on backward from the same position. */
  lemma RunFound(m: Matcher, h: Heap, sub: Subject, orig: Context, st: CursorState, results: seq<Context>)
    requires m.Sequence? && Inv(Wild(m.items), Len(sub), st) && Stored(st) && st.hasNext
    requires st.forward && st.p >= |m.items| && st.s >= Len(sub)
    ensures Inv(Wild(m.items), Len(sub), st.(forward := false)) && Stored(st.(forward := false))
    ensures Rank(Wild(m.items), Len(sub), st) < Rank(Wild(m.items), Len(sub), st.(forward := false))
    ensures Run(m, h, sub, orig, st, results) ==
            Run(m, h, sub, orig, st.(forward := false), results + SearchState.Current(orig, st))
  {
    FoundOk(Wild(m.items), Len(sub), st);
    assert Step(m, h, sub, orig, st) == Ok((st, true));
  }

  /** A call of `match_next` that reports no alignment leaves the results
      as they are, and the search goes on from the state it produced. */
  lemma RunMoves(m: Matcher, h: Heap, sub: Subject, orig: Context, st: CursorState, st1: CursorState,
                 results: seq<Context>)
    requires m.Sequence? && Inv(Wild(m.items), Len(sub), st) && Stored(st) && st.hasNext
    requires Step(m, h, sub, orig, st) == Ok((st1, false))
    ensures Inv(Wild(m.items), Len(sub), st1) && Stored(st1)
    ensures Run(m, h, sub, orig, st, results) == Run(m, h, sub, orig, st1, results)
  {
    RankBound(Wild(m.items), Len(sub), st1);
  }

  /** An exhausted cursor ends the loops with the results collected. */
  lemma RunStops(m: Matcher, h: Heap, sub: Subject, orig: Context, st: CursorState, results: seq<Context>)
    requires m.Sequence? && Inv(Wild(m.items), Len(sub), st) && Stored(st) && !st.hasNext
    ensures Run(m, h, sub, orig, st, results) == Ok(results)
  {
  }

  /** One call of `match_next` (lines 240-339).  The contexts to extend are
      copied before the cursor moves.  The result says whether a complete
      alignment was found; only the exhausting case clears `has_next`, and
      every other move makes progress. */
  function Step(m: Matcher, h: Heap, sub: Subject, orig: Context, st: CursorState)
    : (r: Result<(CursorState, bool)>)
    requires m.Sequence? && Inv(Wild(m.items), Len(sub), st) && Stored(st) && st.hasNext
    ensures r.Ok? ==> Inv(Wild(m.items), Len(sub), r.value.0) && Stored(r.value.0)
    ensures r.Ok? && r.value.1 ==> r.value.0 == st && st.forward && st.p >= |m.items| && st.s >= Len(sub)
    ensures r.Ok? && !r.value.1 && r.value.0.hasNext ==>
              Rank(Wild(m.items), Len(sub), st) < Rank(Wild(m.items), Len(sub), r.value.0)
    decreases m, 3, 0, 0
  {
    var contexts := CopyAll(SearchState.Current(orig, st));
    if st.forward && st.p >= |m.items| && st.s >= Len(sub) then Ok((st, true))
    else
      PreludeOk(Wild(m.items), Len(sub), st);
      var st1 :- Move(m, h, sub, contexts, Prelude(|m.items|, Len(sub), st));
      Ok((st1, false))
  }

  /** Lines 253-339, after the prelude: with a cursor below 0 the search is
      exhausted; otherwise the pattern at the cursor moves it. */
  function Move(m: Matcher, h: Heap, sub: Subject, contexts: seq<Context>, st: CursorState)
    : (r: Result<CursorState>)
    requires m.Sequence? && Inv(Wild(m.items), Len(sub), st) && Stored(st) && st.hasNext
    requires st.p < |m.items|
    ensures r.Ok? ==> Inv(Wild(m.items), Len(sub), r.value) && Stored(r.value)
    ensures r.Ok? && r.value.hasNext ==> Rank(Wild(m.items), Len(sub), st) < Rank(Wild(m.items), Len(sub), r.value)
    decreases m, 2, 0, 0
  {
    if st.p < 0 || st.s < 0 then Ok(st.(hasNext := false))
    else if !m.items[st.p].ListWildcard? then FixedStep(m, h, sub, contexts, st)
    else SpanStep(m, h, sub, contexts, st)
  }

  /** Lines 257-300: the cursor is at a fixed pattern.  Forward with an
      element left, the element is matched: a hit commits the successful
      contexts and advances, a miss turns back.  Backward, the element is
      matched again (so a matcher that raises still raises), but the pattern
      has already been used, so the search always turns back further. */
  function FixedStep(m: Matcher, h: Heap, sub: Subject, contexts: seq<Context>, st: CursorState)
    : (r: Result<CursorState>)
    requires m.Sequence? && Inv(Wild(m.items), Len(sub), st) && Stored(st)
    requires 0 <= st.p < |m.items| && !m.items[st.p].ListWildcard? && 0 <= st.s
    ensures r.Ok? ==> Inv(Wild(m.items), Len(sub), r.value) && Stored(r.value)
    ensures r.Ok? ==> Rank(Wild(m.items), Len(sub), st) < Rank(Wild(m.items), Len(sub), r.value)
    ensures r.Ok? ==> r.value.hasNext == st.hasNext
    decreases m, 1, 0, 0
  {
    if st.forward && st.s < Len(sub) then FixedForward(m, h, sub, contexts, st)
    else FixedBackward(m, h, sub, contexts, st)
  }

  /** Lines 258-275: forward, with an element left. */
  function FixedForward(m: Matcher, h: Heap, sub: Subject, contexts: seq<Context>, st: CursorState)
    : (r: Result<CursorState>)
    requires m.Sequence? && Inv(Wild(m.items), Len(sub), st) && Stored(st)
    requires 0 <= st.p < |m.items| && !m.items[st.p].ListWildcard? && 0 <= st.s
    requires st.forward && st.s < Len(sub)
    ensures r.Ok? ==> Inv(Wild(m.items), Len(sub), r.value) && Stored(r.value)
    ensures r.Ok? ==> Rank(Wild(m.items), Len(sub), st) < Rank(Wild(m.items), Len(sub), r.value)
    ensures r.Ok? ==> r.value.hasNext == st.hasNext
    decreases m, 0, 0, 0
  {
    var found :- MatchAt(m.items[st.p], h, sub, st.s, contexts);
    FixedAfterOk(Wild(m.items), Len(sub), st, found);
    SuccessfulMembers(found);
    Ok(FixedAfter(st, found))
  }

  /** Lines 276-300: backward, or with no element left. */
  function FixedBackward(m: Matcher, h: Heap, sub: Subject, contexts: seq<Context>, st: CursorState)
    : (r: Result<CursorState>)
    requires m.Sequence? && Inv(Wild(m.items), Len(sub), st) && Stored(st)
    requires 0 <= st.p < |m.items| && !m.items[st.p].ListWildcard? && 0 <= st.s
    requires !(st.forward && st.s < Len(sub))
    ensures r.Ok? ==> Inv(Wild(m.items), Len(sub), r.value) && Stored(r.value)
    ensures r.Ok? ==> Rank(Wild(m.items), Len(sub), st) < Rank(Wild(m.items), Len(sub), r.value)
    ensures r.Ok? ==> r.value.hasNext == st.hasNext
    decreases m, 0, 0, 0
  {
    if st.s < Len(sub) then
      var found :- MatchAt(m.items[st.p], h, sub, st.s, contexts);
      if st.patHasNext[st.p] && AnyMatch(found) then
        assert false;
        Ok(st)
      else
        RetreatOk(Wild(m.items), Len(sub), st);
        Ok(Retreat(st))
    else
      RetreatOk(Wild(m.items), Len(sub), st);
      Ok(Retreat(st))
  }

  /** Lines 301-338: the cursor is at a list wildcard.  The span it proposes
      is either refused (the search turns back, the subject cursor returns to
      the span's start) or matched as a slice of the subject: a hit appends
      the successful contexts and moves past the span, a miss turns back. */
  function SpanStep(m: Matcher, h: Heap, sub: Subject, contexts: seq<Context>, st: CursorState)
    : (r: Result<CursorState>)
    requires m.Sequence? && Inv(Wild(m.items), Len(sub), st) && Stored(st)
    requires 0 <= st.p < |m.items| && m.items[st.p].ListWildcard? && 0 <= st.s
    ensures r.Ok? ==> Inv(Wild(m.items), Len(sub), r.value) && Stored(r.value)
    ensures r.Ok? ==> Rank(Wild(m.items), Len(sub), st) < Rank(Wild(m.items), Len(sub), r.value)
    ensures r.Ok? ==> r.value.hasNext == st.hasNext
    decreases m, 1, 0, 0
  {
    var st1 := SpanEnter(|m.items|, Len(sub), st);
    match ProposedSpan(m.items, Len(sub), st)
    case None =>
      SpanOutOk(Wild(m.items), Len(sub), st);
      Ok(SpanOut(st1))
    case Some((start, length)) => SpanTry(m, h, sub, contexts, st, start, length)
  }

  /** Lines 328-338: the proposed span `collection[start:start + length]` is
      matched with every context. */
  function SpanTry(m: Matcher, h: Heap, sub: Subject, contexts: seq<Context>, st: CursorState, start: nat, length: nat)
    : (r: Result<CursorState>)
    requires m.Sequence? && Inv(Wild(m.items), Len(sub), st) && Stored(st)
    requires 0 <= st.p < |m.items| && m.items[st.p].ListWildcard? && 0 <= st.s
    requires ProposedSpan(m.items, Len(sub), st) == Some((start, length))
    ensures r.Ok? ==> Inv(Wild(m.items), Len(sub), r.value) && Stored(r.value)
    ensures r.Ok? ==> Rank(Wild(m.items), Len(sub), st) < Rank(Wild(m.items), Len(sub), r.value)
    ensures r.Ok? ==> r.value.hasNext == st.hasNext
    decreases m, 0, 0, 0
  {
    var st1 := SpanEnter(|m.items|, Len(sub), st);
    var subjects :- SliceOf(sub, start, start + length);
    var found :- MatchEach(m.items[st.p], h, subjects, contexts);
    SpanTryOk(m, sub, st, start, length, found);
    Ok(SpanAfter(st1, found))
  }

  /** The state after a proposed span keeps the invariant and ranks higher. */
  lemma SpanTryOk(m: Matcher, sub: Subject, st: CursorState, start: nat, length: nat, found: seq<Context>)
    requires m.Sequence? && Inv(Wild(m.items), Len(sub), st) && Stored(st)
    requires 0 <= st.p < |m.items| && m.items[st.p].ListWildcard? && 0 <= st.s
    requires ProposedSpan(m.items, Len(sub), st) == Some((start, length))
    ensures var st2 := SpanAfter(SpanEnter(|m.items|, Len(sub), st), found);
      Inv(Wild(m.items), Len(sub), st2) && Stored(st2) &&
      Rank(Wild(m.items), Len(sub), st) < Rank(Wild(m.items), Len(sub), st2) &&
      st2.hasNext == st.hasNext
  {
    SpanAfterOk(Wild(m.items), Len(sub), MaxLen(m.items, Len(sub)), st, found);
    SuccessfulMembers(found);
  }
}

=== FILE: path_methods.dfy ===
/** Path resolution as the source runs it: `ComposedPath.resolve_from`
    clears and extends its candidate list `tmp` step by step, and the
    recursive paths thread one mutable `IdentitySet` through their recursion.
    Each method is proved to compute the function of module Paths that
    specifies it. */
module PathMethods {
  import opened Values
  import opened Helpers
  import opened Paths

  /** `path.resolve_from(obj)` for any path. */
  method ResolvePath(d: Dialect, p: Path, h: Heap, x: Value) returns (r: seq<Value>)
    ensures r == Resolve(d, p, h, x)
    decreases p, 3, 0, 0, 0
  {
    match p
    case DictPath(key) =>
      r := DictGet(h, x, key);
    case DirectPath(name) =>
      r := GetAttr(h, x, name);
    case ComposedPath(ps) =>
      r := ResolveComposed(d, ps, h, x);
    case NamedRecursivePath(_) =>
      r := ResolveRecursive(d, p, h, x);
    case ChildrenRecursivePath =>
      r := ResolveRecursive(d, p, h, x);
  }

  /** `RecursivePath.resolve_from(obj)` (iguala/paths.py:81-82): the closure
      from `obj` with a fresh, empty identity set. */
  method ResolveRecursive(d: Dialect, rp: Path, h: Heap, x: Value) returns (r: seq<Value>)
    requires IsRecursive(rp)
    ensures r == Rec(d, rp, h, x, {}).found
    decreases rp, 1, 0, 0, 0
  {
    var seen := new IdentitySet([]);
    assert seen.Elements() == {};
    r := ResolveClosure(d, rp, h, x, seen);
  }

  lemma {:induction false} ResolveEachSnoc(d: Dialect, step: Path, h: Heap, xs: seq<Value>, y: Value)
    ensures ResolveEach(d, step, h, xs + [y]) == ResolveEach(d, step, h, xs) + Resolve(d, step, h, y)
    decreases |xs|
  {
    if xs == [] {
      assert [] + [y] == [y];
      ResolveEachCons(d, step, h, [y]);
      assert [y][1..] == [];
    } else {
      var ys := xs + [y];
      assert ys[0] == xs[0] && ys[1..] == xs[1..] + [y];
      ResolveEachSnoc(d, step, h, xs[1..], y);
      ResolveEachCons(d, step, h, ys);
      ResolveEachCons(d, step, h, xs);
      var first := Resolve(d, step, h, xs[0]);
      var mid := ResolveEach(d, step, h, xs[1..]);
      var last := Resolve(d, step, h, y);
      ConcatAssoc(first, mid, last);
    }
  }

  lemma ConcatAssoc(a: seq<Value>, b: seq<Value>, c: seq<Value>)
    ensures a + (b + c) == (a + b) + c
  {
  }

  /** `ResolveEach` of a non-empty list: the first value's result, then the rest's. */
  lemma ResolveEachCons(d: Dialect, step: Path, h: Heap, xs: seq<Value>)
    requires xs != []
    ensures ResolveEach(d, step, h, xs) == Resolve(d, step, h, xs[0]) + ResolveEach(d, step, h, xs[1..])
  {
  }

  /** `ComposedPath.resolve_from` (iguala/paths.py:52-64): each step turns
      the candidate list `tmp` into the next one. */
  method ResolveComposed(d: Dialect, ps: seq<Path>, h: Heap, x: Value) returns (tmp: seq<Value>)
    ensures tmp == Resolve(d, ComposedPath(ps), h, x)
    decreases ComposedPath(ps), 2, 0, 0, 0
  {
    tmp := [x];
    for k := 0 to |ps|
      invariant Compose(d, ps, k, h, tmp) == Compose(d, ps, 0, h, [x])
    {
      tmp := ResolveStep(d, ps[k], h, tmp);
    }
  }

  /** The body of the loop over `self.paths`: a non-recursive step clears
      `tmp`, then every candidate of the copy contributes its resolution.  A
      step that raises for one candidate would contribute `[]`; no step of
      the model raises. */
  method ResolveStep(d: Dialect, path: Path, h: Heap, tmp0: seq<Value>) returns (tmp: seq<Value>)
    ensures tmp == Step(d, path, h, tmp0)
    decreases path, 5, 0, 0, 0
  {
    tmp := tmp0;
    var copy := tmp;
    if !IsRecursive(path) {
      tmp := [];
    }
    ghost var kept := tmp;
    for j := 0 to |copy|
      invariant tmp == kept + ResolveEach(d, path, h, copy[..j])
    {
      var result := ResolvePath(d, path, h, copy[j]);
      ExtendStep(d, path, h, copy, j, kept, tmp, result);
      tmp := tmp + result;
    }
    assert copy[..|copy|] == copy;
  }

  /** Appending one candidate's resolution keeps the loop invariant. */
  lemma ExtendStep(d: Dialect, path: Path, h: Heap, copy: seq<Value>, j: nat,
                   kept: seq<Value>, tmp: seq<Value>, result: seq<Value>)
    requires j < |copy|
    requires tmp == kept + ResolveEach(d, path, h, copy[..j])
    requires result == Resolve(d, path, h, copy[j])
    ensures tmp + result == kept + ResolveEach(d, path, h, copy[..j + 1])
  {
    ResolveEachSnoc(d, path, h, copy[..j], copy[j]);
    assert copy[..j + 1] == copy[..j] + [copy[j]];
  }

  lemma {:induction false} FreshSnoc(o: seq<Value>, y: Value, seen: set<Value>)
    ensures Fresh(o + [y], seen) == Fresh(o, seen) + (if y != Nil && y !in seen then [y] else [])
    decreases |o|
  {
    if o == [] {
      assert [] + [y] == [y];
      assert [y][1..] == [];
    } else {
      assert (o + [y])[0] == o[0];
      assert (o + [y])[1..] == o[1..] + [y];
      FreshSnoc(o[1..], y, seen);
    }
  }

  /** `_resolve_from(obj, seen)` of a recursive path (iguala/paths.py:94-96
      and 100-114), with `seen` updated in place. */
  method ResolveClosure(d: Dialect, rp: Path, h: Heap, x: Value, seen: IdentitySet) returns (found: seq<Value>)
    requires IsRecursive(rp) && seen.Valid()
    modifies seen
    ensures seen.Valid()
    ensures found == Rec(d, rp, h, x, old(seen.Elements())).found
    ensures seen.Elements() == Rec(d, rp, h, x, old(seen.Elements())).seen
    decreases rp, 0, |Reach(h, x) - seen.Elements()|, 3, 0
  {
    if rp.NamedRecursivePath? {
      var o := ResolvePath(d, rp.path, h, x);
      ReachOfOne(h, x);
      ReachAllClosed(h, [x], o);
      found := ResolveFrom(d, rp, h, x, seen, Coll(List, o));
    } else {
      found := VisitChildren(d, rp, h, x, seen);
    }
  }

  /** `ChildrenRecursivePath._resolve_from` (iguala/paths.py:100-114): the
      closure step of every field value of `obj` in turn. */
  method VisitChildren(d: Dialect, rp: Path, h: Heap, x: Value, seen: IdentitySet) returns (found: seq<Value>)
    requires rp.ChildrenRecursivePath? && seen.Valid()
    modifies seen
    ensures seen.Valid()
    ensures found == Rec(d, rp, h, x, old(seen.Elements())).found
    ensures seen.Elements() == Rec(d, rp, h, x, old(seen.Elements())).seen
    decreases rp, 0, |Reach(h, x) - seen.Elements()|, 2, 0
  {
    ghost var s0 := seen.Elements();
    var visit := ChildValues(d, h, x);
    found := [];
    for i := 0 to |visit|
      invariant seen.Valid()
      invariant s0 <= seen.Elements()
      invariant ChildFields(d, rp, h, x, visit, i, Closure(found, seen.Elements())) ==
                ChildFields(d, rp, h, x, visit, 0, Closure([], s0))
    {
      MeasureShrinks(Reach(h, x), s0, seen.Elements());
      var direct := ResolveFrom(d, rp, h, x, seen, visit[i]);
      found := found + direct;
    }
  }

  /** `RecursivePath._resolve_from(obj, seen, resolved)` (iguala/paths.py:68-79). */
  method ResolveFrom(d: Dialect, rp: Path, h: Heap, x: Value, seen: IdentitySet, resolved: Value)
    returns (direct: seq<Value>)
    requires IsRecursive(rp) && seen.Valid()
    requires forall y :: y in Flatten(resolved) ==> y in Reach(h, x)
    modifies seen
    ensures seen.Valid()
    ensures direct == RecFrom(d, rp, h, x, old(seen.Elements()), resolved).found
    ensures seen.Elements() == RecFrom(d, rp, h, x, old(seen.Elements()), resolved).seen
    decreases rp, 0, |Reach(h, x) - seen.Elements()|, 1, 0
  {
    ghost var s0 := seen.Elements();
    var o := Flat(resolved);
    var res := KeepNew(o, seen);
    MarkSeen(res, x, seen);
    FlattenHasNoCollection(resolved);
    MeasureAfterBatch(h, x, s0, res);
    var descendants := ClosuresOf(d, rp, h, res, seen);
    direct := res + descendants;
  }

  /** `seen |= direct_objects` followed by `seen.add(obj)` when `obj` is not
      in it yet. */
  method MarkSeen(res: seq<Value>, x: Value, seen: IdentitySet)
    requires seen.Valid()
    modifies seen
    ensures seen.Valid()
    ensures seen.Elements() == old(seen.Elements()) + (set y | y in res) + {x}
  {
    seen.Extend(res);
    if !seen.Contains(x) {
      seen.Add(x);
    }
  }

  /** `[x for x in o if x is not None and x not in seen]`. */
  method KeepNew(o: seq<Value>, seen: IdentitySet) returns (res: seq<Value>)
    requires seen.Valid()
    ensures res == Fresh(o, seen.Elements())
  {
    res := [];
    for i := 0 to |o|
      invariant res == Fresh(o[..i], seen.Elements())
    {
      FreshSnoc(o[..i], o[i], seen.Elements());
      assert o[..i + 1] == o[..i] + [o[i]];
      if o[i] != Nil && !seen.Contains(o[i]) {
        res := res + [o[i]];
      }
    }
    assert o[..|o|] == o;
  }

  /** `flat([self._resolve_from(x, seen) for x in direct_objects])`: the
      closures of the kept nodes, built as a list of lists and flattened. */
  method ClosuresOf(d: Dialect, rp: Path, h: Heap, res: seq<Value>, seen: IdentitySet) returns (descendants: seq<Value>)
    requires IsRecursive(rp) && seen.Valid()
    requires forall y :: y in res ==> !y.Coll? && y in seen.Elements()
    modifies seen
    ensures seen.Valid()
    ensures descendants == RecAll(d, rp, h, res, 0, Closure([], old(seen.Elements()))).found
    ensures seen.Elements() == RecAll(d, rp, h, res, 0, Closure([], old(seen.Elements()))).seen
    decreases rp, 0, |HeapLeaves(h) - seen.Elements()|, if res == [] then 0 else 6, 0
  {
    ghost var s1 := seen.Elements();
    var batches: seq<Value> := [];
    ghost var deeper: seq<Value> := [];
    for j := 0 to |res|
      invariant seen.Valid()
      invariant s1 <= seen.Elements()
      invariant FlattenAll(batches) == deeper
      invariant RecAll(d, rp, h, res, j, Closure(deeper, seen.Elements())) ==
                RecAll(d, rp, h, res, 0, Closure([], s1))
    {
      MeasureShrinks(HeapLeaves(h), s1, seen.Elements());
      var sub := VisitNode(d, rp, h, res[j], seen, deeper);
      BatchAppend(batches, sub);
      batches := batches + [Coll(List, sub)];
      deeper := deeper + sub;
    }
    descendants := Flat(Coll(List, batches));
  }

  /** One element of that comprehension: `self._resolve_from(t, seen)` for a
      kept node `t`, whose closure follows the closures `found` before it. */
  method VisitNode(d: Dialect, rp: Path, h: Heap, t: Value, seen: IdentitySet, ghost found: seq<Value>)
    returns (sub: seq<Value>)
    requires IsRecursive(rp) && seen.Valid()
    requires !t.Coll? && t in seen.Elements()
    modifies seen
    ensures seen.Valid()
    ensures Closure(found + sub, seen.Elements()) == Visit(d, rp, h, t, Closure(found, old(seen.Elements())))
    ensures forall i :: 0 <= i < |sub| ==> !sub[i].Coll?
    decreases rp, 0, |HeapLeaves(h) - seen.Elements()|, 4, 0
  {
    MeasureOfSeenLeaf(h, t, seen.Elements());
    sub := ResolveClosure(d, rp, h, t, seen);
    SubClosureIsFlat(h, t, sub);
  }

  /** Appending the list of a flat closure to the batches appends the
      closure to their flattening. */
  lemma BatchAppend(batches: seq<Value>, sub: seq<Value>)
    requires forall i :: 0 <= i < |sub| ==> !sub[i].Coll?
    ensures FlattenAll(batches + [Coll(List, sub)]) == FlattenAll(batches) + sub
  {
    FlattenAllOfFlat(sub);
    FlattenAllAppend(batches, [Coll(List, sub)]);
    assert FlattenAll([Coll(List, sub)]) == Flatten(Coll(List, sub)) + FlattenAll([]);
  }

  /** The closure of a node that is not a collection holds no collection. */
  lemma SubClosureIsFlat(h: Heap, t: Value, sub: seq<Value>)
    requires !t.Coll?
    requires forall y :: y in sub ==> y in Reach(h, t)
    ensures forall i :: 0 <= i < |sub| ==> !sub[i].Coll?
  {
    assert Flatten(t) == [t];
    forall i | 0 <= i < |sub|
      ensures !sub[i].Coll?
    {
      var y := sub[i];
      assert y in Reach(h, t);
      if y in HeapLeaves(h) {
        HeapLeavesAreFlat(h, y);
      }
    }
  }
}

=== FILE: path_syntax.dfy ===
/** `as_path` (iguala/paths.py:117-139, matchers/paths.py:104-126): the
    shorthand a pattern uses to name a path, and a printer that is its inverse
    on well-formed paths. */
module PathSyntax {
  import opened Values
  import opened Paths

  /** What `as_path` can be handed: a string, a path object, or anything
      else, which is either a list, tuple, set or dict (`container`, a value
      `in` works on) or a value `in` does not work on (an int key of a dict
      pattern, say). */
  datatype PathArg = PathText(text: string) | PathObject(path: Path) | OtherArg(container: bool)

  /** `parts[0] + sep + parts[1] + ... + sep + parts[n-1]`. */
  function Join(parts: seq<string>, sep: char): string
    requires |parts| >= 1
  {
    if |parts| == 1 then parts[0] else parts[0] + [sep] + Join(parts[1..], sep)
  }

  /** `s.split(sep)`: the maximal runs between separators, empty runs
      included. */
  function Split(s: string, sep: char): (parts: seq<string>)
    ensures |parts| >= 1
    ensures forall i :: 0 <= i < |parts| ==> sep !in parts[i]
    ensures Join(parts, sep) == s
  {
    if s == [] then [[]]
    else
      var rest := Split(s[1..], sep);
      if s[0] == sep then
        [[]] + rest
      else
        assert [s[0]] + rest[0] + Join(rest, sep)[|rest[0]|..] == s by {
          JoinStartsWithFirst(rest, sep);
        }
        [[s[0]] + rest[0]] + rest[1..]
  }

  lemma {:induction false} JoinStartsWithFirst(parts: seq<string>, sep: char)
    requires |parts| >= 1
    ensures |parts[0]| <= |Join(parts, sep)|
    ensures Join(parts, sep) == parts[0] + Join(parts, sep)[|parts[0]|..]
    ensures |parts| >= 2 ==> Join(parts, sep)[|parts[0]|..] == [sep] + Join(parts[1..], sep)
    ensures |parts| == 1 ==> Join(parts, sep)[|parts[0]|..] == []
  {
  }

  /** With two or more parts, each part is shorter than the joined string. */
  lemma {:induction false} PartsShorter(parts: seq<string>, sep: char)
    requires |parts| >= 2
    ensures forall i :: 0 <= i < |parts| ==> |parts[i]| < |Join(parts, sep)|
    decreases |parts|
  {
    if |parts| > 2 {
      PartsShorter(parts[1..], sep);
      assert forall i :: 1 <= i < |parts| ==> parts[i] == parts[1..][i - 1];
    }
  }

  lemma {:induction false} SplitPrefix(t: string, r: string, sep: char)
    requires sep !in t
    ensures Split(t + r, sep) == [t + Split(r, sep)[0]] + Split(r, sep)[1..]
    decreases |t|
  {
    if t != [] {
      var parts := Split(r, sep);
      assert (t + r)[0] == t[0] && t[0] != sep;
      assert (t + r)[1..] == t[1..] + r;
      SplitPrefix(t[1..], r, sep);
      var rest := Split(t[1..] + r, sep);
      assert rest[0] == t[1..] + parts[0] && rest[1..] == parts[1..];
      assert [t[0]] + (t[1..] + parts[0]) == t + parts[0];
    } else {
      var parts := Split(r, sep);
      assert t + r == r;
      assert t + parts[0] == parts[0];
      assert parts == [parts[0]] + parts[1..];
    }
  }

  /** Splitting undoes joining parts that hold no separator. */
  lemma {:induction false} SplitJoin(parts: seq<string>, sep: char)
    requires |parts| >= 1
    requires forall i :: 0 <= i < |parts| ==> sep !in parts[i]
    ensures Split(Join(parts, sep), sep) == parts
    decreases |parts|
  {
    if |parts| == 1 {
      SplitPrefix(parts[0], [], sep);
      assert parts[0] + [] == parts[0];
    } else {
      SplitJoin(parts[1..], sep);
      SplitPrefixSep(parts[0], Join(parts[1..], sep), sep);
      assert parts == [parts[0]] + parts[1..];
    }
  }

  /** A part without separator, then a separator, then the rest. */
  lemma SplitPrefixSep(t: string, tail: string, sep: char)
    requires sep !in t
    ensures Split(t + [sep] + tail, sep) == [t] + Split(tail, sep)
  {
    SplitAtSep(tail, sep);
    SplitPrefix(t, [sep] + tail, sep);
    assert t + [sep] + tail == t + ([sep] + tail);
    assert t + [] == t;
  }

  /** A leading separator closes an empty part. */
  lemma SplitAtSep(t: string, sep: char)
    ensures Split([sep] + t, sep) == [[]] + Split(t, sep)
  {
    assert ([sep] + t)[0] == sep && ([sep] + t)[1..] == t;
  }

  /** The first error among `rs`, or all their values. */
  function Collect(rs: seq<Result<Path>>): (r: Result<seq<Path>>)
    ensures r.Ok? <==> forall i :: 0 <= i < |rs| ==> rs[i].Ok?
    ensures r.Ok? ==> |r.value| == |rs| && forall i :: 0 <= i < |rs| ==> rs[i] == Ok(r.value[i])
    ensures r.Err? ==> exists i :: 0 <= i < |rs| && rs[i] == Err(r.error)
  {
    if rs == [] then Ok([])
    else
      var first :- rs[0];
      var rest :- Collect(rs[1..]);
      Ok([first] + rest)
  }

  /** `as_path(s, dictkey)` for a string `s`; both copies parse strings the
      same way.  The only exception it lets escape is the `IndexError` of
      `s[-1]` on an empty segment. */
  function ParsePath(s: string, dictkey: bool): (r: Result<Path>)
    ensures r.Err? ==> r.error == IndexError
    ensures s == "*" ==> r == Ok(ChildrenRecursivePath)
    ensures s == "" ==> r == Err(IndexError)
    decreases |s|
  {
    if '>' in s then
      var parts := Split(s, '>');
      PartsShorter(parts, '>');
      var ps :- Collect(seq(|parts|, i requires 0 <= i < |parts| => ParsePath(parts[i], dictkey)));
      Ok(ComposedPath(ps))
    else if s == "*" then Ok(ChildrenRecursivePath)
    else if s == "" then Err(IndexError)
    else if s[|s| - 1] == '*' then
      var q :- ParsePath(s[..|s| - 1], dictkey);
      Ok(NamedRecursivePath(q))
    else if s[|s| - 1] == '+' then
      var q :- ParsePath(s[..|s| - 1], dictkey);
      Ok(ComposedPath([q, NamedRecursivePath(q)]))
    else if dictkey then Ok(DictPath(s))
    else Ok(DirectPath(s))
  }

  /** `as_path(arg, dictkey)` in either copy.  iguala/paths.py hands a path
      object back (`s.as_path()` returns `self`) and calls `.as_path()` on
      anything else, which has none.  matchers/paths.py evaluates `">" in s`
      first, which raises `TypeError` on a path object or any other value
      without `in`; a container gets past it and then has no `split` or
      `as_path`. */
  function AsPath(d: Dialect, arg: PathArg, dictkey: bool): (r: Result<Path>)
    ensures arg.PathText? ==> r == ParsePath(arg.text, dictkey)
    ensures d == Legacy && arg.PathObject? ==> r == Err(TypeError)
    ensures d == Current && arg.PathObject? ==> r == Ok(arg.path)
    // any other value raises: `TypeError` exactly in the older copy on a value without `in`
    ensures arg.OtherArg? ==> r.Err? && (r.error == TypeError <==> d == Legacy && !arg.container)
    ensures arg.OtherArg? ==> r.error == TypeError || r.error == AttributeError
  {
    match arg
    case PathText(s) => ParsePath(s, dictkey)
    case PathObject(p) => if d == Current then Ok(p) else Err(TypeError)
    case OtherArg(container) => if d == Legacy && !container then Err(TypeError) else Err(AttributeError)
  }

  // ---------------------------------------------------------------------
  // The printer

  /** A name that parses back to a plain field or key path. */
  predicate IsName(k: string)
  {
    k != "" && '>' !in k && k[|k| - 1] != '*' && k[|k| - 1] != '+'
  }

  /** The paths the shorthand can spell: names of the kind `dictkey` selects,
      closures of anything but a composition, and compositions of two or more
      such steps. */
  predicate WellFormed(p: Path, dictkey: bool)
  {
    match p
    case DictPath(k) => dictkey && IsName(k)
    case DirectPath(n) => !dictkey && IsName(n)
    case NamedRecursivePath(q) => !q.ComposedPath? && WellFormed(q, dictkey)
    case ChildrenRecursivePath => true
    case ComposedPath(ps) =>
      |ps| >= 2 && forall i :: 0 <= i < |ps| ==> !ps[i].ComposedPath? && WellFormed(ps[i], dictkey)
  }

  /** The shorthand for a path. */
  function Print(p: Path): (s: string)
  {
    match p
    case DictPath(k) => k
    case DirectPath(n) => n
    case NamedRecursivePath(q) => Print(q) + "*"
    case ChildrenRecursivePath => "*"
    case ComposedPath(ps) =>
      if ps == [] then "" else Join(seq(|ps|, i requires 0 <= i < |ps| => Print(ps[i])), '>')
  }

  /** A well-formed step prints to a non-empty string without a `>`. */
  lemma {:induction false} PrintStep(p: Path, dictkey: bool)
    requires WellFormed(p, dictkey) && !p.ComposedPath?
    ensures Print(p) != "" && '>' !in Print(p)
  {
    if p.NamedRecursivePath? {
      PrintStep(p.path, dictkey);
    }
  }

  /** Parsing inverts printing: the shorthand denotes the path it was
      printed from, whichever copy of `as_path` reads it. */
  lemma {:induction false} ParsePrint(p: Path, dictkey: bool)
    requires WellFormed(p, dictkey)
    ensures ParsePath(Print(p), dictkey) == Ok(p)
  {
    match p
    case DictPath(k) =>
    case DirectPath(n) =>
    case ChildrenRecursivePath =>
    case NamedRecursivePath(q) =>
      var s := Print(p);
      PrintStep(q, dictkey);
      ParsePrint(q, dictkey);
      assert s[..|s| - 1] == Print(q);
    case ComposedPath(ps) =>
      var prints := seq(|ps|, i requires 0 <= i < |ps| => Print(ps[i]));
      forall i | 0 <= i < |ps|
        ensures '>' !in prints[i] && ParsePath(prints[i], dictkey) == Ok(ps[i])
      {
        PrintStep(ps[i], dictkey);
        ParsePrint(ps[i], dictkey);
      }
      var s := Join(prints, '>');
      assert '>' in s by {
        JoinStartsWithFirst(prints, '>');
        assert s[|prints[0]|] == '>';
      }
      SplitJoin(prints, '>');
      var rs := seq(|prints|, i requires 0 <= i < |prints| => ParsePath(prints[i], dictkey));
      assert forall i :: 0 <= i < |rs| ==> rs[i] == Ok(ps[i]);
      var c := Collect(rs);
      assert c.Ok?;
      assert c.value == ps;
  }

  /** A trailing `+` means the path followed by its closure. */
  lemma PlusIsPathThenClosure(s: string, dictkey: bool)
    requires IsName(s)
    ensures ParsePath(s + "+", dictkey) ==
              Ok(ComposedPath([LeafPath(s, dictkey), NamedRecursivePath(LeafPath(s, dictkey))]))
  {
    var t := s + "+";
    assert t[..|t| - 1] == s;
  }

  /** The field or key path `as_path` makes of a plain name. */
  function LeafPath(s: string, dictkey: bool): (p: Path)
    ensures WellFormed(p, dictkey) <==> IsName(s)
    ensures Print(p) == s
  {
    if dictkey then DictPath(s) else DirectPath(s)
  }
}

=== FILE: paths.dfy ===
/** Paths: how a property name of a pattern selects the candidate values it is
    matched against (iguala/paths.py, and the older copy matchers/paths.py).

    Both files define the same path classes; they differ only in how
    `ChildrenRecursivePath` lists the fields of an object (the older copy has
    no `__slots__` fallback) and in the order of the tests in `as_path`.  The
    model therefore has one resolution function with a `Dialect` argument.

    The functions here are the specification; module PathMethods runs the same
    resolution with the loops, the clearing and extending of `tmp` and the
    shared mutable `seen` set of the source. */
module Paths {
  import opened Values
  import opened Helpers

  datatype Path =
    | DictPath(key: string)            // `obj.get(key, [])`
    | DirectPath(name: string)         // `getattr(obj, name, [])`
    | ComposedPath(paths: seq<Path>)   // `a>b>c`, and `x+`
    | NamedRecursivePath(path: Path)   // `x*`: the closure of one path
    | ChildrenRecursivePath            // `*`: the closure over every field

  /** Which copy of the path module: iguala/paths.py or matchers/paths.py. */
  datatype Dialect = Current | Legacy

  /** `is_recursive`. */
  function IsRecursive(p: Path): (r: bool)
    // only the two subclasses of `RecursivePath` override the default `False`
    ensures r <==> p.NamedRecursivePath? || p.ChildrenRecursivePath?
  {
    p.NamedRecursivePath? || p.ChildrenRecursivePath?
  }

  /** The heap cell `x` refers to, when it is one of the given kind. */
  function FieldsOf(h: Heap, x: Value, kinds: set<ObjKind>): seq<(string, Value)>
  {
    match Deref(h, x)
    case Some(o) => if o.kind in kinds then o.fields else []
    case None => []
  }

  /** `DictPath.resolve_from` (iguala/paths.py:19-23): `flat(obj.get(key, []))`;
      anything that is not a dict has no `get` and gives `[]`. */
  function DictGet(h: Heap, x: Value, key: string): (r: seq<Value>)
    ensures forall y :: y in r ==> !y.Coll? && y in HeapLeaves(h)
    ensures Lookup(FieldsOf(h, x, {Mapping}), key).None? ==> r == []
    ensures Lookup(FieldsOf(h, x, {Mapping}), key).Some? ==>
              r == Flatten(Lookup(FieldsOf(h, x, {Mapping}), key).value)
  {
    var fields := FieldsOf(h, x, {Mapping});
    match Lookup(fields, key)
    case Some(v) => LookupIsLeafSource(h, x, {Mapping}, key); FlattenHasNoCollection(v); Flatten(v)
    case None => []
  }

  /** `DirectPath.resolve_from` (iguala/paths.py:30-31): `flat(getattr(obj,
      name, []))`.  Atoms, collections and dicts have no attributes in the
      model. */
  function GetAttr(h: Heap, x: Value, name: string): (r: seq<Value>)
    ensures forall y :: y in r ==> !y.Coll? && y in HeapLeaves(h)
    ensures Lookup(FieldsOf(h, x, {Plain, Slotted}), name).None? ==> r == []
    ensures Lookup(FieldsOf(h, x, {Plain, Slotted}), name).Some? ==>
              r == Flatten(Lookup(FieldsOf(h, x, {Plain, Slotted}), name).value)
  {
    var fields := FieldsOf(h, x, {Plain, Slotted});
    match Lookup(fields, name)
    case Some(v) => LookupIsLeafSource(h, x, {Plain, Slotted}, name); FlattenHasNoCollection(v); Flatten(v)
    case None => []
  }

  /** The field values `ChildrenRecursivePath` visits: `vars(obj)`, then (in
      iguala/paths.py only) the `__slots__`, then `obj.items()`; anything else
      has no children. */
  function ChildValues(d: Dialect, h: Heap, x: Value): (vs: seq<Value>)
    ensures forall v :: v in vs ==> forall y :: y in Flatten(v) ==> y in HeapLeaves(h)
  {
    var kinds := if d == Current then {Plain, Slotted, Mapping} else {Plain, Mapping};
    var fields := FieldsOf(h, x, kinds);
    FieldValuesAreLeafSources(h, x, kinds);
    seq(|fields|, i requires 0 <= i < |fields| => fields[i].1)
  }

  // ---------------------------------------------------------------------
  // What a resolution can reach.  Every value a path yields is a leaf of
  // some field of the heap, the start value, or a leaf of the start value.
  // The closures terminate because `seen` grows inside this finite set.

  ghost function HeapLeaves(h: Heap): set<Value>
  {
    set a, f, y | a in h && f in h[a].fields && y in Flatten(f.1) :: y
  }

  ghost function Reach(h: Heap, x: Value): set<Value>
  {
    HeapLeaves(h) + {x} + (set y | y in Flatten(x))
  }

  ghost function ReachAll(h: Heap, xs: seq<Value>): set<Value>
  {
    HeapLeaves(h) + (set y | y in xs) + (set y | y in FlattenAll(xs))
  }

  lemma LookupIsLeafSource(h: Heap, x: Value, kinds: set<ObjKind>, name: string)
    requires Lookup(FieldsOf(h, x, kinds), name).Some?
    ensures forall y :: y in Flatten(Lookup(FieldsOf(h, x, kinds), name).value) ==> y in HeapLeaves(h)
  {
    var fields := FieldsOf(h, x, kinds);
    var v := Lookup(fields, name).value;
    var i :| 0 <= i < |fields| && fields[i] == (name, v);
    assert fields == h[x.id].fields;
    forall y | y in Flatten(v)
      ensures y in HeapLeaves(h)
    {
      assert fields[i] in h[x.id].fields;
    }
  }

  lemma FieldValuesAreLeafSources(h: Heap, x: Value, kinds: set<ObjKind>)
    ensures forall i :: 0 <= i < |FieldsOf(h, x, kinds)| ==>
              forall y :: y in Flatten(FieldsOf(h, x, kinds)[i].1) ==> y in HeapLeaves(h)
  {
    var fields := FieldsOf(h, x, kinds);
    forall i, y | 0 <= i < |fields| && y in Flatten(fields[i].1)
      ensures y in HeapLeaves(h)
    {
      assert fields == h[x.id].fields;
      assert fields[i] in h[x.id].fields;
    }
  }

  lemma HeapLeavesAreFlat(h: Heap, y: Value)
    requires y in HeapLeaves(h)
    ensures !y.Coll?
  {
    var a, f :| a in h && f in h[a].fields && y in Flatten(f.1);
    FlattenHasNoCollection(f.1);
  }

  lemma {:induction false} InFlattenAll(xs: seq<Value>, y: Value)
    requires y in FlattenAll(xs)
    ensures exists i :: 0 <= i < |xs| && y in Flatten(xs[i])
    decreases |xs|
  {
    if y !in Flatten(xs[0]) {
      InFlattenAll(xs[1..], y);
      var i :| 0 <= i < |xs[1..]| && y in Flatten(xs[1..][i]);
      assert y in Flatten(xs[i + 1]);
    }
  }

  lemma {:induction false} FlattenInFlattenAll(xs: seq<Value>, i: nat, y: Value)
    requires i < |xs| && y in Flatten(xs[i])
    ensures y in FlattenAll(xs)
    decreases i
  {
    if i > 0 {
      FlattenInFlattenAll(xs[1..], i - 1, y);
    }
  }

  /** Everything reachable from values already reachable is reachable. */
  lemma ReachAllClosed(h: Heap, xs: seq<Value>, ys: seq<Value>)
    requires forall y :: y in ys ==> y in ReachAll(h, xs)
    ensures ReachAll(h, ys) <= ReachAll(h, xs)
  {
    forall z | z in FlattenAll(ys)
      ensures z in ReachAll(h, xs)
    {
      InFlattenAll(ys, z);
      var i :| 0 <= i < |ys| && z in Flatten(ys[i]);
      var y := ys[i];
      assert y in ys && y in ReachAll(h, xs);
      if y in HeapLeaves(h) {
        HeapLeavesAreFlat(h, y);
      } else if y in xs {
        var j :| 0 <= j < |xs| && xs[j] == y;
        FlattenInFlattenAll(xs, j, z);
      } else {
        assert y in FlattenAll(xs);
        FlattenAllHasNoCollection(xs);
      }
    }
  }

  lemma ReachOfOne(h: Heap, x: Value)
    ensures ReachAll(h, [x]) == Reach(h, x)
  {
    assert FlattenAll([x]) == Flatten(x) + FlattenAll([]);
  }

  /** A strictly smaller subset has strictly fewer elements. */
  lemma CardSubset<T>(a: set<T>, b: set<T>)
    requires a <= b
    ensures |a| <= |b|
    ensures (exists e :: e in b && e !in a) ==> |a| < |b|
  {
    assert b == a + (b - a);
    assert a * (b - a) == {};
    if e :| e in b && e !in a {
      assert e in b - a;
    }
  }

  /** The closure measure never grows as `seen` grows. */
  lemma MeasureShrinks(a: set<Value>, s1: set<Value>, s2: set<Value>)
    requires s1 <= s2
    ensures |a - s2| <= |a - s1|
  {
    CardSubset(a - s2, a - s1);
  }

  /** Marking a batch of new reachable nodes and the start value as seen
      shrinks what is left to visit, strictly when the batch is not empty. */
  lemma MeasureAfterBatch(h: Heap, x: Value, seen: set<Value>, res: seq<Value>)
    requires forall y :: y in res ==> y in Reach(h, x) && y !in seen
    ensures |HeapLeaves(h) - (seen + (set y | y in res) + {x})| <= |Reach(h, x) - seen|
    ensures res != [] ==> |HeapLeaves(h) - (seen + (set y | y in res) + {x})| < |Reach(h, x) - seen|
  {
    var seen1 := seen + (set y | y in res) + {x};
    CardSubset(HeapLeaves(h) - seen1, Reach(h, x) - seen);
    if res != [] {
      assert res[0] in Reach(h, x) - seen && res[0] !in HeapLeaves(h) - seen1;
    }
  }

  /** From a node already seen that is not a collection, only the heap's
      leaves are left to visit. */
  lemma MeasureOfSeenLeaf(h: Heap, t: Value, seen: set<Value>)
    requires !t.Coll? && t in seen
    ensures Reach(h, t) == HeapLeaves(h) + {t}
    ensures |Reach(h, t) - seen| == |HeapLeaves(h) - seen|
  {
    assert Flatten(t) == [t];
    assert Reach(h, t) == HeapLeaves(h) + {t};
    assert Reach(h, t) - seen == HeapLeaves(h) - seen;
  }

  // ---------------------------------------------------------------------
  // Resolution

  /** The nodes of one batch that the closure keeps: `[x for x in o if x is
      not None and x not in seen]` (iguala/paths.py:71). */
  function Fresh(o: seq<Value>, seen: set<Value>): (res: seq<Value>)
    ensures forall y :: y in res <==> y in o && y != Nil && y !in seen
    ensures |res| <= |o|
  {
    if o == [] then []
    else if o[0] != Nil && o[0] !in seen then [o[0]] + Fresh(o[1..], seen)
    else Fresh(o[1..], seen)
  }

  /** The two things a closure step produces: the nodes it emits, in order,
      and the identity set `seen` as it leaves it. */
  datatype Closure = Closure(found: seq<Value>, seen: set<Value>)

  /** `resolve_from(obj)` of every path.  The result never contains a value
      that is neither the start value, a leaf of it, nor a leaf of a field of
      the heap. */
  function Resolve(d: Dialect, p: Path, h: Heap, x: Value): (r: seq<Value>)
    ensures forall y :: y in r ==> y in Reach(h, x)
    // a closure never emits `None`
    ensures IsRecursive(p) ==> forall y :: y in r ==> y != Nil
    decreases p, 3, 0, 0, 0
  {
    match p
    case DictPath(key) => DictGet(h, x, key)
    case DirectPath(name) => GetAttr(h, x, name)
    case ComposedPath(ps) => ReachOfOne(h, x); Compose(d, ps, 0, h, [x])
    case NamedRecursivePath(_) => Rec(d, p, h, x, {}).found
    case ChildrenRecursivePath => Rec(d, p, h, x, {}).found
  }

  /** The named closure emits the new nodes its inner path resolves to
      first, in order. */
  lemma NamedClosureFreshFirst(d: Dialect, p: Path, h: Heap, x: Value)
    requires p.NamedRecursivePath?
    ensures Fresh(Flatten(Coll(List, Resolve(d, p.path, h, x))), {}) <= Resolve(d, p, h, x)
  {
    assert Resolve(d, p, h, x) == Rec(d, p, h, x, {}).found;
  }

  /** `ComposedPath.resolve_from` (iguala/paths.py:52-64) from step `k` on,
      with `tmp` the candidates so far. */
  function Compose(d: Dialect, ps: seq<Path>, k: nat, h: Heap, tmp: seq<Value>): (r: seq<Value>)
    requires k <= |ps|
    ensures forall y :: y in r ==> y in ReachAll(h, tmp)
    decreases ComposedPath(ps), 2, |ps| - k, 0, 0
  {
    if k == |ps| then tmp
    else
      var next := Step(d, ps[k], h, tmp);
      ReachAllClosed(h, tmp, next);
      Compose(d, ps, k + 1, h, next)
  }

  /** One step of a composed path: a recursive step keeps the candidates and
      appends what each one resolves to; any other step replaces them. */
  function Step(d: Dialect, step: Path, h: Heap, tmp: seq<Value>): (r: seq<Value>)
    ensures forall y :: y in r ==> y in ReachAll(h, tmp)
    ensures IsRecursive(step) ==> |tmp| <= |r| && r[..|tmp|] == tmp
    ensures !IsRecursive(step) ==> r == ResolveEach(d, step, h, tmp)
    decreases step, 5, 0, 0, 0
  {
    (if IsRecursive(step) then tmp else []) + ResolveEach(d, step, h, tmp)
  }

  /** The concatenation, in order, of what `step` resolves each of `xs` to. */
  function ResolveEach(d: Dialect, step: Path, h: Heap, xs: seq<Value>): (r: seq<Value>)
    ensures forall y :: y in r ==> y in ReachAll(h, xs)
    decreases step, 4, |xs|, 0, 0
  {
    if xs == [] then []
    else
      var first := Resolve(d, step, h, xs[0]);
      var rest := ResolveEach(d, step, h, xs[1..]);
      assert forall y :: y in first ==> y in ReachAll(h, xs) by {
        forall y | y in first
          ensures y in ReachAll(h, xs)
        {
          if y in Flatten(xs[0]) {
            FlattenInFlattenAll(xs, 0, y);
          }
        }
      }
      assert forall y :: y in rest ==> y in ReachAll(h, xs) by {
        forall y | y in FlattenAll(xs[1..])
          ensures y in FlattenAll(xs)
        {
          InFlattenAll(xs[1..], y);
          var i :| 0 <= i < |xs[1..]| && y in Flatten(xs[1..][i]);
          FlattenInFlattenAll(xs, i + 1, y);
        }
      }
      first + rest
  }

  /** `_resolve_from(obj, seen)` of a recursive path: the named closure
      resolves its inner path from `obj` (iguala/paths.py:94-96), the children
      closure visits every field of `obj` (iguala/paths.py:100-114). */
  function Rec(d: Dialect, rp: Path, h: Heap, x: Value, seen: set<Value>): (c: Closure)
    requires IsRecursive(rp)
    ensures seen <= c.seen
    ensures forall y :: y in c.found ==> y in Reach(h, x)
    // an emitted node is never `None`, was not seen before, and is seen afterwards
    ensures forall y :: y in c.found ==> y != Nil && y !in seen && y in c.seen
    // the named closure marks `obj` as seen and emits the fresh nodes of its inner path first
    ensures rp.NamedRecursivePath? ==> x in c.seen
    ensures rp.NamedRecursivePath? ==>
              Fresh(Flatten(Coll(List, Resolve(d, rp.path, h, x))), seen) <= c.found
    // the children closure marks `obj` as seen iff it has a field to visit
    ensures rp.ChildrenRecursivePath? ==> (x in c.seen <==> x in seen || ChildValues(d, h, x) != [])
    decreases rp, 0, |Reach(h, x) - seen|, 3, 0
  {
    match rp
    case NamedRecursivePath(q) =>
      var o := Resolve(d, q, h, x);
      assert forall y :: y in Flatten(Coll(List, o)) ==> y in Reach(h, x) by {
        ReachOfOne(h, x);
        ReachAllClosed(h, [x], o);
      }
      RecFrom(d, rp, h, x, seen, Coll(List, o))
    case ChildrenRecursivePath =>
      ChildFields(d, rp, h, x, ChildValues(d, h, x), 0, Closure([], seen))
  }

  /** The loop `for _, v in visit` of ChildrenRecursivePath from field `i`
      on, `acc` holding `direct_objects` and `seen` so far. */
  function ChildFields(d: Dialect, rp: Path, h: Heap, x: Value, vs: seq<Value>, i: nat, acc: Closure): (c: Closure)
    requires IsRecursive(rp) && i <= |vs|
    requires forall v :: v in vs ==> forall y :: y in Flatten(v) ==> y in Reach(h, x)
    ensures acc.seen <= c.seen
    ensures forall y :: y in c.found ==> y in acc.found || y in Reach(h, x)
    ensures forall y :: y in c.found ==> y in acc.found || (y != Nil && y !in acc.seen && y in c.seen)
    ensures acc.found <= c.found
    ensures x in c.seen <==> x in acc.seen || i < |vs|
    decreases rp, 0, |Reach(h, x) - acc.seen|, if i == |vs| then 0 else 2, |vs| - i
  {
    if i == |vs| then acc
    else
      var step := RecFrom(d, rp, h, x, acc.seen, vs[i]);
      MeasureShrinks(Reach(h, x), acc.seen, step.seen);
      var next := Closure(acc.found + step.found, step.seen);
      ChildFields(d, rp, h, x, vs, i + 1, next)
  }

  /** `RecursivePath._resolve_from(obj, seen, resolved)` (iguala/paths.py:68-79):
      keep the new nodes of `flat(resolved)`, add them and `obj` to `seen`,
      then append the closure of each kept node in turn. */
  function RecFrom(d: Dialect, rp: Path, h: Heap, x: Value, seen: set<Value>, resolved: Value): (c: Closure)
    requires IsRecursive(rp)
    requires forall y :: y in Flatten(resolved) ==> y in Reach(h, x)
    ensures seen <= c.seen
    ensures forall y :: y in c.found ==> y in Reach(h, x)
    ensures forall y :: y in c.found ==> y != Nil && y !in seen && y in c.seen
    ensures x in c.seen
    // the batch's fresh nodes come first, in order, before any of their descendants
    ensures Fresh(Flatten(resolved), seen) <= c.found
    decreases rp, 0, |Reach(h, x) - seen|, 1, 0
  {
    var res := Fresh(Flatten(resolved), seen);
    var seen1 := seen + (set y | y in res) + {x};
    FlattenHasNoCollection(resolved);
    MeasureAfterBatch(h, x, seen, res);
    var deeper := RecAll(d, rp, h, res, 0, Closure([], seen1));
    var c := Closure(res + deeper.found, deeper.seen);
    assert forall y :: y in c.found ==> y != Nil && y !in seen && y in c.seen by {
      forall y | y in c.found
        ensures y != Nil && y !in seen && y in c.seen
      {
        if y in res {
          assert y in seen1;
        } else {
          assert y in deeper.found;
        }
      }
    }
    c
  }

  /** `flat([self._resolve_from(x, seen) for x in direct_objects])` from the
      `j`-th kept node on: their closures one after the other, sharing
      `seen`; `acc` holds the closures so far. */
  function RecAll(d: Dialect, rp: Path, h: Heap, xs: seq<Value>, j: nat, acc: Closure): (c: Closure)
    requires IsRecursive(rp) && j <= |xs|
    requires forall y :: y in xs ==> !y.Coll? && y in acc.seen
    ensures acc.seen <= c.seen
    ensures forall y :: y in c.found ==> y in acc.found || (y in HeapLeaves(h) && y != Nil && y !in acc.seen && y in c.seen)
    ensures acc.found <= c.found
    decreases rp, 0, |HeapLeaves(h) - acc.seen|, if j == |xs| then 0 else 5, |xs| - j
  {
    if j == |xs| then acc
    else
      var next := Visit(d, rp, h, xs[j], acc);
      MeasureShrinks(HeapLeaves(h), acc.seen, next.seen);
      var c := RecAll(d, rp, h, xs, j + 1, next);
      assert forall y :: y in c.found ==> y in acc.found || (y in HeapLeaves(h) && y != Nil && y !in acc.seen && y in c.seen) by {
        forall y | y in c.found && y !in acc.found
          ensures y in HeapLeaves(h) && y != Nil && y !in acc.seen && y in c.seen
        {
          if y in next.found {
            assert y in next.seen;
          }
        }
      }
      c
  }

  /** One element of that comprehension: the closure of a kept node `t`,
      appended to `acc`. */
  function Visit(d: Dialect, rp: Path, h: Heap, t: Value, acc: Closure): (c: Closure)
    requires IsRecursive(rp)
    requires !t.Coll? && t in acc.seen
    ensures acc.seen <= c.seen
    ensures forall y :: y in c.found ==> y in acc.found || (y in HeapLeaves(h) && y != Nil && y !in acc.seen && y in c.seen)
    ensures acc.found <= c.found
    decreases rp, 0, |HeapLeaves(h) - acc.seen|, 4, 0
  {
    MeasureOfSeenLeaf(h, t, acc.seen);
    var step := Rec(d, rp, h, t, acc.seen);
    Closure(acc.found + step.found, step.seen)
  }
}

=== FILE: patterns.dfy ===
/** `as_matcher` (iguala/matchers.py:410-428) and `is_not`
    (iguala/helpers.py:36-41): how a plain Python value written in a pattern
    becomes a matcher. */
module Patterns {
  import opened Values
  import opened Paths
  import opened PathSyntax
  import opened Matchers

  /** What can be written where a matcher is expected: the Python value, by
      the type `as_matcher` dispatches on. `PClass` is a class object,
      `PEllipsis` is `...`, and `POther` is anything else (a tuple, a set, an
      instance), which has no `as_matcher` method. */
  datatype Pattern =
    | PStr(text: string)
    | PEllipsis
    | PClass(name: string)
    | PBool(b: bool)
    | PNone
    | PInt(i: int)
    | PList(items: seq<Pattern>)
    | PDict(entries: seq<(PathArg, Pattern)>)
    | PMatcher(m: Matcher)
    | POther

  /** A pattern with no value anywhere in it that `as_matcher` refuses. */
  predicate Convertible(x: Pattern)
  {
    match x
    case PList(items) => forall i :: 0 <= i < |items| ==> Convertible(items[i])
    case PDict(entries) => forall i :: 0 <= i < |entries| ==>
        Convertible(entries[i].1) && AsPath(Current, entries[i].0, true).Ok?
    case POther => false
    case _ => true
  }

  /** `as_matcher(x)`: strings starting with `@` or `*` are wildcards, `...`
      the anonymous list wildcard, a class an object matcher without
      properties, a bool an identity test (it is tested before `int`, so
      `True` is never compared by equality), `None`, ints and other strings
      literals, lists sequence matchers, dicts dict matchers, a matcher itself;
      anything else raises `AttributeError`. */
  function AsMatcher(x: Pattern): (r: Result<Matcher>)
    ensures r.Ok? <==> Convertible(x)
    ensures x.PStr? && |x.text| > 0 && x.text[0] == '@' ==> r == Ok(Wildcard(x.text[1..]))
    ensures x.PStr? && |x.text| > 0 && x.text[0] == '*' ==> r == Ok(ListWildcard(x.text[1..]))
    ensures x.PStr? && (|x.text| == 0 || x.text[0] !in "@*") ==> r == Ok(Literal(Str(x.text)))
    ensures x.PBool? ==> r == Ok(Identity(Bool(x.b)))
    ensures x.PList? && r.Ok? ==>
              r.value.Sequence? && |r.value.items| == |x.items| &&
              forall i :: 0 <= i < |x.items| ==> AsMatcher(x.items[i]) == Ok(r.value.items[i])
    ensures x.PMatcher? ==> r == Ok(x.m)
    ensures x == POther ==> r == Err(AttributeError)
    decreases x, 1
  {
    match x
    case PStr(s) =>
      if |s| > 0 && s[0] == '@' then Ok(Wildcard(s[1..]))
      else if |s| > 0 && s[0] == '*' then Ok(ListWildcard(s[1..]))
      else Ok(Literal(Str(s)))
    case PEllipsis => Ok(ListWildcard(""))
    case PClass(name) => Ok(Object(name, [], false))
    case PBool(b) => Ok(Identity(Bool(b)))
    case PNone => Ok(Literal(Nil))
    case PInt(i) => Ok(Literal(Int(i)))
    case PList(items) =>
      var ms :- AsMatchers(x, items);
      Ok(Sequence(ms))
    case PDict(entries) =>
      var props :- AsProperties(x, entries);
      Ok(Dict(props))
    case PMatcher(m) => Ok(m)
    case POther => Err(AttributeError)
  }

  /** `[as_matcher(m) for m in items]`, the first error escaping. */
  function AsMatchers(ghost parent: Pattern, items: seq<Pattern>): (r: Result<seq<Matcher>>)
    requires forall i :: 0 <= i < |items| ==> items[i] < parent
    ensures r.Ok? <==> forall i :: 0 <= i < |items| ==> AsMatcher(items[i]).Ok?
    ensures r.Ok? ==> |r.value| == |items| && forall i :: 0 <= i < |items| ==> AsMatcher(items[i]) == Ok(r.value[i])
    decreases parent, 0, |items|
  {
    if items == [] then Ok([])
    else
      var first :- AsMatcher(items[0]);
      var rest :- AsMatchers(parent, items[1..]);
      Ok([first] + rest)
  }

  /** `{as_path(k, dictkey=True): as_matcher(v) for k, v in d.items()}`
      (iguala/matchers.py:183-187).  Paths have no equality of their own, so
      every entry stays a separate property, in the dict's order. */
  function AsProperties(ghost parent: Pattern, entries: seq<(PathArg, Pattern)>): (r: Result<seq<(Path, Matcher)>>)
    requires forall i :: 0 <= i < |entries| ==> entries[i].1 < parent
    ensures r.Ok? <==> forall i :: 0 <= i < |entries| ==>
              AsPath(Current, entries[i].0, true).Ok? && AsMatcher(entries[i].1).Ok?
    ensures r.Ok? ==> |r.value| == |entries| && forall i :: 0 <= i < |entries| ==>
              AsPath(Current, entries[i].0, true) == Ok(r.value[i].0) && AsMatcher(entries[i].1) == Ok(r.value[i].1)
    decreases parent, 0, |entries|
  {
    if entries == [] then Ok([])
    else
      var path :- AsPath(Current, entries[0].0, true);
      var m :- AsMatcher(entries[0].1);
      var rest :- AsProperties(parent, entries[1..]);
      Ok([(path, m)] + rest)
  }

  /** `ObjectMatcher(cls, properties, subclassmatch)` (iguala/matchers.py:153-180):
      no properties (`None`) gives none; otherwise every key goes through
      `as_path` and every value through `as_matcher`. */
  function ObjectMatcherOf(cls: string, properties: Option<seq<(PathArg, Pattern)>>, subclassmatch: bool)
    : (r: Result<Matcher>)
    ensures properties.None? ==> r == Ok(Object(cls, [], subclassmatch))
    ensures properties.Some? ==> (r.Ok? <==> forall i :: 0 <= i < |properties.value| ==>
              AsPath(Current, properties.value[i].0, false).Ok? && AsMatcher(properties.value[i].1).Ok?)
    ensures r.Ok? ==> r.value.Object? && r.value.cls == cls && r.value.subclassmatch == subclassmatch
    ensures r.Ok? && properties.Some? ==>
              |r.value.properties| == |properties.value| &&
              forall i :: 0 <= i < |properties.value| ==>
                AsPath(Current, properties.value[i].0, false) == Ok(r.value.properties[i].0) &&
                AsMatcher(properties.value[i].1) == Ok(r.value.properties[i].1)
  {
    if properties.None? then Ok(Object(cls, [], subclassmatch))
    else
      var props :- ObjectProperties(properties.value);
      Ok(Object(cls, props, subclassmatch))
  }

  /** The `properties` setter's comprehension (iguala/matchers.py:174-180). */
  function ObjectProperties(entries: seq<(PathArg, Pattern)>): (r: Result<seq<(Path, Matcher)>>)
    ensures r.Ok? <==> forall i :: 0 <= i < |entries| ==>
              AsPath(Current, entries[i].0, false).Ok? && AsMatcher(entries[i].1).Ok?
    ensures r.Ok? ==> |r.value| == |entries| && forall i :: 0 <= i < |entries| ==>
              AsPath(Current, entries[i].0, false) == Ok(r.value[i].0) && AsMatcher(entries[i].1) == Ok(r.value[i].1)
  {
    if entries == [] then Ok([])
    else
      var path :- AsPath(Current, entries[0].0, false);
      var m :- AsMatcher(entries[0].1);
      var rest :- ObjectProperties(entries[1..]);
      Ok([(path, m)] + rest)
  }

  /** `is_not(x)`: a negation is unwrapped, anything else is converted and
      negated. */
  function IsNot(x: Pattern): (r: Result<Matcher>)
    ensures x.PMatcher? && x.m.Not? ==> r == Ok(x.m.matcher)
    ensures !(x.PMatcher? && x.m.Not?) ==> r.Ok? == AsMatcher(x).Ok? && (r.Ok? ==> r == Ok(Not(AsMatcher(x).value)))
  {
    if x.PMatcher? && x.m.Not? then Ok(x.m.matcher)
    else
      var m :- AsMatcher(x);
      Ok(Not(m))
  }

  /** Negating twice gives back what the pattern converts to, unless the
      pattern was itself a negation. */
  lemma IsNotTwice(x: Pattern)
    requires !(x.PMatcher? && x.m.Not?)
    ensures IsNot(x).Ok? ==> IsNot(PMatcher(IsNot(x).value)) == AsMatcher(x)
    ensures IsNot(x).Err? ==> AsMatcher(x).Err?
  {
  }

  /** A negation is always rebuilt as the negation of what it unwraps to, so
      `is_not` of its result gives it back. */
  lemma IsNotOfNegation(m: Matcher)
    requires m.Not? && !m.matcher.Not?
    ensures IsNot(PMatcher(m)).Ok? && IsNot(PMatcher(IsNot(PMatcher(m)).value)) == Ok(m)
  {
  }

  /** With `p = is_not(3)`, `is_not(is_not(is_not(p)))` is the literal
      matcher for 3 and `is_not(is_not(p))` is still a negation. */
  lemma IsNotCollapses()
    ensures var p := IsNot(PInt(3)).value;
      var a := IsNot(PMatcher(p)).value;
      var b := IsNot(PMatcher(a)).value;
      p == Not(Literal(Int(3))) && b.Not? && IsNot(PMatcher(b)) == Ok(Literal(Int(3)))
  {
    var p := IsNot(PInt(3)).value;
    assert p == Not(Literal(Int(3)));
    var a := IsNot(PMatcher(p)).value;
    assert a == Literal(Int(3));
  }
}

=== FILE: scenarios.dfy ===
/** Sequence patterns on small subjects, from the cases of
    tests/test_sequence_matchers.py: each pattern is written as the Python
    value `as_matcher` or `is_not` receives. */
module Scenarios {
  import opened Values
  import opened Contexts
  import opened Matchers
  import opened Patterns
  import opened SequenceLaws
  import opened MatcherLaws
  import opened SearchState

  /** `[1, 2]` does not match `[1]`: the pattern is longer than the subject. */
  lemma PatternLongerThanSubject(h: Heap)
    ensures AsMatcher(PList([PInt(1), PInt(2)])) == Ok(Sequence([Literal(Int(1)), Literal(Int(2))]))
    ensures Eval(Sequence([Literal(Int(1)), Literal(Int(2))]), h, Coll(List, [Int(1)]), NewContext(true)) ==
            Ok(Outcome(NewContext(true), [], []))
  {
    var items := [Literal(Int(1)), Literal(Int(2))];
    var x := PList([PInt(1), PInt(2)]);
    assert Convertible(x.items[0]) && Convertible(x.items[1]);
    assert AsMatcher(x.items[0]) == Ok(items[0]) && AsMatcher(x.items[1]) == Ok(items[1]);
    var ms := AsMatcher(x).value.items;
    assert |ms| == 2 && ms[0] == items[0] && ms[1] == items[1];
    assert ms == items;
    LiteralSubjectMismatch(items, h, List, [Int(1)]);
  }

  /** A sequence of literals never matches a list or tuple of another
      length, nor one of the same length holding another value somewhere. */
  lemma LiteralSubjectMismatch(items: seq<Matcher>, h: Heap, kind: CollKind, elems: seq<Value>)
    requires AllLiterals(items) && kind != Set
    requires |items| != |elems| || exists j :: 0 <= j < |items| == |elems| && elems[j] != items[j].value
    ensures Eval(Sequence(items), h, Coll(kind, elems), NewContext(true)) == Ok(Outcome(NewContext(true), [], []))
  {
    LiteralSequence(items, h, Coll(kind, elems), NewContext(true));
    EvalSequence(Sequence(items), h, Coll(kind, elems), NewContext(true));
    if |items| == |elems| {
      var j :| 0 <= j < |items| && elems[j] != items[j].value;
      assert ElemAt(SubjectOf(h, Coll(kind, elems)).value, j) != Ok(items[j].value);
    }
  }

  /** `[1, 3, 3]` does not match `(3, 3, 1)`: the lengths agree but the
      first values differ. */
  lemma SameLengthOtherOrder(h: Heap)
    ensures Eval(Sequence([Literal(Int(1)), Literal(Int(3)), Literal(Int(3))]), h,
                 Coll(Tuple, [Int(3), Int(3), Int(1)]), NewContext(true)) ==
            Ok(Outcome(NewContext(true), [], []))
  {
    var items := [Literal(Int(1)), Literal(Int(3)), Literal(Int(3))];
    var elems := [Int(3), Int(3), Int(1)];
    assert elems[0] != items[0].value;
    LiteralSubjectMismatch(items, h, Tuple, elems);
  }

  /** `[]` matches the empty tuple, keeping the handed context. */
  lemma EmptyPatternEmptyTuple(h: Heap)
    ensures Eval(Sequence([]), h, Coll(Tuple, []), NewContext(true)) ==
            Ok(Outcome(NewContext(true), [NewContext(true)], [true]))
  {
    var ctx := NewContext(true);
    LeafSequence([], h, Coll(Tuple, []), ctx);
    assert Chain([], Items(Tuple, []), 0, [ctx]) == [ctx];
    assert Marks(1, true) == [true];
    EvalSequence(Sequence([]), h, Coll(Tuple, []), ctx);
  }

  /** `["@x", "@x"]` on a two-element list: `x` is bound to the first
      element, and the second must equal it. */
  lemma RepeatedAlias(h: Heap, a: Value, b: Value)
    ensures var ctx := NewContext(true);
      var bound := Context(map["x" := a], true, true);
      Eval(Sequence([Wildcard("x"), Wildcard("x")]), h, Coll(List, [a, b]), ctx) ==
      Ok(Outcome(ctx, if a == b then [bound] else [], if a == b then [false] else []))
  {
    var m := Sequence([Wildcard("x"), Wildcard("x")]);
    var ctx := NewContext(true);
    LeafSequence(m.items, h, Coll(List, [a, b]), ctx);
    AliasChain(a, b);
    var n := if a == b then 1 else 0;
    assert Marks(n, false) == if a == b then [false] else [];
    EvalSequence(m, h, Coll(List, [a, b]), ctx);
  }

  /** The contexts threaded through `["@x", "@x"]` over `[a, b]`. */
  lemma AliasChain(a: Value, b: Value)
    ensures var items := [Wildcard("x"), Wildcard("x")];
      Chain(items, Items(List, [a, b]), 0, [NewContext(true)]) ==
      if a == b then [Context(map["x" := a], true, true)] else []
  {
    var ctx := NewContext(true);
    var items := [Wildcard("x"), Wildcard("x")];
    var sub := Items(List, [a, b]);
    var bound := Context(map["x" := a], true, true);
    assert [ctx][1..] == [] && [bound][1..] == [];
    assert Survivors(items[0], a, [ctx]) == [bound];
    var last := if a == b then [bound] else [];
    assert Survivors(items[1], b, [bound]) == last;
    assert Chain(items, sub, 0, [ctx]) == Chain(items, sub, 1, [bound]);
  }

  /** `is_not(["@x", "@x"])` matches `[2, 3]` and does not match `[2, 2]`. */
  lemma NegatedRepeatedAlias(h: Heap)
    ensures IsNot(PList([PStr("@x"), PStr("@x")])) == Ok(Not(Sequence([Wildcard("x"), Wildcard("x")])))
    ensures var m := Not(Sequence([Wildcard("x"), Wildcard("x")]));
      Eval(m, h, Coll(List, [Int(2), Int(3)]), NewContext(true)) == Ok(Outcome(NewContext(true), [NewContext(true)], [true])) &&
      Eval(m, h, Coll(List, [Int(2), Int(2)]), NewContext(true)) == Ok(Outcome(NewContext(true), [], []))
  {
    NegatedRepeatedAliasPattern();
    RepeatedAlias(h, Int(2), Int(3));
    RepeatedAlias(h, Int(2), Int(2));
    var bound := Context(map["x" := Int(2)], true, true);
    NegateOne(true, bound);
  }

  lemma NegatedRepeatedAliasPattern()
    ensures IsNot(PList([PStr("@x"), PStr("@x")])) == Ok(Not(Sequence([Wildcard("x"), Wildcard("x")])))
  {
    var x := PList([PStr("@x"), PStr("@x")]);
    assert "@x"[1..] == "x";
    assert AsMatcher(PStr("@x")) == Ok(Wildcard("x"));
    assert Convertible(x.items[0]) && Convertible(x.items[1]);
    var ms := AsMatcher(x).value.items;
    assert |ms| == 2 && ms[0] == Wildcard("x") && ms[1] == Wildcard("x");
    assert ms == [Wildcard("x"), Wildcard("x")];
  }

  // ---------------------------------------------------------------------
  // `["@x", ...]` on `[1]`, one call of `match_next` at a time

  /** `["@x", ...]` on `[1]` (tests/test_sequence_matchers.py:70): the one
      alignment binds `x` to 1, and the search then turns back until it is
      exhausted without finding another. */
  lemma WildcardThenEllipsis(h: Heap)
    ensures AsMatcher(PList([PStr("@x"), PEllipsis])) == Ok(Sequence([Wildcard("x"), ListWildcard("")]))
    ensures Eval(Sequence([Wildcard("x"), ListWildcard("")]), h, Coll(List, [Int(1)]), NewContext(true)) ==
            Ok(Outcome(NewContext(true), [Context(map["x" := Int(1)], true, true)], [false]))
  {
    EllipsisPattern();
    var m := Sequence([Wildcard("x"), ListWildcard("")]);
    assert Start(2) == EllipsisState(0);
    EllipsisRun(h);
    assert Marks(1, false) == [false];
    SequenceRuns(m, h, Coll(List, [Int(1)]), NewContext(true), Items(List, [Int(1)]), [Bound1()]);
  }

  /** `as_matcher` turns `"@x"` into a wildcard and `...` into an anonymous
      list wildcard. */
  lemma EllipsisPattern()
    ensures AsMatcher(PList([PStr("@x"), PEllipsis])) == Ok(Sequence([Wildcard("x"), ListWildcard("")]))
  {
    var x := PList([PStr("@x"), PEllipsis]);
    assert "@x"[1..] == "x";
    assert AsMatcher(x.items[0]) == Ok(Wildcard("x")) && AsMatcher(x.items[1]) == Ok(ListWildcard(""));
    var ms := AsMatcher(x).value.items;
    assert |ms| == 2 && ms[0] == Wildcard("x") && ms[1] == ListWildcard("");
    assert ms == [Wildcard("x"), ListWildcard("")];
  }

  /** The context binding `x` to 1. */
  function Bound1(): Context
  {
    Context(map["x" := Int(1)], true, true)
  }

  /** The cursor of `["@x", ...]` on `[1]` that the `i`-th call of
      `match_next` starts from, counting from 0; the last one is exhausted. */
  function EllipsisState(i: nat): CursorState
  {
    var b := Bound1();
    if i == 0 then CursorState(0, 0, true, true, [0, 0], [0, 0], [true, true], [[], []])
    else if i == 1 then CursorState(1, 1, true, true, [0, 0], [0, 0], [false, true], [[b], []])
    else if i == 2 then CursorState(2, 1, true, true, [0, 1], [0, 0], [false, true], [[b], [b]])
    else if i == 3 then CursorState(2, 1, false, true, [0, 1], [0, 0], [false, true], [[b], [b]])
    else if i == 4 then CursorState(0, 1, false, true, [0, 1], [0, 0], [false, true], [[], []])
    else if i == 5 then CursorState(-1, 0, false, true, [0, 1], [0, 0], [false, true], [[], []])
    else CursorState(-1, 0, false, false, [0, 1], [0, 0], [false, true], [[], []])
  }

  /** Every one of these cursors is a reachable search state. */
  lemma EllipsisStates(i: nat)
    requires i <= 6
    ensures Inv([false, true], 1, EllipsisState(i)) && Stored(EllipsisState(i))
  {
    assert Bound1().IsMatch();
  }

  /** Forward at `"@x"`: the element 1 is bound. */
  lemma EllipsisStep0(h: Heap)
    ensures var m := Sequence([Wildcard("x"), ListWildcard("")]);
      Wild(m.items) == [false, true] && Inv(Wild(m.items), 1, EllipsisState(0)) && Stored(EllipsisState(0)) &&
      Step(m, h, Items(List, [Int(1)]), NewContext(true), EllipsisState(0)) == Ok((EllipsisState(1), false))
  {
    var m := Sequence([Wildcard("x"), ListWildcard("")]);
    var sub := Items(List, [Int(1)]);
    var ctx := NewContext(true);
    var s0 := EllipsisState(0);
    assert Wild(m.items) == [false, true];
    EllipsisStates(0);
    assert CopyAll(SearchState.Current(ctx, s0)) == [ctx];
    assert Prelude(2, 1, s0) == s0;
    assert ctx.bindings["x" := Int(1)] == Bound1().bindings;
    assert Eval(Wildcard("x"), h, Int(1), ctx) == Ok(Outcome(Bound1(), [Bound1()], [true]));
    assert [ctx][1..] == [];
    assert MatchEach(Wildcard("x"), h, Int(1), [ctx]) == Ok([Bound1()] + []);
    assert [Bound1()] + [] == [Bound1()];
    assert ElemAt(sub, 0) == Ok(Int(1));
    assert MatchAt(Wildcard("x"), h, sub, 0, [ctx]) == Ok([Bound1()]);
    assert Successful([Bound1()]) == [Bound1()];
    assert FixedAfter(s0, [Bound1()]) == EllipsisState(1);
  }

  /** Forward at `...`, the last pattern: it takes the rest of the subject,
      here the empty slice, and the alignment is complete. */
  lemma EllipsisStep1(h: Heap)
    ensures var m := Sequence([Wildcard("x"), ListWildcard("")]);
      Wild(m.items) == [false, true] && Inv(Wild(m.items), 1, EllipsisState(1)) && Stored(EllipsisState(1)) &&
      Step(m, h, Items(List, [Int(1)]), NewContext(true), EllipsisState(1)) == Ok((EllipsisState(2), false))
  {
    var m := Sequence([Wildcard("x"), ListWildcard("")]);
    var ctx := NewContext(true);
    var s1 := EllipsisState(1);
    assert Wild(m.items) == [false, true];
    EllipsisStates(1);
    assert CopyAll(SearchState.Current(ctx, s1)) == [Bound1()];
    assert Prelude(2, 1, s1) == s1;
    EllipsisSpan(h);
  }

  /** The span of `...` entered forward at the last position. */
  lemma EllipsisSpan(h: Heap)
    ensures var m := Sequence([Wildcard("x"), ListWildcard("")]);
      Wild(m.items) == [false, true] && Inv(Wild(m.items), 1, EllipsisState(1)) && Stored(EllipsisState(1)) &&
      SpanStep(m, h, Items(List, [Int(1)]), [Bound1()], EllipsisState(1)) == Ok(EllipsisState(2))
  {
    var m := Sequence([Wildcard("x"), ListWildcard("")]);
    var sub := Items(List, [Int(1)]);
    var b := Bound1();
    var s1 := EllipsisState(1);
    assert Wild(m.items) == [false, true];
    EllipsisStates(1);
    assert NumFixed(m.items[1..]) == 0;
    assert MaxLen(m.items, 1) == 0;
    var st1 := CursorState(1, 1, true, true, [0, 1], [0, 0], [false, true], [[b], []]);
    assert SpanEnter(2, 1, s1) == st1;
    assert ProposedSpan(m.items, 1, s1) == Some((1, 0));
    assert sub.elems[1..1] == [];
    assert SliceOf(sub, 1, 1) == Ok(Coll(List, []));
    assert Eval(ListWildcard(""), h, Coll(List, []), b) == Ok(Outcome(b, [b], [true]));
    assert [b][1..] == [] && [b] + [] == [b];
    assert MatchEach(ListWildcard(""), h, Coll(List, []), [b]) == Ok([b]);
    assert Successful([b]) == [b];
    assert st1.ctxs[1] + [b] == [b];
    assert SpanHit(st1, [b]) == EllipsisState(2);
    assert SpanAfter(st1, [b]) == EllipsisState(2);
  }

  /** Backward at `...`: one more element would exceed its bound of 0, so
      the search turns back to `"@x"`. */
  lemma EllipsisStep3(h: Heap)
    ensures var m := Sequence([Wildcard("x"), ListWildcard("")]);
      Wild(m.items) == [false, true] && Inv(Wild(m.items), 1, EllipsisState(3)) && Stored(EllipsisState(3)) &&
      Step(m, h, Items(List, [Int(1)]), NewContext(true), EllipsisState(3)) == Ok((EllipsisState(4), false))
  {
    var m := Sequence([Wildcard("x"), ListWildcard("")]);
    var sub := Items(List, [Int(1)]);
    var ctx := NewContext(true);
    var b := Bound1();
    var s3 := EllipsisState(3);
    assert Wild(m.items) == [false, true];
    EllipsisStates(3);
    var p := CursorState(1, 0, false, true, [0, 1], [0, 0], [false, true], [[b], [b]]);
    assert Prelude(2, 1, s3) == p;
    assert NumFixed(m.items[1..]) == 0;
    assert MaxLen(m.items, 1) == 0;
    var st1 := CursorState(1, 0, true, true, [0, 1], [0, 1], [false, true], [[b], []]);
    assert SpanEnter(2, 1, p) == st1;
    assert ProposedSpan(m.items, 1, p) == None;
    assert SpanOut(st1) == EllipsisState(4);
  }

  /** Backward at `"@x"` with the subject cursor past the end: both cursors
      step back. */
  lemma EllipsisStep4(h: Heap)
    ensures var m := Sequence([Wildcard("x"), ListWildcard("")]);
      Wild(m.items) == [false, true] && Inv(Wild(m.items), 1, EllipsisState(4)) && Stored(EllipsisState(4)) &&
      Step(m, h, Items(List, [Int(1)]), NewContext(true), EllipsisState(4)) == Ok((EllipsisState(5), false))
  {
    var m := Sequence([Wildcard("x"), ListWildcard("")]);
    var s4 := EllipsisState(4);
    assert Wild(m.items) == [false, true];
    EllipsisStates(4);
    assert Prelude(2, 1, s4) == s4;
    assert Retreat(s4) == EllipsisState(5);
  }

  /** The pattern cursor is below 0: the search is exhausted. */
  lemma EllipsisStep5(h: Heap)
    ensures var m := Sequence([Wildcard("x"), ListWildcard("")]);
      Wild(m.items) == [false, true] && Inv(Wild(m.items), 1, EllipsisState(5)) && Stored(EllipsisState(5)) &&
      Step(m, h, Items(List, [Int(1)]), NewContext(true), EllipsisState(5)) == Ok((EllipsisState(6), false))
  {
    var m := Sequence([Wildcard("x"), ListWildcard("")]);
    var s5 := EllipsisState(5);
    assert Wild(m.items) == [false, true];
    EllipsisStates(5);
    assert Prelude(2, 1, s5) == s5;
  }

  /** The calls of `match_next` that report no alignment leave the search
      to the next state. */
  lemma EllipsisLink(h: Heap, i: nat, results: seq<Context>)
    requires i in {0, 1, 3, 4, 5}
    ensures var m := Sequence([Wildcard("x"), ListWildcard("")]);
      Inv(Wild(m.items), 1, EllipsisState(i)) && Stored(EllipsisState(i)) &&
      Inv(Wild(m.items), 1, EllipsisState(i + 1)) && Stored(EllipsisState(i + 1)) &&
      Run(m, h, Items(List, [Int(1)]), NewContext(true), EllipsisState(i), results) ==
      Run(m, h, Items(List, [Int(1)]), NewContext(true), EllipsisState(i + 1), results)
  {
    var m := Sequence([Wildcard("x"), ListWildcard("")]);
    var sub := Items(List, [Int(1)]);
    var ctx := NewContext(true);
    if i == 0 {
      EllipsisStep0(h);
    } else if i == 1 {
      EllipsisStep1(h);
    } else if i == 3 {
      EllipsisStep3(h);
    } else if i == 4 {
      EllipsisStep4(h);
    } else {
      EllipsisStep5(h);
    }
    RunMoves(m, h, sub, ctx, EllipsisState(i), EllipsisState(i + 1), results);
  }

  /** The third call reports the alignment: the contexts of `...` are
      collected and the search turns backward. */
  lemma EllipsisFound(h: Heap)
    ensures var m := Sequence([Wildcard("x"), ListWildcard("")]);
      Inv(Wild(m.items), 1, EllipsisState(2)) && Stored(EllipsisState(2)) &&
      Inv(Wild(m.items), 1, EllipsisState(3)) && Stored(EllipsisState(3)) &&
      Run(m, h, Items(List, [Int(1)]), NewContext(true), EllipsisState(2), []) ==
      Run(m, h, Items(List, [Int(1)]), NewContext(true), EllipsisState(3), [Bound1()])
  {
    var m := Sequence([Wildcard("x"), ListWildcard("")]);
    var ctx := NewContext(true);
    var s2 := EllipsisState(2);
    assert s2.(forward := false) == EllipsisState(3);
    assert [] + SearchState.Current(ctx, s2) == [Bound1()];
    assert Wild(m.items) == [false, true];
    EllipsisStates(2);
    RunFound(m, h, Items(List, [Int(1)]), ctx, s2, []);
  }

  /** The exhausted cursor ends the loops. */
  lemma EllipsisEnd(h: Heap, results: seq<Context>)
    ensures var m := Sequence([Wildcard("x"), ListWildcard("")]);
      Inv(Wild(m.items), 1, EllipsisState(6)) && Stored(EllipsisState(6)) &&
      Run(m, h, Items(List, [Int(1)]), NewContext(true), EllipsisState(6), results) == Ok(results)
  {
    var m := Sequence([Wildcard("x"), ListWildcard("")]);
    EllipsisStates(6);
    assert Wild(m.items) == [false, true];
    RunStops(m, h, Items(List, [Int(1)]), NewContext(true), EllipsisState(6), results);
  }

  /** The loops of `SequenceMatcher.match_context` over these states: the
      alignment found at the third call is the only one collected. */
  lemma EllipsisRun(h: Heap)
    ensures var m := Sequence([Wildcard("x"), ListWildcard("")]);
      Inv(Wild(m.items), 1, EllipsisState(0)) && Stored(EllipsisState(0)) &&
      Run(m, h, Items(List, [Int(1)]), NewContext(true), EllipsisState(0), []) == Ok([Bound1()])
  {
    EllipsisLink(h, 0, []);
    EllipsisLink(h, 1, []);
    EllipsisFound(h);
    EllipsisLink(h, 3, [Bound1()]);
    EllipsisLink(h, 4, [Bound1()]);
    EllipsisLink(h, 5, [Bound1()]);
    EllipsisEnd(h, [Bound1()]);
  }
}

=== FILE: search.dfy ===
/** The state of `Cursor` (iguala/matchers.py:342-407) as a value, the
    updates `SequenceMatcher.match_next` makes to it (iguala/matchers.py:240-339),
    and why the search ends.

    The search is a depth-first walk over pattern positions.  Read the
    positions -1, 0, ..., n as the digits of a number in base 2m+4
    (m the subject's length): a position below the cursor holds what it has
    committed to (a fixed pattern 2, a list wildcard twice its span length plus
    two), the cursor's own position holds 0 when it is entered forward and one
    more than its committed digit when it is entered backward, and positions
    above the cursor hold 0.  Every update below makes that number grow, and it
    stays below (2m+4)^(n+2), so the loop `while cursor.has_next` ends. */
module SearchState {
  import opened Contexts

  /** `Cursor`'s mutable fields: `pattern_cursor`, `subject_cursor`,
      `forward`, `has_next`, `lv_starts`, `lv_lengths`, `pattern_has_next`
      and `contexts`.  Entries of `lv_starts`/`lv_lengths` at fixed patterns
      are `None` in the source and are never read; they are 0 here. */
  datatype CursorState = CursorState(
    p: int, s: int, forward: bool, hasNext: bool,
    starts: seq<int>, lengths: seq<int>, patHasNext: seq<bool>,
    ctxs: seq<seq<Context>>)

  /** The states the search can reach, for a pattern whose list wildcards
      are marked in `wild` and a subject of length `m`. */
  ghost predicate Inv(wild: seq<bool>, m: nat, st: CursorState)
  {
    var n := |wild|;
    |st.starts| == n && |st.lengths| == n && |st.patHasNext| == n && |st.ctxs| == n &&
    -1 <= st.p <= n && st.s <= m &&
    (forall q :: 0 <= q < n && wild[q] ==> 0 <= st.starts[q] <= m && 0 <= st.lengths[q] <= m) &&
    (forall q :: 0 <= q < n && !wild[q] && (q < st.p || (q == st.p && !st.forward)) ==> !st.patHasNext[q])
  }

  /** `Cursor.__init__` (iguala/matchers.py:343-365): both cursors at 0,
      searching forward, every span empty and starting at 0, every
      `pattern_has_next` set and every context list empty. */
  function Start(n: nat): (st: CursorState)
    ensures st.p == 0 && st.s == 0 && st.forward && st.hasNext
    ensures |st.ctxs| == n && forall q :: 0 <= q < n ==> st.ctxs[q] == []
  {
    CursorState(0, 0, true, true, seq(n, _ => 0), seq(n, _ => 0), seq(n, _ => true), seq(n, _ => []))
  }

  lemma StartInv(wild: seq<bool>, m: nat)
    ensures Inv(wild, m, Start(|wild|))
  {
  }

  /** `contexts_for_current_pattern`: what the previous position produced,
      or the context the search started from when there is none. */
  function Current(orig: Context, st: CursorState): (cs: seq<Context>)
    requires st.p <= |st.ctxs|
    ensures st.p <= 0 ==> cs == [orig]
    ensures st.p > 0 ==> cs == st.ctxs[st.p - 1]
  {
    if st.p - 1 < 0 then [orig] else st.ctxs[st.p - 1]
  }

  /** `clear_contexts_for_current_pattern`: a no-op at position -1. */
  function ClearCurrent(st: CursorState): (r: CursorState)
    requires st.p < |st.ctxs|
    ensures r.p == st.p && r.s == st.s && r.forward == st.forward && r.hasNext == st.hasNext
    ensures r.starts == st.starts && r.lengths == st.lengths && r.patHasNext == st.patHasNext
    ensures |r.ctxs| == |st.ctxs|
    ensures forall q :: 0 <= q < |st.ctxs| ==> r.ctxs[q] == if q == st.p then [] else st.ctxs[q]
  {
    if st.p < 0 then st else st.(ctxs := st.ctxs[st.p := []])
  }

  /** Lines 243-252, the case that does not return: a forward cursor past the
      last pattern with subject left turns back onto the last pattern; a
      backward cursor past the last pattern steps both cursors back. */
  function Prelude(n: nat, m: nat, st: CursorState): (r: CursorState)
    requires |st.ctxs| == n && st.p <= n
    requires !(st.forward && st.p >= n && st.s >= m)
    ensures st.p < n ==> r == st
    ensures st.p >= n ==> r.p == n - 1 && !r.forward
  {
    if st.forward then
      if st.p >= n then ClearCurrent(st.(forward := false, p := st.p - 1))
      else st
    else if st.p >= n then st.(p := st.p - 1, s := st.s - 1)
    else st
  }

  // ---------------------------------------------------------------------
  // The updates at a fixed (non-list-wildcard) pattern, lines 257-300

  /** Lines 258-272, a hit: the pattern may not be retried, its contexts are
      the successful ones just produced, and both cursors advance. */
  function FixedHit(st: CursorState, added: seq<Context>): (r: CursorState)
    requires 0 <= st.p < |st.ctxs| && |st.patHasNext| == |st.ctxs|
    ensures r.p == st.p + 1 && r.s == st.s + 1 && r.forward == st.forward && r.hasNext == st.hasNext
    ensures r.starts == st.starts && r.lengths == st.lengths
    ensures |r.ctxs| == |st.ctxs| && |r.patHasNext| == |st.patHasNext|
    ensures !r.patHasNext[st.p] && r.ctxs[st.p] == added
  {
    st.(patHasNext := st.patHasNext[st.p := false], ctxs := st.ctxs[st.p := added], p := st.p + 1, s := st.s + 1)
  }

  /** Lines 258-260 and 273-275, a miss: the pattern's flag is set back and
      its contexts cleared, then the search turns back one pattern. */
  function FixedMiss(st: CursorState): (r: CursorState)
    requires 0 <= st.p < |st.ctxs| && |st.patHasNext| == |st.ctxs|
    ensures r.p == st.p - 1 && r.s == st.s && !r.forward && r.hasNext == st.hasNext
    ensures r.starts == st.starts && r.lengths == st.lengths
    ensures |r.ctxs| == |st.ctxs| && |r.patHasNext| == |st.patHasNext|
    ensures r.patHasNext[st.p] && r.ctxs[st.p] == []
  {
    st.(patHasNext := st.patHasNext[st.p := true], ctxs := st.ctxs[st.p := []], p := st.p - 1, forward := false)
  }

  /** Lines 293-300: both cursors step back and the search goes on backward. */
  function Retreat(st: CursorState): (r: CursorState)
    ensures r.p == st.p - 1 && r.s == st.s - 1 && !r.forward && r.hasNext == st.hasNext
    ensures r.starts == st.starts && r.lengths == st.lengths && r.patHasNext == st.patHasNext && r.ctxs == st.ctxs
  {
    st.(p := st.p - 1, s := st.s - 1, forward := false)
  }

  // ---------------------------------------------------------------------
  // The updates at a list wildcard, lines 301-338

  function Max0(x: int): (r: nat)
    ensures r >= x && (x >= 0 ==> r == x) && (x < 0 ==> r == 0)
  {
    if x > 0 then x else 0
  }

  /** Lines 302-315: entered forward, the span starts at the subject cursor
      and is empty, or takes the rest of the subject at the last position;
      entered backward, the span grows by one and its contexts are cleared. */
  function SpanEnter(n: nat, m: nat, st: CursorState): (r: CursorState)
    requires 0 <= st.p < n && |st.starts| == n && |st.lengths| == n && |st.ctxs| == n
    ensures r.forward && r.p == st.p && r.s == st.s && r.patHasNext == st.patHasNext && r.hasNext == st.hasNext
    ensures |r.starts| == n && |r.lengths| == n && |r.ctxs| == n
    ensures st.forward ==> r.starts[st.p] == st.s
    ensures st.forward && st.p == n - 1 ==> r.lengths[st.p] == Max0(m - st.s)
    ensures st.forward && st.p < n - 1 ==> r.lengths[st.p] == 0
    ensures !st.forward ==> r.starts[st.p] == st.starts[st.p] && r.lengths[st.p] == st.lengths[st.p] + 1
  {
    if st.forward then
      st.(starts := st.starts[st.p := st.s],
          lengths := st.lengths[st.p := if st.p == n - 1 then Max0(m - st.s) else 0])
    else
      st.(lengths := st.lengths[st.p := st.lengths[st.p] + 1], forward := true, ctxs := st.ctxs[st.p := []])
  }

  /** The span `SpanEnter` proposes is too long (lines 321-326): the subject
      cursor goes back to the span's start, the span is reset, and the search
      turns back one pattern, clearing that pattern's contexts. */
  function SpanOut(st: CursorState): (r: CursorState)
    requires 0 <= st.p < |st.ctxs| && |st.starts| == |st.ctxs| && |st.lengths| == |st.ctxs|
    ensures r.p == st.p - 1 && r.s == st.starts[st.p] && !r.forward && r.hasNext == st.hasNext
    ensures r.starts == st.starts && r.patHasNext == st.patHasNext
    ensures |r.lengths| == |st.lengths| && r.lengths[st.p] == 0
    ensures |r.ctxs| == |st.ctxs| && (st.p > 0 ==> r.ctxs[st.p - 1] == [])
  {
    ClearCurrent(st.(s := st.starts[st.p], forward := false, lengths := st.lengths[st.p := 0], p := st.p - 1))
  }

  /** Lines 330-334, a hit: the span's contexts are appended and the subject
      cursor moves past the span. */
  function SpanHit(st: CursorState, added: seq<Context>): (r: CursorState)
    requires 0 <= st.p < |st.ctxs| && |st.starts| == |st.ctxs| && |st.lengths| == |st.ctxs|
    ensures r.p == st.p + 1 && r.s == st.starts[st.p] + st.lengths[st.p] && r.forward == st.forward && r.hasNext == st.hasNext
    ensures r.starts == st.starts && r.lengths == st.lengths && r.patHasNext == st.patHasNext
    ensures |r.ctxs| == |st.ctxs| && r.ctxs[st.p] == st.ctxs[st.p] + added
  {
    st.(ctxs := st.ctxs[st.p := st.ctxs[st.p] + added], s := st.starts[st.p] + st.lengths[st.p], p := st.p + 1)
  }

  /** Lines 335-338, a miss: the span is reset and the search turns back one
      pattern. */
  function SpanMiss(st: CursorState): (r: CursorState)
    requires 0 <= st.p < |st.lengths|
    ensures r.p == st.p - 1 && r.s == st.s && !r.forward && r.hasNext == st.hasNext
    ensures r.starts == st.starts && r.patHasNext == st.patHasNext && r.ctxs == st.ctxs
    ensures |r.lengths| == |st.lengths| && r.lengths[st.p] == 0
  {
    st.(forward := false, lengths := st.lengths[st.p := 0], p := st.p - 1)
  }

  /** Lines 262-275: the successful contexts the element gave decide
      between a hit and a miss. */
  function FixedAfter(st: CursorState, found: seq<Context>): (r: CursorState)
    requires 0 <= st.p < |st.ctxs| && |st.patHasNext| == |st.ctxs|
    // a hit exactly when the filter keeps some context, and then the kept ones
    ensures Successful(found) != [] ==> r == FixedHit(st, Successful(found))
    ensures Successful(found) == [] ==> r == FixedMiss(st)
  {
    AnyMatchIffKept(found);
    if AnyMatch(found) then FixedHit(st, Successful(found)) else FixedMiss(st)
  }

  /** Lines 330-338: the same for the span proposed at a list wildcard. */
  function SpanAfter(st: CursorState, found: seq<Context>): (r: CursorState)
    requires 0 <= st.p < |st.ctxs| && |st.starts| == |st.ctxs| && |st.lengths| == |st.ctxs|
    ensures Successful(found) != [] ==> r == SpanHit(st, Successful(found))
    ensures Successful(found) == [] ==> r == SpanMiss(st)
  {
    AnyMatchIffKept(found);
    if AnyMatch(found) then SpanHit(st, Successful(found)) else SpanMiss(st)
  }

  // ---------------------------------------------------------------------
  // The rank

  function Pow(b: nat, e: nat): (r: nat)
    ensures b >= 1 ==> r >= 1
  {
    if e == 0 then 1 else b * Pow(b, e - 1)
  }

  /** The number whose digits, most significant first, are `ds`. */
  function Value(ds: seq<nat>, b: nat): nat
  {
    if ds == [] then 0 else ds[0] * Pow(b, |ds| - 1) + Value(ds[1..], b)
  }

  lemma {:induction false} ValueBound(ds: seq<nat>, b: nat)
    requires b >= 1
    requires forall i :: 0 <= i < |ds| ==> ds[i] < b
    ensures Value(ds, b) < Pow(b, |ds|)
    decreases |ds|
  {
    if ds != [] {
      var p := Pow(b, |ds| - 1);
      var rest := Value(ds[1..], b);
      ValueBound(ds[1..], b);
      assert Value(ds, b) == ds[0] * p + rest;
      NextDigit(ds[0], b, p, rest);
    }
  }

  /** A digit below the base followed by less than one unit of the lower
      digits stays below the next power. */
  lemma NextDigit(d: nat, b: nat, p: nat, rest: nat)
    requires d < b && rest < p
    ensures d * p + rest < b * p
  {
    MulLe(d + 1, b, p);
    assert (d + 1) * p == d * p + p;
  }

  lemma MulLe(a: nat, c: nat, p: nat)
    requires a <= c
    ensures a * p <= c * p
  {
  }

  /** Digits that agree up to `k` and grow at `k` give a larger number. */
  lemma {:induction false} LexValue(d1: seq<nat>, d2: seq<nat>, k: nat, b: nat)
    requires b >= 1 && |d1| == |d2| && k < |d1|
    requires forall i :: 0 <= i < k ==> d1[i] == d2[i]
    requires d1[k] < d2[k]
    requires forall i :: 0 <= i < |d1| ==> d1[i] < b
    ensures Value(d1, b) < Value(d2, b)
    decreases k
  {
    var p := Pow(b, |d1| - 1);
    var r1 := Value(d1[1..], b);
    var r2 := Value(d2[1..], b);
    assert Value(d1, b) == d1[0] * p + r1;
    assert Value(d2, b) == d2[0] * p + r2;
    if k == 0 {
      ValueBound(d1[1..], b);
      NextDigit(d1[0], d2[0], p, r1);
    } else {
      LexValue(d1[1..], d2[1..], k - 1, b);
    }
  }

  function Base(m: nat): nat
  {
    2 * m + 4
  }

  /** What position `q` has committed to, below the cursor. */
  function Committed(wild: seq<bool>, st: CursorState, q: nat): nat
    requires q < |wild| && |st.lengths| == |wild|
  {
    if wild[q] && st.lengths[q] >= 0 then 2 * (st.lengths[q] + 1) else 2
  }

  /** Digit `k` stands for position `k - 1`: -1, 0, ..., n. */
  function Digit(wild: seq<bool>, st: CursorState, k: nat): nat
    requires k < |wild| + 2 && |st.lengths| == |wild|
  {
    if k == 0 then (if st.p < 0 then 1 else 0)
    else if k <= |wild| then
      var q := k - 1;
      if q < st.p then Committed(wild, st, q)
      else if q == st.p then (if st.forward then 0 else Committed(wild, st, q) + 1)
      else 0
    else if st.p == |wild| && !st.forward then 1
    else 0
  }

  function Digits(wild: seq<bool>, st: CursorState): (ds: seq<nat>)
    requires |st.lengths| == |wild|
    ensures |ds| == |wild| + 2
    ensures forall k :: 0 <= k < |wild| + 2 ==> ds[k] == Digit(wild, st, k)
  {
    seq(|wild| + 2, k requires 0 <= k < |wild| + 2 => Digit(wild, st, k))
  }

  /** How far the search has got. */
  function Rank(wild: seq<bool>, m: nat, st: CursorState): nat
    requires |st.lengths| == |wild|
  {
    Value(Digits(wild, st), Base(m))
  }

  /** How much room the search has left. */
  function Room(wild: seq<bool>, m: nat): nat
  {
    Pow(Base(m), |wild| + 2)
  }

  lemma RankBound(wild: seq<bool>, m: nat, st: CursorState)
    requires Inv(wild, m, st)
    ensures Rank(wild, m, st) < Room(wild, m)
  {
    var ds := Digits(wild, st);
    forall k | 0 <= k < |ds|
      ensures ds[k] < Base(m)
    {
      if 1 <= k <= |wild| && wild[k - 1] {
        assert st.lengths[k - 1] <= m;
      }
    }
    ValueBound(ds, Base(m));
  }

  /** From two states with a digit sequence each, agreement below `k` and
      growth at `k` give a larger rank. */
  lemma RankGrows(wild: seq<bool>, m: nat, st: CursorState, st2: CursorState, k: nat)
    requires Inv(wild, m, st) && Inv(wild, m, st2) && k < |wild| + 2
    requires forall i :: 0 <= i < k ==> Digit(wild, st, i) == Digit(wild, st2, i)
    requires Digit(wild, st, k) < Digit(wild, st2, k)
    ensures Rank(wild, m, st) < Rank(wild, m, st2)
  {
    var d1 := Digits(wild, st);
    var d2 := Digits(wild, st2);
    forall i | 0 <= i < |d1|
      ensures d1[i] < Base(m) && d2[i] < Base(m)
    {
      if 1 <= i <= |wild| && wild[i - 1] {
        assert st.lengths[i - 1] <= m && st2.lengths[i - 1] <= m;
      }
    }
    LexValue(d1, d2, k, Base(m));
  }

  // ---------------------------------------------------------------------
  // Every update keeps the invariant and raises the rank

  /** Turning back from position `p` to `p - 1`, with nothing below `p`
      changed. */
  lemma TurnBack(wild: seq<bool>, m: nat, st: CursorState, st2: CursorState)
    requires Inv(wild, m, st) && Inv(wild, m, st2)
    requires 0 <= st.p < |wild| && st2.p == st.p - 1 && !st2.forward
    requires forall q :: 0 <= q < st.p ==> st2.lengths[q] == st.lengths[q]
    ensures Rank(wild, m, st) < Rank(wild, m, st2)
  {
    forall i | 0 <= i < st.p
      ensures Digit(wild, st, i) == Digit(wild, st2, i)
    {
      if i > 0 {
        assert st2.lengths[i - 1] == st.lengths[i - 1];
      }
    }
    RankGrows(wild, m, st, st2, st.p);
  }

  /** Moving on from position `p` to `p + 1` forward, with nothing below `p`
      changed and position `p` committed to more than it held. */
  lemma MoveOn(wild: seq<bool>, m: nat, st: CursorState, st2: CursorState)
    requires Inv(wild, m, st) && Inv(wild, m, st2)
    requires 0 <= st.p < |wild| && st2.p == st.p + 1 && st2.forward
    requires forall q :: 0 <= q < st.p ==> st2.lengths[q] == st.lengths[q]
    requires Digit(wild, st, st.p + 1) < Committed(wild, st2, st.p)
    ensures Rank(wild, m, st) < Rank(wild, m, st2)
  {
    forall i | 0 <= i < st.p + 1
      ensures Digit(wild, st, i) == Digit(wild, st2, i)
    {
      if i > 0 {
        assert st2.lengths[i - 1] == st.lengths[i - 1];
      }
    }
    RankGrows(wild, m, st, st2, st.p + 1);
  }

  lemma FoundOk(wild: seq<bool>, m: nat, st: CursorState)
    requires Inv(wild, m, st) && st.forward && st.p >= |wild|
    ensures Inv(wild, m, st.(forward := false))
    ensures Rank(wild, m, st) < Rank(wild, m, st.(forward := false))
  {
    var st2 := st.(forward := false);
    forall i | 0 <= i < |wild| + 1
      ensures Digit(wild, st, i) == Digit(wild, st2, i)
    {
    }
    RankGrows(wild, m, st, st2, |wild| + 1);
  }

  lemma PreludeOk(wild: seq<bool>, m: nat, st: CursorState)
    requires Inv(wild, m, st)
    requires !(st.forward && st.p >= |wild| && st.s >= m)
    ensures Inv(wild, m, Prelude(|wild|, m, st))
    ensures Rank(wild, m, st) <= Rank(wild, m, Prelude(|wild|, m, st))
  {
    var n := |wild|;
    var st2 := Prelude(n, m, st);
    if st.p >= n {
      forall i | 0 <= i < n
        ensures Digit(wild, st, i) == Digit(wild, st2, i)
      {
      }
      RankGrows(wild, m, st, st2, n);
    }
  }

  lemma FixedHitOk(wild: seq<bool>, m: nat, st: CursorState, added: seq<Context>)
    requires Inv(wild, m, st) && 0 <= st.p < |wild| && !wild[st.p]
    requires st.forward && 0 <= st.s < m
    ensures Inv(wild, m, FixedHit(st, added))
    ensures Rank(wild, m, st) < Rank(wild, m, FixedHit(st, added))
  {
    MoveOn(wild, m, st, FixedHit(st, added));
  }

  lemma FixedMissOk(wild: seq<bool>, m: nat, st: CursorState)
    requires Inv(wild, m, st) && 0 <= st.p < |wild| && !wild[st.p]
    ensures Inv(wild, m, FixedMiss(st))
    ensures Rank(wild, m, st) < Rank(wild, m, FixedMiss(st))
  {
    TurnBack(wild, m, st, FixedMiss(st));
  }

  lemma RetreatOk(wild: seq<bool>, m: nat, st: CursorState)
    requires Inv(wild, m, st) && 0 <= st.p < |wild|
    ensures Inv(wild, m, Retreat(st))
    ensures Rank(wild, m, st) < Rank(wild, m, Retreat(st))
  {
    TurnBack(wild, m, st, Retreat(st));
  }

  lemma SpanOutOk(wild: seq<bool>, m: nat, st: CursorState)
    requires Inv(wild, m, st) && 0 <= st.p < |wild| && wild[st.p] && 0 <= st.s
    ensures Inv(wild, m, SpanOut(SpanEnter(|wild|, m, st)))
    ensures Rank(wild, m, st) < Rank(wild, m, SpanOut(SpanEnter(|wild|, m, st)))
  {
    var st1 := SpanEnter(|wild|, m, st);
    var st2 := SpanOut(st1);
    assert st2.starts == st1.starts;
    TurnBack(wild, m, st, st2);
  }

  lemma SpanMissOk(wild: seq<bool>, m: nat, st: CursorState)
    requires Inv(wild, m, st) && 0 <= st.p < |wild| && wild[st.p] && 0 <= st.s
    ensures Inv(wild, m, SpanMiss(SpanEnter(|wild|, m, st)))
    ensures Rank(wild, m, st) < Rank(wild, m, SpanMiss(SpanEnter(|wild|, m, st)))
  {
    TurnBack(wild, m, st, SpanMiss(SpanEnter(|wild|, m, st)));
  }

  lemma SpanHitOk(wild: seq<bool>, m: nat, maxLen: int, st: CursorState, added: seq<Context>)
    requires Inv(wild, m, st) && 0 <= st.p < |wild| && wild[st.p] && 0 <= st.s
    requires maxLen <= m
    requires var st1 := SpanEnter(|wild|, m, st);
      st1.lengths[st.p] <= maxLen && st1.starts[st.p] + st1.lengths[st.p] < m + 1
    ensures Inv(wild, m, SpanHit(SpanEnter(|wild|, m, st), added))
    ensures Rank(wild, m, st) < Rank(wild, m, SpanHit(SpanEnter(|wild|, m, st), added))
  {
    var st1 := SpanEnter(|wild|, m, st);
    var st2 := SpanHit(st1, added);
    assert st2.lengths == st1.lengths;
    MoveOn(wild, m, st, st2);
  }

  lemma FixedAfterOk(wild: seq<bool>, m: nat, st: CursorState, found: seq<Context>)
    requires Inv(wild, m, st) && 0 <= st.p < |wild| && !wild[st.p]
    requires st.forward && 0 <= st.s < m
    ensures Inv(wild, m, FixedAfter(st, found))
    ensures Rank(wild, m, st) < Rank(wild, m, FixedAfter(st, found))
  {
    if AnyMatch(found) {
      FixedHitOk(wild, m, st, Successful(found));
    } else {
      FixedMissOk(wild, m, st);
    }
  }

  lemma SpanAfterOk(wild: seq<bool>, m: nat, maxLen: int, st: CursorState, found: seq<Context>)
    requires Inv(wild, m, st) && 0 <= st.p < |wild| && wild[st.p] && 0 <= st.s
    requires maxLen <= m
    requires var st1 := SpanEnter(|wild|, m, st);
      st1.lengths[st.p] <= maxLen && st1.starts[st.p] + st1.lengths[st.p] < m + 1
    ensures Inv(wild, m, SpanAfter(SpanEnter(|wild|, m, st), found))
    ensures Rank(wild, m, st) < Rank(wild, m, SpanAfter(SpanEnter(|wild|, m, st), found))
  {
    if AnyMatch(found) {
      SpanHitOk(wild, m, maxLen, st, Successful(found));
    } else {
      SpanMissOk(wild, m, st);
    }
  }
}

=== FILE: search_trace.dfy ===
/** The search of `SequenceMatcher.match_context` (iguala/matchers.py:228-339)
    followed one call of `match_next` at a time: what a call does from a
    state, by the kind of move it makes, and what the loops of lines 231-237
    collect along a whole trace of states. */
module SearchTrace {
  import opened Values
  import opened Contexts
  import opened Matchers
  import opened SearchState

  /** Lines 240-252: a call of `match_next` that is not at a complete
      alignment copies the current contexts, runs the prelude, and then
      moves as the pattern at the cursor says. */
  lemma StepMoves(m: Matcher, h: Heap, sub: Subject, orig: Context, st: CursorState, st2: CursorState)
    requires m.Sequence? && Inv(Wild(m.items), Len(sub), st) && Stored(st) && st.hasNext
    requires !(st.forward && st.p >= |m.items| && st.s >= Len(sub))
    requires Inv(Wild(m.items), Len(sub), Prelude(|m.items|, Len(sub), st))
    requires Move(m, h, sub, CopyAll(SearchState.Current(orig, st)), Prelude(|m.items|, Len(sub), st)) == Ok(st2)
    ensures Step(m, h, sub, orig, st) == Ok((st2, false))
  {
  }

  /** Lines 258-275: at a fixed pattern entered forward with an element
      left, the element is matched with the contexts, and the search hits or
      misses on what that gives. */
  lemma FixedForwardMove(m: Matcher, h: Heap, sub: Subject, contexts: seq<Context>, st: CursorState, found: seq<Context>)
    requires m.Sequence? && Inv(Wild(m.items), Len(sub), st) && Stored(st) && st.hasNext
    requires 0 <= st.p < |m.items| && !m.items[st.p].ListWildcard? && st.forward && 0 <= st.s < Len(sub)
    requires MatchAt(m.items[st.p], h, sub, st.s, contexts) == Ok(found)
    ensures Move(m, h, sub, contexts, st) == Ok(FixedAfter(st, found))
  {
    assert FixedForward(m, h, sub, contexts, st) == Ok(FixedAfter(st, found));
  }

  /** Lines 276-300: at a fixed pattern reached backward, or with no
      element left, both cursors step back (the element, if any, is matched
      again and must not raise). */
  lemma FixedBackMove(m: Matcher, h: Heap, sub: Subject, contexts: seq<Context>, st: CursorState)
    requires m.Sequence? && Inv(Wild(m.items), Len(sub), st) && Stored(st) && st.hasNext
    requires 0 <= st.p < |m.items| && !m.items[st.p].ListWildcard? && 0 <= st.s && !(st.forward && st.s < Len(sub))
    requires st.s < Len(sub) ==> MatchAt(m.items[st.p], h, sub, st.s, contexts).Ok?
    ensures Move(m, h, sub, contexts, st) == Ok(Retreat(st))
  {
    assert FixedBackward(m, h, sub, contexts, st) == Ok(Retreat(st));
  }

  /** Lines 321-326: at a list wildcard whose next span is too long, the
      search turns back. */
  lemma SpanOutMove(m: Matcher, h: Heap, sub: Subject, contexts: seq<Context>, st: CursorState)
    requires m.Sequence? && Inv(Wild(m.items), Len(sub), st) && Stored(st) && st.hasNext
    requires 0 <= st.p < |m.items| && m.items[st.p].ListWildcard? && 0 <= st.s
    requires ProposedSpan(m.items, Len(sub), st) == None
    ensures Move(m, h, sub, contexts, st) == Ok(SpanOut(SpanEnter(|m.items|, Len(sub), st)))
  {
    assert SpanStep(m, h, sub, contexts, st) == Ok(SpanOut(SpanEnter(|m.items|, Len(sub), st)));
  }

  /** Lines 328-338: at a list wildcard, the span it proposes is matched
      with the contexts, and the search hits or misses on what that gives. */
  lemma SpanTryMove(m: Matcher, h: Heap, sub: Subject, contexts: seq<Context>, st: CursorState,
                    start: nat, length: nat, slice: Value, found: seq<Context>)
    requires m.Sequence? && Inv(Wild(m.items), Len(sub), st) && Stored(st) && st.hasNext
    requires 0 <= st.p < |m.items| && m.items[st.p].ListWildcard? && 0 <= st.s
    requires ProposedSpan(m.items, Len(sub), st) == Some((start, length))
    requires SliceOf(sub, start, start + length) == Ok(slice)
    requires MatchEach(m.items[st.p], h, slice, contexts) == Ok(found)
    ensures Move(m, h, sub, contexts, st) == Ok(SpanAfter(SpanEnter(|m.items|, Len(sub), st), found))
  {
    SpanTryValue(m, h, sub, contexts, st, start, length, slice, found);
    assert SpanStep(m, h, sub, contexts, st) == SpanTry(m, h, sub, contexts, st, start, length);
  }

  /** The tried span, with its slice and what the pattern there found. */
  lemma SpanTryValue(m: Matcher, h: Heap, sub: Subject, contexts: seq<Context>, st: CursorState,
                     start: nat, length: nat, slice: Value, found: seq<Context>)
    requires m.Sequence? && Inv(Wild(m.items), Len(sub), st) && Stored(st)
    requires 0 <= st.p < |m.items| && m.items[st.p].ListWildcard? && 0 <= st.s
    requires ProposedSpan(m.items, Len(sub), st) == Some((start, length))
    requires SliceOf(sub, start, start + length) == Ok(slice)
    requires MatchEach(m.items[st.p], h, slice, contexts) == Ok(found)
    ensures SpanTry(m, h, sub, contexts, st, start, length) == Ok(SpanAfter(SpanEnter(|m.items|, Len(sub), st), found))
  {
  }

  /** Lines 253-255: a cursor below 0 exhausts the search. */
  lemma ExhaustMove(m: Matcher, h: Heap, sub: Subject, contexts: seq<Context>, st: CursorState)
    requires m.Sequence? && Inv(Wild(m.items), Len(sub), st) && Stored(st) && st.hasNext
    requires st.p < |m.items| && (st.p < 0 || st.s < 0)
    ensures Move(m, h, sub, contexts, st) == Ok(st.(hasNext := false))
  {
  }

  /** A call of `match_next` from `st` that is not at a complete alignment,
      with the state `pre` the prelude leaves and the copies of the current
      contexts it hands to the pattern at the cursor. */
  ghost predicate Prepared(m: Matcher, sub: Subject, orig: Context, st: CursorState, pre: CursorState, contexts: seq<Context>)
    requires m.Sequence?
  {
    Inv(Wild(m.items), Len(sub), st) && Stored(st) && st.hasNext &&
    !(st.forward && st.p >= |m.items| && st.s >= Len(sub)) &&
    Prelude(|m.items|, Len(sub), st) == pre && Inv(Wild(m.items), Len(sub), pre) && Stored(pre) &&
    CopyAll(SearchState.Current(orig, st)) == contexts
  }

  /** The call at a fixed pattern, forward with an element left. */
  lemma AtFixedForward(m: Matcher, h: Heap, sub: Subject, orig: Context, st: CursorState, pre: CursorState,
                       contexts: seq<Context>, elem: Value, found: seq<Context>)
    requires m.Sequence? && Prepared(m, sub, orig, st, pre, contexts)
    requires 0 <= pre.p < |m.items| && !m.items[pre.p].ListWildcard? && pre.forward && 0 <= pre.s < Len(sub)
    requires ElemAt(sub, pre.s) == Ok(elem) && MatchEach(m.items[pre.p], h, elem, contexts) == Ok(found)
    ensures Moves(m, h, sub, orig, st, FixedAfter(pre, found), false)
  {
    assert MatchAt(m.items[pre.p], h, sub, pre.s, contexts) == Ok(found);
    FixedForwardMove(m, h, sub, contexts, pre, found);
    StepMoves(m, h, sub, orig, st, FixedAfter(pre, found));
  }

  /** The call at a fixed pattern, backward or with no element left. */
  lemma AtFixedBackward(m: Matcher, h: Heap, sub: Subject, orig: Context, st: CursorState, pre: CursorState,
                        contexts: seq<Context>)
    requires m.Sequence? && Prepared(m, sub, orig, st, pre, contexts)
    requires 0 <= pre.p < |m.items| && !m.items[pre.p].ListWildcard? && 0 <= pre.s && !(pre.forward && pre.s < Len(sub))
    requires pre.s < Len(sub) ==> ElemAt(sub, pre.s).Ok? && MatchEach(m.items[pre.p], h, ElemAt(sub, pre.s).value, contexts).Ok?
    ensures Moves(m, h, sub, orig, st, Retreat(pre), false)
  {
    assert pre.s < Len(sub) ==> MatchAt(m.items[pre.p], h, sub, pre.s, contexts).Ok?;
    FixedBackMove(m, h, sub, contexts, pre);
    StepMoves(m, h, sub, orig, st, Retreat(pre));
  }

  /** The call at a list wildcard whose next span is too long. */
  lemma AtSpanOut(m: Matcher, h: Heap, sub: Subject, orig: Context, st: CursorState, pre: CursorState,
                  contexts: seq<Context>)
    requires m.Sequence? && Prepared(m, sub, orig, st, pre, contexts)
    requires 0 <= pre.p < |m.items| && m.items[pre.p].ListWildcard? && 0 <= pre.s
    requires ProposedSpan(m.items, Len(sub), pre) == None
    ensures Moves(m, h, sub, orig, st, SpanOut(SpanEnter(|m.items|, Len(sub), pre)), false)
  {
    SpanOutMove(m, h, sub, contexts, pre);
    StepMoves(m, h, sub, orig, st, SpanOut(SpanEnter(|m.items|, Len(sub), pre)));
  }

  /** The call at a list wildcard that proposes a span. */
  lemma AtSpanTry(m: Matcher, h: Heap, sub: Subject, orig: Context, st: CursorState, pre: CursorState,
                  contexts: seq<Context>, start: nat, length: nat, slice: Value, found: seq<Context>)
    requires m.Sequence? && Prepared(m, sub, orig, st, pre, contexts)
    requires 0 <= pre.p < |m.items| && m.items[pre.p].ListWildcard? && 0 <= pre.s
    requires ProposedSpan(m.items, Len(sub), pre) == Some((start, length))
    requires SliceOf(sub, start, start + length) == Ok(slice)
    requires MatchEach(m.items[pre.p], h, slice, contexts) == Ok(found)
    ensures Moves(m, h, sub, orig, st, SpanAfter(SpanEnter(|m.items|, Len(sub), pre), found), false)
  {
    SpanTryMove(m, h, sub, contexts, pre, start, length, slice, found);
    StepMoves(m, h, sub, orig, st, SpanAfter(SpanEnter(|m.items|, Len(sub), pre), found));
  }

  /** The call with a cursor below 0. */
  lemma AtExhausted(m: Matcher, h: Heap, sub: Subject, orig: Context, st: CursorState, pre: CursorState,
                    contexts: seq<Context>)
    requires m.Sequence? && Prepared(m, sub, orig, st, pre, contexts)
    requires pre.p < 0 || pre.s < 0
    ensures Moves(m, h, sub, orig, st, pre.(hasNext := false), false)
  {
    ExhaustMove(m, h, sub, contexts, pre);
    StepMoves(m, h, sub, orig, st, pre.(hasNext := false));
  }

  /** What one call of `match_next` does from `st`: report the alignment it
      is at (`found`), after which the loop turns backward, or move to `st2`. */
  ghost predicate Moves(m: Matcher, h: Heap, sub: Subject, orig: Context, st: CursorState, st2: CursorState, found: bool)
    requires m.Sequence?
  {
    Inv(Wild(m.items), Len(sub), st) && Stored(st) && st.hasNext &&
    if found then st.forward && st.p >= |m.items| && st.s >= Len(sub) && st2 == st.(forward := false)
    else Step(m, h, sub, orig, st) == Ok((st2, false))
  }

  /** The sequences `here(i)`, ..., `here(last - 1)` joined in order. */
  function Gathered(here: nat -> seq<Context>, i: nat, last: nat): seq<Context>
    decreases last - i
  {
    if i >= last then [] else here(i) + Gathered(here, i + 1, last)
  }

  /** A run that goes from each state to the next adding `here` of it to the
      results, and stops at the `last`, returns the results followed by
      everything gathered on the way. */
  lemma {:induction false} GatherAlong(run: (nat, seq<Context>) -> Result<seq<Context>>, here: nat -> seq<Context>,
                                 i: nat, last: nat, results: seq<Context>)
    requires i <= last
    requires forall k, res :: i <= k < last ==> run(k, res) == run(k + 1, res + here(k))
    requires forall res :: run(last, res) == Ok(res)
    ensures run(i, results) == Ok(results + Gathered(here, i, last))
    decreases last - i
  {
    if i == last {
      assert results + [] == results;
    } else {
      GatherAlong(run, here, i + 1, last, results + here(i));
      assert results + here(i) + Gathered(here, i + 1, last) == results + (here(i) + Gathered(here, i + 1, last));
    }
  }

  /** What the `k`-th state of a trace adds to the results: its current
      contexts when it reports an alignment, nothing otherwise. */
  function Reported(orig: Context, trace: nat -> CursorState, found: nat -> bool): (nat -> seq<Context>)
  {
    (k: nat) => if found(k) && trace(k).p <= |trace(k).ctxs| then SearchState.Current(orig, trace(k)) else []
  }

  /** The contexts the loops collect along the trace from its `i`-th state
      to its `last`: the current contexts of every state that reports an
      alignment, in order. */
  function Collected(orig: Context, trace: nat -> CursorState, found: nat -> bool, i: nat, last: nat): seq<Context>
  {
    Gathered(Reported(orig, trace, found), i, last)
  }

  /** One call of `match_next` along a trace: the loops go on from the
      next state with the contexts of this state added when it reports an
      alignment. */
  lemma RunOne(m: Matcher, h: Heap, sub: Subject, orig: Context, st: CursorState, st2: CursorState, found: bool,
               results: seq<Context>)
    requires m.Sequence? && Moves(m, h, sub, orig, st, st2, found)
    ensures Inv(Wild(m.items), Len(sub), st2) && Stored(st2) && st.p <= |st.ctxs|
    ensures Run(m, h, sub, orig, st, results) ==
            Run(m, h, sub, orig, st2, results + if found then SearchState.Current(orig, st) else [])
  {
    if found {
      RunFound(m, h, sub, orig, st, results);
    } else {
      RunMoves(m, h, sub, orig, st, st2, results);
      assert results + [] == results;
    }
  }

  /** The loops of lines 231-237 follow a trace of states that ends with an
      exhausted cursor: they return what was collected before, then the
      contexts of each alignment the trace reports, in order. */
  lemma RunAlong(m: Matcher, h: Heap, sub: Subject, orig: Context,
                 trace: nat -> CursorState, found: nat -> bool, i: nat, last: nat, results: seq<Context>)
    requires m.Sequence? && i <= last && Inv(Wild(m.items), Len(sub), trace(i)) && Stored(trace(i))
    requires forall k :: i <= k < last ==> Moves(m, h, sub, orig, trace(k), trace(k + 1), found(k))
    requires !trace(last).hasNext
    ensures Run(m, h, sub, orig, trace(i), results) == Ok(results + Collected(orig, trace, found, i, last))
  {
    var run := (k: nat, res: seq<Context>) =>
      if Inv(Wild(m.items), Len(sub), trace(k)) && Stored(trace(k)) then Run(m, h, sub, orig, trace(k), res)
      else Err(TypeError);
    var here := Reported(orig, trace, found);
    forall k, res | i <= k < last
      ensures run(k, res) == run(k + 1, res + here(k))
    {
      RunOne(m, h, sub, orig, trace(k), trace(k + 1), found(k), res);
    }
    if i < last {
      RunOne(m, h, sub, orig, trace(last - 1), trace(last), found(last - 1), []);
    }
    forall res
      ensures run(last, res) == Ok(res)
    {
      RunStops(m, h, sub, orig, trace(last), res);
    }
    GatherAlong(run, here, i, last, results);
  }

  /** The trace from its `i`-th state on is what the calls of
      `match_next` go through, up to the exhausted `last` state. */
  ghost predicate Follows(m: Matcher, h: Heap, sub: Subject, orig: Context,
                          trace: nat -> CursorState, found: nat -> bool, i: nat, last: nat)
    requires m.Sequence?
    decreases last - i
  {
    if i >= last then !trace(i).hasNext
    else Moves(m, h, sub, orig, trace(i), trace(i + 1), found(i)) && Follows(m, h, sub, orig, trace, found, i + 1, last)
  }

  /** Such a trace moves call by call and ends exhausted. */
  lemma {:induction false} FollowsEach(m: Matcher, h: Heap, sub: Subject, orig: Context,
                                       trace: nat -> CursorState, found: nat -> bool, i: nat, last: nat)
    requires m.Sequence? && i <= last && Follows(m, h, sub, orig, trace, found, i, last)
    ensures forall k :: i <= k < last ==> Moves(m, h, sub, orig, trace(k), trace(k + 1), found(k))
    ensures !trace(last).hasNext
    decreases last - i
  {
    if i < last {
      FollowsEach(m, h, sub, orig, trace, found, i + 1, last);
    }
  }

  /** A sequence pattern over a list whose search follows such a trace from
      the fresh cursor returns exactly the contexts collected along it. */
  lemma SequenceAlong(m: Matcher, h: Heap, elems: seq<Value>, orig: Context,
                      trace: nat -> CursorState, found: nat -> bool, last: nat)
    requires m.Sequence? && trace(0) == Start(|m.items|)
    requires Follows(m, h, Items(List, elems), orig, trace, found, 0, last)
    ensures var outs := Collected(orig, trace, found, 0, last);
      Eval(m, h, Coll(List, elems), orig) == Ok(Outcome(orig, outs, Marks(|outs|, m.items == [])))
  {
    var sub := Items(List, elems);
    FollowsEach(m, h, sub, orig, trace, found, 0, last);
    StartInv(Wild(m.items), |elems|);
    RunAlong(m, h, sub, orig, trace, found, 0, last, []);
    var outs := Collected(orig, trace, found, 0, last);
    assert [] + outs == outs;
    SequenceRuns(m, h, Coll(List, elems), orig, sub, outs);
  }
}

=== FILE: sequence_laws.dfy ===
/** What the sequence search computes when no list wildcard is involved:
    a pattern of leaf matchers is matched element by element, and it
    succeeds only when the pattern and the subject have the same length
    (iguala/matchers.py:228-339). */
module SequenceLaws {
  import opened Values
  import opened Contexts
  import opened SearchState
  import opened Matchers

  /** A matcher that never raises and always returns exactly one context. */
  predicate IsLeaf(m: Matcher)
  {
    m.Identity? || m.Literal? || m.Wildcard?
  }

  predicate AllLeaves(items: seq<Matcher>)
  {
    forall q :: 0 <= q < |items| ==> IsLeaf(items[q])
  }

  /** What a leaf matcher leaves of one context: `IdentityMatcher` and
      `LiteralMatcher` (lines 85-96) record whether the subject is the
      value, `WildcardMatcher` (lines 195-207) binds or compares its alias. */
  function LeafEval(m: Matcher, obj: Value, ctx: Context): (r: Context)
    requires IsLeaf(m)
    ensures r.truth == ctx.truth
  {
    match m
    case Identity(v) => Compare(ctx, obj == v).after
    case Literal(v) => Compare(ctx, obj == v).after
    case Wildcard(alias) => Bind(IsAnonymous(m), alias, obj, ctx).after
  }

  /** A leaf matcher over each context in turn. */
  function LeafEach(m: Matcher, obj: Value, cs: seq<Context>): (r: seq<Context>)
    requires IsLeaf(m)
  {
    if cs == [] then [] else [LeafEval(m, obj, cs[0])] + LeafEach(m, obj, cs[1..])
  }

  /** A leaf matcher never raises and returns exactly the context it leaves. */
  lemma LeafEvalIsEval(m: Matcher, h: Heap, obj: Value, ctx: Context)
    requires IsLeaf(m)
    ensures Eval(m, h, obj, ctx) == Ok(Outcome(LeafEval(m, obj, ctx), [LeafEval(m, obj, ctx)], [true]))
  {
  }

  /** `flat([pattern.match_context(subject, c) for c in contexts])` over a
      leaf matcher: one context per context, in order. */
  lemma {:induction false} LeafMatchEach(pat: Matcher, h: Heap, v: Value, cs: seq<Context>)
    requires IsLeaf(pat)
    ensures MatchEach(pat, h, v, cs) == Ok(LeafEach(pat, v, cs))
    decreases |cs|
  {
    if cs != [] {
      LeafMatchEach(pat, h, v, cs[1..]);
      LeafEvalIsEval(pat, h, v, cs[0]);
    }
  }

  /** `[c for c in flat(...) if c.is_match]` for a leaf matcher: the copies
      of `cs` the leaf lets through, in order. */
  function Survivors(m: Matcher, obj: Value, cs: seq<Context>): seq<Context>
    requires IsLeaf(m)
  {
    if cs == [] then []
    else
      var d := LeafEval(m, obj, Copy(cs[0]));
      if d.IsMatch() then [d] + Survivors(m, obj, cs[1..]) else Survivors(m, obj, cs[1..])
  }

  /** `Survivors` is what the search keeps after matching copies. */
  lemma {:induction false} SurvivorsKept(m: Matcher, obj: Value, cs: seq<Context>)
    requires IsLeaf(m)
    ensures Survivors(m, obj, cs) == Successful(LeafEach(m, obj, CopyAll(cs)))
    decreases |cs|
  {
    if cs != [] {
      SurvivorsKept(m, obj, cs[1..]);
      var copies := CopyAll(cs);
      assert copies[0] == Copy(cs[0]);
      assert copies[1..] == CopyAll(cs[1..]);
      var all := LeafEach(m, obj, copies);
      assert all[0] == LeafEval(m, obj, Copy(cs[0]));
      assert all[1..] == LeafEach(m, obj, CopyAll(cs[1..]));
    }
  }

  /** The contexts threaded through the pattern from position `k` on, `cs`
      being those the previous position left: each position matches its
      element with copies of them and keeps the successful ones; running out
      of subject before the pattern ends, or of pattern before the subject
      ends, leaves nothing. */
  function Chain(items: seq<Matcher>, sub: Subject, k: nat, cs: seq<Context>): seq<Context>
    requires AllLeaves(items) && !sub.Unindexable? && k <= |items|
    decreases |items| - k
  {
    if k == |items| then (if k >= Len(sub) then cs else [])
    else if k >= Len(sub) then []
    else
      var next := Survivors(items[k], ElemAt(sub, k).value, cs);
      if next == [] then [] else Chain(items, sub, k + 1, next)
  }

  /** A search that can only turn back: it goes backward, or it is forward
      but has run past one end while the other still has room. */
  predicate Retreating(n: nat, m: nat, st: CursorState)
  {
    !st.forward || (st.p >= n && st.s < m) || (st.p < n && st.s >= m)
  }

  /** After the prelude, a search over leaf patterns that cannot go forward
      stops or turns back one position. */
  lemma MoveRetreats(m: Matcher, h: Heap, sub: Subject, contexts: seq<Context>, st: CursorState)
    requires m.Sequence? && AllLeaves(m.items) && !sub.Unindexable?
    requires Inv(Wild(m.items), Len(sub), st) && Stored(st) && st.hasNext && st.p < |m.items|
    requires !(st.forward && st.s < Len(sub))
    ensures Move(m, h, sub, contexts, st).Ok?
    ensures var st1 := Move(m, h, sub, contexts, st).value;
      st1.hasNext ==> !st1.forward && st1.p < st.p
  {
    if 0 <= st.p && 0 <= st.s {
      assert !m.items[st.p].ListWildcard?;
      if st.s < Len(sub) {
        LeafMatchEach(m.items[st.p], h, ElemAt(sub, st.s).value, contexts);
        assert MatchAt(m.items[st.p], h, sub, st.s, contexts).Ok?;
      }
      assert FixedBackward(m, h, sub, contexts, st) == Ok(Retreat(st));
    }
  }

  /** One step of a retreating search over leaf patterns succeeds, stops the
      search or keeps it backward, and moves the pattern cursor back. */
  lemma StepRetreats(m: Matcher, h: Heap, sub: Subject, orig: Context, st: CursorState)
    requires m.Sequence? && AllLeaves(m.items) && !sub.Unindexable?
    requires Inv(Wild(m.items), Len(sub), st) && Stored(st) && st.hasNext
    requires Retreating(|m.items|, Len(sub), st)
    ensures Matchers.Step(m, h, sub, orig, st).Ok?
    ensures var (st1, found) := Matchers.Step(m, h, sub, orig, st).value;
      !found && (st1.hasNext ==> !st1.forward && st1.p < st.p)
  {
    var contexts := CopyAll(SearchState.Current(orig, st));
    PreludeOk(Wild(m.items), Len(sub), st);
    var st0 := Prelude(|m.items|, Len(sub), st);
    assert Stored(st0);
    MoveRetreats(m, h, sub, contexts, st0);
    var st1 := Move(m, h, sub, contexts, st0).value;
    assert Matchers.Step(m, h, sub, orig, st) == Ok((st1, false));
  }

  /** A retreating search over leaf patterns adds nothing more. */
  lemma {:induction false} RetreatAdds(m: Matcher, h: Heap, sub: Subject, orig: Context, st: CursorState,
                                       results: seq<Context>)
    requires m.Sequence? && AllLeaves(m.items) && !sub.Unindexable?
    requires Inv(Wild(m.items), Len(sub), st) && Stored(st)
    requires !st.hasNext || Retreating(|m.items|, Len(sub), st)
    ensures Run(m, h, sub, orig, st, results) == Ok(results)
    decreases st.p + 1
  {
    if st.hasNext {
      StepRetreats(m, h, sub, orig, st);
      var st1 := Matchers.Step(m, h, sub, orig, st).value.0;
      RankBound(Wild(m.items), Len(sub), st1);
      assert Run(m, h, sub, orig, st, results) == Run(m, h, sub, orig, st1, results);
      if st1.hasNext {
        RetreatAdds(m, h, sub, orig, st1, results);
      }
    }
  }

  /** From a forward position with the cursors level, the search adds the
      chain of the remaining positions. */
  lemma {:induction false} ForwardAdds(m: Matcher, h: Heap, sub: Subject, orig: Context, st: CursorState,
                                       results: seq<Context>)
    requires m.Sequence? && AllLeaves(m.items) && !sub.Unindexable?
    requires Inv(Wild(m.items), Len(sub), st) && Stored(st) && st.hasNext && st.forward
    requires 0 <= st.p && st.s == st.p
    ensures Run(m, h, sub, orig, st, results) ==
            Ok(results + Chain(m.items, sub, st.p, SearchState.Current(orig, st)))
    decreases |m.items| - st.p, 2
  {
    var n := |m.items|;
    var cs := SearchState.Current(orig, st);
    if st.p == n && st.s >= Len(sub) {
      RunFound(m, h, sub, orig, st, results);
      RetreatAdds(m, h, sub, orig, st.(forward := false), results + cs);
    } else if st.p == n || st.s >= Len(sub) {
      RetreatAdds(m, h, sub, orig, st, results);
      assert results + [] == results;
    } else {
      ForwardStep(m, h, sub, orig, st, results);
    }
  }

  /** The step of `ForwardAdds` at a position with an element left. */
  lemma {:induction false} ForwardStep(m: Matcher, h: Heap, sub: Subject, orig: Context, st: CursorState,
                                       results: seq<Context>)
    requires m.Sequence? && AllLeaves(m.items) && !sub.Unindexable?
    requires Inv(Wild(m.items), Len(sub), st) && Stored(st) && st.hasNext && st.forward
    requires 0 <= st.p < |m.items| && st.s == st.p && st.s < Len(sub)
    ensures Run(m, h, sub, orig, st, results) ==
            Ok(results + Chain(m.items, sub, st.p, SearchState.Current(orig, st)))
    decreases |m.items| - st.p, 1
  {
    ForwardMove(m, h, sub, orig, st, results);
    var cs := SearchState.Current(orig, st);
    var found := LeafEach(m.items[st.p], ElemAt(sub, st.p).value, CopyAll(cs));
    var st1 := FixedAfter(st, found);
    if Successful(found) == [] {
      LeafMiss(m.items, sub, orig, st, found);
      RetreatAdds(m, h, sub, orig, st1, results);
      assert results + [] == results;
    } else {
      LeafHit(m.items, sub, orig, st, found);
      ForwardAdds(m, h, sub, orig, st1, results);
    }
  }

  /** A leaf that lets some context through: the search goes on to the
      next position with those contexts, and so does the chain. */
  lemma LeafHit(items: seq<Matcher>, sub: Subject, orig: Context, st: CursorState, found: seq<Context>)
    requires AllLeaves(items) && !sub.Unindexable? && 0 <= st.p < |items| && st.p < Len(sub)
    requires 0 <= st.p < |st.ctxs| && |st.patHasNext| == |st.ctxs|
    requires found == LeafEach(items[st.p], ElemAt(sub, st.p).value, CopyAll(SearchState.Current(orig, st)))
    requires Successful(found) != []
    ensures FixedAfter(st, found) == FixedHit(st, Successful(found))
    ensures Chain(items, sub, st.p, SearchState.Current(orig, st)) ==
            Chain(items, sub, st.p + 1, SearchState.Current(orig, FixedHit(st, Successful(found))))
  {
    ChainStep(items, sub, st.p, SearchState.Current(orig, st));
    HitState(orig, st, found);
  }

  /** On a hit, the next position starts from the contexts kept. */
  lemma HitState(orig: Context, st: CursorState, found: seq<Context>)
    requires 0 <= st.p < |st.ctxs| && |st.patHasNext| == |st.ctxs|
    requires Successful(found) != []
    ensures FixedAfter(st, found) == FixedHit(st, Successful(found))
    ensures SearchState.Current(orig, FixedHit(st, Successful(found))) == Successful(found)
  {
    AnyMatchIffKept(found);
  }

  /** A leaf that lets nothing through: the search turns back and the
      chain is empty. */
  lemma LeafMiss(items: seq<Matcher>, sub: Subject, orig: Context, st: CursorState, found: seq<Context>)
    requires AllLeaves(items) && !sub.Unindexable? && 0 <= st.p < |items| && st.p < Len(sub)
    requires 0 <= st.p < |st.ctxs| && |st.patHasNext| == |st.ctxs|
    requires found == LeafEach(items[st.p], ElemAt(sub, st.p).value, CopyAll(SearchState.Current(orig, st)))
    requires Successful(found) == []
    ensures FixedAfter(st, found) == FixedMiss(st)
    ensures Chain(items, sub, st.p, SearchState.Current(orig, st)) == []
  {
    ChainStep(items, sub, st.p, SearchState.Current(orig, st));
    AnyMatchIffKept(found);
  }

  /** One position of the chain: what the leaf lets through goes on. */
  lemma ChainStep(items: seq<Matcher>, sub: Subject, k: nat, cs: seq<Context>)
    requires AllLeaves(items) && !sub.Unindexable? && k < |items| && k < Len(sub)
    ensures Successful(LeafEach(items[k], ElemAt(sub, k).value, CopyAll(cs))) == [] ==>
              Chain(items, sub, k, cs) == []
    ensures Successful(LeafEach(items[k], ElemAt(sub, k).value, CopyAll(cs))) != [] ==>
              Chain(items, sub, k, cs) == Chain(items, sub, k + 1, Successful(LeafEach(items[k], ElemAt(sub, k).value, CopyAll(cs))))
  {
    SurvivorsKept(items[k], ElemAt(sub, k).value, cs);
  }

  /** One forward step at a leaf: the search moves on to the state the
      leaf's contexts decide. */
  lemma ForwardMove(m: Matcher, h: Heap, sub: Subject, orig: Context, st: CursorState, results: seq<Context>)
    requires m.Sequence? && AllLeaves(m.items) && !sub.Unindexable?
    requires Inv(Wild(m.items), Len(sub), st) && Stored(st) && st.hasNext && st.forward
    requires 0 <= st.p < |m.items| && st.s == st.p && st.s < Len(sub)
    ensures var cs := SearchState.Current(orig, st);
      var found := LeafEach(m.items[st.p], ElemAt(sub, st.p).value, CopyAll(cs));
      var st1 := FixedAfter(st, found);
      Inv(Wild(m.items), Len(sub), st1) && Stored(st1) && st1.p <= |m.items| &&
      Rank(Wild(m.items), Len(sub), st) < Rank(Wild(m.items), Len(sub), st1) &&
      Run(m, h, sub, orig, st, results) == Run(m, h, sub, orig, st1, results)
  {
    var cs := SearchState.Current(orig, st);
    var v := ElemAt(sub, st.p).value;
    LeafMatchEach(m.items[st.p], h, v, CopyAll(cs));
    var found := MatchEach(m.items[st.p], h, v, CopyAll(cs)).value;
    assert MatchAt(m.items[st.p], h, sub, st.s, CopyAll(cs)) == Ok(found);
    var st1 := FixedAfter(st, found);
    assert FixedForward(m, h, sub, CopyAll(cs), st) == Ok(st1);
    assert FixedStep(m, h, sub, CopyAll(cs), st) == Ok(st1);
    assert Move(m, h, sub, CopyAll(cs), st) == Ok(st1);
    assert Matchers.Step(m, h, sub, orig, st) == Ok((st1, false));
    RankBound(Wild(m.items), Len(sub), st1);
  }

  /** `SequenceMatcher.match_context` for a pattern of leaf matchers: the
      handed context threaded through the positions. */
  lemma LeafSequence(items: seq<Matcher>, h: Heap, obj: Value, ctx: Context)
    requires AllLeaves(items) && SubjectOf(h, obj).Ok? && !SubjectOf(h, obj).value.Unindexable?
    ensures MatchSequence(Sequence(items), h, obj, ctx) ==
            Ok(Outcome(ctx, Chain(items, SubjectOf(h, obj).value, 0, [ctx]),
                       Marks(|Chain(items, SubjectOf(h, obj).value, 0, [ctx])|, items == [])))
  {
    var sub := SubjectOf(h, obj).value;
    StartInv(Wild(items), Len(sub));
    ForwardAdds(Sequence(items), h, sub, ctx, Start(|items|), []);
    assert [] + Chain(items, sub, 0, [ctx]) == Chain(items, sub, 0, [ctx]);
  }

  /** The chain is empty unless pattern and subject have the same length. */
  lemma {:induction false} ChainNeedsLength(items: seq<Matcher>, sub: Subject, k: nat, cs: seq<Context>)
    requires AllLeaves(items) && !sub.Unindexable? && k <= |items| && k <= Len(sub)
    requires Chain(items, sub, k, cs) != []
    ensures |items| == Len(sub)
    decreases |items| - k
  {
    if k < |items| && k < Len(sub) {
      ChainNeedsLength(items, sub, k + 1, Survivors(items[k], ElemAt(sub, k).value, cs));
    }
  }

  predicate AllLiterals(items: seq<Matcher>)
  {
    forall q :: 0 <= q < |items| ==> items[q].Literal?
  }

  /** A literal lets through a copy of every context of polarity `True`
      when it equals the element, and nothing otherwise; the copies are
      successful, of polarity `True`, and equal to the contexts when those
      already succeeded. */
  lemma {:induction false} LiteralSurvivors(v: Value, e: Value, cs: seq<Context>)
    requires forall i :: 0 <= i < |cs| ==> cs[i].truth
    ensures var r := Survivors(Literal(v), e, cs);
      (e == v ==> |r| == |cs| && forall i :: 0 <= i < |r| ==> r[i].truth && r[i].IsMatch()) &&
      (e == v && (forall i :: 0 <= i < |cs| ==> cs[i].IsMatch()) ==> r == cs) &&
      (e != v ==> r == [])
    decreases |cs|
  {
    if cs != [] {
      LiteralSurvivors(v, e, cs[1..]);
      if e == v {
        assert LeafEval(Literal(v), e, Copy(cs[0])) == Copy(cs[0]);
        if forall i :: 0 <= i < |cs| ==> cs[i].IsMatch() {
          assert [cs[0]] + cs[1..] == cs;
        }
      }
    }
  }

  /** One position of the chain over a literal: the contexts go on when the
      element equals the literal's value, and none do otherwise. */
  lemma LiteralStep(items: seq<Matcher>, sub: Subject, k: nat, cs: seq<Context>)
    returns (next: seq<Context>)
    requires AllLiterals(items) && !sub.Unindexable? && k < |items| && k < Len(sub)
    requires cs != [] && forall i :: 0 <= i < |cs| ==> cs[i].truth
    ensures Chain(items, sub, k, cs) == (if next == [] then [] else Chain(items, sub, k + 1, next))
    ensures ElemAt(sub, k) == Ok(items[k].value) ==>
              next != [] && forall i :: 0 <= i < |next| ==> next[i].truth && next[i].IsMatch()
    ensures ElemAt(sub, k) != Ok(items[k].value) ==> next == []
  {
    next := Survivors(items[k], ElemAt(sub, k).value, cs);
    LiteralSurvivors(items[k].value, ElemAt(sub, k).value, cs);
  }

  /** The subject holds the literals' values from position `k` on. */
  predicate ValuesFrom(items: seq<Matcher>, sub: Subject, k: nat)
    decreases |items| - k
  {
    k >= |items| ||
    (k < Len(sub) && items[k].Literal? && ElemAt(sub, k) == Ok(items[k].value) && ValuesFrom(items, sub, k + 1))
  }

  lemma {:induction false} ValuesFromAll(items: seq<Matcher>, sub: Subject, k: nat)
    requires AllLiterals(items) && !sub.Unindexable? && k <= |items| <= Len(sub)
    ensures ValuesFrom(items, sub, k) <==> forall j :: k <= j < |items| ==> ElemAt(sub, j) == Ok(items[j].value)
    decreases |items| - k
  {
    if k < |items| {
      ValuesFromAll(items, sub, k + 1);
    }
  }

  /** Over a subject holding the literals' values, the chain hands back the
      successful contexts it is given. */
  lemma {:induction false} LiteralChainKeeps(items: seq<Matcher>, sub: Subject, k: nat, cs: seq<Context>)
    requires AllLiterals(items) && !sub.Unindexable? && k <= |items| == Len(sub)
    requires forall i :: 0 <= i < |cs| ==> cs[i].truth && cs[i].IsMatch()
    requires ValuesFrom(items, sub, k)
    ensures Chain(items, sub, k, cs) == cs
    decreases |items| - k
  {
    if k < |items| {
      assert items[k] == Literal(items[k].value) && ElemAt(sub, k) == Ok(items[k].value);
      LiteralSurvivors(items[k].value, ElemAt(sub, k).value, cs);
      if cs != [] {
        LiteralChainKeeps(items, sub, k + 1, cs);
      }
    }
  }

  /** A chain over literals that stays alive has met the literals' values. */
  lemma {:induction false} LiteralChainValues(items: seq<Matcher>, sub: Subject, k: nat, cs: seq<Context>)
    requires AllLiterals(items) && !sub.Unindexable? && k <= |items| && k <= Len(sub)
    requires cs != [] && forall i :: 0 <= i < |cs| ==> cs[i].truth
    requires Chain(items, sub, k, cs) != []
    ensures ValuesFrom(items, sub, k)
    decreases |items| - k
  {
    if k < |items| && k < Len(sub) {
      var next := LiteralStep(items, sub, k, cs);
      LiteralChainValues(items, sub, k + 1, next);
    }
  }

  /** A sequence of literals matches a list, tuple or string with a fresh
      context exactly when it has the same length and equal elements
      (iguala/matchers.py:228-339). */
  lemma LiteralSequence(items: seq<Matcher>, h: Heap, obj: Value, ctx: Context)
    requires AllLiterals(items) && SubjectOf(h, obj).Ok? && !SubjectOf(h, obj).value.Unindexable?
    requires ctx.truth
    ensures var sub := SubjectOf(h, obj).value;
      MatchSequence(Sequence(items), h, obj, ctx).Ok? &&
      (MatchSequence(Sequence(items), h, obj, ctx).value.outs != [] <==>
         |items| == Len(sub) && forall j :: 0 <= j < |items| ==> ElemAt(sub, j) == Ok(items[j].value))
  {
    LeafSequence(items, h, obj, ctx);
    var sub := SubjectOf(h, obj).value;
    if Chain(items, sub, 0, [ctx]) != [] {
      LiteralChainMatches(items, sub, ctx);
    }
    if |items| == Len(sub) {
      ValuesFromAll(items, sub, 0);
      if ValuesFrom(items, sub, 0) {
        LiteralMatchesChain(items, sub, ctx);
      }
    }
  }

  /** A surviving chain from one context met a subject of the pattern's
      length holding its values. */
  lemma LiteralChainMatches(items: seq<Matcher>, sub: Subject, ctx: Context)
    requires AllLiterals(items) && !sub.Unindexable? && ctx.truth
    requires Chain(items, sub, 0, [ctx]) != []
    ensures |items| == Len(sub) && ValuesFrom(items, sub, 0)
  {
    ChainNeedsLength(items, sub, 0, [ctx]);
    LiteralChainValues(items, sub, 0, [ctx]);
  }

  /** A subject of the pattern's length holding its values keeps the chain
      from one context alive. */
  lemma LiteralMatchesChain(items: seq<Matcher>, sub: Subject, ctx: Context)
    requires AllLiterals(items) && !sub.Unindexable? && ctx.truth
    requires |items| == Len(sub) && ValuesFrom(items, sub, 0)
    ensures Chain(items, sub, 0, [ctx]) != []
  {
    if |items| > 0 {
      var next := LiteralStep(items, sub, 0, [ctx]);
      LiteralChainKeeps(items, sub, 1, next);
    }
  }
}

=== FILE: values.dfy ===
/** Subject values: the Python objects a pattern is matched against.

    Immutable atoms (None, int, bool, str) and the three collection kinds that
    `flat` unrolls (list, tuple, set) are plain values.  Objects and dicts are
    mutable and have an identity, so they live in a finite heap and a value
    refers to them by address.  Two values are the same object (`is`) exactly
    when they are equal as Dafny values: a reference is compared by address,
    an atom by its contents (the way CPython shares small ints, bools, None
    and literal strings). */
module Values {

  datatype Option<T> = None | Some(value: T)

  datatype Result<T> = Ok(value: T) | Err(error: Error) {
    predicate IsFailure() { Err? }
    function PropagateFailure<U>(): Result<U>
      requires Err?
    {
      Err(error)
    }
    function Extract(): T
      requires Ok?
    {
      value
    }
  }

  /** The Python exceptions the modelled code lets escape. */
  datatype Error =
    | AttributeError  // a method that does not exist is called
    | TypeError       // len() or indexing on a subject that is not a sequence
    | IndexError      // `s[-1]` on an empty path string
    | KeyError        // an integer index or a slice into a dict

  datatype CollKind = List | Tuple | Set

  datatype Value =
    | Nil                                    // None
    | Int(i: int)
    | Bool(b: bool)
    | Str(s: string)
    | Coll(kind: CollKind, items: seq<Value>) // list, tuple or set (sets in iteration order)
    | Ref(id: nat)                           // an object or a dict in the heap

  /** How an object exposes its fields: `vars()` (an instance with a
      `__dict__`), `__slots__` only, or `items()` (a dict). */
  datatype ObjKind = Plain | Slotted | Mapping

  /** A heap cell: its class, the classes it inherits from, and its fields
      (attributes, slots or dict entries) in insertion order. */
  datatype HeapObj = HeapObj(cls: string, bases: seq<string>, kind: ObjKind, fields: seq<(string, Value)>)

  type Heap = map<nat, HeapObj>

  /** `obj.__class__.__name__` in the model: the built-in class of an atom
      or a collection, and the class a heap cell records for an object (a
      dangling reference, which no pattern builds, is a plain `object`). */
  function ClassOf(h: Heap, v: Value): (c: string)
    ensures v.Bool? ==> c == "bool"
    ensures v.Ref? && v.id in h ==> c == h[v.id].cls
  {
    match v
    case Nil => "NoneType"
    case Int(_) => "int"
    case Bool(_) => "bool"
    case Str(_) => "str"
    case Coll(k, _) => (match k case List => "list" case Tuple => "tuple" case Set => "set")
    case Ref(id) => if id in h then h[id].cls else "object"
  }

  /** The classes `v` is an instance of besides its own (`isinstance`). */
  function BasesOf(h: Heap, v: Value): seq<string>
  {
    match v
    case Bool(_) => ["int", "object"]
    case Ref(id) => if id in h then h[id].bases else []
    case _ => ["object"]
  }

  /** `isinstance(v, cls)`: the class itself or one of its bases. */
  function IsInstance(h: Heap, v: Value, cls: string): (r: bool)
    // every value is an instance of its own class
    ensures ClassOf(h, v) == cls ==> r
    // a bool is also an int, and every atom and collection an object
    ensures v.Bool? ==> (r <==> cls == "bool" || cls == "int" || cls == "object")
    ensures !v.Bool? && !v.Ref? ==> (r <==> cls == ClassOf(h, v) || cls == "object")
    // an object is an instance of the bases its heap cell lists
    ensures v.Ref? && v.id in h ==> (r <==> cls == h[v.id].cls || cls in h[v.id].bases)
  {
    ClassOf(h, v) == cls || cls in BasesOf(h, v)
  }

  /** The value stored under `name`, the first one if the name repeats. */
  function Lookup(fields: seq<(string, Value)>, name: string): (r: Option<Value>)
    ensures r.Some? <==> exists i :: 0 <= i < |fields| && fields[i].0 == name
    // the value is the one stored under the first field carrying the name
    ensures r.Some? ==>
              exists i :: 0 <= i < |fields| && fields[i] == (name, r.value) && forall j :: 0 <= j < i ==> fields[j].0 != name
  {
    if fields == [] then None
    else if fields[0].0 == name then Some(fields[0].1)
    else Lookup(fields[1..], name)
  }

  /** The heap cell a value refers to, if it is a reference into the heap. */
  function Deref(h: Heap, v: Value): Option<HeapObj>
  {
    if v.Ref? && v.id in h then Some(h[v.id]) else None
  }
}
